=== FILE: README.md ===
# A verified model of the security core of a medical-records web application

The application is an Express server with an Angular client. Doctors, nurses, patients and
admins sign in with a password followed by an emailed one-time code. They see and change
patients, appointments, diagnoses, medications and medication-tracking rows, within what their
role and their assignments allow. Around the controllers sit the middleware and utilities this
model also covers:

- bearer-token authentication and role checks;
- CSRF tokens and account lockout;
- input sanitizing and request-size limits;
- the audit logger and the pattern-based security tests;
- field encryption (an envelope around AES-256-GCM);
- the CORS, HTTPS and error policy of the app.

The model is functional. The database is one immutable `Schema.Store`: a map per table keyed
by row id, and one `nextId` counter from which every new row takes its id. Its invariant
`Schema.Wf` says that every key is below `nextId`. Every handler is a pure function from a
store, a request and the current time to a new store and a reply. A reply is
`Ok(status, value)` or `Fail(status, message)`, with the same statuses and messages the
handlers send. A middleware answers `Next` or `Reject(status, message)`.

Collaborators whose behaviour the code only relies on are passed in as records of functions,
with laws stated as predicates where a proof needs them:

- bcrypt (`Passwords.Hasher`);
- JSON web tokens (`Tokens.Jwt`);
- AES-GCM, PBKDF2, UTF-8 and Node's base64 reader (`Encryption.Crypto`);
- the CSRF library (`Csrf.Lib`);
- TOTP (`TwoFactor.Totp`);
- validator.js `escape`/`isEmail`/`normalizeEmail` (`Sanitizer.Validator`).

Random draws (codes, keys, IVs, salts) and the clock are parameters. JavaScript string
functions (`trim`, `toLowerCase`, `split`, `parseInt`, `includes`) are modelled in the `Js`
module. Base64 is written out concretely (RFC 4648 section 4), and its round trip is proved.

Files follow the program: `schema.dfy` holds the rows, the store and the password and token
oracles. There is one file per controller (`auth_protocol`, `two_factor`, `user_controller`,
`admin`, `appointments`, `diagnoses`, `medications`, `tracking`, `patients`). There is one file
per middleware (`auth_middleware`, `csrf`, `lockout`, `sanitizer`, `audit`, `request_gate`),
plus the model hooks (`patient_model`, `medication_model`, `tracking_model`, with the shared
`fields`), `encryption`, `base64`, `security_test`, `app_policy`, and the two client files
(`client_auth`, `role_guard`). `common.dfy` holds `Option`, the reply types and `Js`;
`listing.dfy` holds the deterministic table scans that stand in for `findOne`/`findAll`.

## Model

| member | source | states |
|---|---|---|
| `Passwords.Matches` | server/src/controllers/authController.ts:158-166 | a stored password that starts with `$2` is compared with bcrypt; any other stored value must equal the typed password exactly (the legacy plain-text path) |
| `Passwords.HashedMatches` | server/src/controllers/authController.ts:57-58 | a password hashed at cost 12 is accepted by `Matches` and its hash starts with `$2`, under the bcrypt law |
| `Tokens.SecondsTruncateLifetime` | server/src/utils/jwt.ts:9-30 | with the default lifetimes, an access token issued at 1999 ms is refused at 901000 ms, less than fifteen minutes later, because issue time and clock are truncated to whole seconds |
| `Schema.UserByEmail` | server/src/controllers/authController.ts:41-45 | the lookup finds a user whose email is exactly the address; when it finds none, no user of a well-formed store has that email |
| `Schema.UserWhere` | server/src/controllers/authController.ts:41-54 | the lookup by one column (email or username) finds a user holding exactly that value in it; when it finds none, no user of a well-formed store holds it |
| `Schema.PatientsOfDoctor` | server/src/controllers/patientController.ts:58 | lists exactly the patients assigned to the doctor |
| `Schema.PatientsOfNurse` | server/src/controllers/patientController.ts:71 | lists exactly the patients assigned to the nurse |
| `AuthProtocol.IssueSession` | server/src/controllers/authController.ts:104-118 | issuing a session returns the public user with a fresh access and refresh token; the refresh token is stored for this user with a seven-day expiry; nothing else changes |
| `AuthProtocol.Signup` | server/src/controllers/authController.ts:16-38 | any role but patient gets 403 and the store is unchanged; an email that fails validation gets 400; otherwise sign-up runs on the normalised email, the sanitized username and a cost-12 hash |
| `AuthProtocol.SignupAs` | server/src/controllers/authController.ts:40-118 | a taken email gives 409 "Email already in use", checked before the username, and a taken username 409 "Username already in use"; success exactly when both are free, so the 409 for an existing patient row under the new id is never given; it adds one user and one patient row under the same fresh id and answers 201 with both tokens; a failure leaves the store unchanged |
| `AuthProtocol.SignupStoresPlainName` | server/src/controllers/authController.ts:75-82 | as written, the patient row that sign-up stores carries the name exactly as typed: not encrypted, not escaped |
| `AuthProtocol.SignupSealedAs` | server/src/controllers/authController.ts:60-102 | the sign-up transaction with the patient row written through the patient model's create hook: success needs free email and username and a successful hook, and stores the hook's row; any failure rolls back the whole store |
| `AuthProtocol.SignupSealedReadsBack` | server/src/models/Patient.ts:67-115 | whenever the corrected sign-up succeeds, the stored name is an envelope, and reading the row back through the model gives the row as typed (name, age 0, condition 'N/A') |
| `AuthProtocol.Login` | server/src/controllers/authController.ts:135-211 | with `e` the typed address trimmed and lower-cased: failure exactly when no user has address `e` or the password does not match, and then 401 with a failure recorded under `e`; otherwise a code is stored for that user under `e` and the challenge names `e`, the lockout table untouched |
| `AuthProtocol.LoginSpellings` | server/src/controllers/authController.ts:144-151 | two spellings with one normal form log in alike, and the normal form itself logs in as the typed spelling does |
| `AuthProtocol.LoginReachesStoredUser` | server/src/controllers/authController.ts:144-151 | a typed address whose trimmed, lower-cased form is the stored address of exactly one user, with that user's password, reaches that user: a code is stored for them and the challenge names the stored address |
| `AuthProtocol.PaddedUpperCaseSpelling` | server/src/controllers/authController.ts:144 | " Ann@Example.ORG " normalises to "ann@example.org" |
| `AuthProtocol.LoginAs` | server/src/controllers/authController.ts:153-211 | fails exactly when the email is unknown or the password does not match; a failure records a failed attempt, gives 401 "Invalid credentials" and leaves the store alone; a success leaves the lockout table alone, retires the user's unused codes, stores one new code and issues no token |
| `AuthProtocol.LoginRoute` | server/src/routes/authRoutes.ts:11 | the lockout check runs first, on the address as typed: a locked address gets 429 and neither the store nor the table changes; then an address the validator refuses gets 400; otherwise login runs on the validator's rewrite of the address, with the table the check left |
| `AuthProtocol.ValidatedEmail` | server/src/validators/authValidators.ts:28-33 | the login chain hands on an address exactly when the trimmed input is an email, and then hands on the `normalizeEmail` rewrite of it |
| `AuthProtocol.LoginRecordsRewrittenKey` | server/src/controllers/authController.ts:144-169 | a failed login on the route records the failure under the key of the validator's rewrite, whatever the address as typed |
| `AuthProtocol.LoginRun` | server/src/routes/authRoutes.ts:11 | one reply per attempt, the store kept well formed, with each attempt seeing the store and lockout table the previous one left |
| `AuthProtocol.AliasStep` | server/src/middleware/accountLockout.ts:17-40 | an attempt whose typed address has no entry is not answered 429, and it creates no entry for an address whose key differs from that of the rewrite |
| `AuthProtocol.AliasesNeverLocked` | server/src/middleware/accountLockout.ts:21-28 | as written, any number of failed attempts under typed aliases that have no entries and none of which is the key of a rewrite is never answered 429 |
| `AuthProtocol.LoginRouteKeyed` | server/src/routes/authRoutes.ts:11 | the corrected route: an address the validator refuses gets 400 and changes nothing; otherwise the lockout check and login both run on the rewrite |
| `AuthProtocol.KeyedLockStopsAliases` | server/src/middleware/accountLockout.ts:17-30 | on the corrected route, a locked entry for the rewrite answers 429 to every typed alias of it and changes nothing |
| `AuthProtocol.KeyedFailureCounts` | server/src/middleware/accountLockout.ts:43-68 | on the corrected route, a failure is recorded in exactly the entry the check reads for every alias with the same rewrite |
| `AuthProtocol.LoginFailuresAlike` | server/src/controllers/authController.ts:153-171 | an unknown email and a wrong password give the same reply and the same store, and each records a failure under its own address |
| `AuthProtocol.LoginCodeShape` | server/src/controllers/authController.ts:173-192 | the stored login code belongs to the user and the email, is unused, has six digits that parse back to the drawn number, and expires ten minutes later |
| `AuthProtocol.LoginLeavesOneLiveCode` | server/src/controllers/authController.ts:178-192 | after a successful login, the only unused login code of the user is the new one |
| `AuthProtocol.FindLoginOtp` | server/src/controllers/authController.ts:236-247 | a code found belongs to the user, was sent to this email, has this value, is unused and has not expired; none found means no such code exists |
| `AuthProtocol.VerifyLoginOtp` | server/src/controllers/authController.ts:214-274 | with `e` the normalised address and the trimmed code: no user at `e` is a plain 401 with nothing recorded; success exactly when that user has a live matching code for `e`, and then the lockout entry of `e` is cleared and a session is returned; a user's wrong code records a failure under `e` |
| `AuthProtocol.VerifyLoginOtpSpellings` | server/src/controllers/authController.ts:219-223 | two spellings of one address, and codes differing only in surrounding blanks, verify alike, and the normal form verifies as the typed spelling does |
| `AuthProtocol.VerifyCodeAs` | server/src/controllers/authController.ts:225-274 | an unknown email gives a plain 401; success exactly when a live matching code exists; then the code is marked used, the lockout entry is cleared and a session is issued; a failed code records a failure and leaves the store alone |
| `AuthProtocol.NoLiveCodeRefused` | server/src/controllers/authController.ts:236-252 | a user none of whose login codes is unused cannot complete a login |
| `AuthProtocol.OtpSingleUse` | server/src/controllers/authController.ts:249-255 | a code that verified as the user's only live code is refused when presented again, at any later time |
| `AuthProtocol.UsingLastCode` | server/src/controllers/authController.ts:254-255 | marking the only live code used leaves the user no unused login code |
| `AuthProtocol.Refresh` | server/src/controllers/authController.ts:277-299 | a missing token gives 400; success returns only a new access token for the token's subject; it needs a verified refresh token of an existing user that is on record, unless the table cannot be read; on a readable table those conditions suffice |
| `AuthProtocol.Logout` | server/src/controllers/authController.ts:301-306 | a missing token gives 400; otherwise every refresh record holding the token is deleted and nothing else changes |
| `AuthProtocol.LogoutRevokes` | server/src/controllers/authController.ts:282-291 | after logout the same refresh token no longer refreshes (on a readable table) |
| `AuthProtocol.SessionRefreshes` | server/src/controllers/authController.ts:260-274 | the refresh token a successful code verification returns refreshes while it is live, its lifetime counted in whole seconds, under the token law |
| `AuthProtocol.IssuedSessionRefreshes` | server/src/controllers/authController.ts:282-295 | a freshly issued and stored refresh token verifies and refreshes until it expires |
| `AuthProtocol.ForgotPassword` | server/src/controllers/authController.ts:318-366 | the same 200 notice for every address; an address whose normal form is no user's changes nothing; otherwise a code valid for 15 minutes is stored for that user under the next id and only the reset codes and the counter change |
| `AuthProtocol.ForgotPasswordSpellings` | server/src/controllers/authController.ts:323 | two spellings of one address get the same answer and the same stored code, as does the normal form |
| `AuthProtocol.ForgotPasswordAs` | server/src/controllers/authController.ts:325-366 | the reply is always the same 200 notice; an unknown email changes nothing; for a user, the unused reset codes are retired and one new code valid for 15 minutes is stored |
| `AuthProtocol.FindResetToken` | server/src/controllers/authController.ts:395-403 | the code found is an unused code of the user with this value, and no newer one matches (id DESC); none found means none matches |
| `AuthProtocol.ResetPassword` | server/src/controllers/authController.ts:372-436 | an address whose normal form is no user's is 404; success exactly when that user has an unused code equal to the trimmed code that has not expired, and then the user's password column, and no other user's, becomes the cost-12 hash of the new password |
| `AuthProtocol.ResetPasswordSpellings` | server/src/controllers/authController.ts:378-382 | two spellings of one address, and codes differing only in surrounding blanks, reset alike, as does the normal form |
| `AuthProtocol.ResetPasswordAs` | server/src/controllers/authController.ts:384-436 | unknown user 404; no matching code 400; an expired code is retired and refused with 400; otherwise the new hash is stored, the code retired and every refresh token of the user deleted |
| `AuthProtocol.ResetRevokesSessions` | server/src/controllers/authController.ts:431-432 | after a successful reset, no refresh token of the user refreshes any more |
| `AuthProtocol.ResetThenPasswordMatches` | server/src/controllers/authController.ts:418-423 | after a successful reset, the new password matches the stored hash, under the bcrypt law |
| `Lockout.Check` | server/src/middleware/accountLockout.ts:17-41 | on a parsed body: rejects with 429 exactly when the address has a lock still in force, and leaves the table alone then; without an email it passes untouched; otherwise an expired lock or an elapsed window is dropped |
| `Lockout.CheckRequest` | server/src/middleware/accountLockout.ts:17-19 | a request whose body the parser never set throws on the destructuring and is answered 500 with the table unchanged; a parsed body without an email passes untouched; a refusal is a 429 for a locked address; the table changes at most by dropping that address's entry |
| `Lockout.RemainingMinutes` | server/src/middleware/accountLockout.ts:27 | the minutes reported are the remaining time rounded up: `(m-1)` minutes are less than what remains, `m` minutes are not |
| `Lockout.LockedMinutesBounded` | server/src/middleware/accountLockout.ts:26-29 | a locked address is told between 1 and 15 minutes |
| `Lockout.Record` | server/src/middleware/accountLockout.ts:43-68 | recording a failure creates or updates the entry of that address only |
| `Lockout.RecordWhileLocked` | server/src/middleware/accountLockout.ts:53-57 | a failure during a lock changes nothing: the lock keeps its expiry |
| `Lockout.RecordFreshWindow` | server/src/middleware/accountLockout.ts:49-51 | the first failure, or one after the 15-minute window, starts a new window with count 1 |
| `Lockout.FiveFailuresLock` | server/src/middleware/accountLockout.ts:59-65 | five failures within one window lock the address for 15 minutes from the fifth, with the count reset |
| `Lockout.Clear` | server/src/middleware/accountLockout.ts:70-74 | clearing removes the entry of that address only |
| `Lockout.Sweep` | server/src/middleware/accountLockout.ts:77-84 | the periodic sweep drops exactly the entries whose lock has expired or whose window has elapsed |
| `Lockout.SweepKeepsLocked` | server/src/middleware/accountLockout.ts:80 | the sweep never drops an entry whose lock is in force |
| `Lockout.OperationsPreserveValid` | server/src/middleware/accountLockout.ts:43-84 | check, record, clear and sweep keep every entry's lock within 15 minutes of now and its window start in the past |
| `Lockout.ValidLater` | server/src/middleware/accountLockout.ts:15 | that bound still holds at any later time |
| `Lockout.KeyIgnoresCaseAndPadding` | server/src/middleware/accountLockout.ts:21-22 | the table key of an address ignores case and surrounding whitespace |
| `Lockout.Key` | server/src/middleware/accountLockout.ts:21-22 | the table key is `email:` followed by the trimmed, lower-cased address |
| `UserController.NurseNumber` | server/src/controllers/userController.ts:36 | a numeric nurse id is taken as is; a textual one is read with `parseInt` |
| `UserController.AssignNurse` | server/src/controllers/userController.ts:8-48 | a caller who is not a doctor gets 403; an unknown patient 404; a patient of another doctor 403; an empty, null or 'null' nurse clears the assignment; otherwise success exactly when the id names a nurse, and only the patient's nurse changes; the reply is the found row decrypted by the read hook, with the new nurse; every failure leaves the store alone |
| `UserController.AssignNurseOnlyOwnPatients` | server/src/controllers/userController.ts:24-27 | a doctor cannot touch a patient assigned to another doctor: 403 and no change |
| `UserController.AssignNurseToDoctor` | server/src/controllers/userController.ts:50-70 | no caller 401; not a doctor 403; an id that is not a nurse 400; a doctor no longer on record 404; success exactly for a doctor still on record and a real nurse, and then only the doctor's row changes, gaining the nurse; the reply carries the message and that updated row with every column, its password hash and 2FA secret included |
| `UserController.ChangePassword` | server/src/controllers/userController.ts:72-106 | no caller 401; a caller no longer on record 404; a wrong current password 401; success exactly when the current password matches, and then only the caller's password changes, to a cost-12 hash of the new one |
| `UserController.ChangedPasswordIsHashed` | server/src/controllers/userController.ts:100-103 | after a change the stored password is a bcrypt hash (starts with `$2`) that the new password matches |
| `TwoFactor.Generate` | server/src/controllers/twoFactorController.ts:10-46 | no caller 401; a caller no longer on record 404; otherwise success, the new secret is returned and stored with 2FA switched off, and nothing else changes |
| `TwoFactor.GenerateResetsEnrolment` | server/src/controllers/twoFactorController.ts:28-32 | generating a secret for an enrolled user stores the new secret and turns 2FA off until it is confirmed again |
| `TwoFactor.Confirm` | server/src/controllers/twoFactorController.ts:51-94 | no caller 401; no token 400; no stored secret 400; success exactly when the TOTP code verifies against the stored secret, and then only the enabled flag turns on |
| `TwoFactor.Disable` | server/src/controllers/twoFactorController.ts:99-125 | success exactly for a signed-in caller on record; then the secret is cleared and 2FA is off |
| `TwoFactor.LoginCheck` | server/src/controllers/twoFactorController.ts:130-166 | missing email or token gives 400; success exactly when the lower-cased, trimmed email names a user with 2FA on and a secret, and the code verifies |
| `TwoFactor.DisabledRefusesLogin` | server/src/controllers/twoFactorController.ts:111-115 | after disabling, the 2FA login check refuses the user whatever the code |
| `TwoFactor.CodeAccepted` | server/src/controllers/twoFactorController.ts:70-75 | under the TOTP law, a code generated for the secret is accepted up to two 30-second steps either way |
| `TwoFactor.EnrolmentTurnsOn` | server/src/controllers/twoFactorController.ts:29-84 | generating a secret and confirming a current code for it leaves the user enrolled with exactly that secret |
| `TwoFactor.RewriteTwice` | server/src/controllers/twoFactorController.ts:29-32 | a second write of the 2FA columns replaces the first |
| `TwoFactor.EnrolledLoginAccepted` | server/src/controllers/twoFactorController.ts:138-161 | an enrolled user passes the 2FA login check with a code generated within the window |
| `AdminController.ListUsers` | server/src/controllers/adminController.ts:14-18 | non-admins get 403; an admin gets every user, each with every column except the password (the 2FA secret included) |
| `AdminController.CreateUser` | server/src/controllers/adminController.ts:20-45 | non-admins get 403; a taken email 409; success exactly for a free email and username whose patient row, for the patient role, the model hook accepts; then 201 with the new user, one user row and (for a patient) one patient row under the fresh id; as written, a failing patient hook answers 500 and keeps the user row |
| `AdminController.KeylessCreateOrphansUser` | server/src/controllers/adminController.ts:38-42 | as written, creating a patient on a production server without an encryption key answers 500 yet keeps a patient-role user with no patient row |
| `AdminController.KeylessProfileFails` | server/src/models/Patient.ts:67-71 | without a key in production, the patient create hook fails for any non-empty name not already an envelope |
| `AdminController.CreateUserAtomic` | server/src/controllers/adminController.ts:38-44 | the corrected creation: the same reply as `CreateUser`, but any failure leaves the store unchanged |
| `AdminController.CreateUserAtomicKeepsProfiles` | server/src/controllers/adminController.ts:38-42 | the corrected creation keeps every patient-role user paired with a patient row |
| `AdminController.Cascade` | server/src/controllers/adminController.ts:56-117 | deleting a user removes that user; clears it as doctor or nurse of every patient and as nurse of every user; deletes the appointments, diagnoses and medications it wrote, the tracking rows it made, its refresh and reset tokens, and, for a patient, its medications and patient row; rows unrelated to it stay as they were; login codes are not touched |
| `AdminController.DeleteUser` | server/src/controllers/adminController.ts:47-120 | non-admins 403; deleting oneself 400; an id `parseInt` reads as NaN 500, since `findByPk(NaN)` fails; an unknown id 404; success exactly otherwise, and then the cascade runs; every failure leaves the store alone |
| `AdminController.AdminCannotDeleteSelf` | server/src/controllers/adminController.ts:51 | an admin asking to delete their own id gets 400 and nothing changes |
| `AdminController.DeleteUserKeepsProfiles` | server/src/controllers/adminController.ts:93-100 | deletion keeps every patient-role user paired with a patient row |
| `AdminController.DeletedPatientKeepsAppointments` | server/src/controllers/adminController.ts:76-100 | as written, deleting a patient user keeps that patient's appointments with other doctors, which then name a user that no longer exists |
| `AdminController.AssignDoctorToPatient` | server/src/controllers/adminController.ts:122-161 | non-admins 403; a missing or zero doctor id 400; an unknown id 404; a user who is not a doctor 400; a non-numeric patient id 400; success exactly for a real doctor and an existing patient, and then only that patient's doctor changes and the reply is that row decrypted by the read hook |
| `AdminController.AssignNurseToPatient` | server/src/controllers/adminController.ts:163-176 | non-admins 403; an id that is not a nurse 400, checked before the patient; a patient id `parseInt` reads as NaN 500 (no validator on the route, and the query on NaN fails); an unknown patient 404; success exactly otherwise, and then only that patient's nurse changes and the reply is that row decrypted by the read hook |
| `AdminController.RemoveDoctorFromPatient` | server/src/controllers/adminController.ts:178-186 | non-admins 403; a patient id `parseInt` reads as NaN 500 (the query on NaN fails); an unknown patient 404; otherwise only the patient's doctor is cleared, and the reply is that row decrypted by the read hook |
| `AdminController.RemoveNurseFromPatient` | server/src/controllers/adminController.ts:188-196 | non-admins 403; a patient id `parseInt` reads as NaN 500 (the query on NaN fails); an unknown patient 404; otherwise only the patient's nurse is cleared, and the reply is that row decrypted by the read hook |
| `AdminController.AssignThenRemoveDoctor` | server/src/controllers/adminController.ts:151-184 | assigning a doctor and then removing it leaves the patient without a doctor and everything else as before |
| `Appointments.Create` | server/src/controllers/appointmentController.ts:25-68 | no caller 401; a patient without a patient row 404; a patient booking for someone else 403; success exactly when the doctor id names a doctor and the patient exists; then one pending appointment with the given date and notes (empty notes become null) is added under the fresh id |
| `Appointments.PatientBooksForSelf` | server/src/controllers/appointmentController.ts:37-45 | an appointment a patient creates is always for that patient |
| `Appointments.List` | server/src/controllers/appointmentController.ts:70-127 | no caller 401; roles other than doctor and patient 403; a doctor gets exactly the appointments of patients assigned to them, whoever booked them, earliest first; a patient gets exactly their own, latest first |
| `Appointments.AppointmentAt` | server/src/controllers/appointmentController.ts:135 | `findByPk` of the raw path text: the query fails exactly when the database refuses the text as an integer; otherwise it finds the appointment whose id the text denotes, or none has that id |
| `Appointments.Get` | server/src/controllers/appointmentController.ts:129-163 | no caller 401; a path id that is no integer literal 500; unknown id 404; a doctor needs to be the appointment's doctor and the patient's assigned doctor; a patient needs it to be theirs; any other role reads any appointment; a refusal is 403 |
| `Appointments.NurseReadsAnyAppointment` | server/src/controllers/appointmentController.ts:144-162 | as written, nurses and admins read every appointment by its id: no branch checks them |
| `Appointments.Amend` | server/src/controllers/appointmentController.ts:198-201 | an update changes the status when given a non-empty one, the date when given one, and the notes when given any value; ids, patient and doctor never change |
| `Appointments.Update` | server/src/controllers/appointmentController.ts:165-205 | no caller 401; unknown id 404; non-doctors 403; success exactly for the doctor assigned to the appointment's patient; then only that appointment is amended |
| `Appointments.EmptyUpdateChangesNothing` | server/src/controllers/appointmentController.ts:198-203 | an update carrying no fields leaves the store unchanged, whoever asks |
| `Appointments.Delete` | server/src/controllers/appointmentController.ts:207-236 | no caller 401; a path id that is no integer literal 500; unknown id 404; success exactly for the patient who owns a still-pending appointment or the doctor assigned to its patient; then only that appointment is removed |
| `Appointments.ConfirmedAppointmentStays` | server/src/controllers/appointmentController.ts:216-221 | once a doctor confirms an appointment, no patient can delete it |
| `Diagnoses.ForAppointment` | server/src/controllers/diagnosisController.ts:38 | the diagnosis found is one for that appointment; none found means there is none |
| `Diagnoses.Create` | server/src/controllers/diagnosisController.ts:8-55 | no caller 401; non-doctors 403; an appointment that already has a diagnosis 409; success exactly for the appointment's own doctor who is also its patient's assigned doctor, when no diagnosis exists yet; then one diagnosis (empty notes become null) is added under the fresh id and the appointment becomes completed |
| `Diagnoses.CreateKeepsOnePerAppointment` | server/src/controllers/diagnosisController.ts:37-49 | creation keeps at most one diagnosis per appointment |
| `Diagnoses.RecordKeepsOne` | server/src/controllers/diagnosisController.ts:43-52 | adding a diagnosis for an appointment that has none keeps at most one per appointment |
| `Diagnoses.SecondDiagnosisRefused` | server/src/controllers/diagnosisController.ts:38-41 | once a diagnosis is created, a second one for the same appointment gets 409 and changes nothing |
| `Diagnoses.Lookup` | server/src/controllers/diagnosisController.ts:63-69 | the query fails exactly when `parseInt` reads the path id as NaN; otherwise the diagnosis found is for that appointment id, and none found means no diagnosis has it |
| `Diagnoses.Get` | server/src/controllers/diagnosisController.ts:57-92 | no caller 401; a path id read as NaN 500, for every role, since the query runs first; none found 404; success exactly when a doctor wrote it and is still assigned to the patient, or a patient is its subject, or the caller has any other role (nurses and admins are not checked); otherwise 403 |
| `Diagnoses.List` | server/src/controllers/diagnosisController.ts:94-136 | no caller 401; roles other than doctor and patient 403; a patient gets exactly their own diagnoses; a doctor exactly those they wrote for patients still assigned to them; both newest first |
| `Diagnoses.Amend` | server/src/controllers/diagnosisController.ts:165-167 | an update changes the text when given a non-empty one and the notes when given any value; nothing else changes |
| `Diagnoses.Update` | server/src/controllers/diagnosisController.ts:138-171 | no caller 401; non-doctors 403; unknown id 404; success exactly for the author still assigned to the patient; then only that diagnosis is amended |
| `Diagnoses.UpdateKeepsOnePerAppointment` | server/src/controllers/diagnosisController.ts:160-170 | an update keeps at most one diagnosis per appointment and never moves a diagnosis to another appointment, patient or doctor |
| `Fields.SealIf` | server/src/models/Medication.ts:73-75 | a field the hook does not touch is kept; a touched, non-empty field becomes the result of `encrypt`, and the hook fails exactly when encryption fails |
| `Fields.Reveal` | server/src/models/Medication.ts:106-112 | reading a field gives the stored text, or a non-empty decryption of it; a non-empty decryption always wins |
| `Fields.RevealOpt` | server/src/models/Medication.ts:120-126 | a null field reads as null; a present one as `Reveal` of it |
| `Fields.SealThenReveal` | server/src/utils/encryption.ts:47-132 | under the cipher law, a sealed field is an envelope, is not blank, and reads back as the original text |
| `Fields.EachFound` | server/src/models/Medication.ts:102-134 | the read hook treats no result, one row and a list of rows alike: it maps each row and keeps the shape and length |
| `MedicationModel.SealOpt` | server/src/models/Medication.ts:81-84 | an optional field is kept when not touched and otherwise sealed like a plain field |
| `MedicationModel.Seal` | server/src/models/Medication.ts:72-100 | the hooks touch only name, dosage and instructions; each is encrypted exactly when it is a changed column that is non-empty and not yet an envelope, and kept otherwise |
| `MedicationModel.RevealMedication` | server/src/models/Medication.ts:102-127 | the read hook replaces each non-empty encrypted field by its decryption and leaves every other column alone |
| `MedicationModel.BeforeCreate` | server/src/models/Medication.ts:72-86 | the create hook seals name, dosage and instructions when each is present and not yet an envelope, leaves them otherwise, and touches no other column |
| `MedicationModel.BeforeUpdate` | server/src/models/Medication.ts:87-101 | the update hook leaves every sensitive column not reported as changed as it is, and touches no other column |
| `MedicationModel.AfterFind` | server/src/models/Medication.ts:102-135 | the read hook does nothing on nothing found and decrypts one instance or each instance of an array, keeping its length |
| `MedicationModel.BeforeCreateIdempotent` | server/src/models/Medication.ts:72-85 | running the create hook on a row it already sealed changes nothing |
| `MedicationModel.UpdateOnlyChangedColumns` | server/src/models/Medication.ts:87-100 | the update hook leaves every column that did not change as it was |
| `MedicationModel.CreateThenFind` | server/src/models/Medication.ts:72-127 | a row stored through the create hook reads back through the find hook as the row given |
| `Fields.SealedFieldReads` | server/src/models/Medication.ts:73-112 | one field written through the guard reads back as itself, whether it was sealed or stored empty |
| `Medications.Create` | server/src/controllers/medicationController.ts:75-109 | non-doctors 403; unknown patient 404; a patient not assigned to the caller 403; success exactly for the assigned doctor when the create hook succeeds; then one sealed medication prescribed by the caller is added under the fresh id |
| `Medications.PrescriptionReadsBack` | server/src/controllers/medicationController.ts:99-108 | a prescription reads back through the model as exactly what the doctor wrote |
| `Medications.MedicationsWhere` | server/src/controllers/medicationController.ts:192-199 | lists exactly the medications whose patient passes the filter |
| `Medications.List` | server/src/controllers/medicationController.ts:111-285 | no caller 401; a patient gets exactly the medications of the patient row found for them (none if none is found); a doctor exactly those of patients assigned to them; a nurse exactly those of patients assigned to her or him; any other role 403 |
| `Medications.AdminCannotListMedications` | server/src/controllers/medicationController.ts:284 | an admin gets 403 from the medication list |
| `Medications.ForPatient` | server/src/controllers/medicationController.ts:287-318 | roles other than doctor and nurse 403; a `patientId` read as NaN 500, since `findByPk(NaN)` fails; unknown patient 404; success exactly for the patient's assigned doctor or assigned nurse; then exactly that patient's medications |
| `Medications.Withdraw` | server/src/controllers/medicationController.ts:341-350 | withdrawing removes the medication and every tracking row of it, and keeps every other tracking row |
| `Medications.Delete` | server/src/controllers/medicationController.ts:320-352 | non-doctors 403; an id read as NaN 500, since `findByPk(NaN)` fails; unknown medication 404; success exactly for the doctor assigned to its patient; then the medication and its tracking rows go; failures change nothing |
| `Medications.WithdrawnLeavesNoTracking` | server/src/controllers/medicationController.ts:341-350 | after deletion no tracking row names the medication, and every other medication is untouched |
| `TrackingModel.ParseStatus` | server/src/models/MedicationTracking.ts:53 | a status is accepted exactly when it is one of 'given', 'missed', 'pending' |
| `TrackingModel.StatusName` | server/src/models/MedicationTracking.ts:53 | every status is written as a name that parses back to it |
| `TrackingModel.BeforeSave` | server/src/models/MedicationTracking.ts:75-87 | the hooks touch only the notes, and encrypt them exactly when they changed, are non-empty and are not yet an envelope |
| `TrackingModel.RevealTracking` | server/src/models/MedicationTracking.ts:89-107 | the read hook replaces non-empty notes by their decryption and leaves every other column alone |
| `TrackingModel.BeforeCreate` | server/src/models/MedicationTracking.ts:75-81 | the create hook seals notes that are present and not yet an envelope, and otherwise writes the row as given |
| `TrackingModel.BeforeUpdate` | server/src/models/MedicationTracking.ts:82-88 | the update hook writes the row as given when the notes did not change, and never touches another column |
| `TrackingModel.AfterFind` | server/src/models/MedicationTracking.ts:89-108 | the read hook does nothing on nothing found and decrypts one instance or each instance of an array, keeping its length |
| `TrackingModel.UpdateThenFind` | server/src/models/MedicationTracking.ts:82-108 | notes the update hook writes as changed read back as written through the find hook, unless they already looked sealed |
| `TrackingModel.CreateThenFind` | server/src/models/MedicationTracking.ts:75-107 | a row stored through the create hook reads back as given, and creating again changes nothing |
| `Trackings.Find` | server/src/controllers/medicationTrackingController.ts:40-44 | the row found is the nurse's row for the medication; none found means there is none |
| `Trackings.FindAfterAdd` | server/src/controllers/medicationTrackingController.ts:40-52 | after the create branch, the lookup finds the new row |
| `Trackings.FindAfterPut` | server/src/controllers/medicationTrackingController.ts:54-57 | after the update branch, the lookup finds the same row |
| `Trackings.Fresh` | server/src/controllers/medicationTrackingController.ts:45-51 | the create branch adds exactly one row, under the fresh id, holding the medication, the nurse, the status and the time; every older row is kept; a failing hook changes nothing and answers 500 |
| `Trackings.Overwrite` | server/src/controllers/medicationTrackingController.ts:54-57 | the update branch rewrites the status and time of that one row and keeps its id, medication and nurse; absent notes (dropped by `update` as undefined) leave the stored notes as they were and the reply shows them decrypted; present plain notes are stored so that they read back as given |
| `Trackings.Upsert` | server/src/controllers/medicationTrackingController.ts:39-59 | after tracking, the nurse has a row for the medication with the new status and time; rows of other keys are untouched; an existing row is reused and no new id is taken |
| `Trackings.Track` | server/src/controllers/medicationTrackingController.ts:12-60 | non-nurses 403; a nurse naming an unknown medication 404; a nurse not assigned to the medication's patient is refused; an assigned nurse runs the upsert; every failure leaves the store unchanged |
| `Trackings.TrackKeepsOnePerNurse` | server/src/controllers/medicationTrackingController.ts:39-57 | tracking keeps at most one row per medication and nurse |
| `Trackings.UpsertKeepsOnePerNurse` | server/src/controllers/medicationTrackingController.ts:40-57 | the upsert keeps at most one row per medication and nurse |
| `Trackings.SameKeyIsFound` | server/src/controllers/medicationTrackingController.ts:40-57 | after an upsert, the only row of the key is the one written, and every other row is as before |
| `Trackings.RetrackKeepsOrSetsNotes` | server/src/controllers/medicationTrackingController.ts:54-57 | tracking the same medication again without notes keeps the notes already stored, and with plain notes stores notes that read back as given |
| `Trackings.RetrackAddsNoRow` | server/src/controllers/medicationTrackingController.ts:54-57 | tracking the same medication again adds no row and leaves the new status in place |
| `Trackings.NewestWhere` | server/src/controllers/medicationTrackingController.ts:106-125 | lists exactly the rows whose medication passes the filter, newest first |
| `Trackings.ListAll` | server/src/controllers/medicationTrackingController.ts:63-179 | non-doctors 403; a doctor gets exactly the rows of medications of patients assigned to them, newest first (the empty list when there are none) |
| `Trackings.ListMine` | server/src/controllers/medicationTrackingController.ts:182-211 | non-nurses 403; a nurse gets exactly the rows of medications of patients assigned to them, newest first |
| `Trackings.ForMedication` | server/src/controllers/medicationTrackingController.ts:214-254 | no caller 401; a doctor gets the rows exactly when `parseInt` reads a number, and 500 otherwise; a nurse gets 500 for a path id that is no integer literal, 404 for an unknown medication, and succeeds exactly when assigned to its patient; other roles 403; a success lists exactly the rows of that medication, newest first |
| `Trackings.NurseReadsOnlyOwnPatients` | server/src/controllers/medicationTrackingController.ts:236-250 | a nurse who reads a medication's tracking is assigned to its patient, and every row returned belongs to that same medication |
| `PatientModel.SealCondition` | server/src/models/Patient.ts:72-75 | an unguarded condition is stored as given; a sealed condition is present exactly when the original was |
| `PatientModel.Seal` | server/src/models/Patient.ts:67-88 | the hooks change only the name and the condition; each is left alone unless it changed and needs sealing, and is otherwise replaced by its encryption |
| `PatientModel.Create` | server/src/models/Patient.ts:40-44 | an age outside 0..150 is rejected; a stored row always has a valid age and keeps its id; a valid row goes through the create hook |
| `PatientModel.RevealPatient` | server/src/models/Patient.ts:90-115 | the read hook decrypts the name, decrypts a condition that is not blank, and leaves every other column alone |
| `PatientModel.BeforeCreate` | server/src/models/Patient.ts:67-77 | the create hook seals the name and a non-blank condition when each is not yet an envelope, leaves them otherwise, and touches no other column |
| `PatientModel.BeforeUpdate` | server/src/models/Patient.ts:78-89 | the update hook leaves a column not reported as changed as it is, and writes the row unchanged when neither sensitive column changed |
| `PatientModel.AfterFind` | server/src/models/Patient.ts:90-115 | the read hook does nothing on nothing found and decrypts one instance or each instance of an array, keeping its length |
| `PatientModel.BeforeCreateIdempotent` | server/src/models/Patient.ts:67-76 | running the create hook a second time changes nothing, because sealed fields are recognised as encrypted |
| `PatientModel.CreateThenFind` | server/src/models/Patient.ts:67-115 | a patient stored through the create hook reads back as given |
| `PatientModel.ConditionThenFind` | server/src/models/Patient.ts:72-75 | a sealed condition decrypts to the condition that was sealed; blank conditions are kept as they are |
| `PatientModel.UpdateOnlyChangedColumns` | server/src/models/Patient.ts:78-88 | an update that changes neither the name nor the condition stores the row unchanged |
| `Patients.ForNurse` | server/src/controllers/patientController.ts:76-88 | the nurse view keeps id, name, age and both assignments, and has no condition |
| `Patients.Shows` | server/src/controllers/patientController.ts:76-88 | a record in a reply is the read hook's decryption of the stored row, whole or as the nurse view, with the row's id and decrypted name |
| `Patients.ShowWhere` | server/src/controllers/patientController.ts:50-89 | lists exactly the stored patients that pass the filter, each decrypted by the read hook, in full for a doctor or admin and without the condition for a nurse |
| `Patients.List` | server/src/controllers/patientController.ts:44-96 | no caller 401; admin gets every patient; a doctor gets exactly their patients; a nurse gets exactly their patients without conditions; each record as the read hook decrypts it; anyone else gets their own record or an empty list |
| `Patients.NurseNeverSeesCondition` | server/src/controllers/patientController.ts:68-90 | no entry of a nurse's patient list carries a condition |
| `Patients.Get` | server/src/controllers/patientController.ts:98-149 | no caller 401; doctors and nurses get 500 for a path id that is no integer literal, since `findByPk` of the raw text fails, and 404 for an unknown patient and succeed exactly when assigned to it, with the record the read hook decrypts, nurses without the condition; a patient succeeds exactly when the requested record is their own |
| `Patients.DoctorSeesWhatWasCreated` | server/src/controllers/patientController.ts:103-111 | a record written by the create hook is shown to its doctor exactly as it was written, never as the stored envelopes |
| `Patients.CleanCondition` | server/src/controllers/patientController.ts:170-174 | a condition becomes null exactly when it is absent or blank; otherwise it is trimmed, with no space at either end |
| `Patients.Edited` | server/src/controllers/patientController.ts:167-174 | a doctor's edit sets name, age, condition and nurse when given and never the id or the assigned doctor |
| `Patients.Changed` | server/src/controllers/patientController.ts:175 | a column counts as changed exactly when its new value differs; the assigned doctor never does |
| `Patients.Save` | server/src/controllers/patientController.ts:167-176 | the saved row keeps its id and doctor, takes the new age and nurse, and keeps a name or condition that was not edited |
| `Patients.SavedConditionReadsBack` | server/src/controllers/patientController.ts:167-176 | an edited condition reads back as its cleaned value |
| `Patients.Apply` | server/src/controllers/patientController.ts:175-176 | a successful save rewrites that one patient and nothing else; a failing hook changes nothing and answers 500 |
| `Patients.Update` | server/src/controllers/patientController.ts:151-185 | no caller 401; unknown patient 404; nurses 403; only the assigned doctor can succeed, and then the save is applied; every failure leaves the store unchanged |
| `Patients.UpdateFound` | server/src/controllers/patientController.ts:159-184 | for a stored patient, nurses get 403, success needs the assigned doctor, and the assigned doctor's edit is applied |
| `Patients.UpdateRoute` | server/src/routes/patientRoutes.ts:13-36 | a doctor's body that breaks the validator (name length, age range, null condition, any nurse value) is 400 with nothing changed; other signed-in roles get 403 from the role check; a doctor's valid body runs `updatePatient`; every failure leaves the store unchanged |
| `Patients.UpdateRouteKeepsNurses` | server/src/validators/patientValidators.ts:14 | no request through the route changes any patient's assigned nurse, because the validator wants a UUID for an integer column |
| `Patients.UpdateKeepsDoctor` | server/src/controllers/patientController.ts:166-169 | no update moves a patient to another doctor |
| `Patients.OnlyDoctorsUpdate` | server/src/controllers/patientController.ts:178-184 | a caller who is not a doctor always fails and changes nothing |
| `Patients.UpdateSetsAnyNurse` | server/src/controllers/patientController.ts:167-175 | the handler taken without its route's validator lets the assigned doctor set the nurse to any id, whether or not a nurse has it |
| `Encryption.HexValue` | server/src/utils/encryption.ts:29 | a hex digit is worth less than 16 |
| `Encryption.HexDecode` | server/src/utils/encryption.ts:29 | hex text decodes to at most one byte per two characters |
| `Encryption.HexDecodeLength` | server/src/utils/encryption.ts:27-29 | hex text of even length decodes to exactly one byte per two characters |
| `Encryption.HexEncode` | server/src/utils/encryption.ts:139 | the hex text has two digits per byte and nothing but hex digits |
| `Encryption.HexDecodeEncode` | server/src/utils/encryption.ts:27-29 | reading the hex text of bytes gives the bytes back |
| `Encryption.GenerateEncryptionKey` | server/src/utils/encryption.ts:138-140 | a generated key is 64 hex digits |
| `Encryption.GeneratedKeyReadsBack` | server/src/utils/encryption.ts:26-29 | a configured generated key is read as the 32 bytes it was generated from, in production or not |
| `Encryption.GetEncryptionKey` | server/src/utils/encryption.ts:12-40 | no key: the development key, or the production error; 64 characters: hex; 44: base64; any other length: PBKDF2-SHA256 with the fixed salt and 100000 rounds |
| `Encryption.KeyLengthOk` | server/src/utils/encryption.ts:4-40 | the development key, a 64-digit hex key and a derived key are all 32 bytes long |
| `Encryption.Envelope` | server/src/utils/encryption.ts:65-70 | the envelope is salt, iv, tag and ciphertext at the fixed offsets |
| `Encryption.Subarray` | server/src/utils/encryption.ts:94-97 | a slice inside the buffer is that slice; past the end it is clamped |
| `Encryption.Encrypt` | server/src/utils/encryption.ts:47-77 | a falsy text gives null; it fails exactly when the text is truthy and the key cannot be had or the cipher refuses it |
| `Encryption.Decrypt` | server/src/utils/encryption.ts:84-113 | a falsy text gives null; any result needs a usable key |
| `Encryption.IsEncrypted` | server/src/utils/encryption.ts:120-132 | a falsy text is never taken for an envelope |
| `Encryption.EncryptEnvelope` | server/src/utils/encryption.ts:53-72 | a successful encryption is the base64 text of salt, iv, tag and ciphertext |
| `Encryption.EncryptIsEncrypted` | server/src/utils/encryption.ts:65-132 | what `encrypt` returns is recognised by `isEncrypted` |
| `Encryption.EncryptNotBlank` | server/src/utils/encryption.ts:65-72 | what `encrypt` returns is not blank |
| `Encryption.DecryptEncrypt` | server/src/utils/encryption.ts:47-113 | decrypting what was encrypted gives the text back |
| `Encryption.EncryptOutcome` | server/src/utils/encryption.ts:12-77 | with a 32-byte key encryption succeeds; with no key in production it fails |
| `Base64.IndexOfCharOf` | server/src/utils/encryption.ts:72 | each alphabet character reads back as its value, and none is the padding character |
| `Base64.Chars` | server/src/utils/encryption.ts:72 | one character per six-bit value |
| `Base64.Encode` | server/src/utils/encryption.ts:72 | non-empty input gives at least one group of four, starting with an alphabet character |
| `Base64.EncodeLength` | server/src/utils/encryption.ts:72 | the text is four characters per started group of three bytes |
| `Base64.QuadInverse` | server/src/utils/encryption.ts:72-91 | the four six-bit values of a group give its three bytes back |
| `Base64.DecodeOneByte` | server/src/utils/encryption.ts:72-91 | a one-byte tail round-trips |
| `Base64.DecodeTwoBytes` | server/src/utils/encryption.ts:72-91 | a two-byte tail round-trips |
| `Base64.DecodeGroup` | server/src/utils/encryption.ts:91 | a full group in front of decodable text decodes to its three bytes in front |
| `Base64.DecodeEncode` | server/src/utils/encryption.ts:72-91 | decoding the encoding of any bytes gives them back |
| `Base64.EncodeGroup` | server/src/utils/encryption.ts:72 | longer input is encoded group by group |
| `Csrf.ClientKey` | server/src/middleware/csrf.ts:21 | the client key is the request's address, or "unknown" when it has none |
| `Csrf.SecretOf` | server/src/middleware/csrf.ts:24-26 | a client has a secret exactly when a non-empty one is stored under its key |
| `Csrf.Generate` | server/src/middleware/csrf.ts:19-49 | an existing secret is kept; a missing one is replaced by the drawn secret; the token is minted from the client's secret; no other client's secret changes |
| `Csrf.PresentedToken` | server/src/middleware/csrf.ts:80-84 | the token is the first truthy one of the two headers, the body field, the query field and the cookie; reading the body field of a body the parser never set throws, which happens exactly when both headers are falsy and there is no body; otherwise no token exactly when all five are falsy |
| `Csrf.Verify` | server/src/middleware/csrf.ts:55-103 | safe methods and bearer requests always pass; a client with a secret whose token lookup throws (no headers, no body) gets 500, in optional mode too; apart from that optional mode always passes; in strict mode the request passes exactly when the client has a secret and presents a token that verifies against it, and every other refusal is a 403 |
| `Csrf.SafeMethod` | server/src/middleware/csrf.ts:57-60 | GET, HEAD and OPTIONS skip the CSRF check |
| `Csrf.Bearer` | server/src/middleware/csrf.ts:62-66 | a request whose authorization header starts with `Bearer ` skips the CSRF check, whatever the token |
| `Csrf.GetToken` | server/src/middleware/csrf.ts:108-117 | a token is returned exactly when the client has a secret, and it is minted from that secret |
| `Csrf.MintedTokenVerifies` | server/src/middleware/csrf.ts:19-103 | the token handed out passes verification from the same address |
| `Csrf.GenerateKeepsSecret` | server/src/middleware/csrf.ts:24-29 | generating again keeps the stored secret and yields the same token |
| `Csrf.GenerateThenGet` | server/src/middleware/csrf.ts:19-117 | after generation, the token endpoint hands out the same token |
| `AuthMiddleware.TokenOf` | server/src/middleware/auth.ts:20 | the token is the text after the bearer prefix up to the next space |
| `AuthMiddleware.Authenticate` | server/src/middleware/auth.ts:8-36 | a missing or non-bearer header is refused with 401; the request is admitted exactly when the bearer token verifies as an access token, and then as the token's subject, role and username |
| `AuthMiddleware.RequireRole` | server/src/middleware/auth.ts:38-65 | no user 401; a user passes exactly when their role is listed, and is otherwise refused with 403 |
| `AuthMiddleware.Guard` | server/src/middleware/auth.ts:8-65 | an authenticated request passes exactly when its role is listed, and is otherwise refused with 403; a request that does not authenticate gets the authentication failure unchanged |
| `AuthMiddleware.EmptyRoleListDenies` | server/src/middleware/auth.ts:51-62 | an empty role list refuses every user |
| `AuthMiddleware.IssuedTokenAdmits` | server/src/middleware/auth.ts:8-65 | an access token issued for a listed role admits its user until it expires |
| `Sanitizer.SanitizeItems` | server/src/middleware/inputSanitizer.ts:29-31 | an array keeps its length |
| `Sanitizer.SanitizeEntries` | server/src/middleware/inputSanitizer.ts:33-45 | an object keeps its keys, in order |
| `Sanitizer.SanitizeInput` | server/src/middleware/inputSanitizer.ts:7-26 | OPTIONS requests and bodies that are not objects pass untouched; an object body keeps its shape |
| `Sanitizer.StringLeaves` | server/src/middleware/inputSanitizer.ts:28-49 | a string value of an object is trimmed then escaped; a string item of an array is escaped without trimming |
| `Sanitizer.VisibleLength` | server/src/middleware/inputSanitizer.ts:55 | the length counted by the length check is at most the number of code units |
| `Sanitizer.ValidateEmail` | server/src/middleware/inputSanitizer.ts:54-56 | an address is valid exactly when the library accepts it and its length is 5 to 100 |
| `Sanitizer.SanitizeUsername` | server/src/middleware/inputSanitizer.ts:61-63 | a username is trimmed and then HTML-escaped |
| `Sanitizer.SanitizeUsernameIgnoresPadding` | server/src/middleware/inputSanitizer.ts:61-63 | padding around a username does not change its sanitised form |
| `SecurityTest.SecurityScore` | server/src/utils/securityTest.ts:85-95 | the score lies in 0..100, is 100 exactly when the input counts as safe and at most 80 otherwise, and the empty input scores 100 |
| `SecurityTest.ContainsSqlInjection` | server/src/utils/securityTest.ts:9-21 | an input is suspect when any of the keyword, punctuation, `or ... =` and `union ... select` patterns matches |
| `SecurityTest.ContainsXss` | server/src/utils/securityTest.ts:23-37 | an input is suspect when any of the script, `javascript:`, event-handler, iframe, `<img ... src ... =` and `<svg ... onload` patterns matches, ignoring case |
| `SecurityTest.ContainsPathTraversal` | server/src/utils/securityTest.ts:39-52 | an input is suspect when any of the five dot-dot patterns occurs |
| `SecurityTest.ContainsCommandInjection` | server/src/utils/securityTest.ts:54-69 | an input is suspect when it holds a shell character, `\|\|`, `&&`, or a backtick, `$(` or `<(` pair |
| `SecurityTest.IsInputSafe` | server/src/utils/securityTest.ts:71-83 | the empty input is safe; any other input is safe exactly when no detector fires |
| `SecurityTest.ScoreZeroIffAllFire` | server/src/utils/securityTest.ts:85-95 | a non-empty input scores 0 exactly when all four detectors fire |
| `SecurityTest.PathTraversalIsDotDot` | server/src/utils/securityTest.ts:39-48 | the five traversal patterns together match exactly the inputs containing two dots in a row |
| `SecurityTest.CommandInjectionIsShellChar` | server/src/utils/securityTest.ts:54-64 | the six command patterns together match exactly the inputs holding one of the characters `; & \| $ ( )` or a backtick |
| `SecurityTest.UnionSelectIsKeyword` | server/src/utils/securityTest.ts:11-14 | every input the UNION ... SELECT pattern matches is already matched by the keyword pattern |
| `SecurityTest.QuoteIsSuspicious` | server/src/utils/securityTest.ts:12-95 | a quote, semicolon, plus or percent sign makes an input unsafe with a score of at most 70 |
| `SecurityTest.SafeInputHasNoMetaCharacters` | server/src/utils/securityTest.ts:71-80 | a safe input holds no shell character and no `..` |
| `AuditLogger.AuditLog` | server/src/middleware/auditLogger.ts:8-48 | the request always continues; an entry is written exactly when the lower-cased action names a sensitive verb; a security warning exactly when, in addition, the action as written contains login, unauthorized or forbidden |
| `AuditLogger.IsSensitive` | server/src/middleware/auditLogger.ts:19-20 | an action is audited when its lower-cased form contains one of the ten sensitive words |
| `AuditLogger.IsSecurityEvent` | server/src/middleware/auditLogger.ts:40 | an action is a security event when, as written, it contains login, unauthorized or forbidden |
| `AuditLogger.WarningNeedsEntry` | server/src/middleware/auditLogger.ts:22-44 | no warning without an audit entry |
| `AuditLogger.UpperCaseLoginNotWarned` | server/src/middleware/auditLogger.ts:20-40 | the action LOGIN is audited but raises no security warning |
| `AuditLogger.SeverityLevel` | server/src/middleware/auditLogger.ts:89-99 | critical words win over high, high over medium, and anything else is low |
| `AuditLogger.UnauthorizedAccessIsCritical` | server/src/middleware/auditLogger.ts:90 | an unauthorized-access event is critical |
| `AuditLogger.AuthenticationFailureIsHigh` | server/src/middleware/auditLogger.ts:90-96 | an authentication failure is high |
| `AuditLogger.ErrorResponseIsMedium` | server/src/middleware/auditLogger.ts:90-97 | an error response is medium |
| `AuditLogger.ClientIp` | server/src/middleware/auditLogger.ts:104-111 | the address is never empty; it is the trimmed first forwarded entry when that is non-empty, then the real-ip header, then the socket address, and otherwise "unknown" |
| `RequestValidation.ValidateRequest` | server/src/middleware/requestValidation.ts:7-34 | only a 413 or passing on; the request is refused exactly when the declared length parses to more than 10 MiB (the app does not mount this middleware) |
| `RequestValidation.DeclaredLength` | server/src/middleware/requestValidation.ts:9-17 | a length written in decimal is refused exactly when it exceeds 10 MiB |
| `AppPolicy.OriginSource` | server/src/app.ts:113 | the CORS list is read from the first truthy of the two variables, and is empty when neither is set |
| `AppPolicy.Entries` | server/src/app.ts:114-116 | the entries kept are exactly the non-blank fields, trimmed |
| `AppPolicy.ConfiguredOrigins` | server/src/app.ts:113-116 | configured origins are non-empty, trimmed and free of commas |
| `AppPolicy.AllowedOrigins` | server/src/app.ts:107-117 | the allowed set is exactly the four defaults together with the configured origins, and never holds the empty origin |
| `AppPolicy.UnconfiguredIsDefaults` | server/src/app.ts:107-117 | with neither variable set only the four defaults are allowed |
| `AppPolicy.ConfiguredFieldAllowed` | server/src/app.ts:113-117 | every non-blank field of the configured list is allowed once trimmed |
| `AppPolicy.LoopbackIgnoresCase` | server/src/app.ts:134 | the loopback rule ignores case |
| `AppPolicy.LoopbackIsLocal` | server/src/app.ts:134 | an origin the loopback rule admits is 19 to 23 characters long, has no `@` and no path |
| `AppPolicy.LoopbackExamples` | server/src/app.ts:134 | the rule admits localhost and 127.0.0.1 with a port of two to five digits and refuses a longer host, a one-digit port and a missing port |
| `AppPolicy.OutOfLength` | server/src/app.ts:134 | an origin shorter than 19 or longer than 23 characters is never a loopback origin |
| `AppPolicy.CheckOrigin` | server/src/app.ts:121-146 | an origin is allowed exactly when it is absent or empty, in the allowed set, or a loopback origin; otherwise the CORS error is raised |
| `AppPolicy.ForeignOriginDenied` | server/src/app.ts:121-146 | an origin outside the allowed set that is long or carries credentials is refused |
| `AppPolicy.EnforceHttps` | server/src/app.ts:73-80 | in production a request is redirected with 301 exactly when neither the forwarded protocol is https nor the connection secure, to the same host and path over https |
| `AppPolicy.RedirectSettles` | server/src/app.ts:73-80 | the redirected request, arriving over https, is let through |
| `AppPolicy.HandleError` | server/src/app.ts:182-213 | an error naming CORS becomes a 403 that quotes it; any other is a 500 whose message and stack are hidden in production |
| `AppPolicy.ProductionHidesInternals` | server/src/app.ts:203-212 | in production every non-CORS error reads "Internal Server Error" without a stack |
| `AppPolicy.DeniedOriginIs403` | server/src/app.ts:140-201 | a refused origin always ends as a 403 CORS policy reply |
| `ClientAuth.ApiBase` | client/src/app/core/auth.service.ts:15-35 | an explicit base URL wins; a page served over https talks to the same host over https, on port 4443 for localhost; otherwise the development URL |
| `ClientAuth.Load` | client/src/app/core/auth.service.ts:42-45 | the client starts with the stored user as its current user and the stored tokens |
| `ClientAuth.Role` | client/src/app/core/auth.service.ts:50 | the role is known exactly when a user is, and is that user's |
| `ClientAuth.PersistAuth` | client/src/app/core/auth.service.ts:76-81 | a session stores both tokens and the user, who becomes current |
| `ClientAuth.ClearAuth` | client/src/app/core/auth.service.ts:83-88 | clearing forgets both tokens and the user |
| `ClientAuth.Apply` | client/src/app/core/auth.service.ts:52-74 | login alone changes nothing; signup and OTP verification persist the session; refresh replaces only the access token; logout clears; refresh and logout send the stored refresh token |
| `ClientAuth.SignedInState` | client/src/app/core/auth.service.ts:49-62 | after OTP verification the client is authenticated with the user's role |
| `ClientAuth.LogoutForgetsSession` | client/src/app/core/auth.service.ts:70-74 | after logout the client is not authenticated and has no role, and the server is sent the old refresh token |
| `ClientAuth.LoginAloneDoesNotAuthenticate` | client/src/app/core/auth.service.ts:56-58 | the first login step does not authenticate the client |
| `RoleGuard.CanActivate` | client/src/app/core/guards/role.guard.ts:5-11 | a route opens exactly when the user has a role listed in the route's data; otherwise the user is sent to the dashboard |
| `RoleGuard.NoRolesRedirectsEveryone` | client/src/app/core/guards/role.guard.ts:8-10 | a route without a role list is closed to everyone |
| `AuthProtocol.RetireLoginOtps` | server/src/controllers/authController.ts:178-182 | every login code of the user is marked used, and no other code changes |
| `AuthProtocol.StoreLoginOtp` | server/src/controllers/authController.ts:175-192 | the user's older codes are retired and one unused code is added, stored as its six digits and expiring after the code lifetime; users and sessions are untouched |
| `AuthProtocol.UseLoginOtp` | server/src/controllers/authController.ts:254-255 | only the one code is marked used |
| `AuthProtocol.RetireResetTokens` | server/src/controllers/authController.ts:335-339 | every reset code of the user is marked used, and no other code changes |
| `AuthProtocol.ApplyReset` | server/src/controllers/authController.ts:422-432 | the reset rewrites only the user's password hash, marks the one code used, and drops exactly that user's sessions |
| `Js.ParseInt` | server/src/controllers/patientController.ts:141 | parsing fails exactly when no digits follow the leading blanks and the optional sign |
| `Sql.IntInput` | server/src/controllers/patientController.ts:105 | a text key the database accepts for an integer column lies within the 32-bit column range, and `parseInt` reads the same number from it |
| `Sql.DecimalInput` | server/src/controllers/appointmentController.ts:135 | the decimal text of any id a 32-bit column can hold is read back as that id |
| `Sql.TrailingTextRefused` | server/src/controllers/medicationTrackingController.ts:238-247 | for digits followed by a letter ("12abc"), `parseInt` reads the digits while the database refuses the text; text starting with a letter ("abc") is refused by both |
| `Js.Decimal` | server/src/controllers/authController.ts:175 | a number is written as a non-empty string of digits whose value is the number |
| `Js.SixDigitDecimal` | server/src/controllers/authController.ts:175 | every one-time code in 100000..999999 is written with six digits |
| `Js.ParseDecimal` | server/src/controllers/authController.ts:175 | parsing the decimal text of a number gives the number back |
| `Js.Split` | server/src/middleware/auditLogger.ts:106 | the first piece runs up to the first separator, each later piece follows it, and no piece holds the separator |
| `Js.TrimIdempotent` | server/src/middleware/inputSanitizer.ts:38 | trimming twice is trimming once |
| `Js.NormalizeEmailIdempotent` | server/src/controllers/authController.ts:144 | applying `trim().toLowerCase()` twice is applying it once, and equals trimming the lower-case form |
| `Js.NormalizeEmail` | server/src/controllers/authController.ts:144 | the handlers' own normal form: `trim()` then `toLowerCase()`, nothing more |
| `Listing.SortBy` | server/src/controllers/medicationTrackingController.ts:124 | the result is a permutation of the input, ordered by the rank |
| `Listing.SortByMembers` | server/src/controllers/medicationTrackingController.ts:124 | sorting keeps exactly the same members |
| `UserController.StaffOfRole` | server/src/controllers/userController.ts:112-115 | the list holds exactly the users of the role, each with its username and email |
| `UserController.ListDoctors` | server/src/controllers/userController.ts:108-123 | lists exactly the doctors, for any caller |
| `UserController.ListNurses` | server/src/controllers/userController.ts:125-145 | no caller 401; otherwise lists exactly the nurses |
| `UserController.ListedNursesAreAssignable` | server/src/controllers/userController.ts:8-145 | an id is on the nurse list exactly when it passes the nurse check of `assignNurse` |
| `UserController.StaffListsDisjoint` | server/src/controllers/userController.ts:108-145 | no user is listed both as doctor and as nurse |

## Behaviour of the code as written

These are behaviours of the code exactly as it stands, each proved where a member is named. Each is a choice
the code makes rather than an evident slip, so the model keeps the behaviour and names it:

- `Appointments.NurseReadsAnyAppointment`: `getAppointment` checks doctors and patients only, so
  a nurse reads any appointment by id. `getDiagnosis` likewise leaves nurses and admins unchecked.
- `AdminController.ListUsers`: the user list hides the password but includes the 2FA secret.
- `UserController.AssignNurseToDoctor`: the reply serialises the whole doctor row, so a doctor who assigns a nurse receives their own password hash and 2FA secret.
- `AdminController.DeletedPatientKeepsAppointments`: deleting a patient user leaves their
  appointments with other doctors in place, still naming the deleted id. Their login codes stay
  too (`AdminController.Cascade`).
- `Patients.UpdateRouteKeepsNurses`: a doctor cannot change a patient's nurse through
  `PUT /api/patients/:id`. The validator demands a UUID for `assignedNurseId` and the column
  is an integer, so every value is refused with 400, and a UUID string would fail the write.
  The handler itself checks nothing about the id (`Patients.UpdateSetsAnyNurse`, which
  concerns the handler without its validator), while `assignNurse` checks that a nurse has it.
- `AuditLogger.UpperCaseLoginNotWarned`: the sensitivity test lower-cases the action, but the
  security-event test does not. An action spelled `LOGIN` is audited without a warning.
- `SecurityTest.UnionSelectIsKeyword`: the UNION ... SELECT pattern never matches anything the
  keyword pattern misses.
- `listAppointments` and `getAppointment` include the appointment's doctor as a whole `User`
  row (server/src/controllers/appointmentController.ts:100-103, 113-116, 136-139), and the
  User model hides no column. So the reply carries the doctor's
  password hash and 2FA secret to the patient, and to every nurse and admin who reads the
  appointment. This is not proved here: the model's replies (`Appointments.List`,
  `Appointments.Get`) carry the appointment row only, because the joins are left out below.
- `AppPolicy.LoopbackExamples`: the loopback rule admits localhost and 127.0.0.1 on any port of
  two to five digits, in production too.
- `AuthProtocol.Refresh`: a refresh token is checked against the stored records when the
  table can be read. When it cannot, the token's signature alone is accepted (`storeReachable`
  false).
- `AuthProtocol.VerifyLoginOtp` models `verifyLoginOTP`, which the client calls at
  `/auth/verify-login-otp`. server/src/routes/authRoutes.ts does not mount that handler, so the
  second login step is unreachable as routed. The model states the handler's own behaviour.
- `AdminController.CreateUser` stores the address as `trim().toLowerCase()` leaves it
  (server/src/controllers/adminController.ts:32); the admin validator has no `normalizeEmail`
  (server/src/validators/adminValidators.ts:5). Login, forgot-password and reset-password look
  up the validator's rewrite, which drops the dots and any `+tag` of a gmail address, so an
  admin-created user `j.doe@gmail.com` is never found by them.
- `RequestValidation.ValidateRequest` is defined but server/src/app.ts never mounts it, so no
  route passes through the size check it models.

## Left out

- `findPatientForUser` (patientController.ts and medicationController.ts) maps a patient user
  to a row by an id offset and then by the username. Its result is a parameter of the
  patient-role branches (`own`, `requested`, `found`), not a computation.
- The express-validator chains, the rate limiters and `validationResult` (400 replies) are left
  out, except the email chain of the login route (`AuthProtocol.ValidatedEmail`) and the
  doctor's chain of the patient update route (`Patients.DoctorEditsPass`), whose 400s are
  represented by one message rather than the full error list; the password rule of the login
  chain is left out too. A body reaching any other handler is taken to have passed
  validation: `Signup`, `ForgotPassword` and `ResetPassword` take the validator's rewritten
  address as their parameter. The handlers' own `trim().toLowerCase()` is `Js.NormalizeEmail`.
- The `isInt` check of a path id counts only in the handlers that call `validationResult`
  (`updatePatient`, `assignNurse`, `updateAppointment`, `updateDiagnosis`). Their ids are
  taken as already checked: a number for `Appointments.Update` and `Diagnoses.Update`, a text
  that `parseInt` reads for the other two. Every other handler that reads a path id is given
  the raw text, and its query failure is modelled: `Js.ParseInt`'s NaN where the code parses,
  `Sql.IntInput` where it passes the text itself.
- `Sql.IntInput` follows PostgreSQL's integer input before version 16: white space, a sign
  and decimal digits. The underscores and the `0x`, `0o` and `0b` prefixes that version 16
  also accepts are read as errors. A parsed number beyond the 32-bit range finds no row
  rather than failing, as the store holds no such id.
- Token lifetimes come from the environment (`ACCESS_TOKEN_EXPIRES_IN`,
  `REFRESH_TOKEN_EXPIRES_IN`); the model takes them as the `expiresIn` field of the token
  oracle, in whole seconds, and parses no duration strings.
- Sending email, `console` logging, `setInterval` scheduling and the request id are left out.
  The lockout sweep is modelled as `Lockout.Sweep`, and the audit log by what it decides.
- helmet, the security headers, morgan, compression, cookie-parser, the security-monitoring
  middleware, the health route, the 404 handler and route mounting are configuration, not
  logic, and are left out.
- The body-size limit of `express.json` is left out. Only the `content-length` check of
  `validateRequest` is modelled, and its content-type branch only logs.
- `AppPolicy.CheckOrigin`: the `try`/`catch` around the origin callback is left out, because
  nothing inside it can throw.
- Database mechanics are reduced to pure maps: transactions, the sequence `setval`, the
  unique constraints, the `include` joins and `attributes` projections. A failing hook or
  encryption makes a handler fail with the store unchanged, or, where the code commits
  first, with the partial write the code leaves.
- The decryption passes over included rows are left out, because each is `RevealPatient` or
  `RevealMedication` applied to a joined row: appointmentController.ts:10-23,
  medicationController.ts:203-223 and 259-279, medicationTrackingController.ts:130-176.
- `req.body` is a `ParsedBody` only where a middleware reads it before any handler
  (`Csrf.Verify`, `Lockout.CheckRequest`): `NoBody` is a request whose body the parser never
  set, as Express 5's parser leaves it (Express 4's sets `{}`, and then `NoBody` does not
  arise). Handlers take the fields of a parsed body, and so does `AuthProtocol.LoginRoute`.
- `AdminController.AssignNurseToPatient`: the body's `nurseId` is absent or a number; a
  non-numeric string, which would make the user query fail with 500, is not modelled.
- A request body field that is absent leaves its column unchanged (`None` in `Edits`/`Changes`).
  Sequelize's distinction between `undefined` and explicit `null` is modelled only where the
  code tests for it (`assignNurse`, the condition of `updatePatient`).
- Case mapping and `trim` act on `string` code points: `toLowerCase` maps ASCII letters only,
  and there is no Unicode normalisation.
- bcrypt, JWT signing, AES-GCM, PBKDF2, UTF-8, Node's lenient base64 reader, the CSRF library,
  speakeasy TOTP and validator.js are oracles with stated laws, not implementations.
- Randomness (`Math.random` codes, `crypto.randomBytes`, CSRF secrets, 2FA secrets) and the
  clock are parameters. `generateOTP` is a `Js.Decimal` of a code in 100000..999999.
- The client's HTTP calls, the JWT interceptor, `JSON.parse` of the stored user and all
  components are left out. `ClientAuth` models the stored state and what each call does to it.
- The scripts (`encryptExistingData`, `hashPasswords`, `generateEncryptionKey`) are left out,
  except the key format, which is modelled as `Encryption.GenerateEncryptionKey`.
- `Sanitizer.SanitizeItems`, `Sanitizer.SanitizeEntries`: their contracts state only shape and
  keys. `Sanitizer.StringLeaves` states the values at the top level, and the recursion into
  nested values is not restated.
- `Encryption.Decrypt`: the contract states only the null cases and the need for a key. Its
  round trip is `Encryption.DecryptEncrypt`.

## Findings

| source | as written | input that shows it | evidently intended | confidence | as-written member | corrected member |
|---|---|---|---|---|---|---|
| server/src/controllers/authController.ts:75-82 | `signup` inserts the patient row with a raw SQL statement, which skips the model's `beforeCreate` hook, so the patient's name is stored in plaintext | any signup with role patient and username `alice`: the stored `patients.name` is `alice` | the patient name is stored sealed like every other patient name, and reads back as typed | high, not executed | `AuthProtocol.SignupStoresPlainName` | `AuthProtocol.SignupSealedReadsBack` (over `AuthProtocol.SignupSealedAs`) |
| server/src/controllers/adminController.ts:38-42 | `createUser` commits the user before creating the patient row, outside any transaction; when the patient hook fails (production without `DATABASE_ENCRYPTION_KEY`), the user stays without a patient row and the reply is 500 | admin creates a patient-role user `bob` in production with the key unset | user and patient row are created together or not at all, as `signup` does with its transaction | high, not executed | `AdminController.KeylessCreateOrphansUser` | `AdminController.CreateUserAtomicKeepsProfiles` (over `AdminController.CreateUserAtomic`) |
| server/src/routes/authRoutes.ts:11 | the lockout check runs before the validator and keys its entry on the address as typed; login records failures under the validator's `normalizeEmail` rewrite, so the check never reads the entry the failures fill | repeated wrong passwords for `ab@gmail.com` sent as `ab+1@gmail.com`, `ab+2@gmail.com`, ...: every failure counts against `ab@gmail.com`, no attempt gets 429 | the check and the failure count share one key, so five failures lock every alias of the account | high, not executed | `AuthProtocol.AliasesNeverLocked` (over `AuthProtocol.LoginRun`) | `AuthProtocol.KeyedLockStopsAliases` and `AuthProtocol.KeyedFailureCounts` (over `AuthProtocol.LoginRouteKeyed`) |

=== FILE: admin.dfy ===
/**
 * The admin controller: list, create and delete users, and set or clear the doctor and
 * nurse of a patient. Every handler first turns away anyone who is not an admin.
 * Deleting a user first removes or clears every row that refers to it.
 */
module AdminController {
  import opened Common
  import opened Schema
  import Js
  import Passwords
  import PatientModel
  import MedicationModel
  import TrackingModel
  import Fields
  import Encryption
  import AuthProtocol
  import Listing
  import UserController

  type Caller = UserController.Caller

  /** `!req.user || req.user.role !== 'admin'` is the opposite of this. */
  predicate IsAdmin(caller: Caller) {
    UserController.IsRole(caller, Admin)
  }

  // ---------------------------------------------------------------- listUsers

  /** A user row with the password column excluded; every other column is kept. */
  datatype UserView = UserView(
    id: nat,
    username: string,
    email: string,
    role: string,
    assignedNurseId: Option<nat>,
    twoFactorSecret: Option<string>,
    twoFactorEnabled: bool)

  /** `listUsers`: every user, each without its password. */
  function ListUsers(s: Store, caller: Caller): (r: Reply<map<nat, UserView>>)
    ensures !IsAdmin(caller) <==> r == Fail(403, "Forbidden")
    ensures r.Ok? ==> r.value.Keys == s.users.Keys
    ensures r.Ok? ==> forall k :: k in r.value ==>
      var u := s.users[k];
      r.value[k] == UserView(u.id, u.username, u.email, u.role, u.assignedNurseId, u.twoFactorSecret, u.twoFactorEnabled)
  {
    if !IsAdmin(caller) then Fail(403, "Forbidden")
    else
      Ok(200, map k | k in s.users ::
        UserView(s.users[k].id, s.users[k].username, s.users[k].email, s.users[k].role,
                 s.users[k].assignedNurseId, s.users[k].twoFactorSecret, s.users[k].twoFactorEnabled))
  }

  // ---------------------------------------------------------------- createUser

  datatype NewUser = NewUser(username: string, email: string, password: string, role: string)

  /** The reply of `createUser`: id, username, email and role of the new user. */
  datatype Created = Created(id: nat, username: string, email: string, role: string)

  /** Every user of the patient role has a patient row under its id. */
  predicate ProfilesComplete(s: Store) {
    forall u :: u in s.users && s.users[u].role == PatientRole ==> u in s.patients
  }

  /** The user row `createUser` writes, under the next id. */
  function NewUserRow(s: Store, body: NewUser, hash: string): User {
    User(s.nextId, body.username, Js.NormalizeEmail(body.email), hash, body.role, None, None, false)
  }

  /** Writes one new user row under the next id; nothing else changes. */
  function AddUser(s: Store, user: User): (r: Store)
    requires Wf(s) && user.id == s.nextId
    ensures Wf(r) && r.nextId == s.nextId + 1
    ensures r.users == s.users[user.id := user]
    ensures r == s.(users := r.users, nextId := r.nextId)
  {
    s.(users := s.users[user.id := user], nextId := user.id + 1)
  }

  /** Writes one new patient row under its own id; nothing else changes. */
  function AddPatient(s: Store, row: PatientModel.Patient): (r: Store)
    requires Wf(s) && row.id < s.nextId
    ensures Wf(r)
    ensures r.patients == s.patients[row.id := row]
    ensures r == s.(patients := r.patients)
  {
    s.(patients := s.patients[row.id := row])
  }

  /**
   * `createUser`, as written: the email is trimmed and lower-cased; a taken email is 409.
   * The user row is written first. For the patient role, `Patient.create` then runs the
   * model's hooks on a row named after the user, aged 0, with condition 'N/A'. Nothing
   * catches an error from either write: a taken username or a failing hook ends in 500.
   * In the second case the user row has already been written and stays.
   */
  function CreateUser(h: Passwords.Hasher, k: Fields.Keyring, s: Store, caller: Caller, body: NewUser,
                      salt: string, n1: Fields.Draw, n2: Fields.Draw)
    : (r: (Store, Reply<Created>))
    requires Wf(s)
    ensures Wf(r.0)
    ensures !IsAdmin(caller) ==> r == (s, Fail(403, "Forbidden"))
    ensures IsAdmin(caller) && UserByEmail(s, Js.NormalizeEmail(body.email)).Some? ==>
      r == (s, Fail(409, "Email already in use"))
    ensures r.1.Ok? <==>
      && IsAdmin(caller) && UserByEmail(s, Js.NormalizeEmail(body.email)).None?
      && UserWhere(s, UsernameColumn, body.username).None?
      && (body.role == PatientRole ==>
            PatientModel.Create(k, AuthProtocol.SignupPatientRow(s.nextId, body.username), n1, n2).Success?)
    ensures r.1.Ok? ==>
      && r.1 == Ok(201, Created(s.nextId, body.username, Js.NormalizeEmail(body.email), body.role))
      && r.0.users == s.users[s.nextId := NewUserRow(s, body, h.hash(body.password, Passwords.SaltRounds, salt))]
      && (body.role != PatientRole ==> r.0.patients == s.patients)
      && (body.role == PatientRole ==>
            r.0.patients == s.patients[s.nextId := PatientModel.Create(k, AuthProtocol.SignupPatientRow(s.nextId, body.username), n1, n2).value])
    ensures IsAdmin(caller) && UserByEmail(s, Js.NormalizeEmail(body.email)).None? && UserWhere(s, UsernameColumn, body.username).None?
            && body.role == PatientRole
            && PatientModel.Create(k, AuthProtocol.SignupPatientRow(s.nextId, body.username), n1, n2).Failure? ==>
      r == (AddUser(s, NewUserRow(s, body, h.hash(body.password, Passwords.SaltRounds, salt))), Fail(500, InternalError))
  {
    if !IsAdmin(caller) then (s, Fail(403, "Forbidden"))
    else
      var email := Js.NormalizeEmail(body.email);
      if UserByEmail(s, email).Some? then (s, Fail(409, "Email already in use"))
      else if UserWhere(s, UsernameColumn, body.username).Some? then (s, Fail(500, InternalError))
      else
        var user := NewUserRow(s, body, h.hash(body.password, Passwords.SaltRounds, salt));
        var s1 := AddUser(s, user);
        var reply := Created(user.id, user.username, user.email, user.role);
        if body.role != PatientRole then (s1, Ok(201, reply))
        else
          match PatientModel.Create(k, AuthProtocol.SignupPatientRow(user.id, body.username), n1, n2)
          case Failure(_) => (s1, Fail(500, InternalError))
          case Success(row) => (AddPatient(s1, row), Ok(201, reply))
  }

  /**
   * As written, a production server without an encryption key answers 500 to the creation
   * of a patient and still keeps the new user row, which has no patient row.
   */
  lemma KeylessCreateOrphansUser(h: Passwords.Hasher, k: Fields.Keyring, s: Store, caller: Caller, body: NewUser,
                                 salt: string, n1: Fields.Draw, n2: Fields.Draw)
    requires Wf(s) && Encryption.Lawful(k.c)
    requires k.env.production && !Truthy(k.env.encryptionKey)
    requires IsAdmin(caller) && body.role == PatientRole
    requires body.username != "" && !Fields.IsEncrypted(k, body.username)
    requires UserByEmail(s, Js.NormalizeEmail(body.email)).None? && UserWhere(s, UsernameColumn, body.username).None?
    ensures CreateUser(h, k, s, caller, body, salt, n1, n2).1 == Fail(500, InternalError)
    ensures s.nextId in CreateUser(h, k, s, caller, body, salt, n1, n2).0.users
    ensures s.nextId !in CreateUser(h, k, s, caller, body, salt, n1, n2).0.patients
    ensures !ProfilesComplete(CreateUser(h, k, s, caller, body, salt, n1, n2).0)
  {
    KeylessProfileFails(k, s.nextId, body.username, n1, n2);
    var s1 := AddUser(s, NewUserRow(s, body, h.hash(body.password, Passwords.SaltRounds, salt)));
    assert CreateUser(h, k, s, caller, body, salt, n1, n2).0 == s1;
    assert s1.users[s.nextId].role == PatientRole && s.nextId !in s1.patients;
  }

  /** In production without a key, the hooks cannot seal the name of a new patient row. */
  lemma KeylessProfileFails(k: Fields.Keyring, id: nat, name: string, n1: Fields.Draw, n2: Fields.Draw)
    requires Encryption.Lawful(k.c)
    requires k.env.production && !Truthy(k.env.encryptionKey)
    requires name != "" && !Fields.IsEncrypted(k, name)
    ensures PatientModel.Create(k, AuthProtocol.SignupPatientRow(id, name), n1, n2).Failure?
  {
    Encryption.EncryptOutcome(k.env, k.c, name, n1.iv, n1.salt);
  }

  /**
   * `createUser` with the two writes in one transaction: when anything fails, the store is
   * left as it was and the reply is the same.
   */
  function CreateUserAtomic(h: Passwords.Hasher, k: Fields.Keyring, s: Store, caller: Caller, body: NewUser,
                            salt: string, n1: Fields.Draw, n2: Fields.Draw)
    : (r: (Store, Reply<Created>))
    requires Wf(s)
    ensures Wf(r.0)
    ensures r.1 == CreateUser(h, k, s, caller, body, salt, n1, n2).1
    ensures r.1.Fail? ==> r.0 == s
    ensures r.1.Ok? ==> r.0 == CreateUser(h, k, s, caller, body, salt, n1, n2).0
  {
    var w := CreateUser(h, k, s, caller, body, salt, n1, n2);
    if w.1.Fail? then (s, w.1) else w
  }

  /** With the transaction, creating a user never leaves a patient-role user without its patient row. */
  lemma CreateUserAtomicKeepsProfiles(h: Passwords.Hasher, k: Fields.Keyring, s: Store, caller: Caller, body: NewUser,
                                      salt: string, n1: Fields.Draw, n2: Fields.Draw)
    requires Wf(s) && ProfilesComplete(s)
    ensures ProfilesComplete(CreateUserAtomic(h, k, s, caller, body, salt, n1, n2).0)
  {
    var r := CreateUserAtomic(h, k, s, caller, body, salt, n1, n2);
    if r.1.Ok? {
      forall u | u in r.0.users && r.0.users[u].role == PatientRole
        ensures u in r.0.patients
      {
        if u != s.nextId {
          assert u in s.users && s.users[u].role == PatientRole;
        }
      }
    }
  }

  // ---------------------------------------------------------------- deleteUser

  /** Steps 1 and 2 of the cascade: every patient's doctor and nurse reference to `uid` set to null. */
  function ClearStaff(m: map<nat, PatientModel.Patient>, uid: nat): (r: map<nat, PatientModel.Patient>)
    ensures r.Keys == m.Keys
    ensures forall k :: k in r ==> r[k].assignedDoctorId != Some(uid) && r[k].assignedNurseId != Some(uid)
    ensures forall k :: k in r ==>
      && r[k].(assignedDoctorId := m[k].assignedDoctorId, assignedNurseId := m[k].assignedNurseId) == m[k]
      && (m[k].assignedDoctorId != Some(uid) ==> r[k].assignedDoctorId == m[k].assignedDoctorId)
      && (m[k].assignedNurseId != Some(uid) ==> r[k].assignedNurseId == m[k].assignedNurseId)
  {
    map k | k in m ::
      m[k].(assignedDoctorId := if m[k].assignedDoctorId == Some(uid) then None else m[k].assignedDoctorId,
            assignedNurseId := if m[k].assignedNurseId == Some(uid) then None else m[k].assignedNurseId)
  }

  /** Step 3: every user's nurse reference to `uid` set to null. */
  function ClearUserNurse(m: map<nat, User>, uid: nat): (r: map<nat, User>)
    ensures r.Keys == m.Keys
    ensures forall k :: k in r ==> r[k].assignedNurseId != Some(uid)
    ensures forall k :: k in r ==>
      && r[k].(assignedNurseId := m[k].assignedNurseId) == m[k]
      && (m[k].assignedNurseId != Some(uid) ==> r[k] == m[k])
  {
    map k | k in m :: if m[k].assignedNurseId == Some(uid) then m[k].(assignedNurseId := None) else m[k]
  }

  /**
   * The writes of `deleteUser` once the user is found: staff references cleared, the
   * user's appointments and diagnoses as doctor removed, the medications it prescribed
   * and the trackings it recorded removed, for a patient its own medications and patient
   * row removed, then its refresh and reset tokens and finally the user row. Login codes,
   * and for a patient its appointments and diagnoses, are not touched.
   */
  function Cascade(s: Store, uid: nat, isPatient: bool): (r: Store)
    ensures Wf(s) ==> Wf(r)
    ensures uid !in r.users && r.users.Keys == s.users.Keys - {uid}
    ensures forall k :: k in r.users ==> r.users[k].assignedNurseId != Some(uid)
    ensures forall k :: k in r.patients ==>
      r.patients[k].assignedDoctorId != Some(uid) && r.patients[k].assignedNurseId != Some(uid)
    ensures isPatient ==> uid !in r.patients
    ensures r.patients.Keys == if isPatient then s.patients.Keys - {uid} else s.patients.Keys
    ensures forall k :: k in r.appointments ==> r.appointments[k].doctorId != uid
    ensures forall k :: k in s.appointments && s.appointments[k].doctorId != uid ==>
      k in r.appointments && r.appointments[k] == s.appointments[k]
    ensures forall k :: k in r.diagnoses ==> r.diagnoses[k].doctorId != uid
    ensures forall k :: k in s.diagnoses && s.diagnoses[k].doctorId != uid ==>
      k in r.diagnoses && r.diagnoses[k] == s.diagnoses[k]
    ensures forall k :: k in r.medications ==>
      r.medications[k].prescribedBy != uid && (isPatient ==> r.medications[k].patientId != uid)
    ensures forall k :: k in r.trackings ==> r.trackings[k].trackedBy != uid
    ensures forall k :: k in r.refreshTokens ==> r.refreshTokens[k].userId != uid
    ensures forall k :: k in r.resetTokens ==> r.resetTokens[k].userId != uid
    ensures r.loginOtps == s.loginOtps && r.nextId == s.nextId
  {
    var patients := ClearStaff(s.patients, uid);
    s.(users := ClearUserNurse(s.users, uid) - {uid},
       patients := if isPatient then patients - {uid} else patients,
       appointments := Listing.Keep(s.appointments, (a: Appointment) => a.doctorId != uid),
       diagnoses := Listing.Keep(s.diagnoses, (d: Diagnosis) => d.doctorId != uid),
       medications := Listing.Keep(s.medications, (m: MedicationModel.Medication) => m.prescribedBy != uid && !(isPatient && m.patientId == uid)),
       trackings := Listing.Keep(s.trackings, (t: TrackingModel.Tracking) => t.trackedBy != uid),
       refreshTokens := Listing.Keep(s.refreshTokens, (t: RefreshRecord) => t.userId != uid),
       resetTokens := Listing.Keep(s.resetTokens, (t: ResetToken) => t.userId != uid))
  }

  /** The id `deleteUser` reads from the path names an existing user. */
  predicate UserAt(s: Store, id: Option<int>) {
    id.Some? && id.value >= 0 && id.value as nat in s.users
  }

  /**
   * `deleteUser`: an admin may delete anyone but themselves; an unknown id is 404. A path id
   * that `parseInt` reads as NaN reaches `findByPk(NaN)`, whose query fails and is answered
   * 500.
   */
  function DeleteUser(s: Store, caller: Caller, id: string): (r: (Store, Reply<string>))
    requires Wf(s)
    ensures Wf(r.0)
    ensures r.1.Fail? ==> r.0 == s
    ensures !IsAdmin(caller) ==> r.1 == Fail(403, "Forbidden")
    ensures IsAdmin(caller) && Js.ParseInt(id) == Some(caller.value.id as int) ==> r.1 == Fail(400, "Cannot delete yourself")
    ensures IsAdmin(caller) && Js.ParseInt(id).None? ==> r.1 == Fail(500, InternalError)
    ensures IsAdmin(caller) && Js.ParseInt(id).Some? && Js.ParseInt(id) != Some(caller.value.id as int)
            && !UserAt(s, Js.ParseInt(id)) ==>
      r.1 == Fail(404, "User not found")
    ensures r.1.Ok? <==> IsAdmin(caller) && Js.ParseInt(id) != Some(caller.value.id as int) && UserAt(s, Js.ParseInt(id))
    ensures r.1.Ok? ==>
      var uid := Js.ParseInt(id).value as nat;
      r.0 == Cascade(s, uid, s.users[uid].role == PatientRole)
  {
    if !IsAdmin(caller) then (s, Fail(403, "Forbidden"))
    else
      var userId := Js.ParseInt(id);
      if userId == Some(caller.value.id as int) then (s, Fail(400, "Cannot delete yourself"))
      else if userId.None? then (s, Fail(500, InternalError))
      else if !UserAt(s, userId) then (s, Fail(404, "User not found"))
      else
        var uid := userId.value as nat;
        (Cascade(s, uid, s.users[uid].role == PatientRole), Ok(200, "User deleted successfully"))
  }

  /** An admin can never delete their own account, whichever way the id is written. */
  lemma AdminCannotDeleteSelf(s: Store, caller: Caller, id: string)
    requires Wf(s) && IsAdmin(caller)
    requires Js.ParseInt(id) == Some(caller.value.id as int)
    ensures DeleteUser(s, caller, id) == (s, Fail(400, "Cannot delete yourself"))
  {
  }

  /** Deleting a user keeps every remaining patient-role user's patient row. */
  lemma DeleteUserKeepsProfiles(s: Store, caller: Caller, id: string)
    requires Wf(s) && ProfilesComplete(s)
    ensures ProfilesComplete(DeleteUser(s, caller, id).0)
  {
    var r := DeleteUser(s, caller, id);
    if r.1.Ok? {
      var uid := Js.ParseInt(id).value as nat;
      forall u | u in r.0.users && r.0.users[u].role == PatientRole
        ensures u in r.0.patients
      {
        assert u != uid && u in s.users;
        assert s.users[u].role == PatientRole;
      }
    }
  }

  /**
   * The cascade removes a deleted patient's medications but not its appointments with
   * other doctors: those rows remain and still name the deleted id.
   */
  lemma DeletedPatientKeepsAppointments(s: Store, caller: Caller, id: string, a: nat)
    requires Wf(s)
    requires DeleteUser(s, caller, id).1.Ok?
    requires a in s.appointments && s.appointments[a].patientId == Js.ParseInt(id).value
    requires s.appointments[a].doctorId != Js.ParseInt(id).value
    ensures a in DeleteUser(s, caller, id).0.appointments
    ensures DeleteUser(s, caller, id).0.appointments[a].patientId !in DeleteUser(s, caller, id).0.users
  {
  }

  // ---------------------------------------------------------------- assignments

  /** Writes one patient's assigned doctor; nothing else changes. */
  function SetPatientDoctor(s: Store, pid: nat, doctor: Option<nat>): (r: Store)
    requires pid in s.patients
    ensures Wf(s) ==> Wf(r)
    ensures r.patients == s.patients[pid := s.patients[pid].(assignedDoctorId := doctor)]
    ensures r == s.(patients := r.patients)
  {
    s.(patients := s.patients[pid := s.patients[pid].(assignedDoctorId := doctor)])
  }

  const InvalidDoctorId := "Invalid doctorId: doctorId is required and must be a number"

  /**
   * `assignDoctorToPatient`: `doctorId` is the body's number (`None` for a missing or
   * non-numeric value). Zero counts as missing. The doctor is checked before the path's
   * patient id is parsed. As in every assignment handler, the update reports only the
   * assignment column as changed, so name and condition stay as stored, and the reply is
   * the found instance, decrypted by the find hook, with the new value.
   */
  function AssignDoctorToPatient(k: Fields.Keyring, s: Store, caller: Caller, patientId: string, doctorId: Option<int>)
    : (r: (Store, Reply<PatientModel.Patient>))
    ensures r.1.Fail? ==> r.0 == s
    ensures !IsAdmin(caller) ==> r.1 == Fail(403, "Forbidden")
    ensures IsAdmin(caller) && (doctorId.None? || doctorId == Some(0)) ==> r.1 == Fail(400, InvalidDoctorId)
    ensures IsAdmin(caller) && doctorId.Some? && doctorId.value != 0 && !UserAt(s, doctorId) ==>
      r.1 == Fail(404, "Doctor with ID " + Js.IntText(doctorId.value) + " not found")
    ensures IsAdmin(caller) && doctorId.Some? && doctorId.value != 0 && UserAt(s, doctorId)
            && s.users[doctorId.value as nat].role != Doctor ==>
      r.1.Fail? && r.1.status == 400
    ensures IsAdmin(caller) && doctorId.Some? && doctorId.value > 0 && HasRole(s, doctorId.value as nat, Doctor)
            && Js.ParseInt(patientId).None? ==>
      r.1 == Fail(400, "Invalid patientId: must be a number")
    ensures r.1.Ok? <==>
      && IsAdmin(caller) && doctorId.Some? && doctorId.value > 0 && HasRole(s, doctorId.value as nat, Doctor)
      && UserController.PatientAt(s, Js.ParseInt(patientId))
    ensures r.1.Ok? ==>
      var pid := Js.ParseInt(patientId).value as nat;
      r.0 == SetPatientDoctor(s, pid, Some(doctorId.value as nat)) && r.1.value == PatientModel.RevealPatient(k, r.0.patients[pid])
      && r.1.value.name == Fields.Reveal(k, s.patients[pid].name)
  {
    if !IsAdmin(caller) then (s, Fail(403, "Forbidden"))
    else if doctorId.None? || doctorId.value == 0 then (s, Fail(400, InvalidDoctorId))
    else if !UserAt(s, doctorId) then (s, Fail(404, "Doctor with ID " + Js.IntText(doctorId.value) + " not found"))
    else
      var doctor := s.users[doctorId.value as nat];
      if doctor.role != Doctor then
        (s, Fail(400, "User with ID " + Js.IntText(doctorId.value) + " is not a doctor (role: " + doctor.role + ")"))
      else
        var pidNum := Js.ParseInt(patientId);
        if pidNum.None? then (s, Fail(400, "Invalid patientId: must be a number"))
        else if !UserController.PatientAt(s, pidNum) then
          (s, Fail(404, "Patient with ID " + Js.IntText(pidNum.value) + " not found"))
        else
          var pid := pidNum.value as nat;
          var s2 := SetPatientDoctor(s, pid, Some(doctorId.value as nat));
          (s2, Ok(200, PatientModel.RevealPatient(k, s2.patients[pid])))
  }

  /**
   * `assignNurseToPatient`: the nurse must exist with the nurse role (400), then the patient
   * (404); the reply is decrypted. The route has no validator, so a `patientId` that
   * `parseInt` reads as NaN reaches `findByPk(NaN)`, whose query fails and is answered 500.
   */
  function AssignNurseToPatient(k: Fields.Keyring, s: Store, caller: Caller, patientId: string, nurseId: Option<int>)
    : (r: (Store, Reply<PatientModel.Patient>))
    ensures r.1.Fail? ==> r.0 == s
    ensures !IsAdmin(caller) ==> r.1 == Fail(403, "Forbidden")
    ensures IsAdmin(caller) && !UserController.NurseAt(s, nurseId) ==> r.1 == Fail(400, "Invalid nurseId")
    ensures IsAdmin(caller) && UserController.NurseAt(s, nurseId) && Js.ParseInt(patientId).None? ==>
      r.1 == Fail(500, InternalError)
    ensures IsAdmin(caller) && UserController.NurseAt(s, nurseId) && Js.ParseInt(patientId).Some?
            && !UserController.PatientAt(s, Js.ParseInt(patientId)) ==>
      r.1 == Fail(404, "Patient not found")
    ensures r.1.Ok? <==>
      IsAdmin(caller) && UserController.NurseAt(s, nurseId) && UserController.PatientAt(s, Js.ParseInt(patientId))
    ensures r.1.Ok? ==>
      var pid := Js.ParseInt(patientId).value as nat;
      r.0 == UserController.SetPatientNurse(s, pid, Some(nurseId.value as nat)) && r.1.value == PatientModel.RevealPatient(k, r.0.patients[pid])
      && r.1.value.name == Fields.Reveal(k, s.patients[pid].name)
  {
    if !IsAdmin(caller) then (s, Fail(403, "Forbidden"))
    else if !UserController.NurseAt(s, nurseId) then (s, Fail(400, "Invalid nurseId"))
    else
      var pidNum := Js.ParseInt(patientId);
      if pidNum.None? then (s, Fail(500, InternalError))
      else if !UserController.PatientAt(s, pidNum) then (s, Fail(404, "Patient not found"))
      else
        var pid := pidNum.value as nat;
        var s2 := UserController.SetPatientNurse(s, pid, Some(nurseId.value as nat));
        (s2, Ok(200, PatientModel.RevealPatient(k, s2.patients[pid])))
  }

  /**
   * `removeDoctorFromPatient`: the patient's doctor set to null and nothing else; the reply is
   * decrypted. A `patientId` that `parseInt` reads as NaN fails the query: 500.
   */
  function RemoveDoctorFromPatient(k: Fields.Keyring, s: Store, caller: Caller, patientId: string): (r: (Store, Reply<PatientModel.Patient>))
    ensures r.1.Fail? ==> r.0 == s
    ensures !IsAdmin(caller) ==> r.1 == Fail(403, "Forbidden")
    ensures IsAdmin(caller) && Js.ParseInt(patientId).None? ==> r.1 == Fail(500, InternalError)
    ensures IsAdmin(caller) && Js.ParseInt(patientId).Some? && !UserController.PatientAt(s, Js.ParseInt(patientId)) ==>
      r.1 == Fail(404, "Patient not found")
    ensures r.1.Ok? <==> IsAdmin(caller) && UserController.PatientAt(s, Js.ParseInt(patientId))
    ensures r.1.Ok? ==>
      var pid := Js.ParseInt(patientId).value as nat;
      r.0 == SetPatientDoctor(s, pid, None) && r.1.value == PatientModel.RevealPatient(k, r.0.patients[pid])
      && r.1.value.name == Fields.Reveal(k, s.patients[pid].name)
  {
    if !IsAdmin(caller) then (s, Fail(403, "Forbidden"))
    else
      var pidNum := Js.ParseInt(patientId);
      if pidNum.None? then (s, Fail(500, InternalError))
      else if !UserController.PatientAt(s, pidNum) then (s, Fail(404, "Patient not found"))
      else
        var s2 := SetPatientDoctor(s, pidNum.value as nat, None);
        (s2, Ok(200, PatientModel.RevealPatient(k, s2.patients[pidNum.value as nat])))
  }

  /**
   * `removeNurseFromPatient`: the patient's nurse set to null and nothing else; the reply is
   * decrypted. A `patientId` that `parseInt` reads as NaN fails the query: 500.
   */
  function RemoveNurseFromPatient(k: Fields.Keyring, s: Store, caller: Caller, patientId: string): (r: (Store, Reply<PatientModel.Patient>))
    ensures r.1.Fail? ==> r.0 == s
    ensures !IsAdmin(caller) ==> r.1 == Fail(403, "Forbidden")
    ensures IsAdmin(caller) && Js.ParseInt(patientId).None? ==> r.1 == Fail(500, InternalError)
    ensures IsAdmin(caller) && Js.ParseInt(patientId).Some? && !UserController.PatientAt(s, Js.ParseInt(patientId)) ==>
      r.1 == Fail(404, "Patient not found")
    ensures r.1.Ok? <==> IsAdmin(caller) && UserController.PatientAt(s, Js.ParseInt(patientId))
    ensures r.1.Ok? ==>
      var pid := Js.ParseInt(patientId).value as nat;
      r.0 == UserController.SetPatientNurse(s, pid, None) && r.1.value == PatientModel.RevealPatient(k, r.0.patients[pid])
      && r.1.value.name == Fields.Reveal(k, s.patients[pid].name)
  {
    if !IsAdmin(caller) then (s, Fail(403, "Forbidden"))
    else
      var pidNum := Js.ParseInt(patientId);
      if pidNum.None? then (s, Fail(500, InternalError))
      else if !UserController.PatientAt(s, pidNum) then (s, Fail(404, "Patient not found"))
      else
        var s2 := UserController.SetPatientNurse(s, pidNum.value as nat, None);
        (s2, Ok(200, PatientModel.RevealPatient(k, s2.patients[pidNum.value as nat])))
  }

  /** Assigning a doctor and then removing it leaves the patient with no doctor and every other row as before. */
  lemma AssignThenRemoveDoctor(k: Fields.Keyring, s: Store, caller: Caller, patientId: string, doctorId: Option<int>)
    requires AssignDoctorToPatient(k, s, caller, patientId, doctorId).1.Ok?
    ensures RemoveDoctorFromPatient(k, AssignDoctorToPatient(k, s, caller, patientId, doctorId).0, caller, patientId).0
            == SetPatientDoctor(s, Js.ParseInt(patientId).value as nat, None)
  {
    var pid := Js.ParseInt(patientId).value as nat;
    var s1 := SetPatientDoctor(s, pid, Some(doctorId.value as nat));
    assert UserController.PatientAt(s1, Js.ParseInt(patientId));
    assert SetPatientDoctor(s1, pid, None).patients == SetPatientDoctor(s, pid, None).patients;
  }
}

=== FILE: app_policy.dfy ===
/**
 * The application-wide policies set up when the server starts: which browser origins
 * may call the API with credentials, the production redirect to HTTPS and the final
 * error handler's status and message.
 */
module AppPolicy {
  import opened Common
  import Js

  // ---- Allowed origins ----

  /** The four front-end origins that are always allowed. */
  const DefaultOrigins: seq<string> := ["http://localhost:4200", "http://127.0.0.1:4200", "https://localhost:4200", "https://127.0.0.1:4200"]

  /** `CORS_ORIGINS || FRONTEND_ORIGIN || ''`: the first variable that is set and not empty. */
  function OriginSource(corsOrigins: Option<string>, frontendOrigin: Option<string>): (r: string)
    ensures Truthy(corsOrigins) ==> r == corsOrigins.value
    ensures !Truthy(corsOrigins) && Truthy(frontendOrigin) ==> r == frontendOrigin.value
    ensures !Truthy(corsOrigins) && !Truthy(frontendOrigin) ==> r == ""
  {
    if Truthy(corsOrigins) then corsOrigins.value
    else if Truthy(frontendOrigin) then frontendOrigin.value
    else ""
  }

  /** `.map((s) => s.trim()).filter(Boolean)`: each field trimmed, the empty ones dropped. */
  function Entries(fields: seq<string>): (r: seq<string>)
    ensures forall x | x in r :: x != "" && Js.Trim(x) == x
    ensures forall x | x in r :: exists f | f in fields :: Js.Trim(f) == x
    ensures forall f | f in fields && Js.Trim(f) != "" :: Js.Trim(f) in r
  {
    if fields == [] then []
    else
      var t := Js.Trim(fields[0]);
      var rest := Entries(fields[1..]);
      Js.TrimIdempotent(fields[0]);
      assert forall f | f in fields[1..] :: f in fields;
      assert forall f | f in fields :: f == fields[0] || f in fields[1..];
      if t == "" then rest else [t] + rest
  }

  /** A character that no field holds is in no entry. */
  lemma {:induction false} EntriesAvoid(fields: seq<string>, c: char)
    requires forall f | f in fields :: c !in f
    ensures forall x | x in Entries(fields) :: c !in x
  {
    if fields != [] {
      Js.TrimKeepsOut(fields[0], c);
      assert forall f | f in fields[1..] :: f in fields;
      EntriesAvoid(fields[1..], c);
    }
  }

  /** The configured origins: the source split on commas, trimmed, empty entries dropped. */
  function ConfiguredOrigins(corsOrigins: Option<string>, frontendOrigin: Option<string>): (r: seq<string>)
    ensures forall x | x in r :: x != "" && ',' !in x && Js.Trim(x) == x
  {
    var fields := Js.Split(OriginSource(corsOrigins, frontendOrigin), ',');
    EntriesAvoid(fields, ',');
    Entries(fields)
  }

  /** `allowedOrigins`: the defaults together with the configured list. */
  function AllowedOrigins(corsOrigins: Option<string>, frontendOrigin: Option<string>): (r: set<string>)
    ensures "" !in r
    ensures forall d | d in DefaultOrigins :: d in r
    ensures forall o | o in r :: o in DefaultOrigins || o in ConfiguredOrigins(corsOrigins, frontendOrigin)
    ensures forall o | o in ConfiguredOrigins(corsOrigins, frontendOrigin) :: o in r
  {
    var configured := ConfiguredOrigins(corsOrigins, frontendOrigin);
    assert forall d | d in DefaultOrigins :: |d| > 0;
    (set d | d in DefaultOrigins) + (set o | o in configured)
  }

  /** With neither variable set, only the four defaults are listed. */
  lemma UnconfiguredIsDefaults(corsOrigins: Option<string>, frontendOrigin: Option<string>)
    requires !Truthy(corsOrigins) && !Truthy(frontendOrigin)
    ensures AllowedOrigins(corsOrigins, frontendOrigin) == set d | d in DefaultOrigins
  {
    assert Js.Split("", ',') == [""];
    assert Js.Trim("") == "";
  }

  /** Every non-blank comma-separated field of the configuration is allowed, without its padding. */
  lemma ConfiguredFieldAllowed(corsOrigins: Option<string>, frontendOrigin: Option<string>, i: nat)
    requires i < |Js.Split(OriginSource(corsOrigins, frontendOrigin), ',')|
    requires Js.Trim(Js.Split(OriginSource(corsOrigins, frontendOrigin), ',')[i]) != ""
    ensures Js.Trim(Js.Split(OriginSource(corsOrigins, frontendOrigin), ',')[i]) in AllowedOrigins(corsOrigins, frontendOrigin)
  {
  }

  // ---- The loopback pattern ----

  /** `\d{2,5}$`: two to five decimal digits and nothing after them. */
  predicate PortDigits(p: string) {
    2 <= |p| <= 5 && forall i | 0 <= i < |p| :: Js.IsDigit(p[i])
  }

  /** `(localhost|127\.0\.0\.1):\d{2,5}$` from index `j` of `l`. */
  predicate HostPort(l: string, j: nat) {
    && j + 9 < |l|
    && (l[j..j + 9] == "localhost" || l[j..j + 9] == "127.0.0.1")
    && l[j + 9] == ':'
    && PortDigits(l[j + 10..])
  }

  /** `^https?:\/\/(localhost|127\.0\.0\.1):\d{2,5}$` on a string already in lower case. */
  predicate LoopbackShape(l: string) {
    (Js.StartsWith(l, "http://") && HostPort(l, 7)) || (Js.StartsWith(l, "https://") && HostPort(l, 8))
  }

  /**
   * What `/^https?:\/\/(localhost|127\.0\.0\.1):\d{2,5}$/i` accepts: the flag `i` compares
   * letters without regard to case, which is matching the lower-case form.
   */
  predicate LoopbackPattern(origin: string) {
    LoopbackShape(Js.ToLower(origin))
  }

  /** The pattern ignores case: an origin and its lower-case form are accepted together. */
  lemma LoopbackIgnoresCase(origin: string)
    ensures LoopbackPattern(origin) <==> LoopbackPattern(Js.ToLower(origin))
  {
    Js.ToLowerIdempotent(origin);
  }

  /** A lower-case string the pattern accepts is 19 to 23 characters long, with no `@` and no `/` after the scheme. */
  lemma ShapeIsLocal(l: string)
    requires LoopbackShape(l)
    ensures 19 <= |l| <= 23
    ensures '@' !in l
    ensures forall i | 8 <= i < |l| :: l[i] != '/'
  {
    var j := if Js.StartsWith(l, "http://") then 7 else 8;
    if j == 7 {
      assert l[4] == "http://"[4] == ':';
      assert !Js.StartsWith(l, "https://");
    }
    assert HostPort(l, j);
    var scheme := l[..j];
    var host := l[j..j + 9];
    assert '@' !in scheme && '@' !in host && '/' !in host;
    assert j == 8 ==> scheme[7] == '/';
    forall i | 0 <= i < |l|
      ensures l[i] != '@'
      ensures i >= 8 ==> l[i] != '/'
    {
      if i < j {
        assert l[i] == scheme[i];
      } else if i < j + 9 {
        assert l[i] == host[i - j];
      } else if i > j + 9 {
        assert l[i] == l[j + 10..][i - j - 10];
      }
    }
  }

  /**
   * An origin the pattern accepts is 19 to 23 characters long and carries no `@` and no `/`
   * after the scheme: the host it names can only be the loopback host itself.
   */
  lemma LoopbackIsLocal(origin: string)
    requires LoopbackPattern(origin)
    ensures 19 <= |origin| <= 23
    ensures '@' !in origin
    ensures forall i | 8 <= i < |origin| :: origin[i] != '/'
  {
    var l := Js.ToLower(origin);
    ShapeIsLocal(l);
    forall i | 0 <= i < |origin|
      ensures origin[i] != '@'
      ensures i >= 8 ==> origin[i] != '/'
    {
      assert l[i] == Js.LowerChar(origin[i]);
    }
  }

  /** The pattern in practice: both loopback hosts on a port, nothing shorter and nothing longer. */
  lemma LoopbackExamples()
    ensures LoopbackPattern("http://localhost:4200")
    ensures LoopbackPattern("https://127.0.0.1:65535")
    ensures !LoopbackPattern("http://localhost:4200.evil.example")
    ensures !LoopbackPattern("http://localhost:8")
    ensures !LoopbackPattern("http://localhost")
  {
    LocalhostAccepted();
    LoopbackAddressAccepted();
    OutOfLength("http://localhost:4200.evil.example");
    OutOfLength("http://localhost:8");
    OutOfLength("http://localhost");
  }

  lemma LocalhostAccepted()
    ensures LoopbackPattern("http://localhost:4200")
  {
    LocalhostLower();
    LocalhostParts();
  }

  lemma LocalhostLower()
    ensures Js.ToLower("http://localhost:4200") == "http://localhost:4200"
  {
    Js.LowerOfLower("http://localhost:4200");
  }

  lemma LocalhostParts()
    ensures Js.StartsWith("http://localhost:4200", "http://") && HostPort("http://localhost:4200", 7)
  {
    var a := "http://localhost:4200";
    assert a[..7] == "http://";
    assert a[7..16] == "localhost" by {
      assert forall i | 0 <= i < 9 :: a[7 + i] == "localhost"[i];
    }
    assert a[17..] == "4200";
  }

  lemma LoopbackAddressAccepted()
    ensures LoopbackPattern("https://127.0.0.1:65535")
  {
    LoopbackAddressLower();
    LoopbackAddressParts();
  }

  lemma LoopbackAddressLower()
    ensures Js.ToLower("https://127.0.0.1:65535") == "https://127.0.0.1:65535"
  {
    Js.LowerOfLower("https://127.0.0.1:65535");
  }

  lemma LoopbackAddressParts()
    ensures Js.StartsWith("https://127.0.0.1:65535", "https://") && HostPort("https://127.0.0.1:65535", 8)
  {
    var b := "https://127.0.0.1:65535";
    assert b[..8] == "https://";
    assert b[8..17] == "127.0.0.1" by {
      assert forall i | 0 <= i < 9 :: b[8 + i] == "127.0.0.1"[i];
    }
    assert b[18..] == "65535";
  }

  lemma OutOfLength(origin: string)
    requires |origin| < 19 || |origin| > 23
    ensures !LoopbackPattern(origin)
  {
    if LoopbackPattern(origin) {
      LoopbackIsLocal(origin);
    }
  }

  // ---- The origin callback ----

  /** `callback(null, true)` or `callback(new Error('Not allowed by CORS'))`. */
  datatype CorsDecision = Allow | Deny(error: string)

  const CorsError := "Not allowed by CORS"

  /**
   * The `origin` callback: a request without an `Origin` header (or with an empty one) is
   * allowed, so is a listed origin (compared exactly) and one the loopback pattern accepts;
   * anything else is refused with the CORS error.
   */
  function CheckOrigin(allowed: set<string>, origin: Option<string>): (r: CorsDecision)
    ensures r == Allow || r == Deny(CorsError)
    ensures r == Allow <==> !Truthy(origin) || origin.value in allowed || LoopbackPattern(origin.value)
  {
    if !Truthy(origin) then Allow
    else if origin.value in allowed then Allow
    else if LoopbackPattern(origin.value) then Allow
    else Deny(CorsError)
  }

  /**
   * A browser origin that is neither listed nor local is refused: with the server's own
   * list, any origin longer than the loopback pattern allows or carrying an `@`.
   */
  lemma ForeignOriginDenied(corsOrigins: Option<string>, frontendOrigin: Option<string>, origin: string)
    requires origin !in AllowedOrigins(corsOrigins, frontendOrigin)
    requires |origin| > 23 || '@' in origin
    ensures CheckOrigin(AllowedOrigins(corsOrigins, frontendOrigin), Some(origin)) == Deny(CorsError)
  {
    if LoopbackPattern(origin) {
      LoopbackIsLocal(origin);
    }
  }

  // ---- HTTPS enforcement ----

  /** What the production middleware does: let the request through or redirect it. */
  datatype Transport = Continue | Redirect(status: int, location: string)

  /** `${req.headers.host}`: an absent header prints as `undefined`. */
  function HostText(host: Option<string>): string {
    host.GetOr("undefined")
  }

  /**
   * Outside production nothing happens. In production a request that is not secure and not
   * forwarded with `x-forwarded-proto: https` is sent, with 301, to the same host and path over HTTPS.
   */
  function EnforceHttps(production: bool, forwardedProto: Option<string>, secure: bool, host: Option<string>, url: string): (r: Transport)
    ensures r.Redirect? <==> production && forwardedProto != Some("https") && !secure
    ensures r.Redirect? ==> r.status == 301 && Js.StartsWith(r.location, "https://")
    ensures r.Redirect? ==> r.location[8..] == HostText(host) + url
  {
    if production && forwardedProto != Some("https") && !secure then
      Redirect(301, "https://" + HostText(host) + url)
    else Continue
  }

  /** A redirected client that comes back over TLS, or through a proxy that says so, is let through. */
  lemma RedirectSettles(forwardedProto: Option<string>, secure: bool, host: Option<string>, url: string)
    requires EnforceHttps(true, forwardedProto, secure, host, url).Redirect?
    ensures EnforceHttps(true, forwardedProto, true, host, url) == Continue
    ensures EnforceHttps(true, Some("https"), secure, host, url) == Continue
  {
  }

  // ---- The error handler ----

  /** The final error handler's answer: status, `message` and whether the stack trace is included. */
  datatype ErrorReply = ErrorReply(status: int, message: string, withStack: bool)

  /**
   * An error whose message mentions `CORS` is answered with 403 and the message prefixed by
   * `CORS policy: `; every other error is a 500 whose message and stack are shown only
   * outside production.
   */
  function HandleError(production: bool, message: string): (r: ErrorReply)
    ensures r.status == 403 <==> Js.Contains(message, "CORS")
    ensures r.status == 403 || r.status == 500
    ensures r.status == 403 ==> r.message == "CORS policy: " + message && !r.withStack
    ensures r.status == 500 ==> r.withStack == !production
    ensures r.status == 500 ==> r.message == (if production then InternalError else message)
  {
    if Js.Contains(message, "CORS") then ErrorReply(403, "CORS policy: " + message, false)
    else ErrorReply(500, if production then InternalError else message, !production)
  }

  /** In production an internal error reveals neither its message nor its stack. */
  lemma ProductionHidesInternals(message: string)
    requires !Js.Contains(message, "CORS")
    ensures HandleError(true, message) == ErrorReply(500, InternalError, false)
  {
  }

  /** An origin the callback refuses reaches the client as a 403, never as a 500. */
  lemma DeniedOriginIs403(production: bool, allowed: set<string>, origin: Option<string>)
    requires CheckOrigin(allowed, origin).Deny?
    ensures HandleError(production, CheckOrigin(allowed, origin).error).status == 403
    ensures HandleError(production, CheckOrigin(allowed, origin).error).message == "CORS policy: " + CorsError
  {
    CorsErrorNamesCors();
  }

  lemma CorsErrorNamesCors()
    ensures Js.Contains(CorsError, "CORS")
  {
    assert CorsError[15..19] == "CORS";
    assert Js.OccursAt(CorsError, "CORS", 15);
  }
}

=== FILE: appointments.dfy ===
/**
 * The appointment controller: who may book, list, read, change and cancel appointments.
 * A patient books and cancels only its own; a doctor works on the appointments of the
 * patients assigned to it, whichever doctor the appointment names.
 */
module Appointments {
  import opened Common
  import opened Schema
  import Js
  import Sql
  import Listing
  import UserController

  type Caller = UserController.Caller

  const Pending := "pending"

  /** The caller's own patient row exists (`Patient.findOne({ where: { id: userId } })`). */
  predicate HasOwnRow(s: Store, caller: Caller) {
    caller.Some? && caller.value.id in s.patients
  }

  /** `User.findByPk(doctorId)` finds a user whose role is doctor. */
  predicate DoctorAt(s: Store, id: int) {
    id >= 0 && HasRole(s, id as nat, Doctor)
  }

  /** Writes one new appointment under the next id; nothing else changes. */
  function AddAppointment(s: Store, a: Appointment): (r: Store)
    requires Wf(s) && a.id == s.nextId
    ensures Wf(r) && r.nextId == s.nextId + 1
    ensures r.appointments == s.appointments[a.id := a]
    ensures r == s.(appointments := r.appointments, nextId := r.nextId)
  {
    s.(appointments := s.appointments[a.id := a], nextId := a.id + 1)
  }

  /**
   * `createAppointment`: a patient books only for itself (404 without its own row, 403 for
   * anyone else); the doctor must exist with the doctor role (400) and the patient must
   * exist (404). The new appointment is pending, and empty notes are stored as null.
   */
  function Create(s: Store, caller: Caller, patientId: int, doctorId: int, date: int, notes: Option<string>)
    : (r: (Store, Reply<Appointment>))
    requires Wf(s)
    ensures Wf(r.0)
    ensures r.1.Fail? ==> r.0 == s
    ensures caller.None? ==> r.1 == Fail(401, "Unauthorized")
    ensures UserController.IsRole(caller, PatientRole) && !HasOwnRow(s, caller) ==> r.1 == Fail(404, "Patient record not found")
    ensures UserController.IsRole(caller, PatientRole) && HasOwnRow(s, caller) && patientId != caller.value.id as int ==>
      r.1 == Fail(403, "Patients can only request appointments for themselves")
    ensures r.1.Ok? <==>
      && caller.Some?
      && (UserController.IsRole(caller, PatientRole) ==> HasOwnRow(s, caller) && patientId == caller.value.id as int)
      && DoctorAt(s, doctorId) && UserController.PatientAt(s, Some(patientId))
    ensures r.1.Ok? ==>
      && r.1.value == Appointment(s.nextId, patientId as nat, doctorId as nat, date, Pending, if Truthy(notes) then notes else None)
      && r.0 == AddAppointment(s, r.1.value)
  {
    if caller.None? then (s, Fail(401, "Unauthorized"))
    else if UserController.IsRole(caller, PatientRole) && !HasOwnRow(s, caller) then (s, Fail(404, "Patient record not found"))
    else if UserController.IsRole(caller, PatientRole) && patientId != caller.value.id as int then
      (s, Fail(403, "Patients can only request appointments for themselves"))
    else if !DoctorAt(s, doctorId) then (s, Fail(400, "Invalid doctor ID"))
    else if !UserController.PatientAt(s, Some(patientId)) then (s, Fail(404, "Patient not found"))
    else
      var a := Appointment(s.nextId, patientId as nat, doctorId as nat, date, Pending, if Truthy(notes) then notes else None);
      (AddAppointment(s, a), Ok(201, a))
  }

  /** A patient can never book an appointment for anyone else. */
  lemma PatientBooksForSelf(s: Store, caller: Caller, patientId: int, doctorId: int, date: int, notes: Option<string>)
    requires Wf(s) && UserController.IsRole(caller, PatientRole)
    requires Create(s, caller, patientId, doctorId, date, notes).1.Ok?
    ensures Create(s, caller, patientId, doctorId, date, notes).1.value.patientId == caller.value.id
  {
  }

  /** The appointment date of an id, as the rank `ORDER BY appointmentDate` sorts on. */
  function DateRank(s: Store): nat -> int {
    (k: nat) => if k in s.appointments then s.appointments[k].appointmentDate else 0
  }

  /**
   * `listAppointments`: a doctor gets the appointments of its assigned patients by
   * ascending date (none assigned: the empty list), a patient its own by descending
   * date (no row: the empty list), and any other role 403.
   */
  function List(s: Store, caller: Caller): (r: Reply<seq<nat>>)
    requires Wf(s)
    ensures caller.None? ==> r == Fail(401, "Unauthorized")
    ensures caller.Some? && !UserController.IsRole(caller, Doctor) && !UserController.IsRole(caller, PatientRole) ==>
      r == Fail(403, "Forbidden")
    ensures UserController.IsRole(caller, Doctor) ==>
      && r.Ok?
      && (forall k :: k in r.value <==> k in s.appointments && AssignedDoctor(s, s.appointments[k].patientId, caller.value.id))
      && Listing.SortedBy(r.value, DateRank(s), false)
    ensures UserController.IsRole(caller, PatientRole) ==>
      && r.Ok?
      && (forall k :: k in r.value <==>
            HasOwnRow(s, caller) && k in s.appointments && s.appointments[k].patientId == caller.value.id)
      && Listing.SortedBy(r.value, DateRank(s), true)
  {
    if caller.None? then Fail(401, "Unauthorized")
    else
      var uid := caller.value.id;
      if UserController.IsRole(caller, Doctor) then
        if PatientsOfDoctor(s, uid) == [] then Ok(200, [])
        else
          var ids := Listing.KeysWhere(s.appointments, (a: Appointment) => AssignedDoctor(s, a.patientId, uid), 0, s.nextId);
          Listing.SortByMembers(ids, DateRank(s), false);
          Ok(200, Listing.SortBy(ids, DateRank(s), false))
      else if UserController.IsRole(caller, PatientRole) then
        if uid !in s.patients then Ok(200, [])
        else
          var ids := Listing.KeysWhere(s.appointments, (a: Appointment) => a.patientId == uid, 0, s.nextId);
          Listing.SortByMembers(ids, DateRank(s), true);
          Ok(200, Listing.SortBy(ids, DateRank(s), true))
      else Fail(403, "Forbidden")
  }

  /**
   * The appointment `findByPk` finds for the raw path text: `Failure` when the text is no
   * integer literal and the query fails, otherwise the id if an appointment has it.
   */
  function AppointmentAt(s: Store, id: string): (r: Result<Option<nat>>)
    ensures r.Failure? <==> Sql.IntInput(id).None?
    ensures r.Success? && r.value.Some? ==> r.value.value in s.appointments && Sql.IntInput(id) == Some(r.value.value as int)
    ensures r.Success? && r.value.None? ==> forall a :: a in s.appointments ==> Sql.IntInput(id) != Some(a as int)
  {
    var key := Sql.IntInput(id);
    if key.None? then Failure(InternalError)
    else if key.value >= 0 && key.value as nat in s.appointments then Success(Some(key.value as nat))
    else Success(None)
  }

  /**
   * `getAppointment`: a doctor must be the appointment's doctor and the patient's
   * assigned doctor; a patient must own it. No other role is checked. A path id that is
   * no integer literal fails the query (500).
   */
  function Get(s: Store, caller: Caller, id: string): (r: Reply<Appointment>)
    ensures caller.None? ==> r == Fail(401, "Unauthorized")
    ensures caller.Some? && Sql.IntInput(id).None? ==> r == Fail(500, InternalError)
    ensures caller.Some? && AppointmentAt(s, id) == Success(None) ==> r == Fail(404, "Appointment not found")
    ensures r.Ok? ==> AppointmentAt(s, id).Success? && AppointmentAt(s, id).value.Some?
                      && r.value == s.appointments[AppointmentAt(s, id).value.value]
    ensures caller.Some? && AppointmentAt(s, id).Success? && AppointmentAt(s, id).value.Some? ==>
      var a := s.appointments[AppointmentAt(s, id).value.value];
      (r.Ok? <==>
         && (UserController.IsRole(caller, Doctor) ==>
               a.doctorId == caller.value.id && AssignedDoctor(s, a.patientId, caller.value.id))
         && (UserController.IsRole(caller, PatientRole) ==>
               HasOwnRow(s, caller) && a.patientId == caller.value.id))
    ensures r.Fail? && caller.Some? && AppointmentAt(s, id).Success? && AppointmentAt(s, id).value.Some? ==> r.status == 403
  {
    if caller.None? then Fail(401, "Unauthorized")
    else
      match AppointmentAt(s, id)
      case Failure(e) => Fail(500, e)
      case Success(None) => Fail(404, "Appointment not found")
      case Success(Some(k)) =>
        var a := s.appointments[k];
        var uid := caller.value.id;
        if UserController.IsRole(caller, Doctor) && a.doctorId != uid then Fail(403, "Forbidden")
        else if UserController.IsRole(caller, Doctor) && !AssignedDoctor(s, a.patientId, uid) then
          Fail(403, "Forbidden: Patient is not assigned to you")
        else if UserController.IsRole(caller, PatientRole) && (uid !in s.patients || a.patientId != uid) then Fail(403, "Forbidden")
        else Ok(200, a)
  }

  /** As written, a nurse or an admin reads any appointment, assigned or not. */
  lemma NurseReadsAnyAppointment(s: Store, caller: Caller, id: string)
    requires UserController.IsRole(caller, Nurse) || UserController.IsRole(caller, Admin)
    requires AppointmentAt(s, id).Success? && AppointmentAt(s, id).value.Some?
    ensures Get(s, caller, id) == Ok(200, s.appointments[AppointmentAt(s, id).value.value])
  {
  }

  /** The body of `updateAppointment`: a field is written only when it is supplied. */
  datatype Changes = Changes(status: Option<string>, date: Option<int>, notes: Option<Option<string>>)

  /** `appointment.update(updateData)`: truthy status, a given date, and notes unless undefined. */
  function Amend(a: Appointment, c: Changes): (b: Appointment)
    ensures b.id == a.id && b.patientId == a.patientId && b.doctorId == a.doctorId
    ensures b.status == if Truthy(c.status) then c.status.value else a.status
    ensures b.appointmentDate == if c.date.Some? then c.date.value else a.appointmentDate
    ensures b.notes == if c.notes.Some? then c.notes.value else a.notes
  {
    a.(status := if Truthy(c.status) then c.status.value else a.status,
       appointmentDate := if c.date.Some? then c.date.value else a.appointmentDate,
       notes := if c.notes.Some? then c.notes.value else a.notes)
  }

  /**
   * `updateAppointment`: 404 before the role check; only a doctor, and only for a patient
   * assigned to it, whichever doctor the appointment names.
   */
  function Update(s: Store, caller: Caller, id: nat, c: Changes): (r: (Store, Reply<Appointment>))
    requires Wf(s)
    ensures Wf(r.0)
    ensures r.1.Fail? ==> r.0 == s
    ensures caller.None? ==> r.1 == Fail(401, "Unauthorized")
    ensures caller.Some? && id !in s.appointments ==> r.1 == Fail(404, "Appointment not found")
    ensures caller.Some? && id in s.appointments && !UserController.IsRole(caller, Doctor) ==>
      r.1 == Fail(403, "Forbidden: Only doctors can update appointments")
    ensures r.1.Ok? <==>
      UserController.IsRole(caller, Doctor) && id in s.appointments
      && AssignedDoctor(s, s.appointments[id].patientId, caller.value.id)
    ensures r.1.Ok? ==>
      && r.0 == s.(appointments := s.appointments[id := Amend(s.appointments[id], c)])
      && r.1.value == r.0.appointments[id]
  {
    if caller.None? then (s, Fail(401, "Unauthorized"))
    else if id !in s.appointments then (s, Fail(404, "Appointment not found"))
    else if !UserController.IsRole(caller, Doctor) then (s, Fail(403, "Forbidden: Only doctors can update appointments"))
    else if !AssignedDoctor(s, s.appointments[id].patientId, caller.value.id) then
      (s, Fail(403, "Forbidden: Patient is not assigned to you"))
    else
      var b := Amend(s.appointments[id], c);
      (s.(appointments := s.appointments[id := b]), Ok(200, b))
  }

  /** An update that supplies nothing leaves the store exactly as it was. */
  lemma EmptyUpdateChangesNothing(s: Store, caller: Caller, id: nat)
    requires Wf(s)
    ensures Update(s, caller, id, Changes(None, None, None)).0 == s
  {
    if Update(s, caller, id, Changes(None, None, None)).1.Ok? {
      assert Amend(s.appointments[id], Changes(None, None, None)) == s.appointments[id];
    }
  }

  /**
   * `deleteAppointment`: a patient cancels only its own pending appointments, a doctor
   * only those of its assigned patients; every other role gets 403. A path id that is no
   * integer literal fails the query (500).
   */
  function Delete(s: Store, caller: Caller, id: string): (r: (Store, Reply<string>))
    requires Wf(s)
    ensures Wf(r.0)
    ensures r.1.Fail? ==> r.0 == s
    ensures caller.None? ==> r.1 == Fail(401, "Unauthorized")
    ensures caller.Some? && Sql.IntInput(id).None? ==> r.1 == Fail(500, InternalError)
    ensures caller.Some? && AppointmentAt(s, id) == Success(None) ==> r.1 == Fail(404, "Appointment not found")
    ensures r.1.Ok? <==>
      && caller.Some? && AppointmentAt(s, id).Success? && AppointmentAt(s, id).value.Some?
      && var a := s.appointments[AppointmentAt(s, id).value.value];
      (|| (UserController.IsRole(caller, PatientRole) && HasOwnRow(s, caller)
              && a.patientId == caller.value.id && a.status == Pending)
          || (UserController.IsRole(caller, Doctor) && AssignedDoctor(s, a.patientId, caller.value.id)))
    ensures r.1.Ok? ==> r.0 == s.(appointments := s.appointments - {AppointmentAt(s, id).value.value})
  {
    if caller.None? then (s, Fail(401, "Unauthorized"))
    else
      match AppointmentAt(s, id)
      case Failure(e) => (s, Fail(500, e))
      case Success(None) => (s, Fail(404, "Appointment not found"))
      case Success(Some(k)) =>
        var a := s.appointments[k];
        var uid := caller.value.id;
        if UserController.IsRole(caller, PatientRole) then
          if uid !in s.patients || a.patientId != uid || a.status != Pending then (s, Fail(403, "Forbidden"))
          else (s.(appointments := s.appointments - {k}), Ok(200, "Appointment deleted"))
        else if UserController.IsRole(caller, Doctor) then
          if !AssignedDoctor(s, a.patientId, uid) then (s, Fail(403, "Forbidden: Patient is not assigned to you"))
          else (s.(appointments := s.appointments - {k}), Ok(200, "Appointment deleted"))
        else (s, Fail(403, "Forbidden"))
  }

  /** Once a doctor has confirmed an appointment, the patient can no longer cancel it. */
  lemma ConfirmedAppointmentStays(s: Store, doctor: Caller, patient: Caller, id: nat, text: string)
    requires Wf(s) && UserController.IsRole(patient, PatientRole) && Sql.IntInput(text) == Some(id as int)
    requires Update(s, doctor, id, Changes(Some("confirmed"), None, None)).1.Ok?
    ensures Delete(Update(s, doctor, id, Changes(Some("confirmed"), None, None)).0, patient, text).1 == Fail(403, "Forbidden")
  {
    var s1 := Update(s, doctor, id, Changes(Some("confirmed"), None, None)).0;
    assert id in s1.appointments && s1.appointments[id].status == "confirmed";
    ConfirmedRefused(s1, patient, text, id);
  }

  /** A patient's delete of a confirmed appointment, named by any text that keys it, is refused. */
  lemma ConfirmedRefused(s: Store, patient: Caller, text: string, id: nat)
    requires Wf(s) && UserController.IsRole(patient, PatientRole) && Sql.IntInput(text) == Some(id as int)
    requires id in s.appointments && s.appointments[id].status == "confirmed"
    ensures Delete(s, patient, text).1 == Fail(403, "Forbidden")
  {
    KeyedAppointment(s, text, id);
    assert s.appointments[id].status != Pending;
  }

  /** Text the database reads as a stored appointment's id finds that appointment. */
  lemma KeyedAppointment(s: Store, text: string, id: nat)
    requires Sql.IntInput(text) == Some(id as int) && id in s.appointments
    ensures AppointmentAt(s, text) == Success(Some(id))
  {
  }
}

=== FILE: audit.dfy ===
/**
 * The audit logger: which actions are recorded, which events count as security events,
 * the severity of a security event and the client address a log entry carries. Only the
 * decisions are modelled; the log lines themselves are output.
 */
module AuditLogger {
  import opened Common
  import Js

  /** The ten words that make an action worth an audit entry. */
  const SensitiveWords: seq<string> := ["login", "signup", "delete", "update", "create", "assign", "remove", "reset", "forgot", "logout"]

  /** The action, lower-cased, contains one of the sensitive words. */
  predicate IsSensitive(action: string) {
    exists w | w in SensitiveWords :: Js.Contains(Js.ToLower(action), w)
  }

  /** The second test, on the action as written (case matters here). */
  predicate IsSecurityEvent(action: string) {
    Js.Contains(action, "login") || Js.Contains(action, "unauthorized") || Js.Contains(action, "forbidden")
  }

  /** What `auditLog(action)` does with a request: an entry, maybe a security warning, then always `next()`. */
  datatype Outcome = Outcome(logged: bool, warned: bool, gate: Gate)

  function AuditLog(action: string): (r: Outcome)
    ensures r.gate == Next
    ensures r.logged <==> IsSensitive(action)
    ensures r.warned <==> IsSensitive(action) && IsSecurityEvent(action)
  {
    var logged := IsSensitive(action);
    Outcome(logged, logged && IsSecurityEvent(action), Next)
  }

  /** A security event is reported only as part of an audit entry: `unauthorized` or `forbidden` alone is not enough. */
  lemma WarningNeedsEntry(action: string)
    ensures AuditLog(action).warned ==> AuditLog(action).logged
    ensures !IsSensitive(action) ==> !AuditLog(action).warned
  {
  }

  /** `LOGIN` is audited (lower-cased it is `login`) but raises no security warning (the second test is case-sensitive). */
  lemma UpperCaseLoginNotWarned()
    ensures AuditLog("LOGIN").logged && !AuditLog("LOGIN").warned
  {
    assert Js.ToLower("LOGIN") == "login";
    Js.PrefixContained("login", "login");
    assert "login" in SensitiveWords;
    Js.MissingChar("LOGIN", "login", 0);
    Js.MissingChar("LOGIN", "unauthorized", 0);
    Js.MissingChar("LOGIN", "forbidden", 0);
  }

  // ---- Severity ----

  datatype Severity = Low | Medium | High | Critical

  const CriticalWords: seq<string> := ["sql_injection", "xss_attempt", "command_injection", "path_traversal", "unauthorized_access"]
  const HighWords: seq<string> := ["authentication_failure", "brute_force", "privilege_escalation", "data_breach"]
  const MediumWords: seq<string> := ["suspicious_pattern", "rate_limit_exceeded", "invalid_input", "error_response"]

  predicate Mentions(eventType: string, words: seq<string>) {
    exists i | 0 <= i < |words| :: Js.Contains(Js.ToLower(eventType), words[i])
  }

  /** `getSeverityLevel`: the first group, most severe first, with a word in the lower-cased event type. */
  function SeverityLevel(eventType: string): (r: Severity)
    ensures r == Critical <==> Mentions(eventType, CriticalWords)
    ensures r == High <==> !Mentions(eventType, CriticalWords) && Mentions(eventType, HighWords)
    ensures r == Medium <==> !Mentions(eventType, CriticalWords) && !Mentions(eventType, HighWords) && Mentions(eventType, MediumWords)
    ensures r == Low <==> !Mentions(eventType, CriticalWords) && !Mentions(eventType, HighWords) && !Mentions(eventType, MediumWords)
  {
    if Mentions(eventType, CriticalWords) then Critical
    else if Mentions(eventType, HighWords) then High
    else if Mentions(eventType, MediumWords) then Medium
    else Low
  }

  lemma UnauthorizedAccessIsCritical()
    ensures SeverityLevel("unauthorized_access") == Critical
  {
    Js.LowerOfLower("unauthorized_access");
    Js.PrefixContained("unauthorized_access", "unauthorized_access");
    assert CriticalWords[4] == "unauthorized_access";
  }

  /**
   * The lower-case event type `e` mentions no word of `words`: for each word, `ks` names one
   * of its characters that `e` lacks.
   */
  lemma NotMentioned(e: string, words: seq<string>, ks: seq<nat>)
    requires Js.ToLower(e) == e
    requires |ks| == |words|
    requires forall i | 0 <= i < |words| :: ks[i] < |words[i]| && Js.Lacks(e, words[i][ks[i]])
    ensures !Mentions(e, words)
  {
    forall i | 0 <= i < |words|
      ensures !Js.Contains(e, words[i])
    {
      Js.MissingChar(e, words[i], ks[i]);
    }
  }

  lemma AuthenticationFailureNotCritical()
    ensures !Mentions("authentication_failure", CriticalWords)
  {
    var e := "authentication_failure";
    Js.LowerOfLower(e);
    NotMentioned(e, CriticalWords, [1, 0, 2, 0, 9]);
  }

  lemma AuthenticationFailureIsHigh()
    ensures SeverityLevel("authentication_failure") == High
  {
    var e := "authentication_failure";
    AuthenticationFailureNotCritical();
    Js.LowerOfLower(e);
    Js.PrefixContained(e, e);
    assert HighWords[0] == e;
  }

  lemma ErrorResponseNotCritical()
    ensures !Mentions("error_response", CriticalWords)
  {
    Js.LowerOfLower("error_response");
    NotMentioned("error_response", CriticalWords, [1, 0, 2, 1, 2]);
  }

  lemma ErrorResponseNotHigh()
    ensures !Mentions("error_response", HighWords)
  {
    Js.LowerOfLower("error_response");
    NotMentioned("error_response", HighWords, [0, 0, 2, 0]);
  }

  lemma ErrorResponseIsMedium()
    ensures SeverityLevel("error_response") == Medium
  {
    var e := "error_response";
    ErrorResponseNotCritical();
    ErrorResponseNotHigh();
    Js.LowerOfLower(e);
    Js.PrefixContained(e, e);
    assert MediumWords[3] == e;
  }

  // ---- Client address ----

  /**
   * `getClientIp`: the first comma-separated entry of `x-forwarded-for`, trimmed, when it is
   * not empty; otherwise `x-real-ip`, then the socket address, then `unknown`.
   */
  function ClientIp(forwardedFor: Option<string>, realIp: Option<string>, remote: Option<string>): (r: string)
    ensures r != ""
    ensures forwardedFor.Some? && Js.Trim(Js.Split(forwardedFor.value, ',')[0]) != "" ==>
      r == Js.Trim(Js.Split(forwardedFor.value, ',')[0]) && ',' !in r
    ensures r == "unknown" || (forwardedFor.Some? && Js.Trim(Js.Split(forwardedFor.value, ',')[0]) == r)
            || realIp == Some(r) || remote == Some(r)
    ensures (forwardedFor.None? || Js.Trim(Js.Split(forwardedFor.value, ',')[0]) == "") && Truthy(realIp) ==> r == realIp.value
  {
    var first := if forwardedFor.Some? then Js.Trim(Js.Split(forwardedFor.value, ',')[0]) else "";
    if first != "" then
      Js.TrimKeepsOut(Js.Split(forwardedFor.value, ',')[0], ',');
      first
    else if Truthy(realIp) then realIp.value
    else if Truthy(remote) then remote.value
    else "unknown"
  }
}

=== FILE: auth_middleware.dfy ===
/**
 * The two route guards of the server: `authenticateJWT`, which turns a bearer access token
 * into the request's user, and `requireRole`, which admits only the listed roles. The
 * header form is that of section 2.1 of RFC 6750 (`Bearer` followed by one space and the
 * token).
 */
module AuthMiddleware {
  import opened Common
  import Js
  import Tokens

  /** `req.user`: id, role and username taken from the access token's payload. */
  datatype Principal = Principal(id: nat, role: Option<string>, username: Option<string>)

  /** What `authenticateJWT` does with a request: hand it on with a user, or answer 401. */
  datatype Auth = Admit(user: Principal) | Deny(status: int, message: string)

  const BearerPrefix := "Bearer "

  /** `authHeader.split(' ')[1]` for a header that starts with `Bearer `: the text after it, up to the next space. */
  function TokenOf(header: string): (t: string)
    requires Js.StartsWith(header, BearerPrefix)
    ensures t == header[7..][..Js.IndexOfChar(header[7..], ' ')]
    ensures ' ' !in t
  {
    assert Js.IndexOfChar(header, ' ') == 6 by {
      assert header[..7] == BearerPrefix;
      assert header[6] == ' ';
      assert forall j :: 0 <= j < 6 ==> header[j] == BearerPrefix[j];
    }
    Js.Split(header, ' ')[1]
  }

  /** `authenticateJWT`. */
  function Authenticate(jwt: Tokens.Jwt, authorization: Option<string>, now: int): (r: Auth)
    ensures r.Deny? ==> r.status == 401
    ensures authorization.None? || !Js.StartsWith(authorization.value, BearerPrefix) ==>
      r == Deny(401, "Missing or invalid Authorization header")
    ensures r.Admit? <==>
      && authorization.Some? && Js.StartsWith(authorization.value, BearerPrefix)
      && jwt.verify(Tokens.Access, TokenOf(authorization.value), now).Some?
    ensures r.Admit? ==>
      var c := jwt.verify(Tokens.Access, TokenOf(authorization.value), now).value;
      r.user == Principal(c.sub, c.role, c.username)
  {
    if authorization.None? || !Js.StartsWith(authorization.value, BearerPrefix) then
      Deny(401, "Missing or invalid Authorization header")
    else
      match jwt.verify(Tokens.Access, TokenOf(authorization.value), now)
      case None => Deny(401, "Invalid or expired token")
      case Some(c) => Admit(Principal(c.sub, c.role, c.username))
  }

  /** `requireRole(roles)`: no user is 401, a role outside the list is 403. */
  function RequireRole(user: Option<Principal>, roles: seq<string>): (r: Gate)
    ensures user.None? ==> r == Reject(401, "Unauthorized")
    ensures user.Some? ==> (r == Next <==> user.value.role.Some? && user.value.role.value in roles)
    ensures user.Some? && r.Reject? ==> r == Reject(403, "Forbidden")
  {
    if user.None? then Reject(401, "Unauthorized")
    else if user.value.role.None? || user.value.role.value !in roles then Reject(403, "Forbidden")
    else Next
  }

  /** `authenticateJWT` followed by `requireRole(roles)`, the chain in front of every protected route. */
  function Guard(jwt: Tokens.Jwt, authorization: Option<string>, roles: seq<string>, now: int): (r: Auth)
    ensures r.Admit? ==> Authenticate(jwt, authorization, now) == r && RequireRole(Some(r.user), roles) == Next
    ensures Authenticate(jwt, authorization, now).Deny? ==> r == Authenticate(jwt, authorization, now)
    ensures Authenticate(jwt, authorization, now).Admit? ==>
      (r.Admit? <==> RequireRole(Some(Authenticate(jwt, authorization, now).user), roles) == Next)
    ensures Authenticate(jwt, authorization, now).Admit? && r.Deny? ==> r == Deny(403, "Forbidden")
  {
    match Authenticate(jwt, authorization, now)
    case Deny(status, message) => Deny(status, message)
    case Admit(user) =>
      match RequireRole(Some(user), roles)
      case Next => Admit(user)
      case Reject(status, message) => Deny(status, message)
  }

  /** `requireRole([])` turns away every authenticated user with 403. */
  lemma EmptyRoleListDenies(user: Principal)
    ensures RequireRole(Some(user), []) == Reject(403, "Forbidden")
  {
  }

  /**
   * An access token issued to a user passes the guard of any route that lists the user's
   * role while the token is live, and the request carries that user.
   */
  lemma IssuedTokenAdmits(jwt: Tokens.Jwt, id: nat, role: string, username: string, roles: seq<string>, iat: int, now: int)
    requires Tokens.Lawful(jwt)
    requires role in roles
    requires Tokens.Live(jwt, Tokens.Access, iat, now)
    requires ' ' !in jwt.sign(Tokens.Access, Tokens.AccessClaims(id, role, username), iat)
    ensures Guard(jwt, Some(BearerPrefix + jwt.sign(Tokens.Access, Tokens.AccessClaims(id, role, username), iat)), roles, now)
            == Admit(Principal(id, Some(role), Some(username)))
  {
    var tok := jwt.sign(Tokens.Access, Tokens.AccessClaims(id, role, username), iat);
    var header := BearerPrefix + tok;
    assert header[..7] == BearerPrefix;
    assert header[7..] == tok;
    assert Js.IndexOfChar(tok, ' ') == |tok|;
    assert TokenOf(header) == tok;
  }
}

=== FILE: auth_protocol.dfy ===
/**
 * The authentication controller: patient-only sign-up, password login that answers with a
 * one-time code, code verification that issues the tokens, refresh, logout, and the
 * password-reset pair. Every handler is a transition of the store (and, where it records
 * or clears failures, of the lockout table) at the request time `now`.
 *
 * Each handler that looks a user up by email is split in two: the exported handler
 * normalises the email (and trims the code), and a `...As` function does the work on the
 * normalised values. The properties are stated about the second.
 */
module AuthProtocol {
  import opened Common
  import opened Schema
  import Js
  import Lockout
  import Passwords
  import Tokens
  import Sanitizer
  import PatientModel
  import Fields
  import Encryption
  import Listing

  const LoginOtpLifetimeMs := 10 * 60 * 1000
  const ResetOtpLifetimeMs := 15 * 60 * 1000

  /** The libraries the controller calls. */
  datatype Deps = Deps(hasher: Passwords.Hasher, jwt: Tokens.Jwt, validator: Sanitizer.Validator)

  /** What `Math.floor(100000 + Math.random() * 900000)` can give. */
  type OtpCode = n: nat | 100000 <= n <= 999999 witness 100000

  datatype PublicUser = PublicUser(id: nat, username: string, email: string, role: string)

  datatype Body =
    | Session(user: PublicUser, accessToken: string, refreshToken: string)
    | Challenge(message: string, email: string)
    | AccessOnly(accessToken: string)
    | Notice(message: string)

  function Public(u: User): PublicUser {
    PublicUser(u.id, u.username, u.email, u.role)
  }

  function AccessToken(d: Deps, u: User, now: int): string {
    d.jwt.sign(Tokens.Access, Tokens.AccessClaims(u.id, u.role, u.username), now)
  }

  function RefreshToken(d: Deps, u: User, now: int): string {
    d.jwt.sign(Tokens.Refresh, Tokens.RefreshClaims(u.id), now)
  }

  /** Issues both tokens for `u` and stores the refresh token with a seven-day expiry. */
  function IssueSession(d: Deps, s: Store, u: User, now: int): (r: (Store, Body))
    requires Wf(s)
    ensures Wf(r.0)
    ensures r.1 == Session(Public(u), AccessToken(d, u, now), RefreshToken(d, u, now))
    ensures r.0 == s.(refreshTokens := s.refreshTokens[s.nextId := RefreshRecord(s.nextId, r.1.refreshToken, u.id, now + Tokens.RefreshLifetimeMs)],
                      nextId := s.nextId + 1)
  {
    var rec := RefreshRecord(s.nextId, RefreshToken(d, u, now), u.id, now + Tokens.RefreshLifetimeMs);
    (s.(refreshTokens := s.refreshTokens[s.nextId := rec], nextId := s.nextId + 1),
     Session(Public(u), AccessToken(d, u, now), RefreshToken(d, u, now)))
  }

  // ---------------------------------------------------------------- signup

  datatype SignupRequest = SignupRequest(username: string, email: string, password: string, role: string)

  const SignupForbidden := "Only patients can sign up. Doctors and nurses must be created by an admin."

  /** The patient row the sign-up transaction writes for a new user. */
  function SignupPatientRow(id: nat, name: string): PatientModel.Patient {
    PatientModel.Patient(id, name, 0, Some("N/A"), None, None)
  }

  /**
   * `signup`: only the patient role may sign up and the email must validate; the rest runs
   * on the normalised email and the sanitized username. `req.email` is the address as
   * `signupValidator` hands it on, its `normalizeEmail` rewrite included.
   */
  function Signup(d: Deps, s: Store, req: SignupRequest, salt: string, now: int): (r: (Store, Reply<Body>))
    requires Wf(s)
    ensures req.role != PatientRole ==> r == (s, Fail(403, SignupForbidden))
    ensures req.role == PatientRole && !Sanitizer.ValidateEmail(d.validator, req.email) ==> r == (s, Fail(400, "Invalid email format"))
    ensures req.role == PatientRole && Sanitizer.ValidateEmail(d.validator, req.email) ==>
      r == SignupAs(d, s, req.username, Sanitizer.SanitizeUsername(d.validator, req.username), Js.NormalizeEmail(req.email),
                    d.hasher.hash(req.password, Passwords.SaltRounds, salt), now)
  {
    if req.role != PatientRole then (s, Fail(403, SignupForbidden))
    else if !Sanitizer.ValidateEmail(d.validator, req.email) then (s, Fail(400, "Invalid email format"))
    else
      SignupAs(d, s, req.username, Sanitizer.SanitizeUsername(d.validator, req.username), Js.NormalizeEmail(req.email),
               d.hasher.hash(req.password, Passwords.SaltRounds, salt), now)
  }

  /**
   * The sign-up transaction for a patient: neither the email nor the sanitized username may
   * be taken. The user row and its patient row (same id; the username as typed, age 0,
   * condition 'N/A', written by a raw insert that bypasses the model hooks) commit
   * together, and the new user is signed in at once.
   */
  function SignupAs(d: Deps, s: Store, typed: string, username: string, email: string, hash: string, now: int)
    : (r: (Store, Reply<Body>))
    requires Wf(s)
    ensures Wf(r.0)
    ensures r.1.Fail? ==> r.0 == s
    ensures UserByEmail(s, email).Some? ==> r.1 == Fail(409, "Email already in use")
    ensures UserByEmail(s, email).None? && UserWhere(s, UsernameColumn, username).Some? ==> r.1 == Fail(409, "Username already in use")
    ensures r.1.Ok? <==> UserByEmail(s, email).None? && UserWhere(s, UsernameColumn, username).None?
    ensures r.1 != Fail(409, "Patient record already exists for this user.")
    ensures r.1.Ok? ==>
      var id := s.nextId;
      var user := User(id, username, email, hash, PatientRole, None, None, false);
      && id !in s.users && id !in s.patients
      && r.1 == Ok(201, Session(Public(user), AccessToken(d, user, now), RefreshToken(d, user, now)))
      && r.0.users == s.users[id := user]
      && r.0.patients == s.patients[id := SignupPatientRow(id, typed)]
  {
    if UserByEmail(s, email).Some? then (s, Fail(409, "Email already in use"))
    else if UserWhere(s, UsernameColumn, username).Some? then (s, Fail(409, "Username already in use"))
    else
      var user := User(s.nextId, username, email, hash, PatientRole, None, None, false);
      // The source looks for a patient row under the new id first; with one id counter for
      // every table that row cannot exist, so this answer is never given.
      if s.nextId in s.patients then (s, Fail(409, "Patient record already exists for this user."))
      else
        var (s2, body) := IssueSession(d, AddPatientUser(s, user, SignupPatientRow(s.nextId, typed)), user, now);
        (s2, Ok(201, body))
  }

  /** The committed sign-up transaction: the user row and its patient row under the fresh id. */
  function AddPatientUser(s: Store, user: User, row: PatientModel.Patient): (r: Store)
    requires Wf(s) && user.id == s.nextId && row.id == s.nextId
    ensures Wf(r) && r.nextId == s.nextId + 1
    ensures r.users == s.users[user.id := user] && r.patients == s.patients[user.id := row]
    ensures r == s.(users := r.users, patients := r.patients, nextId := r.nextId)
  {
    s.(users := s.users[user.id := user], patients := s.patients[user.id := row], nextId := user.id + 1)
  }

  /**
   * The sign-up transaction with the patient row written through the patient model, so that
   * its create hook runs: the name is stored as an envelope and a failed encryption rolls
   * the whole sign-up back.
   */
  function SignupSealedAs(d: Deps, k: Fields.Keyring, s: Store, typed: string, username: string, email: string, hash: string,
                          now: int, n1: Fields.Draw, n2: Fields.Draw)
    : (r: (Store, Reply<Body>))
    requires Wf(s)
    ensures Wf(r.0)
    ensures r.1.Fail? ==> r.0 == s
    ensures r.1.Ok? ==>
      && UserByEmail(s, email).None? && UserWhere(s, UsernameColumn, username).None?
      && PatientModel.Create(k, SignupPatientRow(s.nextId, typed), n1, n2).Success?
      && r.0.patients == s.patients[s.nextId := PatientModel.Create(k, SignupPatientRow(s.nextId, typed), n1, n2).value]
      && r.0.users == s.users[s.nextId := User(s.nextId, username, email, hash, PatientRole, None, None, false)]
  {
    if UserByEmail(s, email).Some? then (s, Fail(409, "Email already in use"))
    else if UserWhere(s, UsernameColumn, username).Some? then (s, Fail(409, "Username already in use"))
    else
      var user := User(s.nextId, username, email, hash, PatientRole, None, None, false);
      // The source looks for a patient row under the new id first; with one id counter for
      // every table that row cannot exist, so this answer is never given.
      if s.nextId in s.patients then (s, Fail(409, "Patient record already exists for this user."))
      else
        match PatientModel.Create(k, SignupPatientRow(s.nextId, typed), n1, n2)
        case Failure(_) => (s, Fail(500, "Failed to create patient account. Please try again."))
        case Success(row) =>
          var (s2, body) := IssueSession(d, AddPatientUser(s, user, row), user, now);
          (s2, Ok(201, body))
  }

  /** As written, sign-up stores the patient's name exactly as typed: no envelope, no escaping. */
  lemma SignupStoresPlainName(d: Deps, s: Store, typed: string, username: string, email: string, hash: string, now: int)
    requires Wf(s)
    requires UserByEmail(s, email).None? && UserWhere(s, UsernameColumn, username).None?
    ensures SignupAs(d, s, typed, username, email, hash, now).0.patients[s.nextId].name == typed
  {
  }

  /**
   * With the hook in place, the stored name is an envelope (for a name not already shaped
   * like one) and reading the row through the model gives back the name as typed.
   */
  lemma SignupSealedReadsBack(d: Deps, k: Fields.Keyring, s: Store, typed: string, username: string, email: string, hash: string,
                              now: int, n1: Fields.Draw, n2: Fields.Draw)
    requires Wf(s) && Encryption.Lawful(k.c)
    requires typed != "" && !Fields.IsEncrypted(k, typed) && !Fields.IsEncrypted(k, "N/A")
    ensures var r := SignupSealedAs(d, k, s, typed, username, email, hash, now, n1, n2);
      r.1.Ok? ==>
        && Fields.IsEncrypted(k, r.0.patients[s.nextId].name)
        && PatientModel.RevealPatient(k, r.0.patients[s.nextId]) == SignupPatientRow(s.nextId, typed)
  {
    if SignupSealedAs(d, k, s, typed, username, email, hash, now, n1, n2).1.Ok? {
      var p := SignupPatientRow(s.nextId, typed);
      PatientModel.CreateThenFind(k, p, n1, n2);
      Fields.SealThenReveal(k, typed, n1);
    }
  }

  // ---------------------------------------------------------------- login

  /** Every unused login code of `uid` marked used. */
  function RetireLoginOtps(m: map<nat, LoginOtp>, uid: nat): (r: map<nat, LoginOtp>)
    ensures r.Keys == m.Keys
    ensures forall k :: k in m ==> r[k] == if m[k].userId == uid then m[k].(used := true) else m[k]
  {
    map k | k in m :: if m[k].userId == uid && !m[k].used then m[k].(used := true) else m[k]
  }

  const InvalidCredentials := "Invalid credentials"
  const LoginCodeSent := "Login code sent to your email. Please check your inbox and enter the code to complete login."

  /** `login`, on the address `loginValidator` hands on, normalised once more with `trim().toLowerCase()`. */
  function Login(d: Deps, s: Store, t: Lockout.Table, email: string, password: string, code: OtpCode, now: int)
    : (r: (Store, Lockout.Table, Reply<Body>))
    requires Wf(s)
    ensures Wf(r.0)
    ensures var e := Js.NormalizeEmail(email);
      r.2.Fail? <==> UserByEmail(s, e).None? || !Passwords.Matches(d.hasher, password, s.users[UserByEmail(s, e).value].password)
    ensures r.2.Fail? ==> r == (s, Lockout.Record(t, Js.NormalizeEmail(email), now), Fail(401, InvalidCredentials))
    ensures r.2.Ok? ==>
      var e := Js.NormalizeEmail(email);
      && r.1 == t && r.2 == Ok(200, Challenge(LoginCodeSent, e))
      && r.0 == StoreLoginOtp(s, UserByEmail(s, e).value, e, code, now)
  {
    LoginAs(d, s, t, Js.NormalizeEmail(email), password, code, now)
  }

  /** Two spellings of one address log in alike, and so does the address in normal form. */
  lemma LoginSpellings(d: Deps, s: Store, t: Lockout.Table, e1: string, e2: string, password: string, code: OtpCode, now: int)
    requires Wf(s)
    requires Js.NormalizeEmail(e1) == Js.NormalizeEmail(e2)
    ensures Login(d, s, t, e1, password, code, now) == Login(d, s, t, e2, password, code, now)
    ensures Login(d, s, t, Js.NormalizeEmail(e1), password, code, now) == Login(d, s, t, e1, password, code, now)
  {
    Js.NormalizeEmailIdempotent(e1);
  }

  /**
   * A typed address whose normal form is the stored address of exactly one user, with that
   * user's password, reaches that user: a code is stored for them and sent to the stored address.
   */
  lemma LoginReachesStoredUser(d: Deps, s: Store, t: Lockout.Table, typed: string, u: nat, password: string, code: OtpCode, now: int)
    requires Wf(s)
    requires u in s.users && s.users[u].email == Js.NormalizeEmail(typed)
    requires forall j :: j in s.users && j != u ==> s.users[j].email != s.users[u].email
    requires Passwords.Matches(d.hasher, password, s.users[u].password)
    ensures var r := Login(d, s, t, typed, password, code, now);
      && r.2 == Ok(200, Challenge(LoginCodeSent, s.users[u].email))
      && r.0 == StoreLoginOtp(s, u, s.users[u].email, code, now)
  {
  }

  /** A padded, upper-case spelling of a lower-case address has it as its normal form. */
  lemma PaddedUpperCaseSpelling()
    ensures Js.NormalizeEmail(" Ann@Example.ORG ") == "ann@example.org"
  {
    assert Js.TrimStart(" Ann@Example.ORG ") == "Ann@Example.ORG ";
    assert Js.TrimEnd("Ann@Example.ORG ") == "Ann@Example.ORG";
  }

  /**
   * The body of `login`: an unknown email and a wrong password both record a failure and
   * give the same 401; a correct password retires the user's unused codes and stores one
   * new code, valid for ten minutes, issuing no token and leaving the lockout entry alone.
   */
  function LoginAs(d: Deps, s: Store, t: Lockout.Table, email: string, password: string, code: OtpCode, now: int)
    : (r: (Store, Lockout.Table, Reply<Body>))
    requires Wf(s)
    ensures Wf(r.0)
    ensures r.2.Fail? <==>
      UserByEmail(s, email).None? || !Passwords.Matches(d.hasher, password, s.users[UserByEmail(s, email).value].password)
    ensures r.2.Fail? ==> r == (s, Lockout.Record(t, email, now), Fail(401, InvalidCredentials))
    ensures r.2.Ok? ==>
      && r.1 == t && r.2 == Ok(200, Challenge(LoginCodeSent, email))
      && r.0 == StoreLoginOtp(s, UserByEmail(s, email).value, email, code, now)
  {
    match UserByEmail(s, email)
    case None => (s, Lockout.Record(t, email, now), Fail(401, InvalidCredentials))
    case Some(uid) =>
      if !Passwords.Matches(d.hasher, password, s.users[uid].password) then
        (s, Lockout.Record(t, email, now), Fail(401, InvalidCredentials))
      else
        (StoreLoginOtp(s, uid, email, code, now), t, Ok(200, Challenge(LoginCodeSent, email)))
  }

  /** Retires the user's unused codes and stores a new one under the fresh id. */
  function StoreLoginOtp(s: Store, uid: nat, email: string, code: OtpCode, now: int): (r: Store)
    requires Wf(s)
    ensures Wf(r)
    ensures r.users == s.users && r.refreshTokens == s.refreshTokens && r.nextId == s.nextId + 1
    ensures r.loginOtps == RetireLoginOtps(s.loginOtps, uid)[s.nextId :=
                             LoginOtp(s.nextId, uid, email, Js.Decimal(code), now + LoginOtpLifetimeMs, false)]
  {
    var otp := LoginOtp(s.nextId, uid, email, Js.Decimal(code), now + LoginOtpLifetimeMs, false);
    s.(loginOtps := RetireLoginOtps(s.loginOtps, uid)[s.nextId := otp], nextId := s.nextId + 1)
  }

  const InvalidEmailFormat := "Invalid email format"

  /**
   * The address `loginValidator` hands on: the body's email trimmed, checked with `isEmail`
   * and rewritten by `normalizeEmail`. `None` is a failed check, which `login` answers with
   * 400.
   */
  function ValidatedEmail(v: Sanitizer.Validator, raw: string): (r: Option<string>)
    ensures r.Some? <==> v.isEmail(Js.Trim(raw))
    ensures r.Some? ==> r.value == v.normalizeEmail(Js.Trim(raw))
  {
    if v.isEmail(Js.Trim(raw)) then Some(v.normalizeEmail(Js.Trim(raw))) else None
  }

  /**
   * The login route: the lockout check runs first, on the address as typed, and a locked
   * address never reaches the password check; then the validator rewrites the address,
   * and `login` runs on the rewrite.
   */
  function LoginRoute(d: Deps, s: Store, t: Lockout.Table, email: string, password: string, code: OtpCode, now: int)
    : (r: (Store, Lockout.Table, Reply<Body>))
    requires Wf(s)
    ensures Wf(r.0)
    ensures email != "" && Lockout.Key(email) in t && Lockout.Locked(t[Lockout.Key(email)], now) ==>
      r.0 == s && r.1 == t && r.2.Fail? && r.2.status == 429
    ensures Lockout.Check(t, Some(email), now).1.Next? && ValidatedEmail(d.validator, email).None? ==>
      r == (s, Lockout.Check(t, Some(email), now).0, Fail(400, InvalidEmailFormat))
    ensures Lockout.Check(t, Some(email), now).1.Next? && ValidatedEmail(d.validator, email).Some? ==>
      r == Login(d, s, Lockout.Check(t, Some(email), now).0, ValidatedEmail(d.validator, email).value, password, code, now)
  {
    match Lockout.Check(t, Some(email), now)
    case (t1, Reject(status, message)) => (s, t1, Fail(status, message))
    case (t1, Next) =>
      match ValidatedEmail(d.validator, email)
      case None => (s, t1, Fail(400, InvalidEmailFormat))
      case Some(e) => Login(d, s, t1, e, password, code, now)
  }

  /** A failed login records its failure under the key of the validator's rewrite, not of the address as typed. */
  lemma LoginRecordsRewrittenKey(d: Deps, s: Store, t: Lockout.Table, email: string, password: string, code: OtpCode, now: int)
    requires Wf(s)
    requires Lockout.Check(t, Some(email), now).1.Next? && ValidatedEmail(d.validator, email).Some?
    ensures var r := LoginRoute(d, s, t, email, password, code, now);
      r.2.Fail? ==>
        r.1 == Lockout.Record(Lockout.Check(t, Some(email), now).0, Js.NormalizeEmail(ValidatedEmail(d.validator, email).value), now)
        && Lockout.Key(Js.NormalizeEmail(ValidatedEmail(d.validator, email).value)) == Lockout.Key(ValidatedEmail(d.validator, email).value)
  {
    Lockout.KeyIgnoresCaseAndPadding(ValidatedEmail(d.validator, email).value);
  }

  /** The login route run on each typed address of `raws` at the matching time, threading store and table. */
  function LoginRun(d: Deps, s: Store, t: Lockout.Table, raws: seq<string>, password: string, code: OtpCode, times: seq<int>)
    : (r: (Store, Lockout.Table, seq<Reply<Body>>))
    requires Wf(s) && |times| == |raws|
    ensures Wf(r.0) && |r.2| == |raws|
    decreases |raws|
  {
    if raws == [] then (s, t, [])
    else
      var x := LoginRoute(d, s, t, raws[0], password, code, times[0]);
      var rest := LoginRun(d, x.0, x.1, raws[1..], password, code, times[1..]);
      (rest.0, rest.1, [x.2] + rest.2)
  }

  /**
   * One step of `AliasesNeverLocked`: a typed address with no entry of its own is not
   * answered 429, and the step gives no entry to any address whose key differs from the
   * key of the validator's rewrite.
   */
  lemma AliasStep(d: Deps, s: Store, t: Lockout.Table, raw: string, password: string, code: OtpCode, now: int, other: string)
    requires Wf(s)
    requires Lockout.Key(raw) !in t && Lockout.Key(other) !in t
    requires ValidatedEmail(d.validator, raw).Some? ==> Lockout.Key(other) != Lockout.Key(ValidatedEmail(d.validator, raw).value)
    ensures LoginRoute(d, s, t, raw, password, code, now).2.status != 429
    ensures Lockout.Key(other) !in LoginRoute(d, s, t, raw, password, code, now).1
  {
    if ValidatedEmail(d.validator, raw).Some? {
      var e := ValidatedEmail(d.validator, raw).value;
      Lockout.KeyIgnoresCaseAndPadding(e);
    }
  }

  /**
   * The lockout check reads the entry of the address as typed, while failures are recorded
   * under the validator's rewrite of it. An attacker who types a different alias of one
   * mailbox on each attempt (`ab+1@gmail.com`, `ab+2@gmail.com`, ...), none of which has an
   * entry and none of which has the key of a rewrite, is never answered 429, however many
   * wrong passwords are tried and however fast.
   */
  lemma {:induction false} AliasesNeverLocked(d: Deps, s: Store, t: Lockout.Table, raws: seq<string>, password: string,
                                              code: OtpCode, times: seq<int>)
    requires Wf(s) && |times| == |raws|
    requires forall i :: 0 <= i < |raws| ==> Lockout.Key(raws[i]) !in t
    requires forall i, j :: 0 <= i < |raws| && 0 <= j < |raws| && ValidatedEmail(d.validator, raws[j]).Some? ==>
      Lockout.Key(raws[i]) != Lockout.Key(ValidatedEmail(d.validator, raws[j]).value)
    ensures forall i :: 0 <= i < |raws| ==> LoginRun(d, s, t, raws, password, code, times).2[i].status != 429
    decreases |raws|
  {
    if raws != [] {
      var x := LoginRoute(d, s, t, raws[0], password, code, times[0]);
      AliasStep(d, s, t, raws[0], password, code, times[0], raws[0]);
      forall i | 1 <= i < |raws|
        ensures Lockout.Key(raws[i]) !in x.1
      {
        AliasStep(d, s, t, raws[0], password, code, times[0], raws[i]);
      }
      var rest := raws[1..];
      assert forall i :: 0 <= i < |rest| ==> rest[i] == raws[i + 1];
      AliasesNeverLocked(d, x.0, x.1, rest, password, code, times[1..]);
      var r := LoginRun(d, s, t, raws, password, code, times);
      assert r.2 == [x.2] + LoginRun(d, x.0, x.1, rest, password, code, times[1..]).2;
    }
  }

  /**
   * The login route with the lockout check moved after the validator: the check reads the
   * entry of the address the failures are recorded under.
   */
  function LoginRouteKeyed(d: Deps, s: Store, t: Lockout.Table, email: string, password: string, code: OtpCode, now: int)
    : (r: (Store, Lockout.Table, Reply<Body>))
    requires Wf(s)
    ensures Wf(r.0)
    ensures ValidatedEmail(d.validator, email).None? ==> r == (s, t, Fail(400, InvalidEmailFormat))
    ensures ValidatedEmail(d.validator, email).Some? && Lockout.Check(t, Some(ValidatedEmail(d.validator, email).value), now).1.Next? ==>
      r == Login(d, s, Lockout.Check(t, Some(ValidatedEmail(d.validator, email).value), now).0,
                 ValidatedEmail(d.validator, email).value, password, code, now)
  {
    match ValidatedEmail(d.validator, email)
    case None => (s, t, Fail(400, InvalidEmailFormat))
    case Some(e) =>
      match Lockout.Check(t, Some(e), now)
      case (t1, Reject(status, message)) => (s, t1, Fail(status, message))
      case (t1, Next) => Login(d, s, t1, e, password, code, now)
  }

  /**
   * With the check after the validator, every alias of a mailbox is stopped by its lock: a
   * locked entry for the rewrite answers 429 to any typed address the validator rewrites
   * to it, and changes nothing.
   */
  lemma KeyedLockStopsAliases(d: Deps, s: Store, t: Lockout.Table, email: string, password: string, code: OtpCode, now: int)
    requires Wf(s)
    requires ValidatedEmail(d.validator, email).Some? && ValidatedEmail(d.validator, email).value != ""
    requires var k := Lockout.Key(ValidatedEmail(d.validator, email).value); k in t && Lockout.Locked(t[k], now)
    ensures var r := LoginRouteKeyed(d, s, t, email, password, code, now);
      r.0 == s && r.1 == t && r.2.Fail? && r.2.status == 429
  {
  }

  /**
   * With the check after the validator, a failure is counted in the very entry the check
   * reads for every alias of the mailbox, so five failures through any aliases inside one
   * window lock all of them (`Lockout.FiveFailuresLock`).
   */
  lemma KeyedFailureCounts(d: Deps, s: Store, t: Lockout.Table, email: string, alias: string, password: string,
                           code: OtpCode, now: int)
    requires Wf(s)
    requires ValidatedEmail(d.validator, email).Some? && ValidatedEmail(d.validator, alias) == ValidatedEmail(d.validator, email)
    requires Lockout.Check(t, Some(ValidatedEmail(d.validator, email).value), now).1.Next?
    ensures var r := LoginRouteKeyed(d, s, t, email, password, code, now);
      var e := ValidatedEmail(d.validator, alias).value;
      r.2.Fail? ==> r.1 == Lockout.Record(Lockout.Check(t, Some(e), now).0, e, now)
  {
    var e := ValidatedEmail(d.validator, email).value;
    Lockout.KeyIgnoresCaseAndPadding(e);
    Lockout.RecordSameKey(Lockout.Check(t, Some(e), now).0, Js.NormalizeEmail(e), e, now);
  }

  /** The two 401s of login are indistinguishable: same status, same message, a failure recorded in both. */
  lemma LoginFailuresAlike(d: Deps, s: Store, t: Lockout.Table, unknown: string, known: string, wrong: string, pw: string,
                           code: OtpCode, now: int)
    requires Wf(s)
    requires UserByEmail(s, unknown).None?
    requires UserByEmail(s, known).Some?
    requires !Passwords.Matches(d.hasher, wrong, s.users[UserByEmail(s, known).value].password)
    ensures LoginAs(d, s, t, unknown, pw, code, now).2 == LoginAs(d, s, t, known, wrong, code, now).2
    ensures LoginAs(d, s, t, unknown, pw, code, now).0 == s == LoginAs(d, s, t, known, wrong, code, now).0
    ensures LoginAs(d, s, t, unknown, pw, code, now).1 == Lockout.Record(t, unknown, now)
    ensures LoginAs(d, s, t, known, wrong, code, now).1 == Lockout.Record(t, known, now)
  {
  }

  /** The code a successful login stores is six digits long and valid for ten minutes. */
  lemma LoginCodeShape(d: Deps, s: Store, t: Lockout.Table, email: string, password: string, code: OtpCode, now: int)
    requires Wf(s)
    requires UserByEmail(s, email).Some?
    requires Passwords.Matches(d.hasher, password, s.users[UserByEmail(s, email).value].password)
    ensures var o := LoginAs(d, s, t, email, password, code, now).0.loginOtps[s.nextId];
      && o.userId == UserByEmail(s, email).value && o.email == email && !o.used
      && |o.otp| == 6 && Js.ParseInt(o.otp) == Some(code as int) && o.expiresAt == now + LoginOtpLifetimeMs
  {
    Js.SixDigitDecimal(code);
    Js.ParseDecimal(code);
  }

  // ---------------------------------------------------------------- verify login code

  /** The `LoginOTP.findOne` filter of code verification. */
  predicate LiveOtpFor(o: LoginOtp, uid: nat, email: string, code: string, now: int) {
    o.userId == uid && o.email == email && o.otp == code && !o.used && o.expiresAt > now
  }

  function FindLoginOtp(s: Store, uid: nat, email: string, code: string, now: int): (r: Option<nat>)
    ensures r.Some? ==> r.value in s.loginOtps && LiveOtpFor(s.loginOtps[r.value], uid, email, code, now)
    ensures r.None? && Wf(s) ==> forall k :: k in s.loginOtps ==> !LiveOtpFor(s.loginOtps[k], uid, email, code, now)
  {
    Listing.FirstKey(s.loginOtps, (o: LoginOtp) => LiveOtpFor(o, uid, email, code, now), 0, s.nextId)
  }

  /** `verifyLoginOTP`, on the normalised email and the trimmed code. */
  function VerifyLoginOtp(d: Deps, s: Store, t: Lockout.Table, email: string, otp: string, now: int)
    : (r: (Store, Lockout.Table, Reply<Body>))
    requires Wf(s)
    ensures Wf(r.0)
    ensures UserByEmail(s, Js.NormalizeEmail(email)).None? ==> r == (s, t, Fail(401, InvalidCredentials))
    ensures var e := Js.NormalizeEmail(email);
      r.2.Ok? <==> UserByEmail(s, e).Some? && FindLoginOtp(s, UserByEmail(s, e).value, e, Js.Trim(otp), now).Some?
    ensures var e := Js.NormalizeEmail(email);
      UserByEmail(s, e).Some? && r.2.Fail? ==> r == (s, Lockout.Record(t, e, now), Fail(401, "Invalid or expired login code"))
    ensures r.2.Ok? ==> r.1 == Lockout.Clear(t, Js.NormalizeEmail(email)) && r.2.value.Session?
  {
    VerifyCodeAs(d, s, t, Js.NormalizeEmail(email), Js.Trim(otp), now)
  }

  /** Two spellings of one address, and codes that differ only in surrounding blanks, verify alike. */
  lemma VerifyLoginOtpSpellings(d: Deps, s: Store, t: Lockout.Table, e1: string, e2: string, otp1: string, otp2: string, now: int)
    requires Wf(s)
    requires Js.NormalizeEmail(e1) == Js.NormalizeEmail(e2) && Js.Trim(otp1) == Js.Trim(otp2)
    ensures VerifyLoginOtp(d, s, t, e1, otp1, now) == VerifyLoginOtp(d, s, t, e2, otp2, now)
    ensures VerifyLoginOtp(d, s, t, Js.NormalizeEmail(e1), otp1, now) == VerifyLoginOtp(d, s, t, e1, otp1, now)
  {
    Js.NormalizeEmailIdempotent(e1);
  }

  /**
   * The body of `verifyLoginOTP`: an unknown email is a plain 401; otherwise the code must
   * match an unused, unexpired code of the user issued to this email. Success marks it used,
   * clears the lockout entry and issues both tokens; failure records a failed attempt.
   */
  function VerifyCodeAs(d: Deps, s: Store, t: Lockout.Table, email: string, code: string, now: int)
    : (r: (Store, Lockout.Table, Reply<Body>))
    requires Wf(s)
    ensures Wf(r.0)
    ensures UserByEmail(s, email).None? ==> r == (s, t, Fail(401, InvalidCredentials))
    ensures r.2.Ok? <==> UserByEmail(s, email).Some? && FindLoginOtp(s, UserByEmail(s, email).value, email, code, now).Some?
    ensures UserByEmail(s, email).Some? && r.2.Fail? ==>
      r == (s, Lockout.Record(t, email, now), Fail(401, "Invalid or expired login code"))
    ensures r.2.Ok? ==>
      var u := s.users[UserByEmail(s, email).value];
      var k := FindLoginOtp(s, u.id, email, code, now).value;
      && r.1 == Lockout.Clear(t, email)
      && (r.0, r.2.value) == IssueSession(d, UseLoginOtp(s, k), u, now)
  {
    match UserByEmail(s, email)
    case None => (s, t, Fail(401, InvalidCredentials))
    case Some(uid) =>
      match FindLoginOtp(s, uid, email, code, now)
      case None => (s, Lockout.Record(t, email, now), Fail(401, "Invalid or expired login code"))
      case Some(k) =>
        var (s2, body) := IssueSession(d, UseLoginOtp(s, k), s.users[uid], now);
        (s2, Lockout.Clear(t, email), Ok(200, body))
  }

  /** Marks the matched login code used. */
  function UseLoginOtp(s: Store, k: nat): (r: Store)
    requires Wf(s) && k in s.loginOtps
    ensures Wf(r)
    ensures r.users == s.users && r.nextId == s.nextId && r.refreshTokens == s.refreshTokens
    ensures r.loginOtps == s.loginOtps[k := s.loginOtps[k].(used := true)]
  {
    s.(loginOtps := s.loginOtps[k := s.loginOtps[k].(used := true)])
  }

  /** Every login code of `uid` other than `k` is used. */
  predicate OnlyLiveCode(s: Store, uid: nat, k: nat) {
    forall j :: j in s.loginOtps && s.loginOtps[j].userId == uid && j != k ==> s.loginOtps[j].used
  }

  /** After a successful login the user has exactly one unused code: the one just stored. */
  lemma LoginLeavesOneLiveCode(d: Deps, s: Store, t: Lockout.Table, email: string, password: string, code: OtpCode, now: int)
    requires Wf(s)
    requires UserByEmail(s, email).Some?
    requires Passwords.Matches(d.hasher, password, s.users[UserByEmail(s, email).value].password)
    ensures OnlyLiveCode(LoginAs(d, s, t, email, password, code, now).0, UserByEmail(s, email).value, s.nextId)
  {
  }

  /** A user none of whose login codes is unused cannot complete a login. */
  lemma NoLiveCodeRefused(d: Deps, s: Store, t: Lockout.Table, email: string, code: string, now: int)
    requires Wf(s)
    requires UserByEmail(s, email).Some? ==>
      forall j :: j in s.loginOtps && s.loginOtps[j].userId == UserByEmail(s, email).value ==> s.loginOtps[j].used
    ensures VerifyCodeAs(d, s, t, email, code, now).2.Fail?
  {
  }

  /**
   * A code verifies once: when it matched the user's only live code, a second
   * verification of the same code, at any later time, is refused.
   */
  lemma OtpSingleUse(d: Deps, s: Store, t: Lockout.Table, email: string, code: string, now: int, later: int)
    requires Wf(s)
    requires UserByEmail(s, email).Some?
    requires FindLoginOtp(s, UserByEmail(s, email).value, email, code, now).Some?
    requires OnlyLiveCode(s, UserByEmail(s, email).value, FindLoginOtp(s, UserByEmail(s, email).value, email, code, now).value)
    ensures var r := VerifyCodeAs(d, s, t, email, code, now);
      r.2.Ok? && VerifyCodeAs(d, r.0, r.1, email, code, later).2.Fail?
  {
    var uid := UserByEmail(s, email).value;
    var k := FindLoginOtp(s, uid, email, code, now).value;
    var r := VerifyCodeAs(d, s, t, email, code, now);
    var s1 := UseLoginOtp(s, k);
    assert r.0.users == s.users && r.0.loginOtps == s1.loginOtps;
    UserByEmailStable(s, r.0, email);
    UsingLastCode(s, uid, k);
    NoLiveCodeRefused(d, r.0, r.1, email, code, later);
  }

  /** Using the only live code of a user leaves the user none. */
  lemma UsingLastCode(s: Store, uid: nat, k: nat)
    requires Wf(s) && k in s.loginOtps
    requires OnlyLiveCode(s, uid, k)
    ensures forall j :: j in UseLoginOtp(s, k).loginOtps && UseLoginOtp(s, k).loginOtps[j].userId == uid ==> UseLoginOtp(s, k).loginOtps[j].used
  {
  }

  // ---------------------------------------------------------------- refresh and logout

  predicate StoredRefresh(s: Store, token: string, uid: nat) {
    exists k :: k in s.refreshTokens && s.refreshTokens[k].token == token && s.refreshTokens[k].userId == uid
  }

  /**
   * `refresh`: a new access token only. The token must verify and, when the table can be
   * read, match a stored record of the same user; `storeReachable` false is the fallback
   * that accepts a verified token whose record cannot be looked up.
   */
  function Refresh(d: Deps, s: Store, token: Option<string>, storeReachable: bool, now: int): (r: Reply<Body>)
    ensures !Truthy(token) ==> r == Fail(400, "Missing refreshToken")
    ensures r.Ok? ==> (
      && r.value.AccessOnly? && Truthy(token)
      && d.jwt.verify(Tokens.Refresh, token.value, now).Some?
      && var sub := d.jwt.verify(Tokens.Refresh, token.value, now).value.sub;
         sub in s.users && r.value.accessToken == AccessToken(d, s.users[sub], now)
         && (storeReachable ==> StoredRefresh(s, token.value, sub)))
    ensures (&& Truthy(token) && storeReachable && d.jwt.verify(Tokens.Refresh, token.value, now).Some?
             && d.jwt.verify(Tokens.Refresh, token.value, now).value.sub in s.users
             && StoredRefresh(s, token.value, d.jwt.verify(Tokens.Refresh, token.value, now).value.sub)) ==> r.Ok?
  {
    if !Truthy(token) then Fail(400, "Missing refreshToken")
    else
      match d.jwt.verify(Tokens.Refresh, token.value, now)
      case None => Fail(401, "Invalid refresh token")
      case Some(claims) =>
        var storedOk := if storeReachable then StoredRefresh(s, token.value, claims.sub) else true;
        if !storedOk then Fail(401, "Invalid refresh token")
        else if claims.sub !in s.users then Fail(401, "User not found")
        else Ok(200, AccessOnly(AccessToken(d, s.users[claims.sub], now)))
  }

  /** `logout`: every record holding the token is deleted. */
  function Logout(s: Store, token: Option<string>): (r: (Store, Reply<Body>))
    ensures !Truthy(token) ==> r == (s, Fail(400, "Missing refreshToken"))
    ensures Truthy(token) ==> r.1 == Ok(200, Notice("Logged out"))
    ensures r.0 == s.(refreshTokens := r.0.refreshTokens)
    ensures Truthy(token) ==> forall k :: k in r.0.refreshTokens <==> k in s.refreshTokens && s.refreshTokens[k].token != token.value
    ensures forall k :: k in r.0.refreshTokens ==> r.0.refreshTokens[k] == s.refreshTokens[k]
  {
    if !Truthy(token) then (s, Fail(400, "Missing refreshToken"))
    else
      (s.(refreshTokens := map k | k in s.refreshTokens && s.refreshTokens[k].token != token.value :: s.refreshTokens[k]),
       Ok(200, Notice("Logged out")))
  }

  /** After logout the token no longer refreshes, while the store can be read. */
  lemma LogoutRevokes(d: Deps, s: Store, token: string, now: int)
    requires token != ""
    ensures Refresh(d, Logout(s, Some(token)).0, Some(token), true, now).Fail?
  {
    var s2 := Logout(s, Some(token)).0;
    if d.jwt.verify(Tokens.Refresh, token, now).Some? {
      var sub := d.jwt.verify(Tokens.Refresh, token, now).value.sub;
      assert !StoredRefresh(s2, token, sub);
    }
  }

  /** A session issued by code verification refreshes, while its refresh token is within its lifetime. */
  lemma SessionRefreshes(d: Deps, s: Store, t: Lockout.Table, email: string, code: string, now: int, later: int)
    requires Wf(s) && Tokens.Lawful(d.jwt)
    requires UserByEmail(s, email).Some?
    requires FindLoginOtp(s, UserByEmail(s, email).value, email, code, now).Some?
    requires Tokens.Live(d.jwt, Tokens.Refresh, now, later)
    ensures var r := VerifyCodeAs(d, s, t, email, code, now);
      r.2.Ok? && Refresh(d, r.0, Some(r.2.value.refreshToken), true, later).Ok?
  {
    var uid := UserByEmail(s, email).value;
    var k := FindLoginOtp(s, uid, email, code, now).value;
    IssuedSessionRefreshes(d, UseLoginOtp(s, k), s.users[uid], now, later);
  }

  /** A freshly issued refresh token verifies and is on record for its user until it expires. */
  lemma IssuedSessionRefreshes(d: Deps, s: Store, u: User, now: int, later: int)
    requires Wf(s) && Tokens.Lawful(d.jwt) && u.id in s.users
    requires Tokens.Live(d.jwt, Tokens.Refresh, now, later)
    ensures Refresh(d, IssueSession(d, s, u, now).0, Some(RefreshToken(d, u, now)), true, later).Ok?
  {
    var s2 := IssueSession(d, s, u, now).0;
    assert s2.refreshTokens[s.nextId].token == RefreshToken(d, u, now);
    assert StoredRefresh(s2, RefreshToken(d, u, now), u.id);
  }

  // ---------------------------------------------------------------- password reset

  const ForgotPasswordNotice := "If an account with that email exists, a password reset OTP has been sent."

  function RetireResetTokens(m: map<nat, ResetToken>, uid: nat): (r: map<nat, ResetToken>)
    ensures r.Keys == m.Keys
    ensures forall k :: k in m ==> r[k] == if m[k].userId == uid then m[k].(used := true) else m[k]
  {
    map k | k in m :: if m[k].userId == uid && !m[k].used then m[k].(used := true) else m[k]
  }

  /**
   * `forgotPassword`, on the normalised email; `email` is the address as
   * `forgotPasswordValidator` hands it on, its `normalizeEmail` rewrite included.
   */
  function ForgotPassword(s: Store, email: string, code: OtpCode, now: int): (r: (Store, Reply<Body>))
    requires Wf(s)
    ensures Wf(r.0)
    ensures r.1 == Ok(200, Notice(ForgotPasswordNotice))
    ensures UserByEmail(s, Js.NormalizeEmail(email)).None? ==> r.0 == s
    ensures UserByEmail(s, Js.NormalizeEmail(email)).Some? ==>
      var uid := UserByEmail(s, Js.NormalizeEmail(email)).value;
      && s.nextId in r.0.resetTokens
      && r.0.resetTokens[s.nextId] == ResetToken(s.nextId, uid, Js.Decimal(code), now + ResetOtpLifetimeMs, false)
      && r.0 == s.(resetTokens := r.0.resetTokens, nextId := s.nextId + 1)
  {
    ForgotPasswordAs(s, Js.NormalizeEmail(email), code, now)
  }

  /** Two spellings of one address get the same answer and the same stored code. */
  lemma ForgotPasswordSpellings(s: Store, e1: string, e2: string, code: OtpCode, now: int)
    requires Wf(s)
    requires Js.NormalizeEmail(e1) == Js.NormalizeEmail(e2)
    ensures ForgotPassword(s, e1, code, now) == ForgotPassword(s, e2, code, now)
    ensures ForgotPassword(s, Js.NormalizeEmail(e1), code, now) == ForgotPassword(s, e1, code, now)
  {
    Js.NormalizeEmailIdempotent(e1);
  }

  /**
   * The body of `forgotPassword`: the same answer whether or not the address belongs to a
   * user; for a user, the unused reset codes are retired and one new code valid for 15
   * minutes is stored.
   */
  function ForgotPasswordAs(s: Store, email: string, code: OtpCode, now: int): (r: (Store, Reply<Body>))
    requires Wf(s)
    ensures Wf(r.0)
    ensures r.1 == Ok(200, Notice(ForgotPasswordNotice))
    ensures UserByEmail(s, email).None? ==> r.0 == s
    ensures UserByEmail(s, email).Some? ==>
      var uid := UserByEmail(s, email).value;
      && r.0.resetTokens == RetireResetTokens(s.resetTokens, uid)[s.nextId :=
                              ResetToken(s.nextId, uid, Js.Decimal(code), now + ResetOtpLifetimeMs, false)]
      && r.0 == s.(resetTokens := r.0.resetTokens, nextId := s.nextId + 1)
  {
    match UserByEmail(s, email)
    case None => (s, Ok(200, Notice(ForgotPasswordNotice)))
    case Some(uid) =>
      var tok := ResetToken(s.nextId, uid, Js.Decimal(code), now + ResetOtpLifetimeMs, false);
      (s.(resetTokens := RetireResetTokens(s.resetTokens, uid)[s.nextId := tok], nextId := s.nextId + 1),
       Ok(200, Notice(ForgotPasswordNotice)))
  }

  predicate LiveResetFor(rt: ResetToken, uid: nat, code: string) {
    rt.userId == uid && rt.otp == code && !rt.used
  }

  /** The newest unused reset code of the user with this value (`order id DESC`). */
  function FindResetToken(s: Store, uid: nat, code: string): (r: Option<nat>)
    ensures r.Some? ==> r.value in s.resetTokens && LiveResetFor(s.resetTokens[r.value], uid, code)
    ensures r.Some? ==> forall k :: r.value < k < s.nextId && k in s.resetTokens ==> !LiveResetFor(s.resetTokens[k], uid, code)
    ensures r.None? && Wf(s) ==> forall k :: k in s.resetTokens ==> !LiveResetFor(s.resetTokens[k], uid, code)
  {
    Listing.LastKey(s.resetTokens, (rt: ResetToken) => LiveResetFor(rt, uid, code), s.nextId)
  }

  /**
   * `resetPassword`, on the normalised email and the trimmed code; `email` is the address as
   * `resetPasswordValidator` hands it on, its `normalizeEmail` rewrite included.
   */
  function ResetPassword(d: Deps, s: Store, email: string, otp: string, newPassword: string, salt: string, now: int)
    : (r: (Store, Reply<Body>))
    requires Wf(s)
    ensures UserByEmail(s, Js.NormalizeEmail(email)).None? ==> r == (s, Fail(404, "User not found"))
    ensures var e := Js.NormalizeEmail(email);
      r.1.Ok? <==>
        && UserByEmail(s, e).Some? && FindResetToken(s, UserByEmail(s, e).value, Js.Trim(otp)).Some?
        && s.resetTokens[FindResetToken(s, UserByEmail(s, e).value, Js.Trim(otp)).value].expiresAt >= now
    ensures r.1.Ok? ==>
      var uid := UserByEmail(s, Js.NormalizeEmail(email)).value;
      r.0.users == s.users[uid := s.users[uid].(password := d.hasher.hash(newPassword, Passwords.SaltRounds, salt))]
  {
    ResetPasswordAs(s, Js.NormalizeEmail(email), Js.Trim(otp), d.hasher.hash(newPassword, Passwords.SaltRounds, salt), now)
  }

  /**
   * The body of `resetPassword`: an unknown user is a 404; without an unused matching code it
   * is a 400; an expired code is retired and refused; otherwise the new hash is stored, the
   * code is retired and every refresh token of the user is deleted.
   */
  function ResetPasswordAs(s: Store, email: string, code: string, hash: string, now: int): (r: (Store, Reply<Body>))
    requires Wf(s)
    ensures UserByEmail(s, email).None? ==> r == (s, Fail(404, "User not found"))
    ensures UserByEmail(s, email).Some? ==>
      var uid := UserByEmail(s, email).value;
      var f := FindResetToken(s, uid, code);
      && (f.None? ==> r == (s, Fail(400, "Invalid or expired OTP")))
      && (f.Some? && s.resetTokens[f.value].expiresAt < now ==>
            r == (RetireResetToken(s, f.value), Fail(400, "OTP has expired. Please request a new one.")))
      && (f.Some? && s.resetTokens[f.value].expiresAt >= now ==>
            r == (ApplyReset(s, uid, f.value, hash),
                  Ok(200, Notice("Password has been reset successfully. Please login with your new password."))))
  {
    match UserByEmail(s, email)
    case None => (s, Fail(404, "User not found"))
    case Some(uid) =>
      match FindResetToken(s, uid, code)
      case None => (s, Fail(400, "Invalid or expired OTP"))
      case Some(k) =>
        if s.resetTokens[k].expiresAt < now then
          (RetireResetToken(s, k), Fail(400, "OTP has expired. Please request a new one."))
        else
          (ApplyReset(s, uid, k, hash), Ok(200, Notice("Password has been reset successfully. Please login with your new password.")))
  }

  /** Two spellings of one address, and codes that differ only in surrounding blanks, reset alike. */
  lemma ResetPasswordSpellings(d: Deps, s: Store, e1: string, e2: string, otp1: string, otp2: string, pw: string, salt: string, now: int)
    requires Wf(s)
    requires Js.NormalizeEmail(e1) == Js.NormalizeEmail(e2) && Js.Trim(otp1) == Js.Trim(otp2)
    ensures ResetPassword(d, s, e1, otp1, pw, salt, now) == ResetPassword(d, s, e2, otp2, pw, salt, now)
    ensures ResetPassword(d, s, Js.NormalizeEmail(e1), otp1, pw, salt, now) == ResetPassword(d, s, e1, otp1, pw, salt, now)
  {
    Js.NormalizeEmailIdempotent(e1);
  }

  /** An expired code is retired and nothing else changes. */
  function RetireResetToken(s: Store, k: nat): (r: Store)
    requires k in s.resetTokens
    ensures r.resetTokens == s.resetTokens[k := s.resetTokens[k].(used := true)]
    ensures r == s.(resetTokens := r.resetTokens)
  {
    s.(resetTokens := s.resetTokens[k := s.resetTokens[k].(used := true)])
  }

  /** The committed reset: new hash, code retired, every refresh token of the user deleted. */
  function ApplyReset(s: Store, uid: nat, k: nat, hash: string): (r: Store)
    requires uid in s.users && k in s.resetTokens
    ensures r.users == s.users[uid := s.users[uid].(password := hash)]
    ensures r.resetTokens == s.resetTokens[k := s.resetTokens[k].(used := true)]
    ensures forall j :: j in r.refreshTokens <==> j in s.refreshTokens && s.refreshTokens[j].userId != uid
    ensures forall j :: j in r.refreshTokens ==> r.refreshTokens[j] == s.refreshTokens[j]
  {
    s.(users := s.users[uid := s.users[uid].(password := hash)],
       resetTokens := s.resetTokens[k := s.resetTokens[k].(used := true)],
       refreshTokens := map j | j in s.refreshTokens && s.refreshTokens[j].userId != uid :: s.refreshTokens[j])
  }

  /** A password reset ends every session of the user: none of their refresh tokens refreshes afterwards. */
  lemma ResetRevokesSessions(d: Deps, s: Store, email: string, code: string, hash: string, now: int, token: string, later: int)
    requires Wf(s)
    requires UserByEmail(s, email).Some?
    requires FindResetToken(s, UserByEmail(s, email).value, code).Some?
    requires s.resetTokens[FindResetToken(s, UserByEmail(s, email).value, code).value].expiresAt >= now
    requires d.jwt.verify(Tokens.Refresh, token, later).Some?
    requires d.jwt.verify(Tokens.Refresh, token, later).value.sub == UserByEmail(s, email).value
    ensures var r := ResetPasswordAs(s, email, code, hash, now);
      r.1.Ok? && Refresh(d, r.0, Some(token), true, later).Fail?
  {
    var uid := UserByEmail(s, email).value;
    var s2 := ResetPasswordAs(s, email, code, hash, now).0;
    assert s2 == ApplyReset(s, uid, FindResetToken(s, uid, code).value, hash);
    assert !StoredRefresh(s2, token, uid);
  }

  /** After a reset the new password is accepted for the user. */
  lemma ResetThenPasswordMatches(d: Deps, s: Store, email: string, code: string, pw: string, salt: string, now: int)
    requires Wf(s) && Passwords.Lawful(d.hasher)
    requires UserByEmail(s, email).Some?
    requires FindResetToken(s, UserByEmail(s, email).value, code).Some?
    requires s.resetTokens[FindResetToken(s, UserByEmail(s, email).value, code).value].expiresAt >= now
    ensures var r := ResetPasswordAs(s, email, code, d.hasher.hash(pw, Passwords.SaltRounds, salt), now);
      var uid := UserByEmail(s, email).value;
      r.1.Ok? && uid in r.0.users && Passwords.Matches(d.hasher, pw, r.0.users[uid].password)
  {
    var uid := UserByEmail(s, email).value;
    var hash := d.hasher.hash(pw, Passwords.SaltRounds, salt);
    var s2 := ApplyReset(s, uid, FindResetToken(s, uid, code).value, hash);
    assert ResetPasswordAs(s, email, code, hash, now).0 == s2;
    assert s2.users[uid].password == hash;
    Passwords.HashedMatches(d.hasher, pw, salt);
  }
}

=== FILE: base64.dfy ===
/**
 * The "base64" encoding of section 4 of RFC 4648 (alphabet A-Z a-z 0-9 + /, `=` padding),
 * which is what `Buffer.toString('base64')` produces. `Decode` is the strict decoder of
 * canonical text; the proof that it inverts `Encode` is what lets the field-encryption
 * envelope be read back.
 */
module Base64 {
  import opened Common

  type Sextet = i: int | 0 <= i < 64

  function CharOf(i: Sextet): char {
    if i < 26 then ('A' as int + i) as char
    else if i < 52 then ('a' as int + i - 26) as char
    else if i < 62 then ('0' as int + i - 52) as char
    else if i == 62 then '+'
    else '/'
  }

  function IndexOf(c: char): Option<Sextet> {
    if 'A' <= c <= 'Z' then Some(c as int - 'A' as int)
    else if 'a' <= c <= 'z' then Some(c as int - 'a' as int + 26)
    else if '0' <= c <= '9' then Some(c as int - '0' as int + 52)
    else if c == '+' then Some(62)
    else if c == '/' then Some(63)
    else None
  }

  lemma IndexOfCharOf(i: Sextet)
    ensures IndexOf(CharOf(i)) == Some(i)
    ensures CharOf(i) != '='
  {
  }

  /** The four sextets of one three-byte group. */
  function Quad(a: Byte, b: Byte, c: Byte): seq<Sextet> {
    [a / 4, (a % 4) * 16 + b / 16, (b % 16) * 4 + c / 64, c % 64]
  }

  function Chars(q: seq<Sextet>): (r: string)
    ensures |r| == |q|
    ensures forall k :: 0 <= k < |q| ==> r[k] == CharOf(q[k])
  {
    seq(|q|, k requires 0 <= k < |q| => CharOf(q[k]))
  }

  function Encode(b: Bytes): (s: string)
    ensures |b| > 0 ==> |s| >= 4 && IndexOf(s[0]).Some?
    decreases |b|
  {
    if |b| == 0 then ""
    else if |b| == 1 then Chars(Quad(b[0], 0, 0)[..2]) + "=="
    else if |b| == 2 then Chars(Quad(b[0], b[1], 0)[..3]) + "="
    else Chars(Quad(b[0], b[1], b[2])) + Encode(b[3..])
  }

  /** The strict RFC 4648 decoder: length a multiple of 4, padding only at the end, zero pad bits. */
  function Decode(s: string): Option<Bytes>
    decreases |s|
  {
    if |s| == 0 then Some([])
    else if |s| < 4 then None
    else
      var i0, i1, i2, i3 := IndexOf(s[0]), IndexOf(s[1]), IndexOf(s[2]), IndexOf(s[3]);
      if i0.None? || i1.None? then None
      else if |s| == 4 && s[2] == '=' && s[3] == '=' then
        if i1.value % 16 == 0 then Some([i0.value * 4 + i1.value / 16]) else None
      else if i2.None? then None
      else if |s| == 4 && s[3] == '=' then
        if i2.value % 4 == 0
        then Some([i0.value * 4 + i1.value / 16, (i1.value % 16) * 16 + i2.value / 4])
        else None
      else if i3.None? then None
      else
        match Decode(s[4..])
        case None => None
        case Some(rest) =>
          Some([i0.value * 4 + i1.value / 16,
                (i1.value % 16) * 16 + i2.value / 4,
                (i2.value % 4) * 64 + i3.value] + rest)
  }

  /** The arithmetic of one group: the sextets of three bytes give those bytes back. */
  lemma QuadInverse(a: Byte, b: Byte, c: Byte)
    ensures var q := Quad(a, b, c);
      && (q[0] as int) * 4 + (q[1] as int) / 16 == a
      && ((q[1] as int) % 16) * 16 + (q[2] as int) / 4 == b
      && ((q[2] as int) % 4) * 64 + (q[3] as int) == c
  {
    assert ((a % 4) * 16 + b / 16) / 16 == a % 4;
    assert ((a % 4) * 16 + b / 16) % 16 == b / 16;
    assert ((b % 16) * 4 + c / 64) / 4 == b % 16;
    assert ((b % 16) * 4 + c / 64) % 4 == c / 64;
  }

  /** Every three bytes, and a final one or two, become four characters. */
  lemma {:induction false} EncodeLength(b: Bytes)
    ensures |Encode(b)| == 4 * ((|b| + 2) / 3)
    decreases |b|
  {
    if |b| >= 3 {
      EncodeLength(b[3..]);
      assert (|b| + 2) / 3 == (|b[3..]| + 2) / 3 + 1;
    }
  }

  /** The last group of a one-byte tail: two characters and `==`. */
  lemma DecodeOneByte(x: Byte)
    ensures Decode(Encode([x])) == Some([x])
  {
    var q := Quad(x, 0, 0);
    QuadInverse(x, 0, 0);
    IndexOfCharOf(q[0]);
    IndexOfCharOf(q[1]);
    var s := Encode([x]);
    assert s == [CharOf(q[0]), CharOf(q[1]), '=', '='];
    assert q[1] % 16 == 0;
  }

  /** The last group of a two-byte tail: three characters and `=`. */
  lemma DecodeTwoBytes(x: Byte, y: Byte)
    ensures Decode(Encode([x, y])) == Some([x, y])
  {
    var q := Quad(x, y, 0);
    QuadInverse(x, y, 0);
    IndexOfCharOf(q[0]);
    IndexOfCharOf(q[1]);
    IndexOfCharOf(q[2]);
    var s := Encode([x, y]);
    assert s == [CharOf(q[0]), CharOf(q[1]), CharOf(q[2]), '='];
    assert q[2] % 4 == 0;
  }

  /** A full group in front of an encoded remainder decodes to its three bytes in front of the remainder. */
  lemma DecodeGroup(x: Byte, y: Byte, z: Byte, tail: string, rest: Bytes)
    requires Decode(tail) == Some(rest)
    ensures Decode(Chars(Quad(x, y, z)) + tail) == Some([x, y, z] + rest)
  {
    var q := Quad(x, y, z);
    QuadInverse(x, y, z);
    IndexOfCharOf(q[0]);
    IndexOfCharOf(q[1]);
    IndexOfCharOf(q[2]);
    IndexOfCharOf(q[3]);
    var s := Chars(q) + tail;
    assert s[4..] == tail;
    assert s[0] == CharOf(q[0]) && s[1] == CharOf(q[1]) && s[2] == CharOf(q[2]) && s[3] == CharOf(q[3]);
  }

  /** Decoding what `Encode` produced gives the bytes back. */
  lemma {:induction false} DecodeEncode(b: Bytes)
    ensures Decode(Encode(b)) == Some(b)
    decreases |b|
  {
    if |b| == 1 {
      assert b == [b[0]];
      DecodeOneByte(b[0]);
    } else if |b| == 2 {
      assert b == [b[0], b[1]];
      DecodeTwoBytes(b[0], b[1]);
    } else if |b| >= 3 {
      DecodeEncode(b[3..]);
      EncodeGroup(b);
      DecodeGroup(b[0], b[1], b[2], Encode(b[3..]), b[3..]);
      Regroup(b);
    }
  }

  /** A longer input is encoded as its first full group in front of the encoding of the rest. */
  lemma EncodeGroup(b: Bytes)
    requires |b| >= 3
    ensures Encode(b) == Chars(Quad(b[0], b[1], b[2])) + Encode(b[3..])
  {
    var q := Quad(b[0], b[1], b[2]);
    var tail := Encode(b[3..]);
    assert Encode(b) == Chars(q) + tail;
  }

  lemma Regroup(b: Bytes)
    requires |b| >= 3
    ensures b == [b[0], b[1], b[2]] + b[3..]
  {
    assert b == b[..3] + b[3..];
    assert b[..3] == [b[0], b[1], b[2]];
  }
}

=== FILE: client_auth.dfy ===
/**
 * The browser side of authentication: which API base the client talks to, and the token
 * store kept in `localStorage` together with the current-user subject.
 */
module ClientAuth {
  import opened Common

  /** The parts of `window` the client reads; `None` stands for no `window` at all. */
  datatype Window = Window(apiBaseUrl: Option<string>, protocol: string, hostname: string)

  /** `apiBase`: an explicit `API_BASE_URL` wins, an https page talks https, anything else the local http server. */
  function ApiBase(w: Option<Window>): (r: string)
    ensures w.Some? && Truthy(w.value.apiBaseUrl) ==> r == w.value.apiBaseUrl.value
    ensures w.Some? && !Truthy(w.value.apiBaseUrl) && w.value.protocol == "https:" ==>
      r == "https://" + w.value.hostname + (if w.value.hostname == "localhost" then ":4443" else "") + "/api"
    ensures (w.None? || (!Truthy(w.value.apiBaseUrl) && w.value.protocol != "https:")) ==> r == "http://localhost:4000/api"
  {
    if w.Some? && Truthy(w.value.apiBaseUrl) then w.value.apiBaseUrl.value
    else if w.Some? && w.value.protocol == "https:" then
      var port := if w.value.hostname == "localhost" then ":4443" else "";
      "https://" + w.value.hostname + port + "/api"
    else "http://localhost:4000/api"
  }

  datatype UserDto = UserDto(id: nat, username: string, email: string, role: string)

  datatype AuthResponse = AuthResponse(user: UserDto, accessToken: string, refreshToken: string)

  /**
   * The client's state: the three `localStorage` entries (`accessToken`, `refreshToken`,
   * `currentUser`) and the value of the current-user subject.
   */
  datatype State = State(
    accessToken: Option<string>,
    refreshToken: Option<string>,
    storedUser: Option<UserDto>,
    current: Option<UserDto>)

  /** A fresh page: the subject is restored from the stored user, if any. */
  function Load(accessToken: Option<string>, refreshToken: Option<string>, storedUser: Option<UserDto>): (st: State)
    ensures st.current == storedUser
    ensures st.accessToken == accessToken && st.refreshToken == refreshToken && st.storedUser == storedUser
  {
    State(accessToken, refreshToken, storedUser, storedUser)
  }

  /** `isAuthenticated`: a non-empty access token is stored. */
  predicate IsAuthenticated(st: State) {
    Truthy(st.accessToken)
  }

  /** `role`: the current user's role, or null. */
  function Role(st: State): (r: Option<string>)
    ensures r.Some? <==> st.current.Some?
    ensures r.Some? ==> r.value == st.current.value.role
  {
    match st.current
    case None => None
    case Some(u) => Some(u.role)
  }

  /** `persistAuth`: both tokens and the user are written, and the user is published. */
  function PersistAuth(st: State, res: AuthResponse): (r: State)
    ensures r.accessToken == Some(res.accessToken) && r.refreshToken == Some(res.refreshToken)
    ensures r.storedUser == Some(res.user) && r.current == Some(res.user)
  {
    State(Some(res.accessToken), Some(res.refreshToken), Some(res.user), Some(res.user))
  }

  /** `clearAuth`: the three entries are removed and null is published. */
  function ClearAuth(st: State): (r: State)
    ensures r.accessToken.None? && r.refreshToken.None? && r.storedUser.None? && r.current.None?
  {
    State(None, None, None, None)
  }

  /** The calls of the service that touch the state, with the server's answer where there is one. */
  datatype Call =
    | SignedUp(res: AuthResponse)
    | LoggedIn
    | VerifiedOtp(res: AuthResponse)
    | Refreshed(accessToken: string)
    | LoggedOut

  /**
   * The state after a call completes, and the refresh token the call sends to the server
   * (`refresh` and `logout` send one). `login` stores nothing; `refresh` replaces only the
   * access token; `logout` clears first and sends the token it read before clearing.
   */
  function Apply(st: State, call: Call): (r: (State, Option<Option<string>>))
    ensures call.LoggedIn? ==> r.0 == st
    ensures call.SignedUp? || call.VerifiedOtp? ==> r.0 == PersistAuth(st, call.res)
    ensures call.Refreshed? ==> r.0 == st.(accessToken := Some(call.accessToken))
    ensures call.LoggedOut? ==> r.0 == ClearAuth(st)
    ensures r.1.Some? <==> call.Refreshed? || call.LoggedOut?
    ensures r.1.Some? ==> r.1.value == st.refreshToken
  {
    match call
    case SignedUp(res) => (PersistAuth(st, res), None)
    case LoggedIn => (st, None)
    case VerifiedOtp(res) => (PersistAuth(st, res), None)
    case Refreshed(tok) => (st.(accessToken := Some(tok)), Some(st.refreshToken))
    case LoggedOut => (ClearAuth(st), Some(st.refreshToken))
  }

  /** After signing in the client is authenticated (the server never sends an empty token) as the returned user. */
  lemma SignedInState(st: State, res: AuthResponse)
    requires res.accessToken != ""
    ensures IsAuthenticated(Apply(st, VerifiedOtp(res)).0)
    ensures Role(Apply(st, VerifiedOtp(res)).0) == Some(res.user.role)
  {
  }

  /** Logging out leaves no session behind, and the server still receives the refresh token to revoke. */
  lemma LogoutForgetsSession(st: State)
    ensures !IsAuthenticated(Apply(st, LoggedOut).0) && Role(Apply(st, LoggedOut).0).None?
    ensures Apply(st, LoggedOut).1 == Some(st.refreshToken)
  {
  }

  /** A password login alone never authenticates a signed-out client: only the code does. */
  lemma LoginAloneDoesNotAuthenticate(st: State)
    requires !IsAuthenticated(st)
    ensures !IsAuthenticated(Apply(st, LoggedIn).0)
  {
  }
}

=== FILE: common.dfy ===
/** Shared value types used by every module of the model. */
module Common {

  datatype Option<+T> = None | Some(value: T) {
    function GetOr(default: T): T {
      match this
      case Some(v) => v
      case None => default
    }
  }

  /** A computation that returns a value or throws an error with a message. */
  datatype Result<+T> = Success(value: T) | Failure(error: string)

  /** What a middleware does with a request: hand it on (`next()`) or answer it. */
  datatype Gate = Next | Reject(status: int, message: string)

  /** What the error handler of the app answers, in production, for anything a handler throws. */
  const InternalError := "Internal Server Error"

  /** `req.body` as the body parser leaves it: never set, or an object holding the fields read. */
  datatype ParsedBody<+T> = NoBody | Parsed(fields: T)

  /** What a route handler answers: a success body or an error status with a message. */
  datatype Reply<+T> = Ok(status: int, value: T) | Fail(status: int, message: string)

  /** An update that either leaves a column alone or writes a value. */
  datatype Patch<+T> = Keep | Put(v: T) {
    function Apply(old_: T): T {
      match this
      case Keep => old_
      case Put(v) => v
    }
  }

  /** An octet; `Bytes` is a Node `Buffer`. */
  type Byte = b: int | 0 <= b < 256
  type Bytes = seq<Byte>

  /** JavaScript truthiness of an optional string: absent and "" are both falsy. */
  predicate Truthy(s: Option<string>) {
    s.Some? && s.value != ""
  }
}

/**
 * The JavaScript string operations the server relies on: `trim`, `toLowerCase`,
 * `startsWith`, `includes`, `split` and `parseInt(_, 10)`.
 */
module Js {
  import opened Common

  /** WhiteSpace and LineTerminator code points of ECMAScript, the set `trim` and `\s` use. */
  predicate IsSpace(c: char) {
    c == '\t' || c == '\n' || c == '\U{000B}' || c == '\U{000C}' || c == '\r' || c == ' '
    || c == '\U{00A0}' || c == '\U{1680}' || ('\U{2000}' <= c <= '\U{200A}')
    || c == '\U{2028}' || c == '\U{2029}' || c == '\U{202F}' || c == '\U{205F}'
    || c == '\U{3000}' || c == '\U{FEFF}'
  }

  /** `trimStart`: drops the leading white space. */
  function TrimStart(s: string): (r: string)
    decreases |s|
  {
    if s == [] || !IsSpace(s[0]) then s else TrimStart(s[1..])
  }

  /** `trimEnd`: drops the trailing white space. */
  function TrimEnd(s: string): (r: string)
    decreases |s|
  {
    if s == [] || !IsSpace(s[|s| - 1]) then s else TrimEnd(s[..|s| - 1])
  }

  /** `trimStart` removes a prefix made only of white space and stops at the first visible character. */
  lemma {:induction false} TrimStartShape(s: string)
    ensures var r := TrimStart(s);
      && |r| <= |s| && r == s[|s| - |r|..]
      && (r == [] || !IsSpace(r[0]))
      && (forall i :: 0 <= i < |s| - |r| ==> IsSpace(s[i]))
    decreases |s|
  {
    if s != [] && IsSpace(s[0]) {
      TrimStartShape(s[1..]);
    }
  }

  /** `trimEnd` removes a suffix made only of white space and stops at the last visible character. */
  lemma {:induction false} TrimEndShape(s: string)
    ensures var r := TrimEnd(s);
      && |r| <= |s| && r == s[..|r|]
      && (r == [] || !IsSpace(r[|r| - 1]))
      && (forall i :: |r| <= i < |s| ==> IsSpace(s[i]))
    decreases |s|
  {
    if s != [] && IsSpace(s[|s| - 1]) {
      TrimEndShape(s[..|s| - 1]);
    }
  }

  /** `String.prototype.trim`. */
  function Trim(s: string): string {
    TrimEnd(TrimStart(s))
  }

  /** Trimming strips exactly the surrounding white space: the result neither starts nor ends with it. */
  lemma TrimShape(s: string)
    ensures Trim(s) == [] || (!IsSpace(Trim(s)[0]) && !IsSpace(Trim(s)[|Trim(s)| - 1]))
    ensures |Trim(s)| <= |s|
  {
    var t := TrimStart(s);
    var r := TrimEnd(t);
    TrimStartShape(s);
    TrimEndShape(t);
    if r != [] {
      assert r[0] == t[0];
    }
  }

  lemma TrimIdempotent(s: string)
    ensures Trim(Trim(s)) == Trim(s)
  {
    TrimShape(s);
    var r := Trim(s);
    if r != [] {
      assert TrimStart(r) == r;
      TrimStartShape(r);
      assert TrimEnd(r) == r;
    }
  }

  /** Trimming only removes characters: what was not in the string is not in its trimmed form. */
  lemma TrimKeepsOut(s: string, c: char)
    requires c !in s
    ensures c !in Trim(s)
  {
    TrimStartShape(s);
    var t := TrimStart(s);
    TrimEndShape(t);
    var r := TrimEnd(t);
    forall i | 0 <= i < |r|
      ensures r[i] != c
    {
      assert r[i] == t[i] == s[|s| - |t| + i];
      assert s[|s| - |t| + i] in s;
    }
  }

  function LowerChar(c: char): char {
    if 'A' <= c <= 'Z' then (c as int + 32) as char else c
  }

  /** `toLowerCase`, restricted to the ASCII letters (see README, "Left out"). */
  function ToLower(s: string): (r: string)
  {
    seq(|s|, i requires 0 <= i < |s| => LowerChar(s[i]))
  }

  /** A string with no upper-case ASCII letter is its own lower-case form. */
  lemma LowerOfLower(s: string)
    requires forall i :: 0 <= i < |s| ==> !('A' <= s[i] <= 'Z')
    ensures ToLower(s) == s
  {
  }

  lemma ToLowerIdempotent(s: string)
    ensures ToLower(ToLower(s)) == ToLower(s)
  {
  }

  /** Lower-casing does not turn a white-space character into a visible one or back. */
  lemma LowerKeepsSpace(c: char)
    ensures IsSpace(LowerChar(c)) == IsSpace(c)
  {
  }

  lemma {:induction false} TrimStartLower(s: string)
    ensures TrimStart(ToLower(s)) == ToLower(TrimStart(s))
    decreases |s|
  {
    if s != [] {
      LowerKeepsSpace(s[0]);
      if IsSpace(s[0]) {
        assert ToLower(s)[1..] == ToLower(s[1..]);
        TrimStartLower(s[1..]);
      }
    }
  }

  lemma {:induction false} TrimEndLower(s: string)
    ensures TrimEnd(ToLower(s)) == ToLower(TrimEnd(s))
    decreases |s|
  {
    if s != [] {
      LowerKeepsSpace(s[|s| - 1]);
      if IsSpace(s[|s| - 1]) {
        assert ToLower(s)[..|s| - 1] == ToLower(s[..|s| - 1]);
        TrimEndLower(s[..|s| - 1]);
      }
    }
  }

  /** A string that starts with a visible character does not trim to nothing. */
  lemma TrimVisible(s: string)
    requires s != [] && !IsSpace(s[0])
    ensures Trim(s) != []
  {
    TrimEndShape(s);
  }

  /** `email.trim().toLowerCase()`, the normal form every email lookup uses. */
  function NormalizeEmail(e: string): string {
    ToLower(Trim(e))
  }

  /**
   * Normalising twice is normalising once, and `toLowerCase().trim()` (the order the
   * 2FA login uses) gives the same string as `trim().toLowerCase()`.
   */
  lemma NormalizeEmailIdempotent(e: string)
    ensures NormalizeEmail(NormalizeEmail(e)) == NormalizeEmail(e)
    ensures Trim(ToLower(e)) == NormalizeEmail(e)
  {
    TrimStartLower(e);
    TrimEndLower(TrimStart(e));
    var t := Trim(e);
    TrimStartLower(t);
    TrimEndLower(TrimStart(t));
    TrimIdempotent(e);
    ToLowerIdempotent(t);
  }

  predicate StartsWith(s: string, prefix: string) {
    |prefix| <= |s| && s[..|prefix|] == prefix
  }

  /** `p` occurs in `s` starting at index `i`. */
  predicate OccursAt(s: string, p: string, i: int) {
    0 <= i <= |s| - |p| && s[i..i + |p|] == p
  }

  /** `s.includes(p)`. */
  predicate Contains(s: string, p: string) {
    exists i | 0 <= i <= |s| - |p| :: OccursAt(s, p, i)
  }

  /** No character of `s` is `c`. */
  predicate Lacks(s: string, c: char) {
    forall i | 0 <= i < |s| :: s[i] != c
  }

  /** A string lacking a character of `p` does not contain `p`. */
  lemma MissingChar(s: string, p: string, k: nat)
    requires k < |p| && Lacks(s, p[k])
    ensures !Contains(s, p)
  {
    forall i | 0 <= i <= |s| - |p|
      ensures !OccursAt(s, p, i)
    {
      assert s[i..i + |p|][k] == s[i + k];
    }
  }

  /** A string that starts with `p` contains it. */
  lemma PrefixContained(s: string, p: string)
    requires StartsWith(s, p)
    ensures Contains(s, p)
  {
    assert OccursAt(s, p, 0);
  }

  /** Index of the first `sep` in `s`, or `|s|` when there is none. */
  function IndexOfChar(s: string, sep: char): (i: nat)
    ensures i <= |s|
    ensures forall j :: 0 <= j < i ==> s[j] != sep
    ensures i < |s| ==> s[i] == sep
  {
    if s == [] then 0 else if s[0] == sep then 0 else 1 + IndexOfChar(s[1..], sep)
  }

  /** `s.split(sep)` for a one-character separator: always at least one field. */
  function Split(s: string, sep: char): (r: seq<string>)
    ensures |r| >= 1
    ensures r[0] == s[..IndexOfChar(s, sep)]
    ensures IndexOfChar(s, sep) < |s| ==> |r| >= 2 && r[1] == Split(s[IndexOfChar(s, sep) + 1..], sep)[0]
    ensures forall k :: 0 <= k < |r| ==> sep !in r[k]
    decreases |s|
  {
    var i := IndexOfChar(s, sep);
    if i == |s| then [s] else [s[..i]] + Split(s[i + 1..], sep)
  }

  predicate IsDigit(c: char) {
    '0' <= c <= '9'
  }

  /** The longest prefix of `s` made of decimal digits. */
  function DigitPrefix(s: string): (r: string)
    ensures |r| <= |s| && r == s[..|r|]
    ensures forall i :: 0 <= i < |r| ==> IsDigit(r[i])
    ensures |r| < |s| ==> !IsDigit(s[|r|])
  {
    if s == [] || !IsDigit(s[0]) then [] else [s[0]] + DigitPrefix(s[1..])
  }

  /** The value of a string of decimal digits. */
  function DigitsValue(d: string): (n: nat)
    requires forall i :: 0 <= i < |d| ==> IsDigit(d[i])
  {
    if d == [] then 0
    else
      assert IsDigit(d[|d| - 1]);
      DigitsValue(d[..|d| - 1]) * 10 + (d[|d| - 1] as int - '0' as int)
  }

  /**
   * `parseInt(s, 10)`: skip leading white space, read an optional sign and the longest
   * run of decimal digits; `None` stands for `NaN` (no digit at all).
   */
  function ParseInt(s: string): (r: Option<int>)
    ensures r.None? <==> DigitPrefix(SignFree(TrimStart(s))) == []
  {
    var t := TrimStart(s);
    var neg := t != [] && t[0] == '-';
    var d := DigitPrefix(SignFree(t));
    if d == [] then None
    else if neg then Some(-(DigitsValue(d) as int))
    else Some(DigitsValue(d))
  }

  function SignFree(t: string): string {
    if t != [] && (t[0] == '-' || t[0] == '+') then t[1..] else t
  }

  /** Decimal rendering of a natural number, as `Number.prototype.toString()` gives it. */
  function Decimal(n: nat): (r: string)
    ensures |r| >= 1
    ensures forall i :: 0 <= i < |r| ==> IsDigit(r[i])
    ensures DigitsValue(r) == n
  {
    var last := ('0' as int + n % 10) as char;
    if n < 10 then [last]
    else
      var r := Decimal(n / 10) + [last];
      assert r[..|r| - 1] == Decimal(n / 10);
      r
  }

  /** `String(n)` for any integer: a minus sign before the digits of a negative number. */
  function IntText(n: int): string {
    if n < 0 then "-" + Decimal(-n) else Decimal(n)
  }

  /** A six-digit number prints as exactly six digits, the shape of every one-time code. */
  lemma SixDigitDecimal(n: nat)
    requires 100000 <= n <= 999999
    ensures |Decimal(n)| == 6
  {
    var n1 := n / 10;
    var n2 := n1 / 10;
    var n3 := n2 / 10;
    var n4 := n3 / 10;
    var n5 := n4 / 10;
    assert 1 <= n5 < 10;
    assert |Decimal(n5)| == 1;
    assert |Decimal(n4)| == 2;
    assert |Decimal(n3)| == 3;
    assert |Decimal(n2)| == 4;
    assert |Decimal(n1)| == 5;
  }

  /** Reading back a rendered number gives the number: `parseInt(String(n), 10) == n`. */
  lemma ParseDecimal(n: nat)
    ensures ParseInt(Decimal(n)) == Some(n)
  {
    var d := Decimal(n);
    assert !IsSpace(d[0]) && d[0] != '-' && d[0] != '+';
    DigitPrefixAll(d);
  }

  lemma {:induction false} DigitPrefixAll(d: string)
    requires forall i :: 0 <= i < |d| ==> IsDigit(d[i])
    ensures DigitPrefix(d) == d
    decreases |d|
  {
    if d != [] {
      DigitPrefixAll(d[1..]);
    }
  }
}

=== FILE: csrf.dfy ===
/**
 * The CSRF guard: one secret per client address, kept in memory, and a verify decision
 * that lets safe methods and bearer-authenticated requests through. The `csrf` library's
 * secret and token functions are an abstract `Lib`.
 */
module Csrf {
  import opened Common
  import Js

  /** `tokens.create(secret)` and `tokens.verify(secret, token)`. */
  datatype Lib = Lib(create: string -> string, verify: (string, string) -> bool)

  /** A created token is never empty and verifies under the secret it was made from. */
  ghost predicate Lawful(lib: Lib) {
    forall secret :: lib.create(secret) != "" && lib.verify(secret, lib.create(secret))
  }

  /** The in-memory secrets, keyed by client address. */
  type Secrets = map<string, string>

  /** `req.ip || 'unknown'`. */
  function ClientKey(ip: Option<string>): (k: string)
    ensures Truthy(ip) ==> k == ip.value
    ensures !Truthy(ip) ==> k == "unknown"
  {
    if Truthy(ip) then ip.value else "unknown"
  }

  /** The secret of a client, as `secrets.get` read through JavaScript truthiness. */
  function SecretOf(m: Secrets, key: string): (r: Option<string>)
    ensures r.Some? <==> key in m && m[key] != ""
    ensures r.Some? ==> r.value == m[key]
  {
    if key in m && m[key] != "" then Some(m[key]) else None
  }

  /**
   * `generateCSRFToken`: the client's secret is created (from the drawn value) only when it
   * has none; the token returned is made from the secret in place afterwards.
   */
  function Generate(lib: Lib, m: Secrets, ip: Option<string>, drawn: string): (r: (Secrets, string))
    ensures SecretOf(m, ClientKey(ip)).Some? ==> r.0 == m
    ensures SecretOf(m, ClientKey(ip)).None? ==> r.0 == m[ClientKey(ip) := drawn]
    ensures ClientKey(ip) in r.0 && r.1 == lib.create(r.0[ClientKey(ip)])
    ensures forall k :: k != ClientKey(ip) ==> (k in r.0 <==> k in m) && (k in m ==> r.0[k] == m[k])
  {
    var key := ClientKey(ip);
    var m2 := if SecretOf(m, key).Some? then m else m[key := drawn];
    (m2, lib.create(m2[key]))
  }

  /** The parts of a request the guard reads. */
  datatype Request = Request(
    verb: string,
    ip: Option<string>,
    authorization: Option<string>,
    xCsrfToken: Option<string>,
    xXsrfToken: Option<string>,
    body: ParsedBody<Option<string>>,
    queryCsrf: Option<string>,
    cookie: Option<string>)

  predicate SafeMethod(m: string) {
    m == "GET" || m == "HEAD" || m == "OPTIONS"
  }

  predicate Bearer(authorization: Option<string>) {
    authorization.Some? && Js.StartsWith(authorization.value, "Bearer ")
  }

  /**
   * The first truthy of the two headers, the body field, the query field and the cookie.
   * Reading `_csrf` of a body the parser never set throws; the headers before it are read first.
   */
  function PresentedToken(req: Request): (r: Result<Option<string>>)
    ensures r.Failure? <==> !Truthy(req.xCsrfToken) && !Truthy(req.xXsrfToken) && req.body.NoBody?
    ensures r.Success? && r.value.Some? ==> r.value.value != ""
    ensures r == Success(None) <==>
      && !Truthy(req.xCsrfToken) && !Truthy(req.xXsrfToken) && req.body.Parsed? && !Truthy(req.body.fields)
      && !Truthy(req.queryCsrf) && !Truthy(req.cookie)
    ensures Truthy(req.xCsrfToken) ==> r == Success(req.xCsrfToken)
    ensures !Truthy(req.xCsrfToken) && Truthy(req.xXsrfToken) ==> r == Success(req.xXsrfToken)
  {
    if Truthy(req.xCsrfToken) then Success(req.xCsrfToken)
    else if Truthy(req.xXsrfToken) then Success(req.xXsrfToken)
    else
      match req.body
      case NoBody => Failure("Cannot read properties of undefined (reading '_csrf')")
      case Parsed(bodyCsrf) =>
        if Truthy(bodyCsrf) then Success(bodyCsrf)
        else if Truthy(req.queryCsrf) then Success(req.queryCsrf)
        else if Truthy(req.cookie) then Success(req.cookie)
        else Success(None)
  }

  /**
   * `verifyCSRF(optional)` applied to one request. A throw while collecting the token is
   * answered 500 by the error handler, in the optional mode too.
   */
  function Verify(lib: Lib, m: Secrets, optional: bool, req: Request): (r: Gate)
    ensures SafeMethod(req.verb) || Bearer(req.authorization) ==> r == Next
    ensures r == Reject(500, InternalError) <==>
      && !SafeMethod(req.verb) && !Bearer(req.authorization)
      && SecretOf(m, ClientKey(req.ip)).Some? && PresentedToken(req).Failure?
    ensures optional && r != Reject(500, InternalError) ==> r == Next
    ensures r.Reject? ==> r.status == 403 || r.status == 500
    ensures !optional && !SafeMethod(req.verb) && !Bearer(req.authorization) ==>
      (r == Next <==>
         && SecretOf(m, ClientKey(req.ip)).Some? && PresentedToken(req).Success? && PresentedToken(req).value.Some?
         && lib.verify(SecretOf(m, ClientKey(req.ip)).value, PresentedToken(req).value.value))
  {
    if SafeMethod(req.verb) then Next
    else if Bearer(req.authorization) then Next
    else
      match SecretOf(m, ClientKey(req.ip))
      case None => if optional then Next else Reject(403, "CSRF token validation failed: No session secret")
      case Some(secret) =>
        match PresentedToken(req)
        case Failure(_) => Reject(500, InternalError)
        case Success(None) => if optional then Next else Reject(403, "CSRF token missing")
        case Success(Some(token)) =>
          if !lib.verify(secret, token) then
            (if optional then Next else Reject(403, "CSRF token validation failed: Invalid token"))
          else Next
  }

  /** `getCSRFToken`: a token for the client's secret, or null when it has none. */
  function GetToken(lib: Lib, m: Secrets, ip: Option<string>): (r: Option<string>)
    ensures r.None? <==> SecretOf(m, ClientKey(ip)).None?
    ensures r.Some? ==> r.value == lib.create(m[ClientKey(ip)])
  {
    match SecretOf(m, ClientKey(ip))
    case None => None
    case Some(secret) => Some(lib.create(secret))
  }

  /**
   * A token handed out to a client passes the strict guard when that client sends it back
   * in the `x-csrf-token` header, for any method and without a bearer header.
   */
  lemma MintedTokenVerifies(lib: Lib, m: Secrets, ip: Option<string>, drawn: string, req: Request)
    requires Lawful(lib) && drawn != ""
    requires req.ip == ip
    requires req.xCsrfToken == Some(Generate(lib, m, ip, drawn).1)
    ensures Verify(lib, Generate(lib, m, ip, drawn).0, false, req) == Next
  {
    var (m2, token) := Generate(lib, m, ip, drawn);
    assert SecretOf(m2, ClientKey(ip)) == Some(m2[ClientKey(ip)]);
    assert PresentedToken(req) == Success(Some(token));
  }

  /** Generating twice keeps the first secret: the second call neither replaces it nor touches other clients. */
  lemma GenerateKeepsSecret(lib: Lib, m: Secrets, ip: Option<string>, drawn1: string, drawn2: string)
    requires drawn1 != ""
    ensures var m1 := Generate(lib, m, ip, drawn1).0;
      Generate(lib, m1, ip, drawn2) == (m1, Generate(lib, m, ip, drawn1).1)
  {
  }

  /** A client that was handed a token always has a secret afterwards, so `getCSRFToken` answers. */
  lemma GenerateThenGet(lib: Lib, m: Secrets, ip: Option<string>, drawn: string)
    requires drawn != ""
    ensures GetToken(lib, Generate(lib, m, ip, drawn).0, ip) == Some(Generate(lib, m, ip, drawn).1)
  {
  }
}

=== FILE: diagnoses.dfy ===
/**
 * The diagnosis controller: a doctor writes one diagnosis per appointment (which completes
 * the appointment), and reads or amends only its own diagnoses of patients still assigned
 * to it; a patient reads its own.
 */
module Diagnoses {
  import opened Common
  import opened Schema
  import Js
  import Listing
  import UserController

  type Caller = UserController.Caller

  const Completed := "completed"

  /** No two diagnoses name the same appointment; the table itself does not enforce it. */
  predicate OnePerAppointment(s: Store) {
    forall i, j :: i in s.diagnoses && j in s.diagnoses && s.diagnoses[i].appointmentId == s.diagnoses[j].appointmentId ==> i == j
  }

  /** `Diagnosis.findOne({ where: { appointmentId } })`. */
  function ForAppointment(s: Store, appointmentId: nat): (r: Option<nat>)
    ensures r.Some? ==> r.value in s.diagnoses && s.diagnoses[r.value].appointmentId == appointmentId
    ensures r.None? && Wf(s) ==> forall k :: k in s.diagnoses ==> s.diagnoses[k].appointmentId != appointmentId
  {
    Listing.FirstKey(s.diagnoses, (d: Diagnosis) => d.appointmentId == appointmentId, 0, s.nextId)
  }

  /** Writes a new diagnosis under the next id and marks its appointment completed. */
  function Record(s: Store, d: Diagnosis): (r: Store)
    requires Wf(s) && d.id == s.nextId && d.appointmentId in s.appointments
    ensures Wf(r) && r.nextId == s.nextId + 1
    ensures r.diagnoses == s.diagnoses[d.id := d]
    ensures r.appointments == s.appointments[d.appointmentId := s.appointments[d.appointmentId].(status := Completed)]
    ensures r == s.(diagnoses := r.diagnoses, appointments := r.appointments, nextId := r.nextId)
  {
    s.(diagnoses := s.diagnoses[d.id := d],
       appointments := s.appointments[d.appointmentId := s.appointments[d.appointmentId].(status := Completed)],
       nextId := d.id + 1)
  }

  /** The caller is the appointment's doctor and the assigned doctor of its patient. */
  predicate Treats(s: Store, caller: Caller, appointmentId: nat) {
    && caller.Some? && appointmentId in s.appointments
    && s.appointments[appointmentId].doctorId == caller.value.id
    && AssignedDoctor(s, s.appointments[appointmentId].patientId, caller.value.id)
  }

  /**
   * `createDiagnosis`: only a doctor (403), on an existing appointment (404) of its own
   * (403) whose patient exists (404) and is assigned to it (403), and only when the
   * appointment has no diagnosis yet (409).
   */
  function Create(s: Store, caller: Caller, appointmentId: int, text: string, notes: Option<string>, now: int)
    : (r: (Store, Reply<Diagnosis>))
    requires Wf(s)
    ensures Wf(r.0)
    ensures r.1.Fail? ==> r.0 == s
    ensures caller.None? ==> r.1 == Fail(401, "Unauthorized")
    ensures caller.Some? && !UserController.IsRole(caller, Doctor) ==> r.1 == Fail(403, "Only doctors can create diagnoses")
    ensures UserController.IsRole(caller, Doctor) && appointmentId >= 0 && Treats(s, caller, appointmentId as nat)
            && ForAppointment(s, appointmentId as nat).Some? ==>
      r.1 == Fail(409, "Diagnosis already exists for this appointment")
    ensures r.1.Ok? <==>
      && UserController.IsRole(caller, Doctor) && appointmentId >= 0 && Treats(s, caller, appointmentId as nat)
      && ForAppointment(s, appointmentId as nat).None?
    ensures r.1.Ok? ==>
      var a := s.appointments[appointmentId as nat];
      && r.1.value == Diagnosis(s.nextId, appointmentId as nat, caller.value.id, a.patientId, text, if Truthy(notes) then notes else None, now)
      && r.0 == Record(s, r.1.value)
  {
    if caller.None? then (s, Fail(401, "Unauthorized"))
    else if !UserController.IsRole(caller, Doctor) then (s, Fail(403, "Only doctors can create diagnoses"))
    else
      var doctorId := caller.value.id;
      if appointmentId < 0 || appointmentId as nat !in s.appointments then (s, Fail(404, "Appointment not found"))
      else
        var a := s.appointments[appointmentId as nat];
        if a.doctorId != doctorId then (s, Fail(403, "You can only write diagnoses for your own appointments"))
        else if a.patientId !in s.patients then (s, Fail(404, "Patient not found"))
        else if s.patients[a.patientId].assignedDoctorId != Some(doctorId) then
          (s, Fail(403, "Forbidden: Patient is not assigned to you"))
        else if ForAppointment(s, appointmentId as nat).Some? then
          (s, Fail(409, "Diagnosis already exists for this appointment"))
        else
          var d := Diagnosis(s.nextId, appointmentId as nat, doctorId, a.patientId, text, if Truthy(notes) then notes else None, now);
          (Record(s, d), Ok(201, d))
  }

  /** Creating a diagnosis keeps at most one diagnosis per appointment. */
  lemma CreateKeepsOnePerAppointment(s: Store, caller: Caller, appointmentId: int, text: string, notes: Option<string>, now: int)
    requires Wf(s) && OnePerAppointment(s)
    ensures OnePerAppointment(Create(s, caller, appointmentId, text, notes, now).0)
  {
    var r := Create(s, caller, appointmentId, text, notes, now);
    if r.1.Ok? {
      RecordKeepsOne(s, r.1.value);
    }
  }

  /** Adding a diagnosis for an appointment that has none keeps one per appointment. */
  lemma RecordKeepsOne(s: Store, d: Diagnosis)
    requires Wf(s) && OnePerAppointment(s) && d.id == s.nextId && d.appointmentId in s.appointments
    requires forall k :: k in s.diagnoses ==> s.diagnoses[k].appointmentId != d.appointmentId
    ensures OnePerAppointment(Record(s, d))
  {
    var r := Record(s, d);
    assert forall k :: k in r.diagnoses && k != d.id ==> k in s.diagnoses && r.diagnoses[k] == s.diagnoses[k];
  }

  /** Once an appointment has its diagnosis, a second attempt on it is refused with 409 and changes nothing. */
  lemma SecondDiagnosisRefused(s: Store, caller: Caller, appointmentId: int, text: string, notes: Option<string>, now: int,
                               text2: string, notes2: Option<string>, later: int)
    requires Wf(s)
    requires Create(s, caller, appointmentId, text, notes, now).1.Ok?
    ensures var s1 := Create(s, caller, appointmentId, text, notes, now).0;
      Create(s1, caller, appointmentId, text2, notes2, later) == (s1, Fail(409, "Diagnosis already exists for this appointment"))
  {
    var s1 := Create(s, caller, appointmentId, text, notes, now).0;
    var aid := appointmentId as nat;
    assert s1.diagnoses[s.nextId].appointmentId == aid;
    assert ForAppointment(s1, aid).Some?;
    assert s1.appointments[aid].(status := s.appointments[aid].status) == s.appointments[aid];
    assert s1.patients == s.patients;
  }

  /** A caller may read a diagnosis: a doctor as its author with the patient still assigned, a patient as its subject. */
  predicate MayRead(s: Store, caller: Caller, d: Diagnosis) {
    && caller.Some?
    && (UserController.IsRole(caller, Doctor) ==> d.doctorId == caller.value.id && AssignedDoctor(s, d.patientId, caller.value.id))
    && (UserController.IsRole(caller, PatientRole) ==> HasOwnRow(s, caller) && d.patientId == caller.value.id)
  }

  predicate HasOwnRow(s: Store, caller: Caller) {
    caller.Some? && caller.value.id in s.patients
  }

  /**
   * The diagnosis of the appointment the path names, as `parseInt` reads the id. An id read
   * as NaN makes the `findOne` query fail (`Failure`) rather than find nothing.
   */
  function Lookup(s: Store, appointmentId: string): (r: Result<Option<nat>>)
    ensures r.Failure? <==> Js.ParseInt(appointmentId).None?
    ensures r.Success? && r.value.Some? ==>
      r.value.value in s.diagnoses && Js.ParseInt(appointmentId) == Some(s.diagnoses[r.value.value].appointmentId as int)
    ensures r.Success? && r.value.None? && Wf(s) ==>
      forall k :: k in s.diagnoses ==> Js.ParseInt(appointmentId) != Some(s.diagnoses[k].appointmentId as int)
  {
    var aid := Js.ParseInt(appointmentId);
    if aid.None? then Failure(InternalError)
    else if aid.value < 0 then Success(None)
    else Success(ForAppointment(s, aid.value as nat))
  }

  /**
   * `getDiagnosis`: found by appointment id; other roles than doctor and patient are not
   * checked. The query runs before any role check, so a failing query is 500 for everyone.
   */
  function Get(s: Store, caller: Caller, appointmentId: string): (r: Reply<Diagnosis>)
    ensures caller.None? ==> r == Fail(401, "Unauthorized")
    ensures caller.Some? && Js.ParseInt(appointmentId).None? ==> r == Fail(500, InternalError)
    ensures caller.Some? && Lookup(s, appointmentId) == Success(None) ==> r == Fail(404, "Diagnosis not found")
    ensures r.Ok? <==>
      && Lookup(s, appointmentId).Success? && Lookup(s, appointmentId).value.Some?
      && MayRead(s, caller, s.diagnoses[Lookup(s, appointmentId).value.value])
    ensures r.Ok? ==> r.value == s.diagnoses[Lookup(s, appointmentId).value.value]
    ensures r.Fail? && caller.Some? && Lookup(s, appointmentId).Success? && Lookup(s, appointmentId).value.Some? ==>
      r.status == 403
  {
    if caller.None? then Fail(401, "Unauthorized")
    else
      match Lookup(s, appointmentId)
      case Failure(e) => Fail(500, e)
      case Success(None) => Fail(404, "Diagnosis not found")
      case Success(Some(k)) =>
        var d := s.diagnoses[k];
        var uid := caller.value.id;
        if UserController.IsRole(caller, Doctor) && d.doctorId != uid then Fail(403, "Forbidden")
        else if UserController.IsRole(caller, Doctor) && !AssignedDoctor(s, d.patientId, uid) then
          Fail(403, "Forbidden: Patient is not assigned to you")
        else if UserController.IsRole(caller, PatientRole) && (uid !in s.patients || d.patientId != uid) then Fail(403, "Forbidden")
        else Ok(200, d)
  }

  /** The creation time of a diagnosis id, as `ORDER BY createdAt` sorts on. */
  function CreatedRank(s: Store): nat -> int {
    (k: nat) => if k in s.diagnoses then s.diagnoses[k].createdAt else 0
  }

  /**
   * `listPatientDiagnoses`, newest first: a patient its own (no row: none), a doctor those it
   * wrote for patients still assigned to it (none assigned: none), any other role 403.
   */
  function List(s: Store, caller: Caller): (r: Reply<seq<nat>>)
    requires Wf(s)
    ensures caller.None? ==> r == Fail(401, "Unauthorized")
    ensures caller.Some? && !UserController.IsRole(caller, Doctor) && !UserController.IsRole(caller, PatientRole) ==>
      r == Fail(403, "Forbidden")
    ensures UserController.IsRole(caller, PatientRole) ==>
      && r.Ok?
      && (forall k :: k in r.value <==> HasOwnRow(s, caller) && k in s.diagnoses && s.diagnoses[k].patientId == caller.value.id)
    ensures UserController.IsRole(caller, Doctor) ==>
      && r.Ok?
      && (forall k :: k in r.value <==>
            k in s.diagnoses && s.diagnoses[k].doctorId == caller.value.id
            && AssignedDoctor(s, s.diagnoses[k].patientId, caller.value.id))
    ensures r.Ok? ==> Listing.SortedBy(r.value, CreatedRank(s), true)
  {
    if caller.None? then Fail(401, "Unauthorized")
    else
      var uid := caller.value.id;
      if UserController.IsRole(caller, PatientRole) then
        if uid !in s.patients then Ok(200, [])
        else
          var ids := Listing.KeysWhere(s.diagnoses, (d: Diagnosis) => d.patientId == uid, 0, s.nextId);
          Listing.SortByMembers(ids, CreatedRank(s), true);
          Ok(200, Listing.SortBy(ids, CreatedRank(s), true))
      else if UserController.IsRole(caller, Doctor) then
        if PatientsOfDoctor(s, uid) == [] then Ok(200, [])
        else
          var ids := Listing.KeysWhere(s.diagnoses, (d: Diagnosis) => d.doctorId == uid && AssignedDoctor(s, d.patientId, uid), 0, s.nextId);
          Listing.SortByMembers(ids, CreatedRank(s), true);
          Ok(200, Listing.SortBy(ids, CreatedRank(s), true))
      else Fail(403, "Forbidden")
  }

  /** `diagnosis.update(updateData)`: a non-empty text replaces the diagnosis; notes are written unless undefined. */
  function Amend(d: Diagnosis, text: Option<string>, notes: Option<Option<string>>): (e: Diagnosis)
    ensures e.(diagnosis := d.diagnosis, notes := d.notes) == d
    ensures e.diagnosis == if Truthy(text) then text.value else d.diagnosis
    ensures e.notes == if notes.Some? then notes.value else d.notes
  {
    d.(diagnosis := if Truthy(text) then text.value else d.diagnosis,
       notes := if notes.Some? then notes.value else d.notes)
  }

  /** `updateDiagnosis`: only a doctor, only its own diagnosis, only while the patient is assigned to it. */
  function Update(s: Store, caller: Caller, id: nat, text: Option<string>, notes: Option<Option<string>>)
    : (r: (Store, Reply<Diagnosis>))
    requires Wf(s)
    ensures Wf(r.0)
    ensures r.1.Fail? ==> r.0 == s
    ensures caller.None? ==> r.1 == Fail(401, "Unauthorized")
    ensures caller.Some? && !UserController.IsRole(caller, Doctor) ==> r.1 == Fail(403, "Only doctors can update diagnoses")
    ensures UserController.IsRole(caller, Doctor) && id !in s.diagnoses ==> r.1 == Fail(404, "Diagnosis not found")
    ensures r.1.Ok? <==>
      && UserController.IsRole(caller, Doctor) && id in s.diagnoses
      && s.diagnoses[id].doctorId == caller.value.id && AssignedDoctor(s, s.diagnoses[id].patientId, caller.value.id)
    ensures r.1.Ok? ==>
      r.0 == s.(diagnoses := s.diagnoses[id := Amend(s.diagnoses[id], text, notes)]) && r.1.value == r.0.diagnoses[id]
  {
    if caller.None? then (s, Fail(401, "Unauthorized"))
    else if !UserController.IsRole(caller, Doctor) then (s, Fail(403, "Only doctors can update diagnoses"))
    else if id !in s.diagnoses then (s, Fail(404, "Diagnosis not found"))
    else
      var d := s.diagnoses[id];
      if d.doctorId != caller.value.id then (s, Fail(403, "Forbidden"))
      else if !AssignedDoctor(s, d.patientId, caller.value.id) then (s, Fail(403, "Forbidden: Patient is not assigned to you"))
      else
        var e := Amend(d, text, notes);
        (s.(diagnoses := s.diagnoses[id := e]), Ok(200, e))
  }

  /** An update never moves a diagnosis to another appointment, patient or author, and keeps one per appointment. */
  lemma UpdateKeepsOnePerAppointment(s: Store, caller: Caller, id: nat, text: Option<string>, notes: Option<Option<string>>)
    requires Wf(s) && OnePerAppointment(s)
    ensures OnePerAppointment(Update(s, caller, id, text, notes).0)
    ensures id in s.diagnoses ==>
      var e := Update(s, caller, id, text, notes).0.diagnoses[id];
      e.appointmentId == s.diagnoses[id].appointmentId && e.patientId == s.diagnoses[id].patientId
      && e.doctorId == s.diagnoses[id].doctorId
  {
    var r := Update(s, caller, id, text, notes);
    if r.1.Ok? {
      forall i, j | i in r.0.diagnoses && j in r.0.diagnoses && r.0.diagnoses[i].appointmentId == r.0.diagnoses[j].appointmentId
        ensures i == j
      {
        assert r.0.diagnoses[i].appointmentId == s.diagnoses[i].appointmentId;
        assert r.0.diagnoses[j].appointmentId == s.diagnoses[j].appointmentId;
      }
    }
  }
}

=== FILE: encryption.dfy ===
/**
 * The field-encryption envelope: AES-256-GCM (NIST SP 800-38D) with a 64-byte random salt
 * as additional authenticated data, stored as the base64 text (section 4 of RFC 4648) of
 * salt ‖ iv ‖ tag ‖ ciphertext.
 */
module Encryption {
  import opened Common
  import Base64
  import Js

  const KeyLength := 32
  const IvLength := 16
  const SaltLength := 64
  const TagLength := 16
  const TagPosition := SaltLength + IvLength
  const EncryptedPosition := TagPosition + TagLength

  /** The two environment variables the key depends on. */
  datatype Env = Env(encryptionKey: Option<string>, production: bool)

  /** What AES-GCM produces: the ciphertext and the authentication tag. */
  datatype Sealed = Sealed(ciphertext: Bytes, tag: Bytes)

  /**
   * The library calls the envelope makes. `nodeBase64` is `Buffer.from(s, 'base64')`, which
   * never throws and skips characters outside the alphabet; `seal` is a cipher with
   * `setAAD`, `update`, `final` and `getAuthTag`, failing (a thrown error) when the key or
   * iv is unusable; `open` is the matching decipher, failing on any authentication error.
   */
  datatype Crypto = Crypto(
    nodeBase64: string -> Bytes,
    utf8Encode: string -> Bytes,
    utf8Decode: Bytes -> string,
    pbkdf2Sha256: (string, string, nat, nat) -> Bytes,
    seal: (Bytes, Bytes, Bytes, Bytes) -> Option<Sealed>,
    open: (Bytes, Bytes, Bytes, Bytes, Bytes) -> Option<Bytes>)

  /**
   * The properties of the libraries the proofs rely on: Node's base64 reader agrees with the
   * strict decoder on canonical text, UTF-8 decoding inverts encoding, PBKDF2 returns the
   * requested length, AES-256 accepts any 32-byte key and yields a 16-byte tag, and opening
   * what was sealed under the same key, iv and additional data gives the plaintext back.
   */
  ghost predicate Lawful(c: Crypto) {
    && (forall s :: Base64.Decode(s).Some? ==> c.nodeBase64(s) == Base64.Decode(s).value)
    && (forall s :: c.utf8Decode(c.utf8Encode(s)) == s)
    && (forall p, salt, n, len :: |c.pbkdf2Sha256(p, salt, n, len)| == len)
    && (forall k, iv, aad, m :: |k| == KeyLength ==> c.seal(k, iv, aad, m).Some?)
    && (forall k, iv, aad, m :: c.seal(k, iv, aad, m).Some? ==>
          |c.seal(k, iv, aad, m).value.tag| == TagLength
          && c.open(k, iv, aad, c.seal(k, iv, aad, m).value.tag, c.seal(k, iv, aad, m).value.ciphertext) == Some(m))
  }

  predicate IsHexDigit(ch: char) {
    '0' <= ch <= '9' || 'a' <= ch <= 'f' || 'A' <= ch <= 'F'
  }

  function HexValue(ch: char): (v: int)
    requires IsHexDigit(ch)
    ensures 0 <= v < 16
  {
    if '0' <= ch <= '9' then ch as int - '0' as int
    else if 'a' <= ch <= 'f' then ch as int - 'a' as int + 10
    else ch as int - 'A' as int + 10
  }

  /** `Buffer.from(s, 'hex')`: reads pairs of hex digits and stops at the first pair that is not one. */
  function HexDecode(s: string): (b: Bytes)
    ensures |b| <= |s| / 2
    decreases |s|
  {
    if |s| < 2 || !IsHexDigit(s[0]) || !IsHexDigit(s[1]) then []
    else [HexValue(s[0]) * 16 + HexValue(s[1])] + HexDecode(s[2..])
  }

  /** A string of hex digits decodes to one byte per pair. */
  lemma {:induction false} HexDecodeLength(s: string)
    requires |s| % 2 == 0
    requires forall i :: 0 <= i < |s| ==> IsHexDigit(s[i])
    ensures |HexDecode(s)| == |s| / 2
    decreases |s|
  {
    if |s| >= 2 {
      HexDecodeLength(s[2..]);
    }
  }

  /** `Buffer.from('a'.repeat(32))`: the development key. */
  const DevelopmentKey: Bytes := seq(KeyLength, _ => 'a' as int)

  /**
   * `getEncryptionKey`: the development key or an error when the variable is unset or empty
   * (an error in production), hex when it is 64 characters long, base64 when 44, and
   * PBKDF2-SHA256 of it otherwise.
   */
  function GetEncryptionKey(env: Env, c: Crypto): (r: Result<Bytes>)
    ensures !Truthy(env.encryptionKey) ==>
      r == if env.production then Failure("DATABASE_ENCRYPTION_KEY environment variable is required in production")
           else Success(DevelopmentKey)
    ensures Truthy(env.encryptionKey) ==> r.Success?
    ensures Truthy(env.encryptionKey) && |env.encryptionKey.value| == 64 ==>
      r.value == HexDecode(env.encryptionKey.value)
    ensures Truthy(env.encryptionKey) && |env.encryptionKey.value| == 44 ==>
      r.value == c.nodeBase64(env.encryptionKey.value)
    ensures Truthy(env.encryptionKey) && |env.encryptionKey.value| != 64 && |env.encryptionKey.value| != 44 ==>
      r.value == c.pbkdf2Sha256(env.encryptionKey.value, "healthcare_salt", 100000, KeyLength)
  {
    if !Truthy(env.encryptionKey) then
      if env.production
      then Failure("DATABASE_ENCRYPTION_KEY environment variable is required in production")
      else Success(DevelopmentKey)
    else
      var key := env.encryptionKey.value;
      if |key| == 64 then Success(HexDecode(key))
      else if |key| == 44 then Success(c.nodeBase64(key))
      else Success(c.pbkdf2Sha256(key, "healthcare_salt", 100000, KeyLength))
  }

  /** A key that is absent in development, 64 hex digits, or of a length that goes through PBKDF2 is 32 bytes long. */
  lemma KeyLengthOk(env: Env, c: Crypto)
    requires Lawful(c)
    requires GetEncryptionKey(env, c).Success?
    requires Truthy(env.encryptionKey) && |env.encryptionKey.value| == 64 ==>
      forall i :: 0 <= i < 64 ==> IsHexDigit(env.encryptionKey.value[i])
    requires Truthy(env.encryptionKey) ==> |env.encryptionKey.value| != 44
    ensures |GetEncryptionKey(env, c).value| == KeyLength
  {
    if Truthy(env.encryptionKey) && |env.encryptionKey.value| == 64 {
      HexDecodeLength(env.encryptionKey.value);
    }
  }

  /** The lower-case hex digit of a value below 16. */
  function HexDigit(v: int): (ch: char)
    requires 0 <= v < 16
    ensures IsHexDigit(ch) && HexValue(ch) == v
  {
    if v < 10 then ('0' as int + v) as char else ('a' as int + v - 10) as char
  }

  /** `buffer.toString('hex')`: two lower-case digits per byte. */
  function HexEncode(b: Bytes): (s: string)
    ensures |s| == 2 * |b|
    ensures forall i :: 0 <= i < |s| ==> IsHexDigit(s[i])
  {
    if b == [] then [] else [HexDigit(b[0] / 16), HexDigit(b[0] % 16)] + HexEncode(b[1..])
  }

  /** Reading the hex text of some bytes gives the bytes back. */
  lemma {:induction false} HexDecodeEncode(b: Bytes)
    ensures HexDecode(HexEncode(b)) == b
  {
    if b != [] {
      HexDecodeEncode(b[1..]);
      var s := HexEncode(b);
      assert s[2..] == HexEncode(b[1..]);
      assert [b[0]] + b[1..] == b;
    }
  }

  /** `generateEncryptionKey`: the hex text of 32 random bytes, which are the parameter here. */
  function GenerateEncryptionKey(random: Bytes): (key: string)
    requires |random| == KeyLength
    ensures |key| == 64 && forall i :: 0 <= i < |key| ==> IsHexDigit(key[i])
  {
    HexEncode(random)
  }

  /** A generated key, once configured, is read back as the very bytes it was made from. */
  lemma GeneratedKeyReadsBack(random: Bytes, production: bool, c: Crypto)
    requires |random| == KeyLength
    ensures GetEncryptionKey(Env(Some(GenerateEncryptionKey(random)), production), c) == Success(random)
  {
    HexDecodeEncode(random);
  }

  /** The decoded envelope. */
  function Envelope(salt: Bytes, iv: Bytes, tag: Bytes, ciphertext: Bytes): (r: Bytes)
    requires |salt| == SaltLength && |iv| == IvLength && |tag| == TagLength
    ensures |r| == EncryptedPosition + |ciphertext|
    ensures r[..SaltLength] == salt && r[SaltLength..TagPosition] == iv
    ensures r[TagPosition..EncryptedPosition] == tag && r[EncryptedPosition..] == ciphertext
  {
    salt + iv + tag + ciphertext
  }

  /** `buffer.subarray(start, end)`: indices past the end are clamped. */
  function Subarray(b: Bytes, start: nat, end: nat): (r: Bytes)
    requires start <= end
    ensures end <= |b| ==> r == b[start..end]
    ensures |r| <= end - start
  {
    if start >= |b| then [] else if end >= |b| then b[start..] else b[start..end]
  }

  /**
   * `encrypt`: null for a falsy input; otherwise the base64 envelope under the configured
   * key, or an error when the key cannot be obtained or the cipher refuses it. The `iv`
   * and `salt` are the random bytes the call draws.
   */
  function Encrypt(env: Env, c: Crypto, text: Option<string>, iv: Bytes, salt: Bytes): (r: Result<Option<string>>)
    requires |iv| == IvLength && |salt| == SaltLength
    ensures !Truthy(text) <==> r == Success(None)
    ensures r.Failure? <==>
      (Truthy(text) &&
       (GetEncryptionKey(env, c).Failure? || c.seal(GetEncryptionKey(env, c).value, iv, salt, c.utf8Encode(text.value)).None?))
  {
    if !Truthy(text) then Success(None)
    else
      match GetEncryptionKey(env, c)
      case Failure(e) => Failure("Encryption failed: Error: " + e)
      case Success(key) =>
        match c.seal(key, iv, salt, c.utf8Encode(text.value))
        case None => Failure("Encryption failed")
        case Some(sealed) =>
          var encrypted := Base64.Encode(sealed.ciphertext);
          var combined := salt + iv + sealed.tag + c.nodeBase64(encrypted);
          Success(Some(Base64.Encode(combined)))
  }

  /** `decrypt`: null for a falsy input and for every failure; never an error. */
  function Decrypt(env: Env, c: Crypto, text: Option<string>): (r: Option<string>)
    ensures !Truthy(text) ==> r == None
    ensures r.Some? ==> GetEncryptionKey(env, c).Success?
  {
    if !Truthy(text) then None
    else
      match GetEncryptionKey(env, c)
      case Failure(_) => None
      case Success(key) =>
        var combined := c.nodeBase64(text.value);
        var salt := Subarray(combined, 0, SaltLength);
        var iv := Subarray(combined, SaltLength, TagPosition);
        var tag := Subarray(combined, TagPosition, EncryptedPosition);
        var encrypted := Subarray(combined, EncryptedPosition, if |combined| > EncryptedPosition then |combined| else EncryptedPosition);
        match c.open(key, iv, salt, tag, encrypted)
        case None => None
        case Some(m) => Some(c.utf8Decode(m))
  }

  /** `isEncrypted`: a truthy string whose base64 reading is at least as long as the envelope header. */
  function IsEncrypted(c: Crypto, text: Option<string>): (b: bool)
    ensures !Truthy(text) ==> !b
  {
    Truthy(text) && |c.nodeBase64(text.value)| >= EncryptedPosition
  }

  /** What a successful `encrypt` returns is the base64 of the envelope of its salt, iv, tag and ciphertext. */
  lemma EncryptEnvelope(env: Env, c: Crypto, p: string, iv: Bytes, salt: Bytes)
    requires Lawful(c)
    requires |iv| == IvLength && |salt| == SaltLength
    requires Encrypt(env, c, Some(p), iv, salt).Success? && p != ""
    ensures var key := GetEncryptionKey(env, c).value;
      var sealed := c.seal(key, iv, salt, c.utf8Encode(p)).value;
      Encrypt(env, c, Some(p), iv, salt).value == Some(Base64.Encode(Envelope(salt, iv, sealed.tag, sealed.ciphertext)))
  {
    var key := GetEncryptionKey(env, c).value;
    var sealed := c.seal(key, iv, salt, c.utf8Encode(p)).value;
    Base64.DecodeEncode(sealed.ciphertext);
  }

  /** Encrypting non-empty text yields a value `isEncrypted` recognises. */
  lemma EncryptIsEncrypted(env: Env, c: Crypto, p: string, iv: Bytes, salt: Bytes)
    requires Lawful(c)
    requires |iv| == IvLength && |salt| == SaltLength
    requires Encrypt(env, c, Some(p), iv, salt).Success? && p != ""
    ensures Encrypt(env, c, Some(p), iv, salt).value.Some?
    ensures IsEncrypted(c, Encrypt(env, c, Some(p), iv, salt).value)
  {
    EncryptEnvelope(env, c, p, iv, salt);
    var key := GetEncryptionKey(env, c).value;
    var sealed := c.seal(key, iv, salt, c.utf8Encode(p)).value;
    var combined := Envelope(salt, iv, sealed.tag, sealed.ciphertext);
    Base64.DecodeEncode(combined);
    Base64.EncodeLength(combined);
  }

  /** An envelope starts with a base64 letter, so it never trims to the empty string. */
  lemma EncryptNotBlank(env: Env, c: Crypto, p: string, iv: Bytes, salt: Bytes)
    requires |iv| == IvLength && |salt| == SaltLength
    requires Encrypt(env, c, Some(p), iv, salt).Success? && p != ""
    ensures Encrypt(env, c, Some(p), iv, salt).value.Some?
    ensures Js.Trim(Encrypt(env, c, Some(p), iv, salt).value.value) != ""
  {
    var key := GetEncryptionKey(env, c).value;
    var sealed := c.seal(key, iv, salt, c.utf8Encode(p)).value;
    var combined := salt + iv + sealed.tag + c.nodeBase64(Base64.Encode(sealed.ciphertext));
    Js.TrimVisible(Base64.Encode(combined));
  }

  /** Under an unchanged configuration, decrypting what `encrypt` produced gives the plaintext back. */
  lemma DecryptEncrypt(env: Env, c: Crypto, p: string, iv: Bytes, salt: Bytes)
    requires Lawful(c)
    requires |iv| == IvLength && |salt| == SaltLength
    requires Encrypt(env, c, Some(p), iv, salt).Success? && p != ""
    ensures Decrypt(env, c, Encrypt(env, c, Some(p), iv, salt).value) == Some(p)
  {
    EncryptEnvelope(env, c, p, iv, salt);
    var key := GetEncryptionKey(env, c).value;
    var sealed := c.seal(key, iv, salt, c.utf8Encode(p)).value;
    var combined := Envelope(salt, iv, sealed.tag, sealed.ciphertext);
    Base64.DecodeEncode(combined);
    Base64.EncodeLength(combined);
    var e := Base64.Encode(combined);
    assert c.nodeBase64(e) == combined;
    assert Subarray(combined, 0, SaltLength) == salt;
    assert Subarray(combined, SaltLength, TagPosition) == iv;
    assert Subarray(combined, TagPosition, EncryptedPosition) == sealed.tag;
    assert Subarray(combined, EncryptedPosition, |combined|) == sealed.ciphertext;
  }

  /** With a usable key, `encrypt` of non-empty text always succeeds; in production without a key it throws. */
  lemma EncryptOutcome(env: Env, c: Crypto, p: string, iv: Bytes, salt: Bytes)
    requires Lawful(c)
    requires |iv| == IvLength && |salt| == SaltLength && p != ""
    ensures GetEncryptionKey(env, c).Success? && |GetEncryptionKey(env, c).value| == KeyLength ==>
      Encrypt(env, c, Some(p), iv, salt).Success?
    ensures !Truthy(env.encryptionKey) && env.production ==> Encrypt(env, c, Some(p), iv, salt).Failure?
  {
  }
}

=== FILE: fields.dfy ===
/**
 * The field-level use of the envelope that the model hooks share: encrypt a value behind a
 * guard before it is written, and replace a stored value by its decryption after it is read
 * only when that decryption is truthy.
 */
module Fields {
  import opened Common
  import Encryption
  import Js

  /** The configuration and libraries every `encrypt`/`decrypt` call sees. */
  datatype Keyring = Keyring(env: Encryption.Env, c: Encryption.Crypto)

  /** The random iv and salt one `encrypt` call draws. */
  datatype Nonce = Nonce(iv: Bytes, salt: Bytes)

  type Draw = n: Nonce | |n.iv| == Encryption.IvLength && |n.salt| == Encryption.SaltLength
    witness Nonce(seq(Encryption.IvLength, _ => 0), seq(Encryption.SaltLength, _ => 0))

  predicate IsEncrypted(k: Keyring, v: string) {
    Encryption.IsEncrypted(k.c, Some(v))
  }

  function Decrypt(k: Keyring, v: string): Option<string> {
    Encryption.Decrypt(k.env, k.c, Some(v))
  }

  /** The guard of the name-like fields: truthy and not already in envelope form. */
  predicate NeedsSealing(k: Keyring, v: string) {
    v != "" && !IsEncrypted(k, v)
  }

  /**
   * `if (guard) { const e = encrypt(v); if (e) v = e; }`: the value is replaced by its
   * envelope when the guard holds; an encryption error aborts the write.
   */
  function SealIf(k: Keyring, guard: bool, v: string, n: Draw): (r: Result<string>)
    ensures !guard ==> r == Success(v)
    ensures guard && v != "" && r.Success? ==>
      Encryption.Encrypt(k.env, k.c, Some(v), n.iv, n.salt) == Success(Some(r.value))
    ensures guard && v != "" ==> (r.Failure? <==> Encryption.Encrypt(k.env, k.c, Some(v), n.iv, n.salt).Failure?)
  {
    if !guard then Success(v)
    else
      match Encryption.Encrypt(k.env, k.c, Some(v), n.iv, n.salt)
      case Failure(e) => Failure(e)
      case Success(None) => Success(v)
      case Success(Some(e)) => Success(e)
  }

  /**
   * `const d = decrypt(v); if (d) v = d;`: the stored value is kept unless decryption gives
   * a non-empty string.
   */
  function Reveal(k: Keyring, v: string): (r: string)
    ensures r == v || (r != "" && Decrypt(k, v) == Some(r))
    ensures (Decrypt(k, v).Some? && Decrypt(k, v).value != "") ==> r == Decrypt(k, v).value
  {
    match Decrypt(k, v)
    case Some(d) => if d != "" then d else v
    case None => v
  }

  /** An optional column: `null` is left alone. */
  function RevealOpt(k: Keyring, v: Option<string>): (r: Option<string>)
    ensures v.None? ==> r == None
    ensures v.Some? ==> r == Some(Reveal(k, v.value))
  {
    match v
    case None => None
    case Some(s) => Some(Reveal(k, s))
  }

  /** What a sealed field goes through: its envelope is recognised and decrypts back to it. */
  lemma SealThenReveal(k: Keyring, v: string, n: Draw)
    requires Encryption.Lawful(k.c)
    requires NeedsSealing(k, v)
    requires SealIf(k, true, v, n).Success?
    ensures IsEncrypted(k, SealIf(k, true, v, n).value)
    ensures Reveal(k, SealIf(k, true, v, n).value) == v
    ensures Js.Trim(SealIf(k, true, v, n).value) != ""
  {
    Encryption.EncryptIsEncrypted(k.env, k.c, v, n.iv, n.salt);
    Encryption.EncryptNotBlank(k.env, k.c, v, n.iv, n.salt);
    Encryption.DecryptEncrypt(k.env, k.c, v, n.iv, n.salt);
  }

  /**
   * A field written through the name-like guard reads back as itself: sealed values decrypt
   * to the original, and the empty value was stored and is read as it is.
   */
  lemma SealedFieldReads(k: Keyring, v: string, stored: string, n: Draw)
    requires Encryption.Lawful(k.c)
    requires v == "" || !IsEncrypted(k, v)
    requires SealIf(k, NeedsSealing(k, v), v, n) == Success(stored)
    ensures (if stored != "" then Reveal(k, stored) else stored) == v
  {
    if v != "" {
      SealThenReveal(k, v, n);
    }
  }

  /** What `afterFind` receives: nothing, one instance, or an array of them. */
  datatype Found<T> = Nothing | Single(row: T) | Rows(rows: seq<T>)

  /** Applies a per-instance pass to whatever was found, keeping its shape. */
  function EachFound<T>(f: T -> T, x: Found<T>): (r: Found<T>)
    ensures x.Nothing? <==> r.Nothing?
    ensures x.Single? ==> r == Single(f(x.row))
    ensures x.Rows? ==> r.Rows? && |r.rows| == |x.rows| && forall i :: 0 <= i < |x.rows| ==> r.rows[i] == f(x.rows[i])
  {
    match x
    case Nothing => Nothing
    case Single(row) => Single(f(row))
    case Rows(rows) => Rows(seq(|rows|, i requires 0 <= i < |rows| => f(rows[i])))
  }
}

=== FILE: listing.dfy ===
/**
 * Queries over id-keyed tables: `findOne` as the first (or, for `order id DESC`, the last)
 * matching id, `findAll` as the ascending list of matching ids, and `ORDER BY` as a stable
 * sort of such a list on a column.
 */
module Listing {
  import opened Common

  /** The smallest id in `from..bound` whose row satisfies `p`. */
  function FirstKey<T>(m: map<nat, T>, p: T -> bool, from: nat, bound: nat): (r: Option<nat>)
    ensures r.Some? ==> from <= r.value < bound && r.value in m && p(m[r.value])
    ensures r.Some? ==> forall j :: from <= j < r.value && j in m ==> !p(m[j])
    ensures r.None? ==> forall j :: from <= j < bound && j in m ==> !p(m[j])
    decreases bound - from
  {
    if from >= bound then None
    else if from in m && p(m[from]) then Some(from)
    else FirstKey(m, p, from + 1, bound)
  }

  /** Raising the bound over ids that are not in the table does not change the answer. */
  lemma {:induction false} FirstKeyExtend<T>(m: map<nat, T>, p: T -> bool, from: nat, b1: nat, b2: nat)
    requires b1 <= b2
    requires forall k :: b1 <= k < b2 ==> k !in m
    ensures FirstKey(m, p, from, b1) == FirstKey(m, p, from, b2)
    decreases b2 - from
  {
    if from < b2 {
      FirstKeyExtend(m, p, from + 1, b1, b2);
    }
  }

  /** The largest id below `bound` whose row satisfies `p`. */
  function LastKey<T>(m: map<nat, T>, p: T -> bool, bound: nat): (r: Option<nat>)
    ensures r.Some? ==> r.value < bound && r.value in m && p(m[r.value])
    ensures r.Some? ==> forall j :: r.value < j < bound && j in m ==> !p(m[j])
    ensures r.None? ==> forall j :: 0 <= j < bound && j in m ==> !p(m[j])
  {
    if bound == 0 then None
    else if bound - 1 in m && p(m[bound - 1]) then Some(bound - 1)
    else LastKey(m, p, bound - 1)
  }

  predicate Increasing(xs: seq<nat>) {
    forall i, j :: 0 <= i < j < |xs| ==> xs[i] < xs[j]
  }

  /** The ids in `from..bound` whose rows satisfy `p`, in ascending order. */
  function KeysWhere<T>(m: map<nat, T>, p: T -> bool, from: nat, bound: nat): (r: seq<nat>)
    ensures forall x :: x in r <==> from <= x < bound && x in m && p(m[x])
    ensures Increasing(r)
    decreases bound - from
  {
    if from >= bound then []
    else
      var rest := KeysWhere(m, p, from + 1, bound);
      if from in m && p(m[from]) then
        forall k | 0 <= k < |rest|
          ensures rest[k] > from
        {
          assert rest[k] in rest;
        }
        [from] + rest
      else rest
  }

  /** `destroy({ where })`: the rows the condition rejects are removed, the others kept as they are. */
  function Keep<V>(m: map<nat, V>, stays: V -> bool): (r: map<nat, V>)
    ensures r.Keys <= m.Keys
    ensures forall k :: k in r ==> r[k] == m[k] && stays(m[k])
    ensures forall k :: k in m && stays(m[k]) ==> k in r
  {
    map k | k in m && stays(m[k]) :: m[k]
  }

  /** `a` may come before `b` in a list ordered by `rank`, ascending or descending. */
  predicate InOrder(rank: nat -> int, desc: bool, a: nat, b: nat) {
    if desc then rank(a) >= rank(b) else rank(a) <= rank(b)
  }

  predicate SortedBy(xs: seq<nat>, rank: nat -> int, desc: bool) {
    forall i, j :: 0 <= i < j < |xs| ==> InOrder(rank, desc, xs[i], xs[j])
  }

  function Insert(x: nat, xs: seq<nat>, rank: nat -> int, desc: bool): (r: seq<nat>)
    ensures multiset(r) == multiset(xs) + multiset{x}
    ensures |r| == |xs| + 1
  {
    if xs == [] || InOrder(rank, desc, x, xs[0]) then [x] + xs
    else
      assert xs == [xs[0]] + xs[1..];
      [xs[0]] + Insert(x, xs[1..], rank, desc)
  }

  lemma {:induction false} InsertSorted(x: nat, xs: seq<nat>, rank: nat -> int, desc: bool)
    requires SortedBy(xs, rank, desc)
    ensures SortedBy(Insert(x, xs, rank, desc), rank, desc)
    decreases |xs|
  {
    if xs == [] || InOrder(rank, desc, x, xs[0]) {
    } else {
      InsertSorted(x, xs[1..], rank, desc);
      var r := Insert(x, xs, rank, desc);
      var tail := Insert(x, xs[1..], rank, desc);
      assert r == [xs[0]] + tail;
      forall k | 0 <= k < |tail|
        ensures InOrder(rank, desc, xs[0], tail[k])
      {
        assert tail[k] in multiset(tail);
        assert tail[k] == x || tail[k] in multiset(xs[1..]);
        if tail[k] != x {
          var j :| 0 <= j < |xs[1..]| && xs[1..][j] == tail[k];
          assert xs[j + 1] == tail[k];
        }
      }
    }
  }

  /** `ORDER BY rank` (ascending, or descending with `desc`), keeping the input order among equal ranks. */
  function SortBy(xs: seq<nat>, rank: nat -> int, desc: bool): (r: seq<nat>)
    ensures multiset(r) == multiset(xs)
    ensures SortedBy(r, rank, desc)
  {
    if xs == [] then []
    else
      var rest := SortBy(xs[1..], rank, desc);
      InsertSorted(xs[0], rest, rank, desc);
      assert xs == [xs[0]] + xs[1..];
      Insert(xs[0], rest, rank, desc)
  }

  /** Sorting keeps exactly the listed ids. */
  lemma SortByMembers(xs: seq<nat>, rank: nat -> int, desc: bool)
    ensures forall x :: x in SortBy(xs, rank, desc) <==> x in xs
  {
    var r := SortBy(xs, rank, desc);
    forall x
      ensures x in r <==> x in xs
    {
      assert x in r <==> x in multiset(r);
      assert x in xs <==> x in multiset(xs);
    }
  }
}

=== FILE: lockout.dfy ===
/**
 * The per-email failed-login counter of the account lockout middleware: a 15-minute window,
 * a lock after the fifth failure, and a sweep that evicts stale entries. The table is the
 * in-memory map; `now` is the millisecond clock of the request.
 */
module Lockout {
  import opened Common
  import Js

  const MaxFailedAttempts := 5
  const LockoutDurationMs := 15 * 60 * 1000

  datatype Attempt = Attempt(count: int, windowStart: int, lockExpiresAt: Option<int>)

  type Table = map<string, Attempt>

  /** The map key shared by all three operations. */
  function Key(email: string): string {
    "email:" + Js.NormalizeEmail(email)
  }

  /** `attempt.lockExpiresAt` is truthy: present and not 0. */
  predicate HasLock(a: Attempt) {
    a.lockExpiresAt.Some? && a.lockExpiresAt.value != 0
  }

  predicate Locked(a: Attempt, now: int) {
    HasLock(a) && a.lockExpiresAt.value > now
  }

  predicate WindowElapsed(a: Attempt, now: int) {
    now - a.windowStart >= LockoutDurationMs
  }

  /**
   * What every entry satisfies at time `now`: the count stays below the threshold, the window
   * started in the past, and a lock, when present, ends exactly one lockout duration after
   * the window start and comes with a zero count.
   */
  predicate ValidAttempt(a: Attempt, now: int) {
    && 0 <= a.count < MaxFailedAttempts
    && 0 <= a.windowStart <= now
    && (a.lockExpiresAt.Some? ==> a.lockExpiresAt.value == a.windowStart + LockoutDurationMs && a.count == 0)
  }

  predicate Valid(t: Table, now: int) {
    forall k :: k in t ==> ValidAttempt(t[k], now)
  }

  /** Time only moves forward, and validity survives it. */
  lemma ValidLater(t: Table, now: int, later: int)
    requires Valid(t, now) && now <= later
    ensures Valid(t, later)
  {
  }

  /** `Math.ceil(ms / 60000)` for a positive number of milliseconds. */
  function RemainingMinutes(lock: int, now: int): (m: int)
    requires lock > now
    ensures (m - 1) * 60000 < lock - now <= m * 60000
  {
    (lock - now + 59999) / 60000
  }

  function LockedMessage(minutes: int): string {
    "Account temporarily locked due to too many failed login attempts. Please try again in "
    + (if minutes >= 0 then Js.Decimal(minutes) else "-" + Js.Decimal(-minutes)) + " minute(s)."
  }

  /**
   * `checkAccountLockout`: answers 429 while the entry is locked; otherwise hands the request
   * on, first deleting an entry whose lock has expired or whose window has elapsed.
   */
  function Check(t: Table, email: Option<string>, now: int): (r: (Table, Gate))
    ensures r.1.Reject? <==> Truthy(email) && Key(email.value) in t && Locked(t[Key(email.value)], now)
    ensures r.1.Reject? ==> r.1.status == 429 && r.0 == t
    ensures !Truthy(email) ==> r == (t, Next)
    ensures r.1.Next? && Truthy(email) ==>
      var k := Key(email.value);
      r.0 == if k in t && ((HasLock(t[k]) && t[k].lockExpiresAt.value <= now) || WindowElapsed(t[k], now))
             then t - {k} else t
  {
    if !Truthy(email) then (t, Next)
    else
      var k := Key(email.value);
      if k in t && Locked(t[k], now) then
        (t, Reject(429, LockedMessage(RemainingMinutes(t[k].lockExpiresAt.value, now))))
      else if k in t && HasLock(t[k]) && t[k].lockExpiresAt.value <= now then (t - {k}, Next)
      else if k in t && WindowElapsed(t[k], now) then (t - {k}, Next)
      else (t, Next)
  }

  /**
   * `checkAccountLockout` on `req.body` as the parser leaves it: destructuring `email` out of
   * a body that was never set throws, and the error handler answers 500 with the table as it was.
   */
  function CheckRequest(t: Table, body: ParsedBody<Option<string>>, now: int): (r: (Table, Gate))
    ensures body.NoBody? ==> r == (t, Reject(500, InternalError))
    ensures body.Parsed? && !Truthy(body.fields) ==> r == (t, Next)
    ensures r.1.Reject? && body.Parsed? ==>
      && r.1.status == 429 && r.0 == t
      && Key(body.fields.value) in t && Locked(t[Key(body.fields.value)], now)
    ensures r.0 == t || (body.Parsed? && Truthy(body.fields) && r.0 == t - {Key(body.fields.value)})
  {
    match body
    case NoBody => (t, Reject(500, InternalError))
    case Parsed(email) => Check(t, email, now)
  }

  /** A valid locked entry reports between 1 and 15 remaining minutes. */
  lemma LockedMinutesBounded(t: Table, email: string, now: int)
    requires Valid(t, now)
    requires Key(email) in t && Locked(t[Key(email)], now)
    ensures 1 <= RemainingMinutes(t[Key(email)].lockExpiresAt.value, now) <= 15
  {
    var a := t[Key(email)];
    assert ValidAttempt(a, now);
    var m := RemainingMinutes(a.lockExpiresAt.value, now);
    assert 0 < a.lockExpiresAt.value - now <= LockoutDurationMs;
    assert m * 60000 > 0;
    assert (m - 1) * 60000 < 15 * 60000;
  }

  /** `recordFailedLogin`. */
  function Record(t: Table, email: string, now: int): (r: Table)
    ensures r.Keys == t.Keys + {Key(email)}
    ensures forall k :: k in t && k != Key(email) ==> r[k] == t[k]
  {
    var k := Key(email);
    var a := if k !in t || WindowElapsed(t[k], now) then Attempt(0, now, None) else t[k];
    if Locked(a, now) then t[k := a]
    else if a.count + 1 >= MaxFailedAttempts then
      t[k := Attempt(0, now, Some(now + LockoutDurationMs))]
    else t[k := a.(count := a.count + 1)]
  }

  /** `clearFailedLogin`. */
  function Clear(t: Table, email: string): (r: Table)
    ensures Key(email) !in r
    ensures forall k :: k != Key(email) ==> (k in r <==> k in t) && (k in r ==> r[k] == t[k])
  {
    t - {Key(email)}
  }

  /** The test of the periodic cleanup. */
  predicate Stale(a: Attempt, now: int) {
    (HasLock(a) && a.lockExpiresAt.value <= now) || WindowElapsed(a, now)
  }

  /** The body of the periodic cleanup: every stale entry goes, every other one stays as it is. */
  function Sweep(t: Table, now: int): (r: Table)
    ensures forall k :: k in r <==> k in t && !Stale(t[k], now)
    ensures forall k :: k in r ==> r[k] == t[k]
  {
    map k | k in t && !Stale(t[k], now) :: t[k]
  }

  /** Every operation keeps the table valid. */
  lemma OperationsPreserveValid(t: Table, email: string, oe: Option<string>, now: int)
    requires Valid(t, now) && 0 <= now
    ensures Valid(Record(t, email, now), now)
    ensures Valid(Check(t, oe, now).0, now)
    ensures Valid(Clear(t, email), now)
    ensures Valid(Sweep(t, now), now)
  {
    var k := Key(email);
    var r := Record(t, email, now);
    forall j | j in r
      ensures ValidAttempt(r[j], now)
    {
      if j != k {
        assert r[j] == t[j];
      }
    }
  }

  /** With a valid table, an entry still locked has an open window, so the sweep keeps it. */
  lemma SweepKeepsLocked(t: Table, k: string, now: int)
    requires Valid(t, now)
    requires k in t && Locked(t[k], now)
    ensures k in Sweep(t, now) && Sweep(t, now)[k] == t[k]
  {
    assert ValidAttempt(t[k], now);
  }

  /** A failure while locked changes nothing: no count increase, no lock extension. */
  lemma RecordWhileLocked(t: Table, email: string, now: int)
    requires Valid(t, now)
    requires Key(email) in t && Locked(t[Key(email)], now)
    ensures Record(t, email, now) == t
  {
    assert ValidAttempt(t[Key(email)], now);
  }

  /** A failure with no entry, or after the window elapsed, starts a fresh window with count 1. */
  lemma RecordFreshWindow(t: Table, email: string, now: int)
    requires Key(email) !in t || WindowElapsed(t[Key(email)], now)
    ensures Record(t, email, now)[Key(email)] == Attempt(1, now, None)
  {
  }

  /** Recording under two spellings with the same key is the same operation. */
  lemma RecordSameKey(t: Table, a: string, b: string, now: int)
    requires Key(a) == Key(b)
    ensures Record(t, a, now) == Record(t, b, now)
  {
  }

  /** Differently cased or padded spellings of an address share one entry. */
  lemma KeyIgnoresCaseAndPadding(email: string)
    ensures Key(Js.NormalizeEmail(email)) == Key(email)
    ensures Key(Js.ToLower(email)) == Key(email)
  {
    Js.NormalizeEmailIdempotent(email);
    var l := Js.ToLower(email);
    Js.NormalizeEmailIdempotent(l);
    Js.ToLowerIdempotent(email);
    assert Js.NormalizeEmail(l) == Js.ToLower(Js.Trim(l));
    assert Js.Trim(Js.ToLower(l)) == Js.NormalizeEmail(l);
  }

  /** Failures for one address at the given times, in order. */
  function RecordAll(t: Table, email: string, times: seq<int>): (r: Table)
    ensures Key(email) in r || (times == [] && Key(email) !in t)
    decreases |times|
  {
    if times == [] then t else RecordAll(Record(t, email, times[0]), email, times[1..])
  }

  predicate Nondecreasing(times: seq<int>) {
    forall i, j :: 0 <= i <= j < |times| ==> times[i] <= times[j]
  }

  lemma {:induction false} RecordAllAppend(t: Table, email: string, a: seq<int>, b: seq<int>)
    ensures RecordAll(t, email, a + b) == RecordAll(RecordAll(t, email, a), email, b)
    decreases |a|
  {
    if a != [] {
      assert (a + b)[1..] == a[1..] + b;
      RecordAllAppend(Record(t, email, a[0]), email, a[1..], b);
    } else {
      assert a + b == b;
    }
  }

  /** Further failures inside the window of an unlocked entry only raise its count. */
  lemma {:induction false} FailuresCount(t: Table, email: string, first: int, times: seq<int>)
    requires Key(email) in t
    requires t[Key(email)].lockExpiresAt.None? && t[Key(email)].windowStart == first
    requires 0 <= t[Key(email)].count && t[Key(email)].count + |times| < MaxFailedAttempts
    requires forall i :: 0 <= i < |times| ==> first <= times[i] < first + LockoutDurationMs
    ensures Key(email) in RecordAll(t, email, times)
    ensures RecordAll(t, email, times)[Key(email)] == Attempt(t[Key(email)].count + |times|, first, None)
    decreases |times|
  {
    if times != [] {
      var t1 := Record(t, email, times[0]);
      assert t1[Key(email)] == Attempt(t[Key(email)].count + 1, first, None);
      FailuresCount(t1, email, first, times[1..]);
    }
  }

  /**
   * Five failures inside one window, starting with no live entry, lock the address until
   * exactly one lockout duration after the fifth failure, which also restarts the window.
   */
  lemma FiveFailuresLock(t: Table, email: string, times: seq<int>)
    requires |times| == MaxFailedAttempts
    requires Key(email) !in t || WindowElapsed(t[Key(email)], times[0])
    requires Nondecreasing(times) && times[4] - times[0] < LockoutDurationMs
    ensures RecordAll(t, email, times)[Key(email)] == Attempt(0, times[4], Some(times[4] + LockoutDurationMs))
  {
    var k := Key(email);
    var t1 := Record(t, email, times[0]);
    assert t1[k] == Attempt(1, times[0], None);
    assert times == [times[0]] + times[1..4] + [times[4]];
    RecordAllAppend(t, email, [times[0]] + times[1..4], [times[4]]);
    RecordAllAppend(t, email, [times[0]], times[1..4]);
    assert RecordAll(t, email, [times[0]]) == t1;
    FailuresCount(t1, email, times[0], times[1..4]);
    var t4 := RecordAll(t1, email, times[1..4]);
    assert t4[k] == Attempt(4, times[0], None);
    assert RecordAll(t4, email, [times[4]]) == Record(t4, email, times[4]);
  }
}

=== FILE: medication_model.dfy ===
/** The `Medication` entity and its hooks: name, dosage and instructions are stored as envelopes. */
module MedicationModel {
  import opened Common
  import opened Fields
  import Encryption

  datatype Medication = Medication(
    id: nat,
    patientId: nat,
    name: string,
    dosage: string,
    frequency: string,
    instructions: Option<string>,
    prescribedBy: nat)

  datatype Column = Name | Dosage | Frequency | Instructions | PatientId | PrescribedBy

  const AllColumns: set<Column> := {Name, Dosage, Frequency, Instructions, PatientId, PrescribedBy}

  /** The guard of an optional column: present, truthy and not already in envelope form. */
  predicate OptNeedsSealing(k: Keyring, v: Option<string>) {
    v.Some? && NeedsSealing(k, v.value)
  }

  function SealOpt(k: Keyring, guard: bool, v: Option<string>, n: Draw): (r: Result<Option<string>>)
    requires guard ==> v.Some?
    ensures !guard ==> r == Success(v)
    ensures guard && r.Success? ==> r.value.Some? && SealIf(k, true, v.value, n) == Success(r.value.value)
  {
    if !guard then Success(v)
    else
      match SealIf(k, true, v.value, n)
      case Failure(e) => Failure(e)
      case Success(s) => Success(Some(s))
  }

  /** The hook body shared by create (every column counts as changed) and update. */
  function Seal(k: Keyring, m: Medication, changed: set<Column>, n1: Draw, n2: Draw, n3: Draw): (r: Result<Medication>)
    ensures r.Success? ==> r.value.(name := m.name, dosage := m.dosage, instructions := m.instructions) == m
    ensures r.Success? && !(Name in changed && NeedsSealing(k, m.name)) ==> r.value.name == m.name
    ensures r.Success? && !(Dosage in changed && NeedsSealing(k, m.dosage)) ==> r.value.dosage == m.dosage
    ensures r.Success? && !(Instructions in changed && OptNeedsSealing(k, m.instructions)) ==> r.value.instructions == m.instructions
    ensures r.Success? && Name in changed && NeedsSealing(k, m.name) ==>
      Encryption.Encrypt(k.env, k.c, Some(m.name), n1.iv, n1.salt) == Success(Some(r.value.name))
    ensures r.Success? && Dosage in changed && NeedsSealing(k, m.dosage) ==>
      Encryption.Encrypt(k.env, k.c, Some(m.dosage), n2.iv, n2.salt) == Success(Some(r.value.dosage))
    ensures r.Success? && Instructions in changed && OptNeedsSealing(k, m.instructions) ==>
      r.value.instructions.Some? &&
      Encryption.Encrypt(k.env, k.c, m.instructions, n3.iv, n3.salt) == Success(Some(r.value.instructions.value))
  {
    match SealIf(k, Name in changed && NeedsSealing(k, m.name), m.name, n1)
    case Failure(e) => Failure(e)
    case Success(name) =>
      match SealIf(k, Dosage in changed && NeedsSealing(k, m.dosage), m.dosage, n2)
      case Failure(e) => Failure(e)
      case Success(dosage) =>
        match SealOpt(k, Instructions in changed && OptNeedsSealing(k, m.instructions), m.instructions, n3)
        case Failure(e) => Failure(e)
        case Success(instructions) => Success(m.(name := name, dosage := dosage, instructions := instructions))
  }

  /** `beforeCreate`: every column counts as new, so each sensitive one not yet an envelope is sealed. */
  function BeforeCreate(k: Keyring, m: Medication, n1: Draw, n2: Draw, n3: Draw): (r: Result<Medication>)
    ensures r.Success? ==> r.value.(name := m.name, dosage := m.dosage, instructions := m.instructions) == m
    ensures r.Success? && NeedsSealing(k, m.name) ==>
      Encryption.Encrypt(k.env, k.c, Some(m.name), n1.iv, n1.salt) == Success(Some(r.value.name))
    ensures r.Success? && NeedsSealing(k, m.dosage) ==>
      Encryption.Encrypt(k.env, k.c, Some(m.dosage), n2.iv, n2.salt) == Success(Some(r.value.dosage))
    ensures r.Success? && !NeedsSealing(k, m.name) ==> r.value.name == m.name
    ensures r.Success? && !NeedsSealing(k, m.dosage) ==> r.value.dosage == m.dosage
    ensures r.Success? && !OptNeedsSealing(k, m.instructions) ==> r.value.instructions == m.instructions
  {
    Seal(k, m, AllColumns, n1, n2, n3)
  }

  /** `beforeUpdate`: only changed sensitive columns are re-encrypted. */
  function BeforeUpdate(k: Keyring, m: Medication, changed: set<Column>, n1: Draw, n2: Draw, n3: Draw): (r: Result<Medication>)
    ensures r.Success? ==> r.value.(name := m.name, dosage := m.dosage, instructions := m.instructions) == m
    ensures r.Success? && Name !in changed ==> r.value.name == m.name
    ensures r.Success? && Dosage !in changed ==> r.value.dosage == m.dosage
    ensures r.Success? && Instructions !in changed ==> r.value.instructions == m.instructions
  {
    Seal(k, m, changed, n1, n2, n3)
  }

  /** One instance of `afterFind`: each truthy sensitive column is replaced only by a non-empty decryption. */
  function RevealMedication(k: Keyring, m: Medication): (r: Medication)
    ensures r.(name := m.name, dosage := m.dosage, instructions := m.instructions) == m
    ensures r.name == (if m.name != "" then Reveal(k, m.name) else m.name)
    ensures r.dosage == (if m.dosage != "" then Reveal(k, m.dosage) else m.dosage)
    ensures Truthy(m.instructions) ==> r.instructions == Some(Reveal(k, m.instructions.value))
    ensures !Truthy(m.instructions) ==> r.instructions == m.instructions
  {
    m.(name := if m.name != "" then Reveal(k, m.name) else m.name,
       dosage := if m.dosage != "" then Reveal(k, m.dosage) else m.dosage,
       instructions := if Truthy(m.instructions) then Some(Reveal(k, m.instructions.value)) else m.instructions)
  }

  /** `afterFind`: a no-op on nothing, applied to one instance or to each of an array. */
  function AfterFind(k: Keyring, found: Found<Medication>): (r: Found<Medication>)
    ensures found.Nothing? <==> r.Nothing?
    ensures found.Single? ==> r == Single(RevealMedication(k, found.row))
    ensures found.Rows? ==> r.Rows? && |r.rows| == |found.rows|
    ensures found.Rows? ==> forall i :: 0 <= i < |found.rows| ==> r.rows[i] == RevealMedication(k, found.rows[i])
  {
    EachFound((m: Medication) => RevealMedication(k, m), found)
  }

  /** The hooks never touch frequency, patient or prescriber, and a second create pass is a no-op. */
  lemma BeforeCreateIdempotent(k: Keyring, m: Medication, n1: Draw, n2: Draw, n3: Draw, n4: Draw, n5: Draw, n6: Draw)
    requires Encryption.Lawful(k.c)
    requires BeforeCreate(k, m, n1, n2, n3).Success?
    ensures BeforeCreate(k, BeforeCreate(k, m, n1, n2, n3).value, n4, n5, n6) == BeforeCreate(k, m, n1, n2, n3)
  {
    var q := BeforeCreate(k, m, n1, n2, n3).value;
    if NeedsSealing(k, m.name) {
      SealThenReveal(k, m.name, n1);
    }
    if NeedsSealing(k, m.dosage) {
      SealThenReveal(k, m.dosage, n2);
    }
    if OptNeedsSealing(k, m.instructions) {
      SealThenReveal(k, m.instructions.value, n3);
    }
    assert !NeedsSealing(k, q.name) && !NeedsSealing(k, q.dosage) && !OptNeedsSealing(k, q.instructions);
  }

  /** A sensitive column left out of the changed set keeps its value through the update hook. */
  lemma UpdateOnlyChangedColumns(k: Keyring, m: Medication, changed: set<Column>, n1: Draw, n2: Draw, n3: Draw)
    requires BeforeUpdate(k, m, changed, n1, n2, n3).Success?
    ensures Name !in changed ==> BeforeUpdate(k, m, changed, n1, n2, n3).value.name == m.name
    ensures Dosage !in changed ==> BeforeUpdate(k, m, changed, n1, n2, n3).value.dosage == m.dosage
    ensures Instructions !in changed ==> BeforeUpdate(k, m, changed, n1, n2, n3).value.instructions == m.instructions
  {
  }

  /** Fields written through the create hook read back through the find hook. */
  lemma CreateThenFind(k: Keyring, m: Medication, n1: Draw, n2: Draw, n3: Draw)
    requires Encryption.Lawful(k.c)
    requires m.name == "" || !IsEncrypted(k, m.name)
    requires m.dosage == "" || !IsEncrypted(k, m.dosage)
    requires Truthy(m.instructions) ==> !IsEncrypted(k, m.instructions.value)
    requires BeforeCreate(k, m, n1, n2, n3).Success?
    ensures RevealMedication(k, BeforeCreate(k, m, n1, n2, n3).value) == m
  {
    var q := BeforeCreate(k, m, n1, n2, n3).value;
    SealedFieldReads(k, m.name, q.name, n1);
    SealedFieldReads(k, m.dosage, q.dosage, n2);
    if Truthy(m.instructions) {
      SealedFieldReads(k, m.instructions.value, q.instructions.value, n3);
    }
  }
}

=== FILE: medications.dfy ===
/**
 * The medication controller: a doctor prescribes for, and withdraws prescriptions of, the
 * patients assigned to it; doctors and nurses read the medications of their assigned
 * patients. Withdrawing a medication also removes every tracking row of it.
 */
module Medications {
  import opened Common
  import opened Schema
  import Js
  import Listing
  import Fields
  import Encryption
  import MedicationModel
  import TrackingModel
  import UserController

  type Caller = UserController.Caller
  type Medication = MedicationModel.Medication
  type Tracking = TrackingModel.Tracking

  /** Writes one new medication row under the next id; nothing else changes. */
  function AddMedication(s: Store, m: Medication): (r: Store)
    requires Wf(s) && m.id == s.nextId
    ensures Wf(r) && r.nextId == s.nextId + 1
    ensures r.medications == s.medications[m.id := m]
    ensures r == s.(medications := r.medications, nextId := r.nextId)
  {
    s.(medications := s.medications[m.id := m], nextId := m.id + 1)
  }

  /** The prescription as the request gives it, before the hooks run. */
  function Prescription(s: Store, caller: Caller, patientId: int, name: string, dosage: string, frequency: string,
                        instructions: Option<string>): Medication
    requires caller.Some? && patientId >= 0
  {
    MedicationModel.Medication(s.nextId, patientId as nat, name, dosage, frequency, instructions, caller.value.id)
  }

  /**
   * `createMedication`: only a doctor (403), for an existing patient (404) assigned to it
   * (403). The prescriber is always the caller; the hooks seal the sensitive columns, and a
   * failing hook is an uncaught error that writes nothing.
   */
  function Create(k: Fields.Keyring, s: Store, caller: Caller, patientId: int, name: string, dosage: string, frequency: string,
                  instructions: Option<string>, n1: Fields.Draw, n2: Fields.Draw, n3: Fields.Draw)
    : (r: (Store, Reply<Medication>))
    requires Wf(s)
    ensures Wf(r.0)
    ensures r.1.Fail? ==> r.0 == s
    ensures !UserController.IsRole(caller, Doctor) ==> r.1 == Fail(403, "Forbidden: Only doctors can prescribe medications")
    ensures UserController.IsRole(caller, Doctor) && !UserController.PatientAt(s, Some(patientId)) ==>
      r.1 == Fail(404, "Patient not found")
    ensures UserController.IsRole(caller, Doctor) && UserController.PatientAt(s, Some(patientId))
            && !AssignedDoctor(s, patientId as nat, caller.value.id) ==>
      r.1 == Fail(403, "Forbidden: You can only prescribe medications for your assigned patients")
    ensures r.1.Ok? <==>
      && UserController.IsRole(caller, Doctor) && UserController.PatientAt(s, Some(patientId))
      && AssignedDoctor(s, patientId as nat, caller.value.id)
      && MedicationModel.BeforeCreate(k, Prescription(s, caller, patientId, name, dosage, frequency, instructions), n1, n2, n3).Success?
    ensures r.1.Ok? ==>
      && r.1.value.id == s.nextId && r.1.value.patientId == patientId as nat && r.1.value.prescribedBy == caller.value.id
      && r.1.value == MedicationModel.BeforeCreate(k, Prescription(s, caller, patientId, name, dosage, frequency, instructions), n1, n2, n3).value
      && r.0 == AddMedication(s, r.1.value)
  {
    if !UserController.IsRole(caller, Doctor) then (s, Fail(403, "Forbidden: Only doctors can prescribe medications"))
    else if !UserController.PatientAt(s, Some(patientId)) then (s, Fail(404, "Patient not found"))
    else if !AssignedDoctor(s, patientId as nat, caller.value.id) then
      (s, Fail(403, "Forbidden: You can only prescribe medications for your assigned patients"))
    else
      match MedicationModel.BeforeCreate(k, Prescription(s, caller, patientId, name, dosage, frequency, instructions), n1, n2, n3)
      case Failure(_) => (s, Fail(500, InternalError))
      case Success(m) => (AddMedication(s, m), Ok(201, m))
  }

  /** The stored prescription (the row `Create` writes under the new id) reads back as the doctor wrote it. */
  lemma PrescriptionReadsBack(k: Fields.Keyring, s: Store, caller: Caller, patientId: int, name: string, dosage: string,
                              frequency: string, instructions: Option<string>, n1: Fields.Draw, n2: Fields.Draw, n3: Fields.Draw)
    requires Wf(s) && Encryption.Lawful(k.c)
    requires name == "" || !Fields.IsEncrypted(k, name)
    requires dosage == "" || !Fields.IsEncrypted(k, dosage)
    requires Truthy(instructions) ==> !Fields.IsEncrypted(k, instructions.value)
    requires Create(k, s, caller, patientId, name, dosage, frequency, instructions, n1, n2, n3).1.Ok?
    ensures MedicationModel.RevealMedication(k, Create(k, s, caller, patientId, name, dosage, frequency, instructions, n1, n2, n3).1.value)
      == MedicationModel.Medication(s.nextId, patientId as nat, name, dosage, frequency, instructions, caller.value.id)
  {
    MedicationModel.CreateThenFind(k, Prescription(s, caller, patientId, name, dosage, frequency, instructions), n1, n2, n3);
  }

  /** The ids of the medications whose patient satisfies `p`, in ascending order. */
  function MedicationsWhere(s: Store, p: nat -> bool): (r: seq<nat>)
    requires Wf(s)
    ensures forall k :: k in r <==> k in s.medications && p(s.medications[k].patientId)
  {
    Listing.KeysWhere(s.medications, (m: Medication) => p(m.patientId), 0, s.nextId)
  }

  /**
   * `listMedications`. For a patient caller, `found` is the patient row that the lookup
   * heuristic settles on (none: the empty list). A doctor or a nurse gets the medications
   * of the patients assigned to it (none assigned: the empty list); any other role 403.
   */
  function List(s: Store, caller: Caller, found: Option<nat>): (r: Reply<seq<nat>>)
    requires Wf(s)
    ensures caller.None? ==> r == Fail(401, "Unauthorized")
    ensures UserController.IsRole(caller, PatientRole) ==>
      r.Ok? && forall k :: k in r.value <==> found.Some? && k in s.medications && s.medications[k].patientId == found.value
    ensures UserController.IsRole(caller, Doctor) ==>
      r.Ok? && forall k :: k in r.value <==> k in s.medications && AssignedDoctor(s, s.medications[k].patientId, caller.value.id)
    ensures UserController.IsRole(caller, Nurse) ==>
      r.Ok? && forall k :: k in r.value <==> k in s.medications && AssignedNurse(s, s.medications[k].patientId, caller.value.id)
    ensures (caller.Some? && !UserController.IsRole(caller, PatientRole) && !UserController.IsRole(caller, Doctor)
             && !UserController.IsRole(caller, Nurse)) ==> r == Fail(403, "Forbidden")
  {
    if caller.None? then Fail(401, "Unauthorized")
    else
      var uid := caller.value.id;
      if UserController.IsRole(caller, PatientRole) then
        if found.None? then Ok(200, [])
        else Ok(200, MedicationsWhere(s, (p: nat) => p == found.value))
      else if UserController.IsRole(caller, Doctor) then
        if PatientsOfDoctor(s, uid) == [] then Ok(200, [])
        else Ok(200, MedicationsWhere(s, (p: nat) => AssignedDoctor(s, p, uid)))
      else if UserController.IsRole(caller, Nurse) then
        if PatientsOfNurse(s, uid) == [] then Ok(200, [])
        else Ok(200, MedicationsWhere(s, (p: nat) => AssignedNurse(s, p, uid)))
      else Fail(403, "Forbidden")
  }

  /** An admin is refused the medication list. */
  lemma AdminCannotListMedications(s: Store, caller: Caller, found: Option<nat>)
    requires Wf(s) && UserController.IsRole(caller, Admin)
    ensures List(s, caller, found) == Fail(403, "Forbidden")
  {
  }

  /**
   * `getPatientMedications`: doctors and nurses only (403), for an existing patient (404)
   * assigned to the caller in the caller's own role (403). A `patientId` that `parseInt`
   * reads as NaN reaches `findByPk(NaN)`, whose query fails and is answered 500.
   */
  function ForPatient(s: Store, caller: Caller, patientId: string): (r: Reply<seq<nat>>)
    requires Wf(s)
    ensures !UserController.IsRole(caller, Doctor) && !UserController.IsRole(caller, Nurse) ==> r == Fail(403, "Forbidden")
    ensures ((UserController.IsRole(caller, Doctor) || UserController.IsRole(caller, Nurse))
             && Js.ParseInt(patientId).None?) ==> r == Fail(500, InternalError)
    ensures ((UserController.IsRole(caller, Doctor) || UserController.IsRole(caller, Nurse))
             && Js.ParseInt(patientId).Some? && !UserController.PatientAt(s, Js.ParseInt(patientId))) ==>
      r == Fail(404, "Patient not found")
    ensures r.Ok? <==>
      && UserController.PatientAt(s, Js.ParseInt(patientId))
      && (|| (UserController.IsRole(caller, Doctor) && AssignedDoctor(s, Js.ParseInt(patientId).value as nat, caller.value.id))
          || (UserController.IsRole(caller, Nurse) && AssignedNurse(s, Js.ParseInt(patientId).value as nat, caller.value.id)))
    ensures r.Ok? ==> forall k :: k in r.value <==>
      k in s.medications && s.medications[k].patientId as int == Js.ParseInt(patientId).value
  {
    if !UserController.IsRole(caller, Doctor) && !UserController.IsRole(caller, Nurse) then Fail(403, "Forbidden")
    else
      var pidNum := Js.ParseInt(patientId);
      if pidNum.None? then Fail(500, InternalError)
      else if !UserController.PatientAt(s, pidNum) then Fail(404, "Patient not found")
      else
        var pid := pidNum.value as nat;
        var uid := caller.value.id;
        if UserController.IsRole(caller, Doctor) && !AssignedDoctor(s, pid, uid) then Fail(403, "Forbidden: Patient is not assigned to you")
        else if UserController.IsRole(caller, Nurse) && !AssignedNurse(s, pid, uid) then Fail(403, "Forbidden: Patient is not assigned to you")
        else Ok(200, MedicationsWhere(s, (p: nat) => p == pid))
  }

  /** The medication, its patient and the patient's assignment to the calling doctor. */
  predicate Withdrawable(s: Store, caller: Caller, id: Option<int>) {
    && UserController.IsRole(caller, Doctor)
    && id.Some? && id.value >= 0 && id.value as nat in s.medications
    && AssignedDoctor(s, s.medications[id.value as nat].patientId, caller.value.id)
  }

  /** Removes one medication and every tracking row of it. */
  function Withdraw(s: Store, mid: nat): (r: Store)
    ensures Wf(s) ==> Wf(r)
    ensures r.medications == s.medications - {mid}
    ensures forall t :: t in r.trackings ==> r.trackings[t].medicationId != mid
    ensures forall t :: t in s.trackings && s.trackings[t].medicationId != mid ==> t in r.trackings && r.trackings[t] == s.trackings[t]
    ensures r == s.(medications := r.medications, trackings := r.trackings)
  {
    s.(trackings := Listing.Keep(s.trackings, (t: Tracking) => t.medicationId != mid),
       medications := s.medications - {mid})
  }

  /**
   * `deleteMedication`: only a doctor (403), an existing medication (404) and patient (404),
   * assigned to the caller (403). An id that `parseInt` reads as NaN reaches
   * `findByPk(NaN)`, whose query fails and is answered 500.
   */
  function Delete(s: Store, caller: Caller, id: string): (r: (Store, Reply<string>))
    requires Wf(s)
    ensures Wf(r.0)
    ensures r.1.Fail? ==> r.0 == s
    ensures !UserController.IsRole(caller, Doctor) ==> r.1 == Fail(403, "Forbidden")
    ensures UserController.IsRole(caller, Doctor) && Js.ParseInt(id).None? ==> r.1 == Fail(500, InternalError)
    ensures UserController.IsRole(caller, Doctor) && Js.ParseInt(id).Some?
            && !(Js.ParseInt(id).value >= 0 && Js.ParseInt(id).value as nat in s.medications) ==>
      r.1 == Fail(404, "Medication not found")
    ensures r.1.Ok? <==> Withdrawable(s, caller, Js.ParseInt(id))
    ensures r.1.Ok? ==> r.0 == Withdraw(s, Js.ParseInt(id).value as nat)
  {
    if !UserController.IsRole(caller, Doctor) then (s, Fail(403, "Forbidden"))
    else
      var mid := Js.ParseInt(id);
      if mid.None? then (s, Fail(500, InternalError))
      else if !(mid.value >= 0 && mid.value as nat in s.medications) then (s, Fail(404, "Medication not found"))
      else
        var m := s.medications[mid.value as nat];
        if m.patientId !in s.patients then (s, Fail(404, "Patient not found"))
        else if !AssignedDoctor(s, m.patientId, caller.value.id) then (s, Fail(403, "Forbidden: Patient is not assigned to you"))
        else (Withdraw(s, mid.value as nat), Ok(200, "Medication deleted successfully"))
  }

  /** After a medication is withdrawn, no tracking row refers to it and no other medication has moved. */
  lemma WithdrawnLeavesNoTracking(s: Store, caller: Caller, id: string, other: nat)
    requires Wf(s)
    requires Delete(s, caller, id).1.Ok?
    requires other in s.medications && other as int != Js.ParseInt(id).value
    ensures var s2 := Delete(s, caller, id).0;
      Js.ParseInt(id).value as nat !in s2.medications && other in s2.medications && s2.medications[other] == s.medications[other]
      && forall t :: t in s2.trackings ==> s2.trackings[t].medicationId as int != Js.ParseInt(id).value
  {
  }
}

=== FILE: patient_model.dfy ===
/** The `Patient` entity and its encryption hooks: name and condition are stored as envelopes. */
module PatientModel {
  import opened Common
  import opened Fields
  import Js
  import Encryption

  datatype Patient = Patient(
    id: nat,
    name: string,
    age: int,
    condition: Option<string>,
    assignedDoctorId: Option<nat>,
    assignedNurseId: Option<nat>)

  /** The columns an update can report as changed. */
  datatype Column = Name | Age | Condition | AssignedDoctor | AssignedNurse

  /** The `age` validator. */
  predicate ValidAge(age: int) {
    0 <= age <= 150
  }

  /** The guard on `condition`: a string with non-blank content that is not already in envelope form. */
  predicate ConditionNeedsSealing(k: Keyring, c: Option<string>) {
    c.Some? && c.value != "" && Js.Trim(c.value) != "" && !IsEncrypted(k, c.value)
  }

  function SealCondition(k: Keyring, guard: bool, c: Option<string>, n: Draw): (r: Result<Option<string>>)
    requires guard ==> c.Some?
    ensures !guard ==> r == Success(c)
    ensures r.Success? ==> (r.value.Some? <==> c.Some?)
  {
    if !guard then Success(c)
    else
      match SealIf(k, true, c.value, n)
      case Failure(e) => Failure(e)
      case Success(v) => Success(Some(v))
  }

  /** The hook body shared by create (every column counts as changed) and update. */
  function Seal(k: Keyring, p: Patient, changed: set<Column>, nName: Draw, nCondition: Draw): (r: Result<Patient>)
    ensures r.Success? ==> r.value.(name := p.name, condition := p.condition) == p
    ensures r.Success? && !(Name in changed && NeedsSealing(k, p.name)) ==> r.value.name == p.name
    ensures r.Success? && Name in changed && NeedsSealing(k, p.name) ==>
      Encryption.Encrypt(k.env, k.c, Some(p.name), nName.iv, nName.salt) == Success(Some(r.value.name))
    ensures r.Success? && !(Condition in changed && ConditionNeedsSealing(k, p.condition)) ==> r.value.condition == p.condition
    ensures r.Success? && Condition in changed && ConditionNeedsSealing(k, p.condition) ==>
      r.value.condition.Some? &&
      Encryption.Encrypt(k.env, k.c, p.condition, nCondition.iv, nCondition.salt) == Success(Some(r.value.condition.value))
  {
    match SealIf(k, Name in changed && NeedsSealing(k, p.name), p.name, nName)
    case Failure(e) => Failure(e)
    case Success(name) =>
      match SealCondition(k, Condition in changed && ConditionNeedsSealing(k, p.condition), p.condition, nCondition)
      case Failure(e) => Failure(e)
      case Success(condition) => Success(p.(name := name, condition := condition))
  }

  const AllColumns: set<Column> := {Name, Age, Condition, AssignedDoctor, AssignedNurse}

  /** `beforeCreate`: every column counts as new, so each sensitive one not yet an envelope is sealed. */
  function BeforeCreate(k: Keyring, p: Patient, nName: Draw, nCondition: Draw): (r: Result<Patient>)
    ensures r.Success? ==> r.value.(name := p.name, condition := p.condition) == p
    ensures r.Success? && NeedsSealing(k, p.name) ==>
      Encryption.Encrypt(k.env, k.c, Some(p.name), nName.iv, nName.salt) == Success(Some(r.value.name))
    ensures r.Success? && ConditionNeedsSealing(k, p.condition) ==>
      r.value.condition.Some? &&
      Encryption.Encrypt(k.env, k.c, p.condition, nCondition.iv, nCondition.salt) == Success(Some(r.value.condition.value))
    ensures r.Success? && !NeedsSealing(k, p.name) ==> r.value.name == p.name
    ensures r.Success? && !ConditionNeedsSealing(k, p.condition) ==> r.value.condition == p.condition
  {
    Seal(k, p, AllColumns, nName, nCondition)
  }

  /** `beforeUpdate`: only the columns reported as changed are considered. */
  function BeforeUpdate(k: Keyring, p: Patient, changed: set<Column>, nName: Draw, nCondition: Draw): (r: Result<Patient>)
    ensures r.Success? ==> r.value.(name := p.name, condition := p.condition) == p
    ensures r.Success? && Name !in changed ==> r.value.name == p.name
    ensures r.Success? && Condition !in changed ==> r.value.condition == p.condition
    ensures Name !in changed && Condition !in changed ==> r == Success(p)
  {
    Seal(k, p, changed, nName, nCondition)
  }

  /** `Patient.create`: the age validator runs first, then the hook. */
  function Create(k: Keyring, p: Patient, nName: Draw, nCondition: Draw): (r: Result<Patient>)
    ensures r.Success? ==> ValidAge(r.value.age) && r.value.id == p.id
    ensures !ValidAge(p.age) ==> r.Failure?
    ensures ValidAge(p.age) ==> r == BeforeCreate(k, p, nName, nCondition)
  {
    if !ValidAge(p.age) then Failure("Validation error: age") else BeforeCreate(k, p, nName, nCondition)
  }

  /** One instance of `afterFind`. */
  function RevealPatient(k: Keyring, p: Patient): (r: Patient)
    ensures r.(name := p.name, condition := p.condition) == p
    ensures r.name == Reveal(k, p.name)
    ensures p.condition.None? || Js.Trim(p.condition.value) == "" ==> r.condition == p.condition
    ensures p.condition.Some? && Js.Trim(p.condition.value) != "" ==> r.condition == Some(Reveal(k, p.condition.value))
  {
    var name := if p.name != "" then Reveal(k, p.name) else p.name;
    var condition :=
      if p.condition.Some? && p.condition.value != "" && Js.Trim(p.condition.value) != ""
      then Some(Reveal(k, p.condition.value)) else p.condition;
    p.(name := name, condition := condition)
  }

  /** `afterFind`: a no-op on nothing, applied to one instance or to each of an array. */
  function AfterFind(k: Keyring, found: Found<Patient>): (r: Found<Patient>)
    ensures found.Nothing? <==> r.Nothing?
    ensures found.Single? ==> r == Single(RevealPatient(k, found.row))
    ensures found.Rows? ==> r.Rows? && |r.rows| == |found.rows|
    ensures found.Rows? ==> forall i :: 0 <= i < |found.rows| ==> r.rows[i] == RevealPatient(k, found.rows[i])
  {
    EachFound((p: Patient) => RevealPatient(k, p), found)
  }

  /** Running the create hook on its own output changes nothing: the envelope guard stops a second encryption. */
  lemma BeforeCreateIdempotent(k: Keyring, p: Patient, n1: Draw, n2: Draw, n3: Draw, n4: Draw)
    requires Encryption.Lawful(k.c)
    requires BeforeCreate(k, p, n1, n2).Success?
    ensures BeforeCreate(k, BeforeCreate(k, p, n1, n2).value, n3, n4) == BeforeCreate(k, p, n1, n2)
  {
    var q := BeforeCreate(k, p, n1, n2).value;
    if NeedsSealing(k, p.name) {
      SealThenReveal(k, p.name, n1);
    }
    if ConditionNeedsSealing(k, p.condition) {
      SealThenReveal(k, p.condition.value, n2);
    }
    assert !NeedsSealing(k, q.name);
    assert !ConditionNeedsSealing(k, q.condition);
  }

  /**
   * What the create hook stores, the find hook gives back: every field that was not already
   * in envelope form reads back as written.
   */
  lemma CreateThenFind(k: Keyring, p: Patient, n1: Draw, n2: Draw)
    requires Encryption.Lawful(k.c)
    requires p.name == "" || !IsEncrypted(k, p.name)
    requires p.condition.Some? && p.condition.value != "" ==> !IsEncrypted(k, p.condition.value)
    requires BeforeCreate(k, p, n1, n2).Success?
    ensures RevealPatient(k, BeforeCreate(k, p, n1, n2).value) == p
  {
    var q := BeforeCreate(k, p, n1, n2).value;
    SealedFieldReads(k, p.name, q.name, n1);
    ConditionThenFind(k, p.condition, q.condition, n2);
  }

  lemma ConditionThenFind(k: Keyring, c: Option<string>, stored: Option<string>, n: Draw)
    requires Encryption.Lawful(k.c)
    requires c.Some? && c.value != "" ==> !IsEncrypted(k, c.value)
    requires SealCondition(k, ConditionNeedsSealing(k, c), c, n) == Success(stored)
    ensures (if stored.Some? && stored.value != "" && Js.Trim(stored.value) != ""
             then Some(Reveal(k, stored.value)) else stored) == c
  {
    if ConditionNeedsSealing(k, c) {
      SealThenReveal(k, c.value, n);
    }
  }

  /** An update that reports neither sensitive column as changed writes the row as given. */
  lemma UpdateOnlyChangedColumns(k: Keyring, p: Patient, changed: set<Column>, n1: Draw, n2: Draw)
    requires Name !in changed && Condition !in changed
    ensures BeforeUpdate(k, p, changed, n1, n2) == Success(p)
  {
  }
}

=== FILE: patients.dfy ===
/**
 * The patient controller: admins read every patient record, doctors and nurses the records
 * assigned to them (nurses without the condition), and only the assigned doctor edits one.
 */
module Patients {
  import opened Common
  import opened Schema
  import Js
  import Sql
  import Fields
  import Encryption
  import PatientModel
  import UserController
  import AuthMiddleware

  type Caller = UserController.Caller
  type Patient = PatientModel.Patient

  /** The record a nurse is shown: every column except the condition. */
  datatype NurseView = NurseView(id: nat, name: string, age: int, assignedDoctorId: Option<nat>, assignedNurseId: Option<nat>)

  /** One patient in a response, whole or as the nurse view. */
  datatype Shown = Full(p: Patient) | NoCondition(v: NurseView)

  function ForNurse(p: Patient): (v: NurseView)
    ensures v.id == p.id && v.name == p.name && v.age == p.age
    ensures v.assignedDoctorId == p.assignedDoctorId && v.assignedNurseId == p.assignedNurseId
  {
    NurseView(p.id, p.name, p.age, p.assignedDoctorId, p.assignedNurseId)
  }

  /**
   * What a reply shows of a stored record: the instance after the find hook, whole or as
   * the nurse view.
   */
  function Shows(k: Fields.Keyring, row: Patient, nurse: bool): (x: Shown)
    ensures nurse <==> x.NoCondition?
    ensures x.Full? ==> x.p == PatientModel.RevealPatient(k, row)
    ensures x.NoCondition? ==> x.v == ForNurse(PatientModel.RevealPatient(k, row))
    ensures x.Full? ==> x.p.id == row.id && x.p.name == Fields.Reveal(k, row.name)
    ensures x.NoCondition? ==> x.v.id == row.id && x.v.name == Fields.Reveal(k, row.name)
  {
    var shown := PatientModel.RevealPatient(k, row);
    if nurse then NoCondition(ForNurse(shown)) else Full(shown)
  }

  /**
   * `findAll` with a `where` on the stored columns, from id `from` on, in id order: each
   * record the filter selects, as the find hook gives it back.
   */
  function ShowWhere(k: Fields.Keyring, s: Store, p: Patient -> bool, nurse: bool, from: nat): (r: seq<Shown>)
    requires Wf(s)
    ensures forall x :: x in r ==> (nurse <==> x.NoCondition?)
    ensures forall x :: x in r && x.Full? ==>
      x.p.id in s.patients && x.p == PatientModel.RevealPatient(k, s.patients[x.p.id]) && p(s.patients[x.p.id])
    ensures forall x :: x in r && x.NoCondition? ==>
      x.v.id in s.patients && x.v == ForNurse(PatientModel.RevealPatient(k, s.patients[x.v.id])) && p(s.patients[x.v.id])
    ensures forall j :: from <= j && j in s.patients && p(s.patients[j]) ==> Shows(k, s.patients[j], nurse) in r
    decreases s.nextId - from
  {
    if from >= s.nextId then []
    else
      var rest := ShowWhere(k, s, p, nurse, from + 1);
      if from in s.patients && p(s.patients[from]) then [Shows(k, s.patients[from], nurse)] + rest
      else rest
  }

  /**
   * `listPatients`: 401 without a caller; an admin gets every record, a doctor the records
   * assigned to it, a nurse the records assigned to it without the condition, each with
   * name and condition decrypted by the find hook. Any other caller gets the one record
   * the lookup heuristic settles on (`found`, an instance the hook has already decrypted),
   * if any.
   */
  function List(k: Fields.Keyring, s: Store, caller: Caller, found: Option<Patient>): (r: Reply<seq<Shown>>)
    requires Wf(s)
    ensures caller.None? <==> r == Fail(401, "Unauthorized")
    ensures UserController.IsRole(caller, Admin) ==>
      r.Ok? && (forall x :: x in r.value ==> x.Full? && x.p.id in s.patients && x.p == PatientModel.RevealPatient(k, s.patients[x.p.id]))
      && (forall j :: j in s.patients ==> Full(PatientModel.RevealPatient(k, s.patients[j])) in r.value)
    ensures UserController.IsRole(caller, Doctor) ==>
      r.Ok? && (forall x :: x in r.value ==>
                  x.Full? && AssignedDoctor(s, x.p.id, caller.value.id) && x.p == PatientModel.RevealPatient(k, s.patients[x.p.id]))
      && (forall j :: AssignedDoctor(s, j, caller.value.id) ==> Full(PatientModel.RevealPatient(k, s.patients[j])) in r.value)
    ensures UserController.IsRole(caller, Nurse) ==>
      r.Ok? && (forall x :: x in r.value ==>
                  x.NoCondition? && AssignedNurse(s, x.v.id, caller.value.id)
                  && x.v == ForNurse(PatientModel.RevealPatient(k, s.patients[x.v.id])))
      && (forall j :: AssignedNurse(s, j, caller.value.id) ==> NoCondition(ForNurse(PatientModel.RevealPatient(k, s.patients[j]))) in r.value)
    ensures (caller.Some? && !UserController.IsRole(caller, Admin) && !UserController.IsRole(caller, Doctor)
             && !UserController.IsRole(caller, Nurse)) ==>
      r == Ok(200, if found.Some? then [Full(found.value)] else [])
  {
    if caller.None? then Fail(401, "Unauthorized")
    else
      var uid := caller.value.id;
      if UserController.IsRole(caller, Admin) then Ok(200, ShowWhere(k, s, (p: Patient) => true, false, 0))
      else if UserController.IsRole(caller, Doctor) then
        Ok(200, ShowWhere(k, s, (p: Patient) => p.assignedDoctorId == Some(uid), false, 0))
      else if UserController.IsRole(caller, Nurse) then
        Ok(200, ShowWhere(k, s, (p: Patient) => p.assignedNurseId == Some(uid), true, 0))
      else Ok(200, if found.Some? then [Full(found.value)] else [])
  }

  /** Nothing a nurse lists carries a condition. */
  lemma NurseNeverSeesCondition(k: Fields.Keyring, s: Store, caller: Caller, found: Option<Patient>)
    requires Wf(s) && UserController.IsRole(caller, Nurse)
    ensures forall x :: x in List(k, s, caller, found).value ==> !x.Full?
  {
  }

  /**
   * `getPatient`: a doctor or a nurse gets an existing record (404) only when it is assigned
   * to it (403), decrypted by the find hook, the nurse without the condition. Their record
   * is found by `findByPk` of the raw path text, whose query fails (500) unless the text is
   * an integer literal. Any other caller is matched through the lookup heuristic: `own` is
   * the record found for the caller, `requested` the one found for the requested id (both
   * instances the hook has already decrypted); they must be the same record.
   */
  function Get(k: Fields.Keyring, s: Store, caller: Caller, id: string, own: Option<Patient>, requested: Option<Patient>): (r: Reply<Shown>)
    requires Wf(s)
    ensures caller.None? ==> r == Fail(401, "Unauthorized")
    ensures ((UserController.IsRole(caller, Doctor) || UserController.IsRole(caller, Nurse))
             && Sql.IntInput(id).None?) ==> r == Fail(500, InternalError)
    ensures ((UserController.IsRole(caller, Doctor) || UserController.IsRole(caller, Nurse))
             && Sql.IntInput(id).Some? && !UserController.PatientAt(s, Sql.IntInput(id))) ==> r == Fail(404, "Patient not found")
    ensures UserController.IsRole(caller, Doctor) ==>
      (r.Ok? <==> UserController.PatientAt(s, Sql.IntInput(id)) && AssignedDoctor(s, Sql.IntInput(id).value as nat, caller.value.id))
    ensures UserController.IsRole(caller, Doctor) && r.Ok? ==>
      r.value == Full(PatientModel.RevealPatient(k, s.patients[Sql.IntInput(id).value as nat]))
    ensures UserController.IsRole(caller, Nurse) ==>
      (r.Ok? <==> UserController.PatientAt(s, Sql.IntInput(id)) && AssignedNurse(s, Sql.IntInput(id).value as nat, caller.value.id))
    ensures UserController.IsRole(caller, Nurse) && r.Ok? ==>
      r.value == NoCondition(ForNurse(PatientModel.RevealPatient(k, s.patients[Sql.IntInput(id).value as nat])))
    ensures (caller.Some? && !UserController.IsRole(caller, Doctor) && !UserController.IsRole(caller, Nurse)) ==>
      (r.Ok? <==> own.Some? && requested.Some? && requested.value.id == own.value.id)
      && (r.Ok? ==> r.value == Full(own.value))
  {
    if caller.None? then Fail(401, "Unauthorized")
    else
      var uid := caller.value.id;
      var pidNum := Sql.IntInput(id);
      if (UserController.IsRole(caller, Doctor) || UserController.IsRole(caller, Nurse)) && pidNum.None? then
        Fail(500, InternalError)
      else if UserController.IsRole(caller, Doctor) then
        if !UserController.PatientAt(s, pidNum) then Fail(404, "Patient not found")
        else if s.patients[pidNum.value as nat].assignedDoctorId != Some(uid) then Fail(403, "Forbidden: Patient is not assigned to you")
        else Ok(200, Shows(k, s.patients[pidNum.value as nat], false))
      else if UserController.IsRole(caller, Nurse) then
        if !UserController.PatientAt(s, pidNum) then Fail(404, "Patient not found")
        else if s.patients[pidNum.value as nat].assignedNurseId != Some(uid) then Fail(403, "Forbidden")
        else Ok(200, Shows(k, s.patients[pidNum.value as nat], true))
      else if own.None? then Fail(404, "Patient not found")
      else if requested.None? || requested.value.id != own.value.id then Fail(403, "Forbidden: Can only view own profile")
      else Ok(200, Full(own.value))
  }

  /**
   * A record written by the create hook is shown to its doctor as it was written: the
   * stored envelopes never reach the reply.
   */
  lemma DoctorSeesWhatWasCreated(k: Fields.Keyring, s: Store, caller: Caller, id: string, p: Patient, n1: Fields.Draw, n2: Fields.Draw)
    requires Wf(s) && Encryption.Lawful(k.c)
    requires p.name == "" || !Fields.IsEncrypted(k, p.name)
    requires p.condition.Some? && p.condition.value != "" ==> !Fields.IsEncrypted(k, p.condition.value)
    requires UserController.IsRole(caller, Doctor) && UserController.PatientAt(s, Sql.IntInput(id))
    requires PatientModel.BeforeCreate(k, p, n1, n2) == Success(s.patients[Sql.IntInput(id).value as nat])
    requires p.assignedDoctorId == Some(caller.value.id)
    ensures Get(k, s, caller, id, None, None) == Ok(200, Full(p))
  {
    PatientModel.CreateThenFind(k, p, n1, n2);
  }

  /** The body of an update; `None` is a field the body leaves out, which leaves the column as it is. */
  datatype Edits = Edits(name: Option<string>, age: Option<int>, condition: Option<Option<string>>, nurse: Option<Option<nat>>)

  /** A condition as stored by an update: trimmed, and nothing when it is null or blank. */
  function CleanCondition(c: Option<string>): (r: Option<string>)
    ensures r.None? <==> c.None? || Js.Trim(c.value) == ""
    ensures r.Some? ==> r.value == Js.Trim(c.value)
    ensures r.Some? ==> !Js.IsSpace(r.value[0]) && !Js.IsSpace(r.value[|r.value| - 1]) && |r.value| <= |c.value|
  {
    if c.None? then None
    else
      Js.TrimShape(c.value);
      if Js.Trim(c.value) == "" then None else Some(Js.Trim(c.value))
  }

  /** The record after the edits, before the hooks: the assigned doctor is not among the editable columns. */
  function Edited(shown: Patient, e: Edits): (r: Patient)
    ensures r.id == shown.id && r.assignedDoctorId == shown.assignedDoctorId
    ensures r.name == (if e.name.Some? then e.name.value else shown.name)
    ensures r.age == (if e.age.Some? then e.age.value else shown.age)
    ensures r.condition == (if e.condition.Some? then CleanCondition(e.condition.value) else shown.condition)
    ensures r.assignedNurseId == (if e.nurse.Some? then e.nurse.value else shown.assignedNurseId)
  {
    shown.(name := if e.name.Some? then e.name.value else shown.name,
           age := if e.age.Some? then e.age.value else shown.age,
           condition := if e.condition.Some? then CleanCondition(e.condition.value) else shown.condition,
           assignedNurseId := if e.nurse.Some? then e.nurse.value else shown.assignedNurseId)
  }

  /** The columns whose new value differs from the one the (decrypted) instance holds. */
  function Changed(shown: Patient, target: Patient): (r: set<PatientModel.Column>)
    ensures PatientModel.Name in r <==> target.name != shown.name
    ensures PatientModel.Age in r <==> target.age != shown.age
    ensures PatientModel.Condition in r <==> target.condition != shown.condition
    ensures PatientModel.AssignedNurse in r <==> target.assignedNurseId != shown.assignedNurseId
    ensures PatientModel.AssignedDoctor !in r
  {
    (if target.name != shown.name then {PatientModel.Name} else {})
    + (if target.age != shown.age then {PatientModel.Age} else {})
    + (if target.condition != shown.condition then {PatientModel.Condition} else {})
    + (if target.assignedNurseId != shown.assignedNurseId then {PatientModel.AssignedNurse} else {})
  }

  /**
   * `patient.update(...)` on a found (so decrypted) record: the age validator and the update
   * hook run on the changed columns, then only the changed columns are written. A validator
   * or hook failure is an uncaught error.
   */
  function Save(k: Fields.Keyring, stored: Patient, e: Edits, n1: Fields.Draw, n2: Fields.Draw): (r: Result<(Patient, Patient)>)
    ensures r.Success? ==> r.value.0.id == stored.id && r.value.0.assignedDoctorId == stored.assignedDoctorId
    ensures r.Success? ==> r.value.0.assignedNurseId == (if e.nurse.Some? then e.nurse.value else stored.assignedNurseId)
    ensures r.Success? ==> r.value.0.age == (if e.age.Some? then e.age.value else stored.age)
    ensures r.Success? && e.name.None? ==> r.value.0.name == stored.name
    ensures r.Success? && e.condition.None? ==> r.value.0.condition == stored.condition
  {
    var shown := PatientModel.RevealPatient(k, stored);
    var target := Edited(shown, e);
    var changed := Changed(shown, target);
    if PatientModel.Age in changed && !PatientModel.ValidAge(target.age) then Failure("Validation error: age")
    else
      match PatientModel.BeforeUpdate(k, target, changed, n1, n2)
      case Failure(err) => Failure(err)
      case Success(saved) =>
        var row := saved.(name := if PatientModel.Name in changed then saved.name else stored.name,
                          condition := if PatientModel.Condition in changed then saved.condition else stored.condition);
        Success((row, saved))
  }

  /** A condition an update wrote reads back, through the find hook, trimmed and blank-as-null. */
  lemma SavedConditionReadsBack(k: Fields.Keyring, stored: Patient, e: Edits, n1: Fields.Draw, n2: Fields.Draw)
    requires Encryption.Lawful(k.c)
    requires e.condition.Some?
    requires CleanCondition(e.condition.value).Some? ==> !Fields.IsEncrypted(k, CleanCondition(e.condition.value).value)
    requires Save(k, stored, e, n1, n2).Success?
    ensures PatientModel.RevealPatient(k, Save(k, stored, e, n1, n2).value.0).condition == CleanCondition(e.condition.value)
  {
    var shown := PatientModel.RevealPatient(k, stored);
    var target := Edited(shown, e);
    var changed := Changed(shown, target);
    var saved := PatientModel.BeforeUpdate(k, target, changed, n1, n2).value;
    if PatientModel.Condition in changed {
      assert PatientModel.SealCondition(k, PatientModel.ConditionNeedsSealing(k, target.condition), target.condition, n2)
        == Success(saved.condition);
      PatientModel.ConditionThenFind(k, target.condition, saved.condition, n2);
    }
  }

  /**
   * `updatePatientByDoctorValidator` on the edits a body can carry: a name of 1 to 200
   * characters, an age from 0 to 150, a condition that is a string (JSON null is not), and no
   * `assignedNurseId` at all: the rule wants a UUID, and neither a number nor null (read as
   * the empty string) is one.
   */
  predicate DoctorEditsPass(e: Edits) {
    && (e.name.Some? ==> 1 <= |e.name.value| <= 200)
    && (e.age.Some? ==> 0 <= e.age.value <= 150)
    && (e.condition.Some? ==> e.condition.value.Some?)
    && e.nurse.None?
  }

  /**
   * The `PUT /:id` route: for a doctor the validator runs first and refuses with 400; then
   * `requireRole(['doctor'])` (403 for every other role), then `updatePatient`.
   */
  function UpdateRoute(k: Fields.Keyring, s: Store, caller: Caller, id: string, e: Edits, n1: Fields.Draw, n2: Fields.Draw)
    : (r: (Store, Reply<Patient>))
    requires Wf(s)
    ensures Wf(r.0)
    ensures r.1.Fail? ==> r.0 == s
    ensures UserController.IsRole(caller, Doctor) && !DoctorEditsPass(e) ==> r == (s, Fail(400, "Invalid value"))
    ensures caller.Some? && !UserController.IsRole(caller, Doctor) ==> r == (s, Fail(403, "Forbidden"))
    ensures r.1.Ok? ==> UserController.IsRole(caller, Doctor) && DoctorEditsPass(e)
    ensures UserController.IsRole(caller, Doctor) && DoctorEditsPass(e) ==> r == Update(k, s, caller, id, e, n1, n2)
  {
    if UserController.IsRole(caller, Doctor) && !DoctorEditsPass(e) then (s, Fail(400, "Invalid value"))
    else
      match AuthMiddleware.RequireRole(caller, [Doctor])
      case Reject(status, message) => (s, Fail(status, message))
      case Next => Update(k, s, caller, id, e, n1, n2)
  }

  /** Through the route no request changes any patient's nurse: the validator refuses every nurse value. */
  lemma UpdateRouteKeepsNurses(k: Fields.Keyring, s: Store, caller: Caller, id: string, e: Edits, n1: Fields.Draw, n2: Fields.Draw)
    requires Wf(s)
    ensures var r := UpdateRoute(k, s, caller, id, e, n1, n2);
      r.0.patients.Keys == s.patients.Keys
      && forall p :: p in s.patients ==> r.0.patients[p].assignedNurseId == s.patients[p].assignedNurseId
  {
  }

  /** Writes the saved record back; a failing save is an uncaught error that writes nothing. */
  function Apply(k: Fields.Keyring, s: Store, pid: nat, e: Edits, n1: Fields.Draw, n2: Fields.Draw): (r: (Store, Reply<Patient>))
    requires Wf(s) && pid in s.patients
    ensures Wf(r.0)
    ensures r.1.Fail? ==> r.0 == s && r.1 == Fail(500, InternalError)
    ensures r.1.Ok? <==> Save(k, s.patients[pid], e, n1, n2).Success?
    ensures r.1.Ok? ==>
      && r.0 == s.(patients := s.patients[pid := Save(k, s.patients[pid], e, n1, n2).value.0])
      && r.1.value == Save(k, s.patients[pid], e, n1, n2).value.1
  {
    match Save(k, s.patients[pid], e, n1, n2)
    case Failure(_) => (s, Fail(500, InternalError))
    case Success(written) => (PutPatient(s, pid, written.0), Ok(200, written.1))
  }

  /** Overwrites one patient record with a row of the same id; nothing else changes. */
  function PutPatient(s: Store, pid: nat, row: Patient): (r: Store)
    requires pid in s.patients && row.id == s.patients[pid].id
    ensures Wf(s) ==> Wf(r)
    ensures r == s.(patients := s.patients[pid := row])
  {
    s.(patients := s.patients[pid := row])
  }

  /**
   * `updatePatient`: 401 without a caller; 404 for a missing record whatever the role; then
   * only the assigned doctor (403) edits, and only that record changes. Nurses and everyone
   * else get 403.
   */
  function Update(k: Fields.Keyring, s: Store, caller: Caller, id: string, e: Edits, n1: Fields.Draw, n2: Fields.Draw)
    : (r: (Store, Reply<Patient>))
    requires Wf(s)
    ensures Wf(r.0)
    ensures r.1.Fail? ==> r.0 == s
    ensures caller.None? ==> r.1 == Fail(401, "Unauthorized")
    ensures caller.Some? && !UserController.PatientAt(s, Js.ParseInt(id)) ==> r.1 == Fail(404, "Patient not found")
    ensures UserController.IsRole(caller, Nurse) && UserController.PatientAt(s, Js.ParseInt(id)) ==>
      r.1 == Fail(403, "Forbidden: Nurses cannot update patient records")
    ensures r.1.Ok? ==>
      && UserController.IsRole(caller, Doctor) && UserController.PatientAt(s, Js.ParseInt(id))
      && AssignedDoctor(s, Js.ParseInt(id).value as nat, caller.value.id)
    ensures UserController.IsRole(caller, Doctor) && UserController.PatientAt(s, Js.ParseInt(id))
            && AssignedDoctor(s, Js.ParseInt(id).value as nat, caller.value.id) ==>
      r == Apply(k, s, Js.ParseInt(id).value as nat, e, n1, n2)
  {
    if caller.None? then (s, Fail(401, "Unauthorized"))
    else
      var pidNum := Js.ParseInt(id);
      if !UserController.PatientAt(s, pidNum) then (s, Fail(404, "Patient not found"))
      else UpdateFound(k, s, caller, pidNum.value as nat, e, n1, n2)
  }

  /** The role checks of `updatePatient`, once the record `pid` has been found. */
  function UpdateFound(k: Fields.Keyring, s: Store, caller: Caller, pid: nat, e: Edits, n1: Fields.Draw, n2: Fields.Draw)
    : (r: (Store, Reply<Patient>))
    requires Wf(s) && caller.Some? && pid in s.patients
    ensures Wf(r.0)
    ensures r.1.Fail? ==> r.0 == s
    ensures UserController.IsRole(caller, Nurse) ==> r.1 == Fail(403, "Forbidden: Nurses cannot update patient records")
    ensures r.1.Ok? ==> UserController.IsRole(caller, Doctor) && AssignedDoctor(s, pid, caller.value.id)
    ensures UserController.IsRole(caller, Doctor) && AssignedDoctor(s, pid, caller.value.id) ==> r == Apply(k, s, pid, e, n1, n2)
  {
    if UserController.IsRole(caller, Doctor) then
      if s.patients[pid].assignedDoctorId != Some(caller.value.id) then (s, Fail(403, "Forbidden: Patient is not assigned to you"))
      else Apply(k, s, pid, e, n1, n2)
    else if UserController.IsRole(caller, Nurse) then (s, Fail(403, "Forbidden: Nurses cannot update patient records"))
    else if pid != caller.value.id then (s, Fail(403, "Forbidden"))
    else (s, Fail(403, "Patients cannot update records"))
  }

  /** No update, by anyone, moves a patient to another doctor. */
  lemma UpdateKeepsDoctor(k: Fields.Keyring, s: Store, caller: Caller, id: string, e: Edits, n1: Fields.Draw, n2: Fields.Draw, p: nat)
    requires Wf(s) && p in s.patients
    ensures var s2 := Update(k, s, caller, id, e, n1, n2).0;
      p in s2.patients && s2.patients[p].assignedDoctorId == s.patients[p].assignedDoctorId
  {
  }

  /** Only a doctor ever changes a patient record. */
  lemma OnlyDoctorsUpdate(k: Fields.Keyring, s: Store, caller: Caller, id: string, e: Edits, n1: Fields.Draw, n2: Fields.Draw)
    requires Wf(s) && !UserController.IsRole(caller, Doctor)
    ensures Update(k, s, caller, id, e, n1, n2).0 == s
    ensures Update(k, s, caller, id, e, n1, n2).1.Fail?
  {
  }

  /**
   * Unlike `assignNurse`, the handler on its own takes any number as the assigned nurse: it
   * would record a user who is not a nurse, or no user at all. Its route never lets such a
   * body through (`UpdateRouteKeepsNurses`).
   */
  lemma UpdateSetsAnyNurse(k: Fields.Keyring, s: Store, caller: Caller, id: string, other: nat, n1: Fields.Draw, n2: Fields.Draw)
    requires Wf(s) && UserController.IsRole(caller, Doctor) && UserController.PatientAt(s, Js.ParseInt(id))
    requires AssignedDoctor(s, Js.ParseInt(id).value as nat, caller.value.id)
    ensures var r := Update(k, s, caller, id, Edits(None, None, None, Some(Some(other))), n1, n2);
      r.1.Ok? && r.0.patients[Js.ParseInt(id).value as nat].assignedNurseId == Some(other)
  {
    var pid := Js.ParseInt(id).value as nat;
    var e := Edits(None, None, None, Some(Some(other)));
    var shown := PatientModel.RevealPatient(k, s.patients[pid]);
    var target := Edited(shown, e);
    PatientModel.UpdateOnlyChangedColumns(k, target, Changed(shown, target), n1, n2);
  }
}

=== FILE: request_gate.dfy ===
/**
 * The request-size check of the request-validation middleware. The app does not mount it:
 * no route passes through it, so the model states what the check would decide.
 */
module RequestValidation {
  import opened Common
  import Js

  /** 10 MiB. */
  const MaxSize := 10 * 1024 * 1024

  /**
   * `validateRequest`: the `content-length` header (absent counts as `'0'`) is read with
   * `parseInt`; a length above 10 MiB is refused with 413, anything else, including a header
   * that is not a number, goes on. An unexpected content type is only logged.
   */
  function ValidateRequest(contentLength: Option<string>): (r: Gate)
    ensures r == Next || r == Reject(413, "Request entity too large")
    ensures r.Reject? <==>
      contentLength.Some? && Js.ParseInt(contentLength.value).Some? && Js.ParseInt(contentLength.value).value > MaxSize
  {
    Js.ParseDecimal(0);
    var n := Js.ParseInt(if contentLength.Some? && contentLength.value != "" then contentLength.value else "0");
    if n.Some? && n.value > MaxSize then Reject(413, "Request entity too large") else Next
  }

  /** A length written out in decimal is refused exactly when it exceeds 10 MiB. */
  lemma DeclaredLength(n: nat)
    ensures ValidateRequest(Some(Js.Decimal(n))).Reject? <==> n > MaxSize
  {
    Js.ParseDecimal(n);
  }
}

=== FILE: role_guard.dfy ===
/** The client's route guard. */
module RoleGuard {
  import opened Common

  datatype Outcome = Activate | Redirect(path: string)

  /** `roleGuard`: the route's roles default to none; a signed-in role in the list activates, anything else goes to the dashboard. */
  function CanActivate(role: Option<string>, routeRoles: Option<seq<string>>): (r: Outcome)
    ensures r == Activate <==> Truthy(role) && routeRoles.Some? && role.value in routeRoles.value
    ensures r != Activate ==> r == Redirect("/dashboard")
  {
    var allowed := if routeRoles.Some? then routeRoles.value else [];
    if Truthy(role) && role.value in allowed then Activate else Redirect("/dashboard")
  }

  /** A route without roles data redirects everyone, administrators included. */
  lemma NoRolesRedirectsEveryone(role: Option<string>)
    ensures CanActivate(role, None) == Redirect("/dashboard")
  {
  }
}

=== FILE: sanitizer.dfy ===
/**
 * The request-body sanitizer and the two input helpers of the sign-up path, over the
 * validator.js `escape`, `isEmail` and `normalizeEmail` functions.
 */
module Sanitizer {
  import opened Common
  import Js

  /**
   * validator.js: `escape` replaces HTML-special characters by entities, `isEmail` checks the
   * address syntax, and `normalizeEmail` is the canonical form express-validator's
   * `.normalizeEmail()` writes back into the body (lower case and, for some providers,
   * dots and `+tag` suffixes of the local part removed).
   */
  datatype Validator = Validator(escape: string -> string, isEmail: string -> bool, normalizeEmail: string -> string)

  /** A parsed JSON body; an object keeps its entries in insertion order. */
  datatype Json = JNull | JBool(b: bool) | JNum(n: int) | JStr(s: string) | JArr(items: seq<Json>) | JObj(entries: seq<Entry>)

  datatype Entry = Entry(key: string, value: Json)

  /** `typeof v === 'object' && v !== null`. */
  predicate IsObject(v: Json) {
    v.JArr? || v.JObj?
  }

  /** `sanitizeObject`. */
  function SanitizeObject(v: Validator, obj: Json): (r: Json)
    decreases obj, 1
  {
    match obj
    case JArr(items) => JArr(SanitizeItems(v, obj, items))
    case JObj(entries) => JObj(SanitizeEntries(v, obj, entries))
    case _ => obj
  }

  /** Array elements: a string is escaped without trimming, anything else is sanitized recursively. */
  function SanitizeItems(v: Validator, ghost parent: Json, items: seq<Json>): (r: seq<Json>)
    requires forall i :: 0 <= i < |items| ==> items[i] < parent
    ensures |r| == |items|
    decreases parent, 0, |items|
  {
    if items == [] then []
    else
      var head := if items[0].JStr? then JStr(v.escape(items[0].s)) else SanitizeObject(v, items[0]);
      [head] + SanitizeItems(v, parent, items[1..])
  }

  /** Object entries: a string is trimmed then escaped, a nested object or array is recursed into, anything else is copied. */
  function SanitizeEntries(v: Validator, ghost parent: Json, entries: seq<Entry>): (r: seq<Entry>)
    requires forall i :: 0 <= i < |entries| ==> entries[i].value < parent
    ensures |r| == |entries|
    ensures forall i :: 0 <= i < |entries| ==> r[i].key == entries[i].key
    decreases parent, 0, |entries|
  {
    if entries == [] then []
    else
      var e := entries[0];
      var value :=
        if e.value.JStr? then JStr(v.escape(Js.Trim(e.value.s)))
        else if IsObject(e.value) then SanitizeObject(v, e.value)
        else e.value;
      [Entry(e.key, value)] + SanitizeEntries(v, parent, entries[1..])
  }

  /** `sanitizeInput`: OPTIONS requests and non-object bodies are untouched. */
  function SanitizeInput(v: Validator, verb: string, body: Json): (r: Json)
    ensures verb == "OPTIONS" || !IsObject(body) ==> r == body
    ensures verb != "OPTIONS" && IsObject(body) ==> SameShape(body, r)
  {
    SanitizeKeepsShape(v, body);
    if verb == "OPTIONS" || !IsObject(body) then body else SanitizeObject(v, body)
  }

  /**
   * The sanitizer's output has the shape of its input: the same kind at every position,
   * the same keys in the same order, the same array lengths, and every non-string leaf unchanged.
   */
  predicate SameShape(a: Json, b: Json)
    decreases a
  {
    match a
    case JStr(_) => b.JStr?
    case JArr(xs) => b.JArr? && |b.items| == |xs| && forall i :: 0 <= i < |xs| ==> SameShape(xs[i], b.items[i])
    case JObj(es) =>
      b.JObj? && |b.entries| == |es| &&
      forall i :: 0 <= i < |es| ==> b.entries[i].key == es[i].key && SameShape(es[i].value, b.entries[i].value)
    case _ => b == a
  }

  lemma {:induction false} SanitizeKeepsShape(v: Validator, obj: Json)
    ensures SameShape(obj, SanitizeObject(v, obj))
    decreases obj, 1
  {
    match obj
    case JArr(items) => ItemsKeepShape(v, obj, items);
    case JObj(entries) => EntriesKeepShape(v, obj, entries);
    case _ =>
  }

  lemma {:induction false} ItemsKeepShape(v: Validator, parent: Json, items: seq<Json>)
    requires forall i :: 0 <= i < |items| ==> items[i] < parent
    ensures forall i :: 0 <= i < |items| ==> SameShape(items[i], SanitizeItems(v, parent, items)[i])
    decreases parent, 0, |items|
  {
    if items != [] {
      if !items[0].JStr? {
        SanitizeKeepsShape(v, items[0]);
      }
      ItemsKeepShape(v, parent, items[1..]);
      var r := SanitizeItems(v, parent, items);
      forall i | 1 <= i < |items|
        ensures SameShape(items[i], r[i])
      {
        assert items[i] == items[1..][i - 1];
      }
    }
  }

  lemma {:induction false} EntriesKeepShape(v: Validator, parent: Json, entries: seq<Entry>)
    requires forall i :: 0 <= i < |entries| ==> entries[i].value < parent
    ensures forall i :: 0 <= i < |entries| ==> SameShape(entries[i].value, SanitizeEntries(v, parent, entries)[i].value)
    decreases parent, 0, |entries|
  {
    if entries != [] {
      var r := SanitizeEntries(v, parent, entries);
      var tail := SanitizeEntries(v, parent, entries[1..]);
      assert r[1..] == tail;
      EntryKeepsShape(v, parent, entries[0]);
      EntriesKeepShape(v, parent, entries[1..]);
      forall i | 1 <= i < |entries|
        ensures SameShape(entries[i].value, r[i].value)
      {
        assert entries[i] == entries[1..][i - 1];
        assert r[i] == tail[i - 1];
      }
    }
  }

  lemma {:induction false} EntryKeepsShape(v: Validator, parent: Json, e: Entry)
    requires e.value < parent
    ensures SameShape(e.value, SanitizeEntries(v, parent, [e])[0].value)
    decreases parent, 0, 0
  {
    if IsObject(e.value) {
      SanitizeKeepsShape(v, e.value);
    }
  }

  /** The string leaves: an object's string value becomes `escape(trim(s))`, an array's string element `escape(s)`. */
  lemma StringLeaves(v: Validator, obj: Json)
    ensures obj.JObj? ==> forall i :: 0 <= i < |obj.entries| && obj.entries[i].value.JStr? ==>
      SanitizeObject(v, obj).entries[i].value == JStr(v.escape(Js.Trim(obj.entries[i].value.s)))
    ensures obj.JArr? ==> forall i :: 0 <= i < |obj.items| && obj.items[i].JStr? ==>
      SanitizeObject(v, obj).items[i] == JStr(v.escape(obj.items[i].s))
  {
    if obj.JObj? {
      EntryLeaves(v, obj, obj.entries);
    } else if obj.JArr? {
      ItemLeaves(v, obj, obj.items);
    }
  }

  lemma {:induction false} EntryLeaves(v: Validator, parent: Json, entries: seq<Entry>)
    requires forall i :: 0 <= i < |entries| ==> entries[i].value < parent
    ensures forall i :: 0 <= i < |entries| && entries[i].value.JStr? ==>
      SanitizeEntries(v, parent, entries)[i].value == JStr(v.escape(Js.Trim(entries[i].value.s)))
    decreases |entries|
  {
    if entries != [] {
      EntryLeaves(v, parent, entries[1..]);
      var r := SanitizeEntries(v, parent, entries);
      forall i | 1 <= i < |entries| && entries[i].value.JStr?
        ensures r[i].value == JStr(v.escape(Js.Trim(entries[i].value.s)))
      {
        assert entries[i] == entries[1..][i - 1];
      }
    }
  }

  lemma {:induction false} ItemLeaves(v: Validator, parent: Json, items: seq<Json>)
    requires forall i :: 0 <= i < |items| ==> items[i] < parent
    ensures forall i :: 0 <= i < |items| && items[i].JStr? ==>
      SanitizeItems(v, parent, items)[i] == JStr(v.escape(items[i].s))
    decreases |items|
  {
    if items != [] {
      ItemLeaves(v, parent, items[1..]);
      var r := SanitizeItems(v, parent, items);
      forall i | 1 <= i < |items| && items[i].JStr?
        ensures r[i] == JStr(v.escape(items[i].s))
      {
        assert items[i] == items[1..][i - 1];
      }
    }
  }

  /** validator.js `isLength`: variation selectors U+FE0E and U+FE0F do not count. */
  function VisibleLength(s: string): (n: nat)
    ensures n <= |s|
  {
    if s == [] then 0
    else (if s[0] == '\U{FE0E}' || s[0] == '\U{FE0F}' then 0 else 1) + VisibleLength(s[1..])
  }

  /** `validateEmail`. */
  function ValidateEmail(v: Validator, email: string): (b: bool)
    ensures b ==> v.isEmail(email) && |email| >= 5
    ensures b <==> v.isEmail(email) && 5 <= VisibleLength(email) <= 100
  {
    v.isEmail(email) && 5 <= VisibleLength(email) <= 100
  }

  /** `sanitizeUsername`. */
  function SanitizeUsername(v: Validator, username: string): string {
    v.escape(Js.Trim(username))
  }

  /** Surrounding white space never reaches the stored username: padded and unpadded spellings sanitize alike. */
  lemma SanitizeUsernameIgnoresPadding(v: Validator, username: string)
    ensures SanitizeUsername(v, Js.Trim(username)) == SanitizeUsername(v, username)
  {
    Js.TrimIdempotent(username);
  }
}

=== FILE: schema.dfy ===
/**
 * The database as the controllers see it: one id-keyed map per table and one id counter.
 * Patient, medication and tracking rows are the entity types of their model modules; the
 * other tables carry no behaviour of their own.
 */
module Schema {
  import opened Common
  import Listing
  import PatientModel
  import MedicationModel
  import TrackingModel

  const Admin := "admin"
  const Doctor := "doctor"
  const Nurse := "nurse"
  const PatientRole := "patient"

  datatype User = User(
    id: nat,
    username: string,
    email: string,
    password: string,
    role: string,
    assignedNurseId: Option<nat>,
    twoFactorSecret: Option<string>,
    twoFactorEnabled: bool)

  datatype Appointment = Appointment(
    id: nat,
    patientId: nat,
    doctorId: nat,
    appointmentDate: int,
    status: string,
    notes: Option<string>)

  datatype Diagnosis = Diagnosis(
    id: nat,
    appointmentId: nat,
    doctorId: nat,
    patientId: nat,
    diagnosis: string,
    notes: Option<string>,
    createdAt: int)

  datatype LoginOtp = LoginOtp(id: nat, userId: nat, email: string, otp: string, expiresAt: int, used: bool)

  datatype ResetToken = ResetToken(id: nat, userId: nat, otp: string, expiresAt: int, used: bool)

  datatype RefreshRecord = RefreshRecord(id: nat, token: string, userId: nat, expiresAt: int)

  datatype Store = Store(
    users: map<nat, User>,
    patients: map<nat, PatientModel.Patient>,
    appointments: map<nat, Appointment>,
    diagnoses: map<nat, Diagnosis>,
    medications: map<nat, MedicationModel.Medication>,
    trackings: map<nat, TrackingModel.Tracking>,
    loginOtps: map<nat, LoginOtp>,
    resetTokens: map<nat, ResetToken>,
    refreshTokens: map<nat, RefreshRecord>,
    nextId: nat)

  /**
   * Every stored id is below the counter, so a fresh row never collides with an existing one,
   * and a user or patient row sits under its own id.
   */
  predicate Wf(s: Store) {
    && (forall k :: k in s.users ==> s.users[k].id == k)
    && (forall k :: k in s.patients ==> s.patients[k].id == k)
    && (forall k :: k in s.users ==> k < s.nextId)
    && (forall k :: k in s.patients ==> k < s.nextId)
    && (forall k :: k in s.appointments ==> k < s.nextId)
    && (forall k :: k in s.diagnoses ==> k < s.nextId)
    && (forall k :: k in s.medications ==> k < s.nextId)
    && (forall k :: k in s.trackings ==> k < s.nextId)
    && (forall k :: k in s.loginOtps ==> k < s.nextId)
    && (forall k :: k in s.resetTokens ==> k < s.nextId)
    && (forall k :: k in s.refreshTokens ==> k < s.nextId)
  }

  /** The unique text columns of `users` that a `findOne` goes by. */
  datatype UserColumn = EmailColumn | UsernameColumn

  function ColumnValue(u: User, c: UserColumn): string {
    match c
    case EmailColumn => u.email
    case UsernameColumn => u.username
  }

  /** `User.findOne({ where: { <c>: v } })`: a user holding `v` in column `c`; none means no user does. */
  function UserWhere(s: Store, c: UserColumn, v: string): (r: Option<nat>)
    ensures r.Some? ==> r.value in s.users && ColumnValue(s.users[r.value], c) == v
    ensures r.None? && Wf(s) ==> forall k :: k in s.users ==> ColumnValue(s.users[k], c) != v
  {
    Listing.FirstKey(s.users, (u: User) => ColumnValue(u, c) == v, 0, s.nextId)
  }

  /** `User.findOne({ where: { email } })`, the lookup every login step goes by. */
  function UserByEmail(s: Store, email: string): (r: Option<nat>)
    ensures r.Some? ==> r.value in s.users && s.users[r.value].email == email
    ensures r.None? && Wf(s) ==> forall k :: k in s.users ==> s.users[k].email != email
  {
    UserWhere(s, EmailColumn, email)
  }

  /** A transition that leaves the users alone and only raises the counter answers every email lookup as before. */
  lemma UserByEmailStable(s: Store, s2: Store, email: string)
    requires Wf(s) && s2.users == s.users && s.nextId <= s2.nextId
    ensures UserByEmail(s2, email) == UserByEmail(s, email)
  {
    Listing.FirstKeyExtend(s.users, (u: User) => ColumnValue(u, EmailColumn) == email, 0, s.nextId, s2.nextId);
  }

  /** A transition that rewrites user rows but keeps every user's email answers every email lookup as before. */
  lemma UserByEmailKeepsEmails(s: Store, s2: Store, email: string)
    requires s2.users.Keys == s.users.Keys && s2.nextId == s.nextId
    requires forall k :: k in s.users ==> s2.users[k].email == s.users[k].email
    ensures UserByEmail(s2, email) == UserByEmail(s, email)
  {
    var a := UserByEmail(s, email);
    var b := UserByEmail(s2, email);
    if a.Some? && b.Some? {
      assert !(a.value < b.value) && !(b.value < a.value);
    }
  }

  /** There is a user with this id and this role. */
  predicate HasRole(s: Store, id: nat, role: string) {
    id in s.users && s.users[id].role == role
  }

  /** The ids of the patients whose row names `doctor` as assigned doctor. */
  function PatientsOfDoctor(s: Store, doctor: nat): (r: seq<nat>)
    ensures forall p :: p in r <==> p in s.patients && s.patients[p].assignedDoctorId == Some(doctor) && p < s.nextId
  {
    Listing.KeysWhere(s.patients, (p: PatientModel.Patient) => p.assignedDoctorId == Some(doctor), 0, s.nextId)
  }

  /** The ids of the patients whose row names `nurse` as assigned nurse. */
  function PatientsOfNurse(s: Store, nurse: nat): (r: seq<nat>)
    ensures forall p :: p in r <==> p in s.patients && s.patients[p].assignedNurseId == Some(nurse) && p < s.nextId
  {
    Listing.KeysWhere(s.patients, (p: PatientModel.Patient) => p.assignedNurseId == Some(nurse), 0, s.nextId)
  }

  /** The caller is the assigned doctor of an existing patient. */
  predicate AssignedDoctor(s: Store, patient: nat, doctor: nat) {
    patient in s.patients && s.patients[patient].assignedDoctorId == Some(doctor)
  }

  predicate AssignedNurse(s: Store, patient: nat, nurse: nat) {
    patient in s.patients && s.patients[patient].assignedNurseId == Some(nurse)
  }
}

/** The password rule shared by login and change-password, over an abstract bcrypt. */
module Passwords {
  import Js

  const SaltRounds := 12

  /** `bcrypt.hash(p, rounds)` with the drawn salt as an argument, and `bcrypt.compare`. */
  datatype Hasher = Hasher(hash: (string, nat, string) -> string, compare: (string, string) -> bool)

  /** A bcrypt hash is recognised by its `$2` prefix, and compare accepts the password it was made from. */
  ghost predicate Lawful(h: Hasher) {
    forall p, rounds, salt ::
      Js.StartsWith(h.hash(p, rounds, salt), "$2") && h.compare(p, h.hash(p, rounds, salt))
  }

  /** A stored value starting with `$2` is checked with bcrypt; anything else by plain equality. */
  function Matches(h: Hasher, password: string, stored: string): (b: bool)
    ensures !Js.StartsWith(stored, "$2") ==> (b <==> password == stored)
    ensures Js.StartsWith(stored, "$2") ==> b == h.compare(password, stored)
  {
    if Js.StartsWith(stored, "$2") then h.compare(password, stored) else password == stored
  }

  /** A freshly hashed password is accepted, and it is never the plaintext comparison that decides. */
  lemma HashedMatches(h: Hasher, p: string, salt: string)
    requires Lawful(h)
    ensures Matches(h, p, h.hash(p, SaltRounds, salt))
    ensures Js.StartsWith(h.hash(p, SaltRounds, salt), "$2")
  {
  }
}

/** The JSON Web Tokens of the server (HS256, fixed issuer and audience), over an abstract signer. */
module Tokens {
  import opened Common

  /**
   * The lifetimes used when `ACCESS_TOKEN_EXPIRES_IN` and `REFRESH_TOKEN_EXPIRES_IN` are unset
   * (`'15m'` and `'7d'`); the stored refresh record always expires after the seven days.
   */
  const AccessLifetimeMs := 15 * 60 * 1000
  const RefreshLifetimeMs := 7 * 24 * 60 * 60 * 1000

  datatype Kind = Access | Refresh

  /** An access token carries id, role and username; a refresh token only the id. */
  datatype Claims = Claims(sub: nat, role: Option<string>, username: Option<string>)

  /**
   * `sign(kind, claims, issuedAt)` and `verify(kind, token, now)`, each kind under its own
   * secret; `verify` fails (an exception in the source) on a bad signature, issuer,
   * audience or an expired token. `expiresIn(kind)` is the configured lifetime in whole
   * seconds, which `sign` adds to the issue time, truncated to seconds, to form `exp`.
   */
  datatype Jwt = Jwt(sign: (Kind, Claims, int) -> string, verify: (Kind, string, int) -> Option<Claims>, expiresIn: Kind -> nat)

  /** The lifetimes of an unconfigured environment. */
  predicate DefaultLifetimes(j: Jwt) {
    j.expiresIn(Access) * 1000 == AccessLifetimeMs && j.expiresIn(Refresh) * 1000 == RefreshLifetimeMs
  }

  /**
   * A token signed at `iat` (ms) is still live at `now` (ms): both instants are truncated to
   * whole seconds, and the token expires once the clock's second reaches `exp`.
   */
  predicate Live(j: Jwt, k: Kind, iat: int, now: int) {
    iat <= now && now / 1000 < iat / 1000 + j.expiresIn(k)
  }

  /**
   * A token is never empty; it verifies, giving back its claims, while it is live, and it
   * is refused once it has expired.
   */
  ghost predicate Lawful(j: Jwt) {
    && (forall k, c, iat :: j.sign(k, c, iat) != "")
    && (forall k, c, iat, now :: Live(j, k, iat, now) ==> j.verify(k, j.sign(k, c, iat), now) == Some(c))
    && (forall k, c, iat, now :: iat <= now && now / 1000 >= iat / 1000 + j.expiresIn(k) ==> j.verify(k, j.sign(k, c, iat), now).None?)
  }

  /**
   * With the default lifetimes a token issued late in a second expires before a full
   * lifetime of milliseconds has passed: issued at 1999 ms, an access token is refused at
   * 901000 ms, although fewer than 900000 ms have passed.
   */
  lemma SecondsTruncateLifetime(j: Jwt, c: Claims)
    requires Lawful(j) && DefaultLifetimes(j)
    ensures j.verify(Access, j.sign(Access, c, 1999), 901000).None?
  {
    assert 901000 / 1000 >= 1999 / 1000 + j.expiresIn(Access);
  }

  function AccessClaims(id: nat, role: string, username: string): Claims {
    Claims(id, Some(role), Some(username))
  }

  function RefreshClaims(id: nat): Claims {
    Claims(id, None, None)
  }
}

=== FILE: security_test.dfy ===
/**
 * The attack-pattern detectors of the security utilities: four families of regular
 * expressions, the verdict `isInputSafe` and the 0-100 score. Each regular expression is
 * written out as the predicate it decides on a string; `/i` compares ASCII letters without
 * case, `\b` is a change between word and non-word characters, `.` is any character but a
 * line terminator and `\s` is ECMAScript white space.
 */
module SecurityTest {
  import Js

  /** `\w`. */
  predicate IsWordChar(c: char) {
    ('a' <= c <= 'z') || ('A' <= c <= 'Z') || ('0' <= c <= '9') || c == '_'
  }

  /** The characters `.` does not match. */
  predicate IsLineTerminator(c: char) {
    c == '\n' || c == '\r' || c == '\U{2028}' || c == '\U{2029}'
  }

  /** `.*` matches `s[a..b]`. */
  predicate NoBreak(s: string, a: int, b: int)
    requires 0 <= a <= b <= |s|
  {
    forall k :: a <= k < b ==> !IsLineTerminator(s[k])
  }

  /** The lower-case literal `w` occurs at `i` regardless of case (`/w/i`). */
  predicate AtNoCase(s: string, w: string, i: int) {
    Js.OccursAt(Js.ToLower(s), w, i)
  }

  /** `/w/i` matches somewhere. */
  predicate HasNoCase(s: string, w: string) {
    exists i | 0 <= i <= |s| - |w| :: AtNoCase(s, w, i)
  }

  /** `\bw\b` with `/i` matches at `i`: the word, with no word character on either side. */
  predicate WordAt(s: string, w: string, i: int) {
    && AtNoCase(s, w, i)
    && (i == 0 || !IsWordChar(s[i - 1]))
    && (i + |w| == |s| || !IsWordChar(s[i + |w|]))
  }

  predicate HasWord(s: string, w: string) {
    exists i | 0 <= i <= |s| - |w| :: WordAt(s, w, i)
  }

  /** `a.*b`: `b` starts at or after the end of `a` on the same line. */
  predicate Then(s: string, a: string, i: int, b: string, j: int) {
    0 <= i && i + |a| <= j && j + |b| <= |s| && NoBreak(s, i + |a|, j)
  }

  // ---- SQL injection ----

  const SqlKeywords: seq<string> := ["select", "insert", "update", "delete", "drop", "create", "alter", "exec", "execute"]

  /** `\b(SELECT|INSERT|…|EXECUTE)\b` with `/i`. */
  predicate SqlKeyword(s: string) {
    exists w | w in SqlKeywords :: HasWord(s, w)
  }

  /** `'`, `\'`, `;`, `--`, `/*`, `*/`, `+` or `%`. */
  predicate SqlPunctuation(s: string) {
    || Js.Contains(s, "'") || Js.Contains(s, "\\'") || Js.Contains(s, ";") || Js.Contains(s, "--")
    || Js.Contains(s, "/*") || Js.Contains(s, "*/") || Js.Contains(s, "+") || Js.Contains(s, "%")
  }

  /** `\bOR\b.*=.*` with `/i`. */
  predicate OrEquals(s: string) {
    exists i, j | 0 <= i < j < |s| :: WordAt(s, "or", i) && s[j] == '=' && Then(s, "or", i, "=", j)
  }

  /** `\bUNION\b.*\bSELECT\b` with `/i`. */
  predicate UnionSelect(s: string) {
    exists i, j | 0 <= i < j < |s| :: WordAt(s, "union", i) && WordAt(s, "select", j) && Then(s, "union", i, "select", j)
  }

  /** `containsSQLInjection`: one of the four expressions matches. */
  predicate ContainsSqlInjection(s: string) {
    SqlKeyword(s) || SqlPunctuation(s) || OrEquals(s) || UnionSelect(s)
  }

  // ---- XSS ----

  /** `on\w+\s*=` with `/i`: `on`, one or more word characters, optional white space, `=`. */
  predicate EventHandler(s: string) {
    exists i, j, k | 0 <= i && i + 2 < j <= k < |s| :: HandlerAt(s, i, j, k)
  }

  /** `on` at `i`, word characters up to `j`, white space up to `k` and `=` at `k`. */
  predicate HandlerAt(s: string, i: int, j: int, k: int)
    requires 0 <= i && i + 2 < j <= k < |s|
  {
    && AtNoCase(s, "on", i) && s[k] == '='
    && (forall m | i + 2 <= m < j :: IsWordChar(s[m]))
    && (forall m | j <= m < k :: Js.IsSpace(s[m]))
  }

  /** `<img.*src.*=` with `/i`. */
  predicate ImgSrc(s: string) {
    exists i, j, k | 0 <= i < j < k < |s| ::
      AtNoCase(s, "<img", i) && AtNoCase(s, "src", j) && s[k] == '='
      && Then(s, "<img", i, "src", j) && Then(s, "src", j, "=", k)
  }

  /** `<svg.*onload` with `/i`. */
  predicate SvgOnload(s: string) {
    exists i, j | 0 <= i < j < |s| :: AtNoCase(s, "<svg", i) && AtNoCase(s, "onload", j) && Then(s, "<svg", i, "onload", j)
  }

  /** `containsXSS`: one of the six expressions matches. */
  predicate ContainsXss(s: string) {
    || HasNoCase(s, "<script") || HasNoCase(s, "javascript:") || EventHandler(s)
    || HasNoCase(s, "<iframe") || ImgSrc(s) || SvgOnload(s)
  }

  // ---- Path traversal ----

  /** `containsPathTraversal`: `..`, `../`, `..\`, `/..` or `\..` occurs. */
  predicate ContainsPathTraversal(s: string) {
    || Js.Contains(s, "..") || Js.Contains(s, "../") || Js.Contains(s, "..\\")
    || Js.Contains(s, "/..") || Js.Contains(s, "\\..")
  }

  // ---- Command injection ----

  const ShellChars: set<char> := {';', '&', '|', '`', '$', '(', ')'}

  /** `` `.*` ``, `\$\(.*\)` and `<\(.*\)`: an opening and a closing literal on the same line. */
  predicate Enclosed(s: string, a: string, b: string) {
    exists i, j | 0 <= i < j < |s| :: Js.OccursAt(s, a, i) && Js.OccursAt(s, b, j) && Then(s, a, i, b, j)
  }

  /** `containsCommandInjection`: one of the six expressions matches. */
  predicate ContainsCommandInjection(s: string) {
    || (exists i | 0 <= i < |s| :: s[i] in ShellChars)
    || Js.Contains(s, "||") || Js.Contains(s, "&&")
    || Enclosed(s, "`", "`") || Enclosed(s, "$(", ")") || Enclosed(s, "<(", ")")
  }

  // ---- Verdict and score ----

  /** `isInputSafe`: the empty string is safe; otherwise no detector may fire. */
  predicate IsInputSafe(s: string) {
    s == [] || !(ContainsSqlInjection(s) || ContainsXss(s) || ContainsPathTraversal(s) || ContainsCommandInjection(s))
  }

  /** `getSecurityScore`: 100, less 30, 30, 20 and 20 for the four detectors, floored at 0. */
  function SecurityScore(s: string): (r: int)
    ensures 0 <= r <= 100
    ensures r == 100 <==> IsInputSafe(s)
    ensures !IsInputSafe(s) ==> r <= 80
    ensures s == [] ==> r == 100
  {
    if s == [] then 100
    else
      var score := 100
        - (if ContainsSqlInjection(s) then 30 else 0)
        - (if ContainsXss(s) then 30 else 0)
        - (if ContainsPathTraversal(s) then 20 else 0)
        - (if ContainsCommandInjection(s) then 20 else 0);
      if score < 0 then 0 else score
  }

  /** The floor at 0 never applies: the four deductions add up to exactly 100. */
  lemma ScoreZeroIffAllFire(s: string)
    requires s != []
    ensures SecurityScore(s) == 0 <==>
      ContainsSqlInjection(s) && ContainsXss(s) && ContainsPathTraversal(s) && ContainsCommandInjection(s)
  {
  }

  /** A pattern found at `i` has its own characters at `i`. */
  lemma OccursAtChar(s: string, p: string, i: int, k: nat)
    requires Js.OccursAt(s, p, i) && k < |p|
    ensures s[i + k] == p[k]
  {
    assert s[i..i + |p|][k] == s[i + k];
  }

  /** The first pattern subsumes the other four: path traversal is exactly "contains `..`". */
  lemma PathTraversalIsDotDot(s: string)
    ensures ContainsPathTraversal(s) <==> Js.Contains(s, "..")
  {
    if Js.Contains(s, "../") {
      var i :| 0 <= i <= |s| - 3 && Js.OccursAt(s, "../", i);
      DotDotAt(s, "../", i, 0);
    }
    if Js.Contains(s, "..\\") {
      var i :| 0 <= i <= |s| - 3 && Js.OccursAt(s, "..\\", i);
      DotDotAt(s, "..\\", i, 0);
    }
    if Js.Contains(s, "/..") {
      var i :| 0 <= i <= |s| - 3 && Js.OccursAt(s, "/..", i);
      DotDotAt(s, "/..", i, 1);
    }
    if Js.Contains(s, "\\..") {
      var i :| 0 <= i <= |s| - 3 && Js.OccursAt(s, "\\..", i);
      DotDotAt(s, "\\..", i, 1);
    }
  }

  lemma DotDotAt(s: string, p: string, i: int, k: nat)
    requires Js.OccursAt(s, p, i) && k + 1 < |p| && p[k] == '.' && p[k + 1] == '.'
    ensures Js.Contains(s, "..")
  {
    OccursAtChar(s, p, i, k);
    OccursAtChar(s, p, i, k + 1);
    assert s[i + k..i + k + 2] == "..";
    assert Js.OccursAt(s, "..", i + k);
  }

  /** The character class subsumes the other five patterns: command injection is exactly "contains one of `;&|`$()`". */
  lemma CommandInjectionIsShellChar(s: string)
    ensures ContainsCommandInjection(s) <==> exists i | 0 <= i < |s| :: s[i] in ShellChars
  {
    if Js.Contains(s, "||") {
      var i :| 0 <= i <= |s| - 2 && Js.OccursAt(s, "||", i);
      OccursAtChar(s, "||", i, 0);
      assert s[i] in ShellChars;
    }
    if Js.Contains(s, "&&") {
      var i :| 0 <= i <= |s| - 2 && Js.OccursAt(s, "&&", i);
      OccursAtChar(s, "&&", i, 0);
      assert s[i] in ShellChars;
    }
    if Enclosed(s, "`", "`") {
      var i, j :| 0 <= i < j < |s| && Js.OccursAt(s, "`", i) && Js.OccursAt(s, "`", j) && Then(s, "`", i, "`", j);
      OccursAtChar(s, "`", i, 0);
      assert s[i] in ShellChars;
    }
    if Enclosed(s, "$(", ")") {
      var i, j :| 0 <= i < j < |s| && Js.OccursAt(s, "$(", i) && Js.OccursAt(s, ")", j) && Then(s, "$(", i, ")", j);
      OccursAtChar(s, "$(", i, 0);
      assert s[i] in ShellChars;
    }
    if Enclosed(s, "<(", ")") {
      var i, j :| 0 <= i < j < |s| && Js.OccursAt(s, "<(", i) && Js.OccursAt(s, ")", j) && Then(s, "<(", i, ")", j);
      OccursAtChar(s, "<(", i, 1);
      assert s[i + 1] in ShellChars;
    }
  }

  /** `\bUNION\b.*\bSELECT\b` adds nothing: its `SELECT` already matches the keyword expression. */
  lemma UnionSelectIsKeyword(s: string)
    requires UnionSelect(s)
    ensures SqlKeyword(s)
  {
    var i, j :| 0 <= i < j < |s| && WordAt(s, "union", i) && WordAt(s, "select", j) && Then(s, "union", i, "select", j);
    assert "select" in SqlKeywords;
    assert HasWord(s, "select");
  }

  /** Any of the SQL punctuation marks is enough for the SQL detector, and so for a lower score. */
  lemma QuoteIsSuspicious(s: string, i: int)
    requires 0 <= i < |s| && s[i] in {'\'', ';', '+', '%'}
    ensures ContainsSqlInjection(s) && !IsInputSafe(s) && SecurityScore(s) <= 70
  {
    assert Js.OccursAt(s, [s[i]], i);
    if s[i] == ';' {
      assert Js.Contains(s, ";");
    } else if s[i] == '+' {
      assert Js.Contains(s, "+");
    } else if s[i] == '%' {
      assert Js.Contains(s, "%");
    } else {
      assert Js.Contains(s, "'");
    }
  }

  /** A safe input carries none of the shell characters and no `..`. */
  lemma SafeInputHasNoMetaCharacters(s: string)
    requires IsInputSafe(s)
    ensures forall i | 0 <= i < |s| :: s[i] !in ShellChars
    ensures !Js.Contains(s, "..")
  {
    if s != [] {
      CommandInjectionIsShellChar(s);
      PathTraversalIsDotDot(s);
    }
  }
}

=== FILE: sql.dfy ===
/**
 * How PostgreSQL reads a key that a query compares with an integer column. The handlers pass
 * either `parseInt`'s result, a number, or the raw path segment, a string. NaN, and a string
 * that is not an integer literal, make the query fail. The request then ends in the error
 * handler's 500 rather than in a "not found".
 */
module Sql {
  import opened Common
  import Js

  /** The white space PostgreSQL's integer input skips: the C library's `isspace`. */
  predicate IsSqlSpace(c: char) {
    c == ' ' || c == '\t' || c == '\n' || c == '\r' || c == '\U{000B}' || c == '\U{000C}'
  }

  /** The range of an `integer` (32-bit) column; a literal outside it is an error. */
  const IntMin: int := -0x8000_0000
  const IntMax: int := 0x7FFF_FFFF

  predicate AllDigits(d: string) {
    forall i :: 0 <= i < |d| ==> Js.IsDigit(d[i])
  }

  /** Drops the leading white space. */
  function SkipStart(s: string): (r: string)
    ensures |r| <= |s| && r == s[|s| - |r|..]
    ensures forall i :: 0 <= i < |s| - |r| ==> IsSqlSpace(s[i])
    ensures r != [] ==> !IsSqlSpace(r[0])
    decreases |s|
  {
    if s == [] || !IsSqlSpace(s[0]) then s else SkipStart(s[1..])
  }

  /** Drops the trailing white space. */
  function SkipEnd(s: string): (r: string)
    ensures |r| <= |s| && r == s[..|r|]
    ensures forall i :: |r| <= i < |s| ==> IsSqlSpace(s[i])
    ensures r != [] ==> !IsSqlSpace(r[|r| - 1])
    decreases |s|
  {
    if s == [] || !IsSqlSpace(s[|s| - 1]) then s else SkipEnd(s[..|s| - 1])
  }

  /**
   * The value of a text literal given for an integer column (`int4in`): white space around
   * an optional sign and one or more decimal digits, inside the column's range. `None` is
   * the query error. Whenever the database accepts the text, `parseInt` reads the same value
   * from it, so a handler that looks a row up by the raw text and its rows by `parseInt`
   * means one key.
   */
  function IntInput(s: string): (r: Option<int>)
    ensures r.Some? ==> IntMin <= r.value <= IntMax
    ensures r.Some? ==> Js.ParseInt(s) == r
  {
    var t := SkipEnd(SkipStart(s));
    var d := Js.SignFree(t);
    if d == [] || !AllDigits(d) then None
    else
      var v := Signed(t, d);
      if v < IntMin || IntMax < v then None
      else
        ParseIntAgrees(s);
        Some(v)
  }

  /** The value of digits `d` under the sign that `t` starts with, if any. */
  function Signed(t: string, d: string): int
    requires AllDigits(d)
  {
    if t != [] && t[0] == '-' then -(Js.DigitsValue(d) as int) else Js.DigitsValue(d) as int
  }

  /** The part of `IntInput` that `parseInt` shares: sign and digits after the white space. */
  lemma ParseIntAgrees(s: string)
    requires Js.SignFree(SkipEnd(SkipStart(s))) != [] && AllDigits(Js.SignFree(SkipEnd(SkipStart(s))))
    ensures Js.ParseInt(s) == Some(Signed(SkipEnd(SkipStart(s)), Js.SignFree(SkipEnd(SkipStart(s)))))
  {
    var a := SkipStart(s);
    var t := SkipEnd(a);
    var d := Js.SignFree(t);
    FirstVisible(a, t, d);
    SpaceRun(s, |s| - |a|);
    SignedRun(a, t);
    DigitRun(d, a[|t|..]);
    ParseIntOf(s, a, t, d);
  }

  /** Text that starts with a sign or a digit starts with no white space of either kind. */
  lemma FirstVisible(a: string, t: string, d: string)
    requires |t| <= |a| && t == a[..|t|]
    requires d == Js.SignFree(t) && d != [] && AllDigits(d)
    ensures t != [] && t[0] == a[0] && !Js.IsSpace(a[0])
  {
    assert Js.IsDigit(d[0]);
  }

  /** Dropping the sign of white-space-padded text keeps the padding after the digits. */
  lemma SignedRun(a: string, t: string)
    requires t != [] && |t| <= |a| && t == a[..|t|]
    requires forall i :: |t| <= i < |a| ==> IsSqlSpace(a[i])
    ensures Js.SignFree(a) == Js.SignFree(t) + a[|t|..]
    ensures a[|t|..] != [] ==> !Js.IsDigit(a[|t|..][0])
  {
    assert a == t + a[|t|..];
    if t[0] == '-' || t[0] == '+' {
      assert a[1..] == t[1..] + a[|t|..];
    }
    if a[|t|..] != [] {
      assert IsSqlSpace(a[|t|]);
    }
  }

  /** `parseInt` unfolded once its white space, its sign and its digits are known. */
  lemma ParseIntOf(s: string, a: string, t: string, d: string)
    requires Js.TrimStart(s) == a && a != [] && t != [] && t[0] == a[0]
    requires d != [] && AllDigits(d) && Js.DigitPrefix(Js.SignFree(a)) == d
    ensures Js.ParseInt(s) == Some(Signed(t, d))
  {
  }

  /** `trimStart` drops exactly a run of white space that ends before a visible character. */
  lemma {:induction false} SpaceRun(s: string, k: nat)
    requires k <= |s|
    requires forall i :: 0 <= i < k ==> IsSqlSpace(s[i])
    requires k < |s| ==> !Js.IsSpace(s[k])
    ensures Js.TrimStart(s) == s[k..]
    decreases k
  {
    if k > 0 {
      assert Js.IsSpace(s[0]);
      assert forall i :: 0 <= i < k - 1 ==> IsSqlSpace(s[1..][i]);
      SpaceRun(s[1..], k - 1);
      assert s[1..][k - 1..] == s[k..];
    }
  }

  /** The digit prefix of digits followed by a non-digit is the digits. */
  lemma {:induction false} DigitRun(d: string, rest: string)
    requires AllDigits(d)
    requires rest != [] ==> !Js.IsDigit(rest[0])
    ensures Js.DigitPrefix(d + rest) == d
    decreases |d|
  {
    if d == [] {
      assert d + rest == rest;
    } else {
      assert (d + rest)[1..] == d[1..] + rest;
      DigitRun(d[1..], rest);
    }
  }

  /** Every key a store can hold is read back from its decimal text. */
  lemma DecimalInput(n: nat)
    requires n <= IntMax
    ensures IntInput(Js.Decimal(n)) == Some(n)
  {
    var d := Js.Decimal(n);
    assert !IsSqlSpace(d[0]) && !IsSqlSpace(d[|d| - 1]);
    assert SkipStart(d) == d;
    assert SkipEnd(d) == d;
    assert Js.SignFree(d) == d;
  }

  /**
   * Where the two readings part: `parseInt` reads digits followed by a letter ("12abc") as
   * the digits, while the database refuses the text. Text that starts with a letter ("abc")
   * is refused by both.
   */
  lemma TrailingTextRefused(d: string, rest: string)
    requires d != [] && AllDigits(d)
    requires rest != [] && 'a' <= rest[0] <= 'z'
    ensures Js.ParseInt(d + rest) == Some(Js.DigitsValue(d) as int) && IntInput(d + rest).None?
    ensures Js.ParseInt(rest).None? && IntInput(rest).None?
  {
    var s := d + rest;
    assert s[0] == d[0] && s[|d|] == rest[0];
    SpaceRun(s, 0);
    DigitRun(d, rest);
    ParseIntOf(s, s, s, d);
    NoLiteral(s, |d|);
    SpaceRun(rest, 0);
    NoLiteral(rest, 0);
  }

  /** Text that starts with no white space and no sign, and has a letter at `i`, is no integer literal. */
  lemma NoLiteral(s: string, i: nat)
    requires 0 <= i < |s| && 'a' <= s[i] <= 'z'
    requires !IsSqlSpace(s[0]) && s[0] != '-' && s[0] != '+'
    ensures IntInput(s).None?
  {
    assert SkipStart(s) == s;
    var t := SkipEnd(s);
    assert i < |t|;
    assert Js.SignFree(t) == t && t[i] == s[i];
    assert !Js.IsDigit(t[i]);
  }
}

=== FILE: tracking.dfy ===
/**
 * The medication-tracking controller: a nurse records whether a dose of a medication of
 * one of their patients was given, missed or is pending, one row per nurse and medication;
 * doctors read the rows of their patients' medications.
 */
module Trackings {
  import opened Common
  import opened Schema
  import Js
  import Sql
  import Listing
  import Fields
  import Encryption
  import TrackingModel
  import UserController

  type Caller = UserController.Caller
  type Tracking = TrackingModel.Tracking
  type Status = TrackingModel.Status

  /** At most one tracking row per (medication, nurse): the key `findOrCreate` looks rows up by. */
  predicate OnePerNurse(s: Store) {
    forall a, b :: (a in s.trackings && b in s.trackings
      && s.trackings[a].medicationId == s.trackings[b].medicationId
      && s.trackings[a].trackedBy == s.trackings[b].trackedBy) ==> a == b
  }

  /** The `where: { medicationId, trackedBy }` lookup of `findOrCreate`. */
  function Find(s: Store, mid: nat, nurse: nat): (r: Option<nat>)
    requires Wf(s)
    ensures r.Some? ==> r.value in s.trackings && s.trackings[r.value].medicationId == mid && s.trackings[r.value].trackedBy == nurse
    ensures r.None? ==> forall t :: t in s.trackings ==> !(s.trackings[t].medicationId == mid && s.trackings[t].trackedBy == nurse)
  {
    Listing.FirstKey(s.trackings, (t: Tracking) => t.medicationId == mid && t.trackedBy == nurse, 0, s.nextId)
  }

  /** The medication a body number names, if any (`findByPk`). */
  predicate MedicationAt(s: Store, id: Option<int>) {
    id.Some? && id.value >= 0 && id.value as nat in s.medications
  }

  /** The nurse may track the medication: it exists, its patient exists and is assigned to the nurse. */
  predicate MayTrack(s: Store, caller: Caller, mid: int) {
    && UserController.IsRole(caller, Nurse) && MedicationAt(s, Some(mid))
    && AssignedNurse(s, s.medications[mid as nat].patientId, caller.value.id)
  }

  /** Writes a fresh tracking row under the next id. */
  function AddTracking(s: Store, t: Tracking): (r: Store)
    requires Wf(s) && t.id == s.nextId
    ensures Wf(r) && r.nextId == s.nextId + 1
    ensures r.trackings == s.trackings[t.id := t]
    ensures r == s.(trackings := r.trackings, nextId := r.nextId)
  {
    s.(trackings := s.trackings[t.id := t], nextId := t.id + 1)
  }

  /** Overwrites the tracking row stored under `id`. */
  function PutTracking(s: Store, id: nat, t: Tracking): (r: Store)
    requires Wf(s) && id in s.trackings
    ensures Wf(r)
    ensures r.trackings == s.trackings[id := t]
    ensures r == s.(trackings := r.trackings)
  {
    s.(trackings := s.trackings[id := t])
  }

  /** A row is one of the nurse's rows for the medication. */
  predicate KeyIs(t: Tracking, mid: nat, nurse: nat) {
    t.medicationId == mid && t.trackedBy == nurse
  }

  /** The first row of a key that had none is the one just added. */
  lemma FindAfterAdd(s: Store, t: Tracking, mid: nat, nurse: nat)
    requires Wf(s) && t.id == s.nextId && Find(s, mid, nurse).None? && KeyIs(t, mid, nurse)
    ensures Find(AddTracking(s, t), mid, nurse) == Some(s.nextId)
  {
    var r := AddTracking(s, t);
    assert s.nextId in r.trackings && KeyIs(r.trackings[s.nextId], mid, nurse);
    assert forall j :: j in r.trackings && j != s.nextId ==> !KeyIs(r.trackings[j], mid, nurse);
  }

  /** Overwriting the first row of a key with a row of the same key keeps it the first row. */
  lemma FindAfterPut(s: Store, id: nat, t: Tracking, mid: nat, nurse: nat)
    requires Wf(s) && Find(s, mid, nurse) == Some(id) && KeyIs(t, mid, nurse)
    ensures Find(PutTracking(s, id, t), mid, nurse) == Some(id)
  {
    var r := PutTracking(s, id, t);
    assert id in r.trackings && KeyIs(r.trackings[id], mid, nurse);
    assert forall j :: j in r.trackings && j < id ==> !KeyIs(r.trackings[j], mid, nurse);
  }

  /** The create branch of `findOrCreate`: the defaults go through the create hook. */
  function Fresh(k: Fields.Keyring, s: Store, mid: nat, nurse: nat, status: Status, notes: Option<string>, now: int, n: Fields.Draw)
    : (r: (Store, Reply<Tracking>))
    requires Wf(s) && Find(s, mid, nurse).None?
    ensures Wf(r.0)
    ensures r.1.Fail? ==> r.0 == s && r.1 == Fail(500, InternalError)
    ensures r.1.Ok? ==>
      && r.1 == Ok(200, r.1.value)
      && r.1.value.(notes := notes) == TrackingModel.Tracking(s.nextId, mid, nurse, status, notes, now)
      && r.0 == AddTracking(s, r.1.value)
      && Find(r.0, mid, nurse) == Some(s.nextId)
    ensures r.1.Ok? ==>
      && r.0.trackings.Keys == s.trackings.Keys + {s.nextId} && r.0 == s.(trackings := r.0.trackings, nextId := r.0.nextId)
      && (forall x :: x in s.trackings ==> r.0.trackings[x] == s.trackings[x])
      && r.0.trackings[s.nextId].status == status && r.0.trackings[s.nextId].trackedAt == now
  {
    var t := TrackingModel.Tracking(s.nextId, mid, nurse, status, notes, now);
    match TrackingModel.BeforeCreate(k, t, n)
    case Failure(_) => (s, Fail(500, InternalError))
    case Success(sealed) =>
      FindAfterAdd(s, sealed, mid, nurse);
      (AddTracking(s, sealed), Ok(200, sealed))
  }

  /**
   * The found branch: the row is decrypted by the find and gets the new status and time.
   * `update` drops an undefined key, so absent notes (`None`) keep the decrypted ones;
   * present notes go through the update hook only when they differ from the decrypted ones.
   * An unchanged column is not written back, so the stored envelope stays.
   */
  function Overwrite(k: Fields.Keyring, s: Store, id: nat, mid: nat, nurse: nat, status: Status, notes: Option<string>,
                     now: int, n: Fields.Draw): (r: (Store, Reply<Tracking>))
    requires Wf(s) && Find(s, mid, nurse) == Some(id)
    ensures Wf(r.0)
    ensures r.1.Fail? ==> r.0 == s && r.1 == Fail(500, InternalError)
    ensures r.1.Ok? ==>
      && r.1.status == 200
      && id in r.0.trackings && r.0 == PutTracking(s, id, r.0.trackings[id])
      && r.0.trackings[id].(notes := s.trackings[id].notes) == s.trackings[id].(status := status, trackedAt := now)
      && Find(r.0, mid, nurse) == Some(id)
    ensures r.1.Ok? ==>
      && r.0.trackings.Keys == s.trackings.Keys && r.0 == s.(trackings := r.0.trackings)
      && (forall x :: x in s.trackings && x != id ==> r.0.trackings[x] == s.trackings[x])
      && r.0.trackings[id].status == status && r.0.trackings[id].trackedAt == now
    ensures r.1.Ok? && notes.None? ==>
      && r.0.trackings[id] == s.trackings[id].(status := status, trackedAt := now)
      && r.1.value == TrackingModel.RevealTracking(k, s.trackings[id]).(status := status, trackedAt := now)
    ensures r.1.Ok? && notes.Some? && Encryption.Lawful(k.c) && (notes.value == "" || !Fields.IsEncrypted(k, notes.value)) ==>
      TrackingModel.RevealTracking(k, r.0.trackings[id]).notes == notes
  {
    var shown := TrackingModel.RevealTracking(k, s.trackings[id]);
    var changed := notes.Some? && notes != shown.notes;
    var t := shown.(status := status, notes := if notes.Some? then notes else shown.notes, trackedAt := now);
    match TrackingModel.BeforeUpdate(k, t, changed, n)
    case Failure(_) => (s, Fail(500, InternalError))
    case Success(saved) =>
      var row := saved.(notes := if changed then saved.notes else s.trackings[id].notes);
      FindAfterPut(s, id, row, mid, nurse);
      if changed && (notes.value == "" || !Fields.IsEncrypted(k, notes.value)) then
        TrackingModel.UpdateThenFind(k, t, n);
        (PutTracking(s, id, row), Ok(200, saved))
      else (PutTracking(s, id, row), Ok(200, saved))
  }

  /**
   * The upsert of `trackMedication` for a permitted nurse: the nurse's row for the
   * medication is created or overwritten with the status, the notes and `now`; no other row
   * changes. The reply is the instance.
   */
  function Upsert(k: Fields.Keyring, s: Store, mid: nat, nurse: nat, status: Status, notes: Option<string>, now: int, n: Fields.Draw)
    : (r: (Store, Reply<Tracking>))
    requires Wf(s)
    ensures Wf(r.0)
    ensures r.1.Fail? ==> r.0 == s && r.1 == Fail(500, InternalError)
    ensures r.1.Ok? ==> r.1.status == 200 && Find(r.0, mid, nurse).Some?
    ensures r.1.Ok? ==> var t := r.0.trackings[Find(r.0, mid, nurse).value];
      t.status == status && t.trackedAt == now && KeyIs(t, mid, nurse)
    ensures r.1.Ok? ==> forall x :: x in s.trackings && !KeyIs(s.trackings[x], mid, nurse) ==>
      x in r.0.trackings && r.0.trackings[x] == s.trackings[x]
    ensures Find(s, mid, nurse).Some? && r.1.Ok? ==>
      r.0.trackings.Keys == s.trackings.Keys && r.0.nextId == s.nextId && Find(r.0, mid, nurse) == Find(s, mid, nurse)
    ensures Find(s, mid, nurse).None? && r.1.Ok? ==>
      r.0.trackings.Keys == s.trackings.Keys + {s.nextId} && Find(r.0, mid, nurse) == Some(s.nextId)
    ensures r.1.Ok? ==> r.0 == s.(trackings := r.0.trackings, nextId := r.0.nextId)
  {
    match Find(s, mid, nurse)
    case None => Fresh(k, s, mid, nurse, status, notes, now, n)
    case Some(id) => Overwrite(k, s, id, mid, nurse, status, notes, now, n)
  }

  /**
   * `trackMedication`: only a nurse (403), for an existing medication (404) whose patient
   * exists (404) and is assigned to the nurse (403); then the upsert.
   */
  function Track(k: Fields.Keyring, s: Store, caller: Caller, medicationId: int, status: Status, notes: Option<string>,
                 now: int, n: Fields.Draw): (r: (Store, Reply<Tracking>))
    requires Wf(s)
    ensures Wf(r.0)
    ensures r.1.Fail? ==> r.0 == s
    ensures !UserController.IsRole(caller, Nurse) ==> r.1 == Fail(403, "Forbidden: Only nurses can track medications")
    ensures UserController.IsRole(caller, Nurse) && !MedicationAt(s, Some(medicationId)) ==> r.1 == Fail(404, "Medication not found")
    ensures !MayTrack(s, caller, medicationId) ==> r.1.Fail?
    ensures MayTrack(s, caller, medicationId) ==>
      r == Upsert(k, s, medicationId as nat, caller.value.id, status, notes, now, n)
  {
    if !UserController.IsRole(caller, Nurse) then (s, Fail(403, "Forbidden: Only nurses can track medications"))
    else if !MedicationAt(s, Some(medicationId)) then (s, Fail(404, "Medication not found"))
    else
      var m := s.medications[medicationId as nat];
      if m.patientId !in s.patients then (s, Fail(404, "Patient not found"))
      else if s.patients[m.patientId].assignedNurseId != Some(caller.value.id) then
        (s, Fail(403, "Forbidden: You can only track medications for your assigned patients"))
      else Upsert(k, s, medicationId as nat, caller.value.id, status, notes, now, n)
  }

  /** Tracking keeps at most one row per nurse and medication. */
  lemma TrackKeepsOnePerNurse(k: Fields.Keyring, s: Store, caller: Caller, medicationId: int, status: Status,
                              notes: Option<string>, now: int, n: Fields.Draw)
    requires Wf(s) && OnePerNurse(s)
    ensures OnePerNurse(Track(k, s, caller, medicationId, status, notes, now, n).0)
  {
    var r := Track(k, s, caller, medicationId, status, notes, now, n);
    if r.1.Ok? {
      var mid, nurse := medicationId as nat, caller.value.id;
      UpsertKeepsOnePerNurse(k, s, mid, nurse, status, notes, now, n);
    }
  }

  lemma UpsertKeepsOnePerNurse(k: Fields.Keyring, s: Store, mid: nat, nurse: nat, status: Status, notes: Option<string>,
                               now: int, n: Fields.Draw)
    requires Wf(s) && OnePerNurse(s)
    ensures OnePerNurse(Upsert(k, s, mid, nurse, status, notes, now, n).0)
  {
    var r := Upsert(k, s, mid, nurse, status, notes, now, n);
    if r.1.Ok? {
      var f := Find(r.0, mid, nurse).value;
      forall a, b | a in r.0.trackings && b in r.0.trackings
        && r.0.trackings[a].medicationId == r.0.trackings[b].medicationId
        && r.0.trackings[a].trackedBy == r.0.trackings[b].trackedBy
        ensures a == b
      {
        SameKeyIsFound(s, r.0, mid, nurse, f, a);
        SameKeyIsFound(s, r.0, mid, nurse, f, b);
      }
    }
  }

  /** In the store after an upsert, a row either keeps its old key, different from the upserted one, or is the upserted row. */
  lemma SameKeyIsFound(s: Store, r: Store, mid: nat, nurse: nat, f: nat, a: nat)
    requires Wf(s) && OnePerNurse(s)
    requires f in r.trackings && r.trackings[f].medicationId == mid && r.trackings[f].trackedBy == nurse
    requires a in r.trackings
    requires forall x :: x in s.trackings && !(s.trackings[x].medicationId == mid && s.trackings[x].trackedBy == nurse) ==>
      x in r.trackings && r.trackings[x] == s.trackings[x]
    requires Find(s, mid, nurse).Some? ==> r.trackings.Keys == s.trackings.Keys && f == Find(s, mid, nurse).value
    requires Find(s, mid, nurse).None? ==> r.trackings.Keys == s.trackings.Keys + {s.nextId} && f == s.nextId
    ensures a == f || !(r.trackings[a].medicationId == mid && r.trackings[a].trackedBy == nurse)
    ensures a != f ==> a in s.trackings && r.trackings[a] == s.trackings[a]
  {
    if a != f {
      assert a in s.trackings;
    }
  }

  /** Tracking the same medication again changes the existing row and adds none. */
  lemma RetrackAddsNoRow(k: Fields.Keyring, s: Store, caller: Caller, medicationId: int, st1: Status, st2: Status,
                         notes1: Option<string>, notes2: Option<string>, t1: int, t2: int, n1: Fields.Draw, n2: Fields.Draw)
    requires Wf(s)
    requires Track(k, s, caller, medicationId, st1, notes1, t1, n1).1.Ok?
    requires var s1 := Track(k, s, caller, medicationId, st1, notes1, t1, n1).0;
      Track(k, s1, caller, medicationId, st2, notes2, t2, n2).1.Ok?
    ensures var s1 := Track(k, s, caller, medicationId, st1, notes1, t1, n1).0;
      var s2 := Track(k, s1, caller, medicationId, st2, notes2, t2, n2).0;
      && s2.trackings.Keys == s1.trackings.Keys
      && s2.trackings[Find(s2, medicationId as nat, caller.value.id).value].status == st2
  {
    var s1 := Track(k, s, caller, medicationId, st1, notes1, t1, n1).0;
    assert MayTrack(s, caller, medicationId);
    assert Find(s1, medicationId as nat, caller.value.id).Some?;
    assert s1.medications == s.medications && s1.patients == s.patients;
    assert MayTrack(s1, caller, medicationId);
  }

  /**
   * Tracking again without notes keeps the notes the first call stored, and the reply shows
   * them decrypted; tracking again with plain notes stores notes that read back as given.
   */
  lemma RetrackKeepsOrSetsNotes(k: Fields.Keyring, s: Store, caller: Caller, medicationId: int, st1: Status, st2: Status,
                                notes1: Option<string>, notes2: Option<string>, t1: int, t2: int, n1: Fields.Draw, n2: Fields.Draw)
    requires Wf(s)
    requires Track(k, s, caller, medicationId, st1, notes1, t1, n1).1.Ok?
    requires var s1 := Track(k, s, caller, medicationId, st1, notes1, t1, n1).0;
      Track(k, s1, caller, medicationId, st2, notes2, t2, n2).1.Ok?
    ensures var s1 := Track(k, s, caller, medicationId, st1, notes1, t1, n1).0;
      var r2 := Track(k, s1, caller, medicationId, st2, notes2, t2, n2);
      var id := Find(s1, medicationId as nat, caller.value.id).value;
      && Find(r2.0, medicationId as nat, caller.value.id) == Some(id)
      && (notes2.None? ==>
            && r2.0.trackings[id].notes == s1.trackings[id].notes
            && r2.1.value.notes == TrackingModel.RevealTracking(k, s1.trackings[id]).notes)
      && (notes2.Some? && Encryption.Lawful(k.c) && (notes2.value == "" || !Fields.IsEncrypted(k, notes2.value)) ==>
            TrackingModel.RevealTracking(k, r2.0.trackings[id]).notes == notes2)
  {
  }


  /** Newest first: the rank `order: [['trackedAt', 'DESC']]` sorts by. */
  function TrackedRank(s: Store): nat -> int {
    (t: nat) => if t in s.trackings then s.trackings[t].trackedAt else 0
  }

  /** The ids of the tracking rows whose medication satisfies `p`, newest first. */
  function NewestWhere(s: Store, p: nat -> bool): (r: seq<nat>)
    requires Wf(s)
    ensures forall t :: t in r <==> t in s.trackings && p(s.trackings[t].medicationId)
    ensures Listing.SortedBy(r, TrackedRank(s), true)
  {
    var ids := Listing.KeysWhere(s.trackings, (t: Tracking) => p(t.medicationId), 0, s.nextId);
    Listing.SortByMembers(ids, TrackedRank(s), true);
    Listing.SortBy(ids, TrackedRank(s), true)
  }

  /** The medication exists and belongs to a patient assigned to the doctor. */
  predicate OfDoctorsPatient(s: Store, mid: nat, doctor: nat) {
    mid in s.medications && AssignedDoctor(s, s.medications[mid].patientId, doctor)
  }

  /**
   * `getAllTracking`: doctors only (403); the rows of medications of the doctor's assigned
   * patients, newest first, the empty list when there are none.
   */
  function ListAll(s: Store, caller: Caller): (r: Reply<seq<nat>>)
    requires Wf(s)
    ensures !UserController.IsRole(caller, Doctor) ==> r == Fail(403, "Forbidden: Only doctors can view tracking information")
    ensures UserController.IsRole(caller, Doctor) ==>
      && r.Ok?
      && (forall t :: t in r.value <==> t in s.trackings && OfDoctorsPatient(s, s.trackings[t].medicationId, caller.value.id))
      && Listing.SortedBy(r.value, TrackedRank(s), true)
  {
    if !UserController.IsRole(caller, Doctor) then Fail(403, "Forbidden: Only doctors can view tracking information")
    else
      var uid := caller.value.id;
      if PatientsOfDoctor(s, uid) == [] then
        assert forall m :: !OfDoctorsPatient(s, m, uid);
        Ok(200, [])
      else Ok(200, NewestWhere(s, (m: nat) => OfDoctorsPatient(s, m, uid)))
  }

  /** The medication exists and belongs to a patient assigned to the nurse. */
  predicate OfNursesPatient(s: Store, mid: nat, nurse: nat) {
    mid in s.medications && AssignedNurse(s, s.medications[mid].patientId, nurse)
  }

  /**
   * `getMyTracking`: nurses only (403); the rows of medications of the nurse's assigned
   * patients, newest first. An empty id list matches no row, so no early return is needed.
   */
  function ListMine(s: Store, caller: Caller): (r: Reply<seq<nat>>)
    requires Wf(s)
    ensures !UserController.IsRole(caller, Nurse) ==> r == Fail(403, "Forbidden: Only nurses can view their tracking")
    ensures UserController.IsRole(caller, Nurse) ==>
      && r.Ok?
      && (forall t :: t in r.value <==> t in s.trackings && OfNursesPatient(s, s.trackings[t].medicationId, caller.value.id))
      && Listing.SortedBy(r.value, TrackedRank(s), true)
  {
    if !UserController.IsRole(caller, Nurse) then Fail(403, "Forbidden: Only nurses can view their tracking")
    else
      var uid := caller.value.id;
      Ok(200, NewestWhere(s, (m: nat) => OfNursesPatient(s, m, uid)))
  }

  /**
   * `getMedicationTracking`: a doctor sees the rows of any medication id; a nurse those of
   * an existing medication (404) of a patient assigned to them (403); other roles 403. The
   * rows are found by `parseInt` of the id, whose NaN fails the query (500). The nurse's
   * medication is found by `findByPk` of the raw text, which fails unless the text is an
   * integer literal.
   */
  function ForMedication(s: Store, caller: Caller, medicationId: string): (r: Reply<seq<nat>>)
    requires Wf(s)
    ensures caller.None? ==> r == Fail(401, "Unauthorized")
    ensures UserController.IsRole(caller, Doctor) ==> (r.Ok? <==> Js.ParseInt(medicationId).Some?)
    ensures UserController.IsRole(caller, Doctor) && r.Fail? ==> r == Fail(500, InternalError)
    ensures UserController.IsRole(caller, Nurse) && Sql.IntInput(medicationId).None? ==> r == Fail(500, InternalError)
    ensures UserController.IsRole(caller, Nurse) && Sql.IntInput(medicationId).Some?
            && !MedicationAt(s, Sql.IntInput(medicationId)) ==>
      r == Fail(404, "Medication not found")
    ensures UserController.IsRole(caller, Nurse) && MedicationAt(s, Sql.IntInput(medicationId)) ==>
      (r.Ok? <==> AssignedNurse(s, s.medications[Sql.IntInput(medicationId).value as nat].patientId, caller.value.id))
    ensures (caller.Some? && !UserController.IsRole(caller, Doctor) && !UserController.IsRole(caller, Nurse)) ==> r == Fail(403, "Forbidden")
    ensures r.Ok? ==>
      && (forall t :: t in r.value <==> t in s.trackings && Some(s.trackings[t].medicationId as int) == Js.ParseInt(medicationId))
      && Listing.SortedBy(r.value, TrackedRank(s), true)
  {
    if caller.None? then Fail(401, "Unauthorized")
    else
      var mid := Js.ParseInt(medicationId);
      if UserController.IsRole(caller, Doctor) then
        if mid.None? then Fail(500, InternalError)
        else Ok(200, NewestWhere(s, (m: nat) => Some(m as int) == mid))
      else if UserController.IsRole(caller, Nurse) then
        var key := Sql.IntInput(medicationId);
        if key.None? then Fail(500, InternalError)
        else if !MedicationAt(s, key) then Fail(404, "Medication not found")
        else if !AssignedNurse(s, s.medications[key.value as nat].patientId, caller.value.id) then Fail(403, "Forbidden")
        else Ok(200, NewestWhere(s, (m: nat) => Some(m as int) == mid))
      else Fail(403, "Forbidden")
  }

  /**
   * A nurse never reads the tracking of a medication whose patient is not assigned to them:
   * the rows returned are those of the very medication the assignment was checked on.
   */
  lemma NurseReadsOnlyOwnPatients(s: Store, caller: Caller, medicationId: string)
    requires Wf(s) && UserController.IsRole(caller, Nurse)
    requires ForMedication(s, caller, medicationId).Ok?
    ensures MedicationAt(s, Sql.IntInput(medicationId))
    ensures AssignedNurse(s, s.medications[Sql.IntInput(medicationId).value as nat].patientId, caller.value.id)
    ensures forall t :: t in ForMedication(s, caller, medicationId).value ==>
      t in s.trackings && s.trackings[t].medicationId as int == Sql.IntInput(medicationId).value
  {
  }
}

=== FILE: tracking_model.dfy ===
/** The `MedicationTracking` entity: one nurse's record of one medication; only notes are encrypted. */
module TrackingModel {
  import opened Common
  import opened Fields
  import Encryption

  datatype Status = Given | Missed | Pending

  /** The enum column accepts exactly these three spellings. */
  function ParseStatus(s: string): (r: Option<Status>)
    ensures r.Some? <==> s in {"given", "missed", "pending"}
  {
    if s == "given" then Some(Given)
    else if s == "missed" then Some(Missed)
    else if s == "pending" then Some(Pending)
    else None
  }

  function StatusName(st: Status): (s: string)
    ensures ParseStatus(s) == Some(st)
  {
    match st
    case Given => "given"
    case Missed => "missed"
    case Pending => "pending"
  }

  const DefaultStatus := Pending

  datatype Tracking = Tracking(
    id: nat,
    medicationId: nat,
    trackedBy: nat,
    status: Status,
    notes: Option<string>,
    trackedAt: int)

  /** `beforeCreate` and, with `notesChanged`, `beforeUpdate`: notes are sealed when truthy and not yet an envelope. */
  function BeforeSave(k: Keyring, t: Tracking, notesChanged: bool, n: Draw): (r: Result<Tracking>)
    ensures r.Success? ==> r.value.(notes := t.notes) == t
    ensures r.Success? && !(notesChanged && t.notes.Some? && NeedsSealing(k, t.notes.value)) ==> r.value == t
    ensures r.Success? && notesChanged && t.notes.Some? && NeedsSealing(k, t.notes.value) ==>
      r.value.notes.Some? &&
      Encryption.Encrypt(k.env, k.c, t.notes, n.iv, n.salt) == Success(Some(r.value.notes.value))
  {
    if notesChanged && t.notes.Some? && NeedsSealing(k, t.notes.value) then
      match SealIf(k, true, t.notes.value, n)
      case Failure(e) => Failure(e)
      case Success(v) => Success(t.(notes := Some(v)))
    else Success(t)
  }

  /** `beforeCreate`: the notes count as new. */
  function BeforeCreate(k: Keyring, t: Tracking, n: Draw): (r: Result<Tracking>)
    ensures r.Success? ==> r.value.(notes := t.notes) == t
    ensures r.Success? && t.notes.Some? && NeedsSealing(k, t.notes.value) ==>
      r.value.notes.Some? && Encryption.Encrypt(k.env, k.c, t.notes, n.iv, n.salt) == Success(Some(r.value.notes.value))
    ensures r.Success? && !(t.notes.Some? && NeedsSealing(k, t.notes.value)) ==> r.value == t
  {
    BeforeSave(k, t, true, n)
  }

  /** `beforeUpdate`: unchanged notes are written as they are. */
  function BeforeUpdate(k: Keyring, t: Tracking, notesChanged: bool, n: Draw): (r: Result<Tracking>)
    ensures !notesChanged ==> r == Success(t)
    ensures r.Success? ==> r.value.(notes := t.notes) == t
  {
    BeforeSave(k, t, notesChanged, n)
  }

  /** One instance of `afterFind`. */
  function RevealTracking(k: Keyring, t: Tracking): (r: Tracking)
    ensures r.(notes := t.notes) == t
    ensures Truthy(t.notes) ==> r.notes == Some(Reveal(k, t.notes.value))
    ensures !Truthy(t.notes) ==> r.notes == t.notes
  {
    if Truthy(t.notes) then t.(notes := Some(Reveal(k, t.notes.value))) else t
  }

  /** `afterFind`: a no-op on nothing, applied to one instance or to each of an array. */
  function AfterFind(k: Keyring, found: Found<Tracking>): (r: Found<Tracking>)
    ensures found.Nothing? <==> r.Nothing?
    ensures found.Single? ==> r == Single(RevealTracking(k, found.row))
    ensures found.Rows? ==> r.Rows? && |r.rows| == |found.rows|
    ensures found.Rows? ==> forall i :: 0 <= i < |found.rows| ==> r.rows[i] == RevealTracking(k, found.rows[i])
  {
    EachFound((t: Tracking) => RevealTracking(k, t), found)
  }

  /** Notes the update hook writes as changed read back as written, unless they already looked sealed. */
  lemma UpdateThenFind(k: Keyring, t: Tracking, n: Draw)
    requires t.notes.Some? && (t.notes.value == "" || !IsEncrypted(k, t.notes.value))
    requires BeforeUpdate(k, t, true, n).Success?
    ensures Encryption.Lawful(k.c) ==> RevealTracking(k, BeforeUpdate(k, t, true, n).value).notes == t.notes
  {
    if t.notes.value != "" && Encryption.Lawful(k.c) {
      SealThenReveal(k, t.notes.value, n);
    }
  }

  /** Notes written through the create hook read back; a second create pass is a no-op. */
  lemma CreateThenFind(k: Keyring, t: Tracking, n: Draw, n2: Draw)
    requires Encryption.Lawful(k.c)
    requires Truthy(t.notes) ==> !IsEncrypted(k, t.notes.value)
    requires BeforeCreate(k, t, n).Success?
    ensures RevealTracking(k, BeforeCreate(k, t, n).value) == t
    ensures BeforeCreate(k, BeforeCreate(k, t, n).value, n2) == BeforeCreate(k, t, n)
  {
    if Truthy(t.notes) {
      SealThenReveal(k, t.notes.value, n);
    }
  }
}

=== FILE: two_factor.dfy ===
/**
 * Two-factor enrolment: a user draws a TOTP secret (enrolment off), confirms it with a
 * code (enrolment on), can switch it off again (secret dropped), and a login-time check
 * accepts a code for an enrolled address. The TOTP algorithm of RFC 6238 is an abstract
 * `Totp`; every check uses a tolerance of two time steps either side (section 5.2).
 */
module TwoFactor {
  import opened Common
  import opened Schema
  import Js

  const StepMs := 30000
  const Window := 2

  /** `totp({secret, time})` and `totp.verify({secret, token, window: 2})` at time `now` (ms). */
  datatype Totp = Totp(code: (string, int) -> string, verify: (string, string, int) -> bool)

  /** The RFC 6238 time step of a moment. */
  function Step(t: int): int {
    t / StepMs
  }

  /** A code made at one moment is accepted at any moment at most two steps away. */
  ghost predicate Lawful(totp: Totp) {
    forall secret, t, now :: -Window <= Step(now) - Step(t) <= Window ==> totp.verify(secret, totp.code(secret, t), now)
  }

  datatype Body = Enrolment(secret: string) | Status(message: string, enabled: bool)

  /** `req.user?.id` read through truthiness: no user, and the id 0, are both "no user". */
  predicate SignedIn(caller: Option<nat>) {
    caller.Some? && caller.value != 0
  }

  /** Writes the two 2FA columns of one user; nothing else changes. */
  function SetTwoFactor(s: Store, uid: nat, secret: Option<string>, enabled: bool): (r: Store)
    requires uid in s.users
    ensures Wf(s) ==> Wf(r)
    ensures r.users == s.users[uid := s.users[uid].(twoFactorSecret := secret, twoFactorEnabled := enabled)]
    ensures r == s.(users := r.users)
  {
    s.(users := s.users[uid := s.users[uid].(twoFactorSecret := secret, twoFactorEnabled := enabled)])
  }

  /** `generate2FA`: stores the drawn secret with enrolment off and returns it. */
  function Generate(s: Store, caller: Option<nat>, secret: string): (r: (Store, Reply<Body>))
    requires Wf(s)
    ensures Wf(r.0)
    ensures !SignedIn(caller) ==> r == (s, Fail(401, "Unauthorized"))
    ensures SignedIn(caller) && caller.value !in s.users ==> r == (s, Fail(404, "User not found"))
    ensures r.1.Ok? <==> SignedIn(caller) && caller.value in s.users
    ensures r.1.Ok? ==>
      && r.1.value == Enrolment(secret)
      && r.0 == SetTwoFactor(s, caller.value, Some(secret), false)
  {
    if !SignedIn(caller) then (s, Fail(401, "Unauthorized"))
    else if caller.value !in s.users then (s, Fail(404, "User not found"))
    else (SetTwoFactor(s, caller.value, Some(secret), false), Ok(200, Enrolment(secret)))
  }

  /** `verify2FA`: a code accepted under the stored secret turns enrolment on; any other outcome changes nothing. */
  function Confirm(totp: Totp, s: Store, caller: Option<nat>, token: Option<string>, now: int): (r: (Store, Reply<Body>))
    requires Wf(s)
    ensures Wf(r.0)
    ensures r.1.Fail? ==> r.0 == s
    ensures !SignedIn(caller) ==> r.1 == Fail(401, "Unauthorized")
    ensures SignedIn(caller) && !Truthy(token) ==> r.1 == Fail(400, "Token is required")
    ensures SignedIn(caller) && Truthy(token) && (caller.value !in s.users || !Truthy(s.users[caller.value].twoFactorSecret)) ==>
      r.1 == Fail(400, "2FA not set up for this user")
    ensures r.1.Ok? <==>
      && SignedIn(caller) && Truthy(token) && caller.value in s.users && Truthy(s.users[caller.value].twoFactorSecret)
      && totp.verify(s.users[caller.value].twoFactorSecret.value, token.value, now)
    ensures r.1.Ok? ==>
      r.0 == SetTwoFactor(s, caller.value, s.users[caller.value].twoFactorSecret, true)
      && r.1.value == Status("2FA enabled successfully", true)
  {
    if !SignedIn(caller) then (s, Fail(401, "Unauthorized"))
    else if !Truthy(token) then (s, Fail(400, "Token is required"))
    else if caller.value !in s.users || !Truthy(s.users[caller.value].twoFactorSecret) then
      (s, Fail(400, "2FA not set up for this user"))
    else if !totp.verify(s.users[caller.value].twoFactorSecret.value, token.value, now) then
      (s, Fail(400, "Invalid token"))
    else
      (SetTwoFactor(s, caller.value, s.users[caller.value].twoFactorSecret, true), Ok(200, Status("2FA enabled successfully", true)))
  }

  /** `disable2FA`: enrolment off and the secret dropped. */
  function Disable(s: Store, caller: Option<nat>): (r: (Store, Reply<Body>))
    requires Wf(s)
    ensures Wf(r.0)
    ensures r.1.Fail? ==> r.0 == s
    ensures r.1.Ok? <==> SignedIn(caller) && caller.value in s.users
    ensures r.1.Ok? ==>
      r.0 == SetTwoFactor(s, caller.value, None, false) && r.1.value == Status("2FA disabled successfully", false)
  {
    if !SignedIn(caller) then (s, Fail(401, "Unauthorized"))
    else if caller.value !in s.users then (s, Fail(404, "User not found"))
    else (SetTwoFactor(s, caller.value, None, false), Ok(200, Status("2FA disabled successfully", false)))
  }

  /** `verify2FALogin`, on `email.toLowerCase().trim()`: it reads the store and never changes it. */
  function LoginCheck(totp: Totp, s: Store, email: Option<string>, token: Option<string>, now: int): (r: Reply<Body>)
    ensures !Truthy(email) || !Truthy(token) ==> r == Fail(400, "Email and token are required")
    ensures r.Ok? <==>
      && Truthy(email) && Truthy(token)
      && Enrolled(s, UserByEmail(s, Js.Trim(Js.ToLower(email.value))))
      && totp.verify(s.users[UserByEmail(s, Js.Trim(Js.ToLower(email.value))).value].twoFactorSecret.value, token.value, now)
    ensures r.Ok? ==> r.value == Status("2FA token verified", true)
  {
    if !Truthy(email) || !Truthy(token) then Fail(400, "Email and token are required")
    else
      var found := UserByEmail(s, Js.Trim(Js.ToLower(email.value)));
      if !Enrolled(s, found) then Fail(400, "2FA not enabled for this user")
      else if !totp.verify(s.users[found.value].twoFactorSecret.value, token.value, now) then Fail(400, "Invalid 2FA token")
      else Ok(200, Status("2FA token verified", true))
  }

  /** The user found has enrolment on and a secret. */
  predicate Enrolled(s: Store, found: Option<nat>) {
    found.Some? && found.value in s.users && s.users[found.value].twoFactorEnabled && Truthy(s.users[found.value].twoFactorSecret)
  }

  /** Drawing a new secret always leaves enrolment off, even for a user who had it on. */
  lemma GenerateResetsEnrolment(s: Store, uid: nat, secret: string)
    requires Wf(s) && uid != 0 && uid in s.users
    ensures var s2 := Generate(s, Some(uid), secret).0;
      s2.users[uid].twoFactorSecret == Some(secret) && !s2.users[uid].twoFactorEnabled
  {
  }

  /** After `disable2FA` the login-time check refuses every code for the user's address, however it is typed. */
  lemma DisabledRefusesLogin(totp: Totp, s: Store, uid: nat, typed: string, token: string, now: int)
    requires Wf(s) && uid != 0 && uid in s.users
    requires UserByEmail(s, Js.NormalizeEmail(typed)) == Some(uid)
    ensures var s2 := Disable(s, Some(uid)).0;
      LoginCheck(totp, s2, Some(typed), Some(token), now).Fail?
  {
    Js.NormalizeEmailIdempotent(typed);
    var s2 := SetTwoFactor(s, uid, None, false);
    UserByEmailKeepsEmails(s, s2, Js.NormalizeEmail(typed));
    assert !Enrolled(s2, Some(uid));
  }

  /** A code is accepted within two steps of the moment it was made. */
  lemma CodeAccepted(totp: Totp, secret: string, t: int, now: int)
    requires Lawful(totp)
    requires -Window <= Step(now) - Step(t) <= Window
    ensures totp.verify(secret, totp.code(secret, t), now)
  {
  }

  /** Drawing a secret and confirming it with the code of the moment turns enrolment on with that secret. */
  lemma EnrolmentTurnsOn(totp: Totp, s: Store, uid: nat, secret: string, t: int)
    requires Wf(s) && Lawful(totp)
    requires uid != 0 && uid in s.users && secret != "" && totp.code(secret, t) != ""
    ensures Generate(s, Some(uid), secret).1.Ok?
    ensures Confirm(totp, Generate(s, Some(uid), secret).0, Some(uid), Some(totp.code(secret, t)), t).1.Ok?
    ensures Confirm(totp, Generate(s, Some(uid), secret).0, Some(uid), Some(totp.code(secret, t)), t).0
            == SetTwoFactor(s, uid, Some(secret), true)
  {
    var s1 := SetTwoFactor(s, uid, Some(secret), false);
    assert Generate(s, Some(uid), secret).0 == s1;
    assert s1.users[uid].twoFactorSecret == Some(secret);
    CodeAccepted(totp, secret, t, t);
    var r := Confirm(totp, s1, Some(uid), Some(totp.code(secret, t)), t);
    assert r.1.Ok?;
    assert r.0 == SetTwoFactor(s1, uid, Some(secret), true);
    RewriteTwice(s, uid, Some(secret), false, Some(secret), true);
  }

  /** A second write of the 2FA columns overrides the first. */
  lemma RewriteTwice(s: Store, uid: nat, a: Option<string>, x: bool, b: Option<string>, y: bool)
    requires uid in s.users
    ensures SetTwoFactor(SetTwoFactor(s, uid, a, x), uid, b, y) == SetTwoFactor(s, uid, b, y)
  {
  }

  /**
   * Once enrolment is on (the state `EnrolmentTurnsOn` reaches), the login-time check accepts
   * the code of any moment at most two steps away for the user's address, typed in any
   * case and with padding.
   */
  lemma EnrolledLoginAccepted(totp: Totp, s: Store, uid: nat, secret: string, typed: string, t: int, now: int)
    requires Wf(s) && Lawful(totp)
    requires uid in s.users && secret != "" && typed != ""
    requires UserByEmail(s, Js.NormalizeEmail(typed)) == Some(uid)
    requires totp.code(secret, t) != ""
    requires -Window <= Step(now) - Step(t) <= Window
    ensures LoginCheck(totp, SetTwoFactor(s, uid, Some(secret), true), Some(typed), Some(totp.code(secret, t)), now).Ok?
  {
    var s2 := SetTwoFactor(s, uid, Some(secret), true);
    var e := Js.Trim(Js.ToLower(typed));
    Js.NormalizeEmailIdempotent(typed);
    UserByEmailKeepsEmails(s, s2, e);
    assert Enrolled(s2, Some(uid)) && s2.users[uid].twoFactorSecret.value == secret;
    CodeAccepted(totp, secret, t, now);
  }
}

=== FILE: user_controller.dfy ===
/**
 * The user controller: a doctor assigns (or clears) the nurse of one of their patients,
 * takes a nurse for themselves, and any signed-in user changes their own password.
 */
module UserController {
  import opened Common
  import opened Schema
  import Js
  import Passwords
  import PatientModel
  import Fields
  import AuthMiddleware

  type Caller = Option<AuthMiddleware.Principal>

  predicate IsRole(caller: Caller, role: string) {
    caller.Some? && caller.value.role == Some(role)
  }

  /** The `nurseId` of the request body: absent, JSON null, a string or a number. */
  datatype NurseRef = Absent | Null | Text(s: string) | Number(n: int)

  /**
   * `null`, `undefined`, `''` and `'null'` all mean "no nurse" to the handler. The route's
   * validator refuses the string `'null'` (its `parseInt` is NaN) with 400 before the handler
   * runs, so through the route only the first three clear the nurse.
   */
  predicate ClearsNurse(r: NurseRef) {
    r.Absent? || r.Null? || r == Text("") || r == Text("null")
  }

  /** The number a nurse reference denotes, with `parseInt` for strings; `None` is `NaN`. */
  function NurseNumber(r: NurseRef): (n: Option<int>)
    ensures r.Number? ==> n == Some(r.n)
    ensures r.Text? ==> n == Js.ParseInt(r.s)
  {
    match r
    case Text(s) => Js.ParseInt(s)
    case Number(n) => Some(n)
    case _ => None
  }

  /** `findByPk` on a parsed path or body number: negative numbers find nothing, and so does NaN where a validator keeps it out. */
  predicate PatientAt(s: Store, id: Option<int>) {
    id.Some? && id.value >= 0 && id.value as nat in s.patients
  }

  predicate NurseAt(s: Store, id: Option<int>) {
    id.Some? && id.value >= 0 && HasRole(s, id.value as nat, Nurse)
  }

  /** Writes one patient's assigned nurse; nothing else changes. */
  function SetPatientNurse(s: Store, pid: nat, nurse: Option<nat>): (r: Store)
    requires pid in s.patients
    ensures Wf(s) ==> Wf(r)
    ensures r.patients == s.patients[pid := s.patients[pid].(assignedNurseId := nurse)]
    ensures r == s.(patients := r.patients)
  {
    s.(patients := s.patients[pid := s.patients[pid].(assignedNurseId := nurse)])
  }

  /**
   * `assignNurse`: only a doctor, only on a patient assigned to them. A clearing value
   * removes the nurse; otherwise the value must denote an existing nurse. The update
   * reports only the nurse column as changed, so the hook leaves name and condition as
   * stored, and the reply is the found instance, decrypted by the find hook, with the new
   * nurse.
   */
  function AssignNurse(k: Fields.Keyring, s: Store, caller: Caller, patientId: string, nurse: NurseRef): (r: (Store, Reply<PatientModel.Patient>))
    ensures r.1.Fail? ==> r.0 == s
    ensures !IsRole(caller, Doctor) ==> r.1 == Fail(403, "Forbidden: Only doctors can assign nurses to patients")
    ensures IsRole(caller, Doctor) && !PatientAt(s, Js.ParseInt(patientId)) ==> r.1 == Fail(404, "Patient not found")
    ensures r.1.Ok? ==>
      var pid := Js.ParseInt(patientId).value as nat;
      && IsRole(caller, Doctor) && AssignedDoctor(s, pid, caller.value.id)
      && (ClearsNurse(nurse) ==> r.0 == SetPatientNurse(s, pid, None))
      && (!ClearsNurse(nurse) ==>
            NurseAt(s, NurseNumber(nurse)) && r.0 == SetPatientNurse(s, pid, Some(NurseNumber(nurse).value as nat)))
      && r.1.value == PatientModel.RevealPatient(k, r.0.patients[pid])
      && r.1.value.name == Fields.Reveal(k, s.patients[pid].name)
    ensures IsRole(caller, Doctor) && PatientAt(s, Js.ParseInt(patientId))
            && AssignedDoctor(s, Js.ParseInt(patientId).value as nat, caller.value.id) ==>
      (r.1.Ok? <==> ClearsNurse(nurse) || NurseAt(s, NurseNumber(nurse)))
  {
    if !IsRole(caller, Doctor) then (s, Fail(403, "Forbidden: Only doctors can assign nurses to patients"))
    else
      var pidNum := Js.ParseInt(patientId);
      if !PatientAt(s, pidNum) then (s, Fail(404, "Patient not found"))
      else
        var pid := pidNum.value as nat;
        if s.patients[pid].assignedDoctorId != Some(caller.value.id) then
          (s, Fail(403, "Forbidden: You can only assign nurses to your assigned patients"))
        else if ClearsNurse(nurse) then
          var s2 := SetPatientNurse(s, pid, None);
          (s2, Ok(200, PatientModel.RevealPatient(k, s2.patients[pid])))
        else
          var n := NurseNumber(nurse);
          if n.None? then (s, Fail(400, "Invalid nurseId"))
          else if !NurseAt(s, n) then (s, Fail(400, "Invalid nurseId"))
          else
            var s2 := SetPatientNurse(s, pid, Some(n.value as nat));
            (s2, Ok(200, PatientModel.RevealPatient(k, s2.patients[pid])))
  }

  /** Writes one user's assigned nurse; nothing else changes. */
  function SetUserNurse(s: Store, uid: nat, nurse: nat): (r: Store)
    requires uid in s.users
    ensures Wf(s) ==> Wf(r)
    ensures r.users == s.users[uid := s.users[uid].(assignedNurseId := Some(nurse))]
    ensures r == s.(users := r.users)
  {
    s.(users := s.users[uid := s.users[uid].(assignedNurseId := Some(nurse))])
  }

  /** The reply of `assignNurseToDoctor`: a message and the updated doctor instance, every column included. */
  datatype DoctorAssigned = DoctorAssigned(message: string, doctor: User)

  /**
   * `assignNurseToDoctor`: a doctor takes an existing nurse; only the doctor's own row
   * changes, and the reply serialises that row as updated, password hash and 2FA secret too.
   */
  function AssignNurseToDoctor(s: Store, caller: Caller, nurseId: int): (r: (Store, Reply<DoctorAssigned>))
    ensures r.1.Fail? ==> r.0 == s
    ensures caller.None? ==> r.1 == Fail(401, "Unauthorized")
    ensures caller.Some? && !IsRole(caller, Doctor) ==> r.1 == Fail(403, "Only doctors can assign nurses to themselves")
    ensures IsRole(caller, Doctor) && !NurseAt(s, Some(nurseId)) ==> r.1 == Fail(400, "Invalid nurse ID")
    ensures IsRole(caller, Doctor) && NurseAt(s, Some(nurseId)) && caller.value.id !in s.users ==>
      r.1 == Fail(404, "Doctor not found")
    ensures r.1.Ok? <==> IsRole(caller, Doctor) && NurseAt(s, Some(nurseId)) && caller.value.id in s.users
    ensures r.1.Ok? ==> r.0 == SetUserNurse(s, caller.value.id, nurseId as nat)
    ensures r.1.Ok? ==>
      && r.1.status == 200 && r.1.value.message == "Nurse assigned successfully"
      && r.1.value.doctor == r.0.users[caller.value.id]
      && r.1.value.doctor.assignedNurseId == Some(nurseId as nat)
      && r.1.value.doctor.password == s.users[caller.value.id].password
      && r.1.value.doctor.twoFactorSecret == s.users[caller.value.id].twoFactorSecret
  {
    if caller.None? then (s, Fail(401, "Unauthorized"))
    else if !IsRole(caller, Doctor) then (s, Fail(403, "Only doctors can assign nurses to themselves"))
    else if !NurseAt(s, Some(nurseId)) then (s, Fail(400, "Invalid nurse ID"))
    else if caller.value.id !in s.users then (s, Fail(404, "Doctor not found"))
    else
      var s2 := SetUserNurse(s, caller.value.id, nurseId as nat);
      (s2, Ok(200, DoctorAssigned("Nurse assigned successfully", s2.users[caller.value.id])))
  }

  /** Writes one user's password column; nothing else changes. */
  function SetPassword(s: Store, uid: nat, hash: string): (r: Store)
    requires uid in s.users
    ensures Wf(s) ==> Wf(r)
    ensures r.users == s.users[uid := s.users[uid].(password := hash)]
    ensures r == s.(users := r.users)
  {
    s.(users := s.users[uid := s.users[uid].(password := hash)])
  }

  /**
   * `changePassword`: the current password is checked by the same rule as login; a wrong one
   * is 401 and changes nothing, a right one stores the bcrypt hash (cost 12) of the new one.
   */
  function ChangePassword(h: Passwords.Hasher, s: Store, caller: Caller, current: string, next: string, salt: string)
    : (r: (Store, Reply<string>))
    ensures r.1.Fail? ==> r.0 == s
    ensures caller.None? ==> r.1 == Fail(401, "Unauthorized")
    ensures caller.Some? && caller.value.id !in s.users ==> r.1 == Fail(404, "User not found")
    ensures caller.Some? && caller.value.id in s.users && !Passwords.Matches(h, current, s.users[caller.value.id].password) ==>
      r.1 == Fail(401, "Current password is incorrect")
    ensures r.1.Ok? <==>
      caller.Some? && caller.value.id in s.users && Passwords.Matches(h, current, s.users[caller.value.id].password)
    ensures r.1.Ok? ==> r.0 == SetPassword(s, caller.value.id, h.hash(next, Passwords.SaltRounds, salt))
  {
    if caller.None? then (s, Fail(401, "Unauthorized"))
    else if caller.value.id !in s.users then (s, Fail(404, "User not found"))
    else if !Passwords.Matches(h, current, s.users[caller.value.id].password) then (s, Fail(401, "Current password is incorrect"))
    else (SetPassword(s, caller.value.id, h.hash(next, Passwords.SaltRounds, salt)), Ok(200, "Password changed successfully"))
  }

  /** After a password change the stored value is a bcrypt hash, never the plaintext, and the new password is accepted. */
  lemma ChangedPasswordIsHashed(h: Passwords.Hasher, s: Store, caller: Caller, current: string, next: string, salt: string)
    requires Passwords.Lawful(h)
    requires ChangePassword(h, s, caller, current, next, salt).1.Ok?
    ensures var stored := ChangePassword(h, s, caller, current, next, salt).0.users[caller.value.id].password;
      Js.StartsWith(stored, "$2") && Passwords.Matches(h, next, stored)
  {
    Passwords.HashedMatches(h, next, salt);
  }

  // ---------------------------------------------------------------- listDoctors / listNurses

  /** What the staff lists show of a user: id, username and email, never the password. */
  datatype Contact = Contact(id: nat, username: string, email: string)

  /** Every user of one role, keyed by id. */
  function StaffOfRole(s: Store, role: string): (r: map<nat, Contact>)
    ensures forall k :: k in r <==> HasRole(s, k, role)
    ensures forall k :: k in r ==> k in s.users && r[k].username == s.users[k].username && r[k].email == s.users[k].email
  {
    map k | k in s.users && s.users[k].role == role :: Contact(s.users[k].id, s.users[k].username, s.users[k].email)
  }

  /** `listDoctors`: every doctor, whoever asks (the route decides who may). */
  function ListDoctors(s: Store): (r: Reply<map<nat, Contact>>)
    ensures r.Ok? && r.status == 200
    ensures forall k :: k in r.value <==> HasRole(s, k, Doctor)
  {
    Ok(200, StaffOfRole(s, Doctor))
  }

  /** `listNurses`: every nurse, for any signed-in caller. */
  function ListNurses(s: Store, caller: Caller): (r: Reply<map<nat, Contact>>)
    ensures caller.None? <==> r == Fail(401, "Unauthorized")
    ensures r.Ok? ==> forall k :: k in r.value <==> HasRole(s, k, Nurse)
  {
    if caller.None? then Fail(401, "Unauthorized") else Ok(200, StaffOfRole(s, Nurse))
  }

  /**
   * The nurse list offered to a doctor is exactly the set `assignNurse` accepts: an id is
   * listed if and only if it passes the nurse check.
   */
  lemma ListedNursesAreAssignable(s: Store, caller: Caller, id: nat)
    requires caller.Some?
    ensures id in ListNurses(s, caller).value <==> NurseAt(s, Some(id))
  {
  }

  /** No user is listed both as a doctor and as a nurse. */
  lemma StaffListsDisjoint(s: Store, caller: Caller, id: nat)
    requires caller.Some?
    ensures !(id in ListDoctors(s).value && id in ListNurses(s, caller).value)
  {
  }

  /** A doctor can never touch the nurse of a patient assigned to someone else. */
  lemma AssignNurseOnlyOwnPatients(k: Fields.Keyring, s: Store, caller: Caller, patientId: string, nurse: NurseRef)
    requires IsRole(caller, Doctor) && PatientAt(s, Js.ParseInt(patientId))
    requires !AssignedDoctor(s, Js.ParseInt(patientId).value as nat, caller.value.id)
    ensures AssignNurse(k, s, caller, patientId, nurse) == (s, Fail(403, "Forbidden: You can only assign nurses to your assigned patients"))
  {
  }
}
